=== FILE: README.md ===
# A Dafny model of the Vardar-OS kernel core

This project models the core of a small x86-64 hobby kernel and proves properties of the model. The core has three parts.

- **Memory management:**
  - the physical frame bitmap allocator;
  - the four-level page-table mapper and its table helpers;
  - the boundary-tag kernel heap (`kalloc`, `kfree`, `krealloc` and the split and merge steps under them).
- **The byte and number utilities the core relies on:** `memset`, `memmove`, the bit helpers, `Reverse`, `Itoa` and the radix conversion behind `PrintK`.
- **The firmware, archive and descriptor code around it:**
  - the ACPI RSDP/SDT checksums and root-table lookup (section 5.2 of the ACPI Specification);
  - the MADT record walk;
  - the ustar archive reader (the ustar Interchange Format of POSIX.1);
  - the I/O APIC redirection-table setters (section 3.2.4 of the Intel 82093AA datasheet);
  - the IDT gate encoder and the GDT/TSS set-up (sections 6.14.1 and 7.2.3 of the Intel 64 and IA-32 Architectures Software Developer's Manual, Volume 3A).

Each source file is one Dafny module:

| module | file | source |
|---|---|---|
| `Common`, `Fields` | common.dfy, fields.dfy | C integer conversions, little-endian fields, reading memory as a byte sequence |
| `StringOps` | string_ops.dfy | src/kernel/utils/string.c |
| `CString` | cstring.dfy | `strlen` and `strncmp` as ustar.c and acpi.c use them |
| `Bits`, `Misc` | misc.dfy | src/kernel/utils/misc.c |
| `Printf` | printf.dfy | `Convert` in src/kernel/utils/printf.c |
| `Pmm` | pmm.dfy | src/kernel/memory_management/physical_memory_manager.c |
| `Vmm` | vmm.dfy | virtual_memory_manager.c and the helpers in virtual_memory_manager.h |
| `Heap` | heap.dfy | the block layout and the split and merge steps of kheap.c |
| `KHeap` | kheap.dfy | `kalloc`, `kfree` and `krealloc` of kheap.c |
| `Acpi` | acpi.dfy | src/kernel/acpi/acpi.c |
| `Madt` | madt.dfy | src/kernel/acpi/madt.c |
| `Ustar` | ustar.dfy | src/kernel/vfs/ustar.c |
| `IoApic` | io_apic.dfy | src/kernel/hal/io_apic.c |
| `Idt` | idt.dfy | src/kernel/interrupts/idt.c, idt.h |
| `Gdt` | gdt.dfy | src/kernel/gdt/gdt.c, gdt.h |

How the model represents the system:

- **Memory** is a byte sequence. Reading past the supplied bytes gives 0.
- **The frame bitmap** is a `seq<bool>` with one flag per frame. A refinement lemma relates it to the byte-and-bit operations of the source.
- **A page table** is a tree of 512-entry nodes. Each entry is absent, a link to a lower table, or a leaf word.
- **The heap arena** is a sequence of blocks. Each block has a header tag, a body and a footer tag, and its offset is the sum of the footprints in front of it. Its well-formedness says three things:
  - the tags agree with each other and with the body's size;
  - the footprints tile the arena;
  - for the allocator lemmas, no two neighbouring blocks are both free.
- **I/O APIC registers** are a map from (base address, register) to a 32-bit word.
- **Machine integers:** where the source's integer width matters it is written out. Examples are the `int` wrap-around of `oct2bin` and of the ACPI entry count, the `uint32_t` bitmap size, the `uint8_t` register offsets, and the 64-bit rounding of `krealloc`.

Where the source code does something other than what its comments and surrounding design intend, the model does two things:

- it keeps a member that follows the code as written, with a lemma showing the input where the two differ;
- the rest of the model uses the corrected member, and the intended property is proved about it.

Those pairs are listed under "## Findings". All paths below are relative to the repository root.

## Model

Most operations are pure functions whose body is the code path itself. The table names the lemma or method that states what each one does:

- `KHeap.Alloc`: `KHeap.AllocSpec`, `KHeap.KAlloc`.
- `KHeap.Free`: `KHeap.FreeSpec`, `KHeap.FreeCoalesced`.
- `KHeap.Realloc`: `KHeap.ReallocSpec`, `KHeap.ReallocCoalesced`.
- `KHeap.ReallocMove`: `KHeap.ReallocMoveSpec`.
- `KHeap.MergeForward`, `KHeap.MergeBackward` and `KHeap.MergeThreeway`: the `…Spec` and `…Coalesced` lemma of the same name.
- `Heap.SplitBlock`: `Heap.SplitBlockSpec`.
- `Heap.MergeBlock`: `Heap.MergeBlockSpec`.
- `Vmm.UnmapPage`: `Vmm.UnmapPageSpec`.
- `Ustar.UstarRead`: `Ustar.ReadBuilt`.
- `Ustar.UstarReadAsWritten`: `Ustar.AsWrittenStopsInData`.
- `Ustar.UstarReadDir`: `Ustar.ReadDirBuilt`.
- `Ustar.UstarReadDirAsWritten`: `Ustar.AsWrittenDirStopsInData`.
- `Acpi.NumEntries`: `Acpi.NumEntriesValue`, `Acpi.EntriesInsideTable`.
- `Acpi.NumEntriesAsWritten`: `Acpi.AsWrittenScansPastTable`.
- `Acpi.EntryAddr` and `Acpi.FirstMatch`: `Acpi.FindTable`, `Acpi.FirstMatchFound`, `Acpi.FirstMatchNone`.
- `Madt.Walk`: `Madt.WalkIsInterpret`.
- `IoApic.ReadEntry`: `IoApic.WriteEntrySpec`, `IoApic.WriteBackRead`.
- `IoApic.DecodePolarity`: `IoApic.PolarityAgainstMadt`.
- `IoApic.DecodeTrigger`: `IoApic.TriggerAgainstMadt`.

| member | source | states |
|---|---|---|
| StringOps.Fill | src/kernel/utils/string.c:4-10 | reference meaning of `memset`: the `len` bytes from `dest` hold the value, every other byte is unchanged |
| StringOps.MemSet | src/kernel/utils/string.c:4-10 | the store loop writes `(uint8_t) val` into exactly `[dest, dest + len)`, leaves every other byte alone, returns `dest`, and agrees with `Fill` |
| StringOps.Move | src/kernel/utils/string.c:12-24 | reference meaning of `memmove`: the destination holds the original source bytes and nothing else changes |
| StringOps.MemMove | src/kernel/utils/string.c:12-24 | copying ascending when `dst < src` and descending otherwise leaves the destination equal to the original source bytes even when the ranges overlap; returns `dst`; writes nothing else |
| CString.StrLen | src/kernel/vfs/ustar.c:25 | `strlen`: the byte at the returned length is NUL and no earlier byte is |
| CString.CStr | src/kernel/vfs/ustar.c:25 | the string at an address has no NUL, is followed by one, and is the bytes at that address |
| CString.StrNEqNoNul | src/kernel/acpi/acpi.c:31 | `strncmp(a, b, n) == 0` is byte equality of the first `n` bytes when either side has no NUL among them (the four-byte signature test) |
| CString.StrNEqWholeString | src/kernel/vfs/ustar.c:25 | comparing `strlen(a) + 1` bytes, terminator included, holds exactly when the two strings are equal |
| CString.StrLenExact | src/kernel/vfs/ustar.c:25 | `strlen` is `n` exactly when `n` non-NUL bytes are followed by NUL |
| CString.StrNEqSymmetric | src/kernel/vfs/ustar.c:25 | the comparison does not depend on the order of its operands |
| Bits.SetNthBit | src/kernel/utils/misc.c:5-8 | bit `n` is set afterwards and every other bit is unchanged (for `n < 31`, where the `int` mask is defined) |
| Bits.ClearNthBit | src/kernel/utils/misc.c:10-13 | bit `n` is clear afterwards |
| Bits.ClearNthBitKeepsOthers | src/kernel/utils/misc.c:10-13 | clearing bit `n` leaves every other bit unchanged |
| Bits.GetNthBit | src/kernel/utils/misc.c:15-18 | the result is non-zero exactly when bit `n` is set, and fits a non-negative `int` |
| Bits.SetThenClear | src/kernel/utils/misc.c:5-13 | clearing after setting the same bit gives the same word as clearing alone |
| Misc.Rev | src/kernel/utils/misc.c:43-55 | reference reversal: element `i` of the result is element `len - 1 - i` of the input |
| Misc.Reverse | src/kernel/utils/misc.c:43-55 | the swap loop leaves `str[0..length)` reversed and every later byte unchanged |
| Misc.Digits | src/kernel/utils/misc.c:79-84 | reference decimal digits: every character is a digit and a positive number has no leading zero |
| Misc.ParseDigits | src/kernel/utils/misc.c:79-84 | parsing the decimal digits of `m` gives back `m` |
| Misc.DecimalTextRoundTrip | src/kernel/utils/misc.c:57-96 | parsing the decimal text of any `n` (sign, then digits) gives back `n` |
| Misc.DecimalTextSign | src/kernel/utils/misc.c:72-76 | the decimal text starts with '-' exactly when `n < 0` |
| Misc.CollectDigits | src/kernel/utils/misc.c:79-84 | the remainder loop produces the decimal digits of `m`, least significant first |
| Misc.SignedReversal | src/kernel/utils/misc.c:87-93 | the collected digits, with '-' appended for negative input, reverse to the decimal text of `n` |
| Misc.Itoa | src/kernel/utils/misc.c:57-96 | the buffer holds the decimal text of `n` and then NUL ("0" for zero); it starts with '-' exactly when `n < 0`; parsing the text gives back `n` |
| Printf.Numeral | src/kernel/utils/printf.c:63-66 | reference numeral of `num` in `base`: never empty, so zero is "0" |
| Printf.DigitValueOfDigit | src/kernel/utils/printf.c:58 | the table character written for digit `d` reads back as `d` |
| Printf.NumeralRoundTrip | src/kernel/utils/printf.c:56-69 | reading the numeral in `base` gives back `num` |
| Printf.NumeralDigits | src/kernel/utils/printf.c:58-66 | every character of the numeral is a table digit below the base |
| Printf.NumeralNoLeadingZero | src/kernel/utils/printf.c:63-66 | the numeral starts with '0' exactly when `num` is 0 |
| Printf.NumeralLength | src/kernel/utils/printf.c:59-66 | a value below `base ^ k` needs at most `k` digits |
| Printf.PrintKBasesFit | src/kernel/utils/printf.c:30-45 | for the bases `PrintK` passes (8, 10, 16) any 64-bit value fits the 31 places in front of the terminator |
| Printf.WriteDigits | src/kernel/utils/printf.c:59-66 | the do-while loop places the numeral of `num` right before the terminator and keeps the bytes in front |
| Printf.Convert | src/kernel/utils/printf.c:56-69 | the terminator is at index 31, the returned index starts the numeral of `num`, which reads back as `num`, is "0" exactly for zero, and the bytes in front are untouched |
| Pmm.Uppermost | src/kernel/memory_management/physical_memory_manager.c:96-109 | the highest usable address fits 64 bits (`Pmm.UppermostUsableAddr` states which address it is) |
| Pmm.LastUsable | src/kernel/memory_management/physical_memory_manager.c:96-109 | the usable entry met first when scanning from the end, or none when no entry is usable |
| Pmm.UppermostUsableAddr | src/kernel/memory_management/physical_memory_manager.c:96-109 | the backward scan returns `base + length - 1` of the last usable entry, and 0 when no entry is usable |
| Pmm.FirstLargeEnough | src/kernel/memory_management/physical_memory_manager.c:120-131 | the lowest usable entry of at least the requested size, and no earlier entry qualifies |
| Pmm.FindMemEntryBySize | src/kernel/memory_management/physical_memory_manager.c:120-131 | returns -1 exactly when no usable entry is large enough, else the lowest such index |
| Pmm.FirstLargeEnoughUnique | src/kernel/memory_management/physical_memory_manager.c:120-131 | an index with that characterisation is the search's result |
| Pmm.RoundUpToFrame | src/kernel/memory_management/physical_memory_manager.c:28-29 | the result is a multiple of 4096 and the least one not below the input |
| Pmm.BitmapBytes | src/kernel/memory_management/physical_memory_manager.c:27-31 | the corrected bitmap size is a frame multiple that fits `uint32_t` |
| Pmm.BitmapCoversFrames | src/kernel/memory_management/physical_memory_manager.c:27-31 | with the corrected size every frame `InitPmm` counts has a bit |
| Pmm.InitPmm | src/kernel/memory_management/physical_memory_manager.c:16-56 | fails exactly when no usable entry can hold the bitmap; otherwise it records `uppermost / 4096` frames and a clear bit exactly for frames of usable entries other than the bitmap's own entry, and the result is a valid allocator |
| Pmm.FreeEntry | src/kernel/memory_management/physical_memory_manager.c:43-53 | the inner loop frees exactly the frames of entry `i` on top of those freed before |
| Pmm.FrameBeyondBitmap | src/kernel/memory_management/physical_memory_manager.c:18-53 | a map listed out of address order sizes the bitmap from its last usable entry, which is not the highest, so a usable frame of an earlier entry lies past the bitmap |
| Pmm.FirstFree | src/kernel/memory_management/physical_memory_manager.c:60-63 | the lowest free frame below `n`, or none when every one is used |
| Pmm.AllocFirstFrame | src/kernel/memory_management/physical_memory_manager.c:58-74 | marks the lowest free frame used and returns its address; returns 0 and changes nothing when every frame is used |
| Pmm.FirstFreeUnique | src/kernel/memory_management/physical_memory_manager.c:60-63 | a free frame with every lower frame used is the first free frame |
| Pmm.FreeFrame | src/kernel/memory_management/physical_memory_manager.c:76-80 | clears exactly the frame's bit and keeps the allocator valid |
| Pmm.CountFree | src/kernel/memory_management/physical_memory_manager.c:82-89 | the number of free frames below `n` is at most `n` |
| Pmm.NumFreeFrames | src/kernel/memory_management/physical_memory_manager.c:82-89 | the loop counts the clear bits among the scanned frames; the count is 0 exactly when no frame is free |
| Pmm.CountFreeSet | src/kernel/memory_management/physical_memory_manager.c:82-89 | changing one flag moves the free count by one exactly when a scanned frame changes between free and used |
| Pmm.AllocLowersCount | src/kernel/memory_management/physical_memory_manager.c:58-89 | a successful allocation lowers the free count by exactly one |
| Pmm.FreeRaisesCount | src/kernel/memory_management/physical_memory_manager.c:76-89 | freeing a used, scanned frame raises the free count by exactly one |
| Pmm.SetPageUsed | src/kernel/memory_management/physical_memory_manager.c:137-141 | sets the frame's bit in byte `index / 8` and changes no other byte |
| Pmm.SetPageFree | src/kernel/memory_management/physical_memory_manager.c:147-151 | clears the frame's bit in byte `index / 8` and changes no other byte |
| Pmm.PageIsUsed | src/kernel/memory_management/physical_memory_manager.c:156-160 | reads the frame's bit |
| Pmm.BitmapRefinement | src/kernel/memory_management/physical_memory_manager.c:137-160 | the byte operations refine the per-frame flags: set and clear change exactly frame `index`'s flag, and the read returns it |
| Pmm.OtherFrameKept | src/kernel/memory_management/physical_memory_manager.c:137-151 | setting or clearing one frame's bit leaves every other frame's bit as it was |
| Vmm.VAddrIndex | src/kernel/memory_management/virtual_memory_manager.h:33-35 | the index at each level lies in 0-511 |
| Vmm.IndexIgnoresOffset | src/kernel/memory_management/virtual_memory_manager.h:33-35 | addresses that differ only in their low 12 bits select the same entry at every level |
| Vmm.PathIgnoresOffset | src/kernel/memory_management/virtual_memory_manager.h:33-35 | addresses in the same 4 KiB page follow the same walk |
| Vmm.PageBase | src/kernel/memory_management/virtual_memory_manager.c:81 | translation clears the low 9 bits and keeps every other bit of the entry |
| Vmm.PageFlagLaws | src/kernel/memory_management/virtual_memory_manager.c:89-92 | a flag or'ed into a word reads back set, and one masked out reads back clear |
| Vmm.FlagBits | src/kernel/memory_management/virtual_memory_manager.h:7-15 | PRESENT, READ_WRITABLE and USER_ACCESSIBLE lie in the stripped low bits; of GLOBAL (0xF00) bits 9-11 survive translation |
| Vmm.GetPageTable | src/kernel/memory_management/virtual_memory_manager.h:131-136 | corrected helper: a lower table exactly when the entry is a present link, and then that link's table |
| Vmm.GetOrCreateReuses | src/kernel/memory_management/virtual_memory_manager.h:116-128 | corrected helper: a present link is reused and nothing changes |
| Vmm.GetOrCreateFull | src/kernel/memory_management/virtual_memory_manager.h:119-121 | with no present link and no free frame the result is NULL and nothing changes |
| Vmm.GetOrCreateTakes | src/kernel/memory_management/virtual_memory_manager.h:119-124 | otherwise the lowest free frame is marked used, and frame 0 comes back as NULL |
| Vmm.GetOrCreateLinks | src/kernel/memory_management/virtual_memory_manager.h:119-124 | any other free frame becomes an empty table linked in the entry as `frame` or'ed with `flags` |
| Vmm.GetOrCreateKeepsOthers | src/kernel/memory_management/virtual_memory_manager.h:116-128 | only the addressed entry can change |
| Vmm.CreatedPresent | src/kernel/memory_management/virtual_memory_manager.h:116-136 | a table obtained with PRESENT among the flags is found again by `GetPageTable` |
| Vmm.GetOrCreate | src/kernel/memory_management/virtual_memory_manager.h:116-128 | the frame allocator stays valid and keeps its frame count (`Vmm.GetOrCreateReuses` and the rows after it state the table returned) |
| Vmm.MapAt | src/kernel/memory_management/virtual_memory_manager.c:12-27 | the frame allocator stays valid and keeps its frame count across the walk (`Vmm.MapLeafAt` states the tree) |
| Vmm.MapLeafAt | src/kernel/memory_management/virtual_memory_manager.c:12-27 | after a successful walk with PRESENT among the flags, the path reaches the stored leaf word |
| Vmm.MapOverPath | src/kernel/memory_management/virtual_memory_manager.c:12-27 | over a walk whose tables all exist, mapping allocates nothing, succeeds and stores the new word |
| Vmm.MapKeepsOthers | src/kernel/memory_management/virtual_memory_manager.c:12-27 | mapping changes no other path's leaf, whether or not it succeeds |
| Vmm.UnmapLeafAt | src/kernel/memory_management/virtual_memory_manager.c:34-48 | unmapping succeeds exactly when the walk reaches a leaf, which becomes 0; otherwise nothing changes |
| Vmm.UnmapKeepsOthers | src/kernel/memory_management/virtual_memory_manager.c:34-48 | unmapping changes no other path's leaf |
| Vmm.MapShaped | src/kernel/memory_management/virtual_memory_manager.c:12-27 | mapping keeps links above level 1 and leaf words at level 1 |
| Vmm.VAddrToPAddr | src/kernel/memory_management/virtual_memory_manager.c:72-82 | a translation exists exactly when the walk reaches a leaf, and it has its low 9 bits clear |
| Vmm.RemapPage | src/kernel/memory_management/virtual_memory_manager.c:55-62 | defined exactly when the former address translates |
| Vmm.StripFlags | src/kernel/memory_management/virtual_memory_manager.c:81 | clearing the low 9 bits of `paddr` or'ed with `flags` gives `paddr` back when it is 512-byte aligned and the flags lie below bit 9 |
| Vmm.MapThenTranslate | src/kernel/memory_management/virtual_memory_manager.c:12-82 | after a successful `MapPage` with PRESENT, the address translates to `paddr` or'ed with `flags` with the low 9 bits cleared |
| Vmm.MapThenTranslateAligned | src/kernel/memory_management/virtual_memory_manager.c:81 | for an aligned `paddr` and flags below 0x200 the address translates back to `paddr` |
| Vmm.MapPage | src/kernel/memory_management/virtual_memory_manager.c:12-27 | the frame allocator stays valid and keeps its frame count (`Vmm.MapPageLeaf` and `Vmm.MapThenTranslate` state the mapping) |
| Vmm.MapPageLeaf | src/kernel/memory_management/virtual_memory_manager.c:25-26 | a successful `MapPage` leaves `paddr` or'ed with `flags` at the end of the address's walk |
| Vmm.MapPageKeepsOthers | src/kernel/memory_management/virtual_memory_manager.c:12-27 | `MapPage` changes no other page's translation |
| Vmm.UnmapPageSpec | src/kernel/memory_management/virtual_memory_manager.c:34-82 | `UnmapPage` succeeds exactly when the address translates, then translates to 0; otherwise nothing changes; other pages keep their translation |
| Vmm.RemapSpec | src/kernel/memory_management/virtual_memory_manager.c:55-62 | remapping an address that translates succeeds, allocates nothing, and the address now translates to the old frame or'ed with the new flags, low bits cleared |
| Vmm.RemapKeepsFrame | src/kernel/memory_management/virtual_memory_manager.c:55-62 | with flags below 0x200 the remapped address keeps its translation |
| Vmm.FlagsDropped | src/kernel/memory_management/virtual_memory_manager.c:81 | a translation that yields a frame with flags below 0x200 or'ed in yields the frame itself |
| Vmm.MapPageOver | src/kernel/memory_management/virtual_memory_manager.c:16-26 | `MapPage` over an existing walk succeeds without taking a frame and stores `paddr` or'ed with `flags` |
| Vmm.PagesShaped | src/kernel/memory_management/virtual_memory_manager.c:12-48 | mapping and unmapping keep a well-shaped tree well shaped |
| Heap.Size | src/kernel/memory_management/kheap.h:4 | `tag & SIZE_MASK` is even and at most 0xFFFE, and is the tag itself for an even 16-bit tag |
| Heap.InitHeap | src/kernel/memory_management/kheap.c:52-63 | one block spanning the arena, with header and footer both `heap_size - 8` |
| Heap.InitHeapWellFormed | src/kernel/memory_management/kheap.c:52-63 | the initial arena is well-formed exactly when the heap size is even and at most `SIZE_MASK + 8`, and it is coalesced |
| Heap.MapHeapBytes | src/kernel/memory_management/kheap.c:65-75 | the mapped length is the least multiple of 4096 not below the heap size |
| Heap.NextHeader | src/kernel/memory_management/kheap.c:205-216 | none exactly for the last block, otherwise the offset of the following block |
| Heap.PrevFooter | src/kernel/memory_management/kheap.c:218-229 | none exactly for the first block, otherwise the footer right in front of the block's header |
| Heap.BlockAtOffset | src/kernel/memory_management/kheap.c:111 | a body pointer designates its own block |
| Heap.WholeBlock | src/kernel/memory_management/kheap.c:290-297 | corrected whole-block branch: an allocated block with agreeing tags of the same size that keeps the front of its body |
| Heap.HalvesSpec | src/kernel/memory_management/kheap.c:299-304 | the two halves of a split are well-formed, cover the original footprint, the front allocated and the remainder free |
| Heap.SplitBlockSpec | src/kernel/memory_management/kheap.c:265-304 | refuses exactly a block smaller than the request; otherwise the arena stays well-formed over the same span, blocks in front are untouched, and the block becomes allocated at its offset, re-tagged, taken whole or split into an exact front and a free remainder of `size - request - 8` |
| Heap.SplitKeeps | src/kernel/memory_management/kheap.c:265-304 | a large enough block is split successfully and stays allocated at its offset with the front of its body |
| Heap.SplitIndex | src/kernel/memory_management/kheap.c:265-304 | splitting moves no other block: each keeps its bytes and its offset |
| Heap.Merged | src/kernel/memory_management/kheap.c:231-242 | the merged body is both bodies plus the 8 bytes of the dropped tags, starting with the first body |
| Heap.MergedOk | src/kernel/memory_management/kheap.c:231-242 | merging two agreeing neighbours gives an agreeing block of size `s1 + s2 + 8` with the first block's allocated bit |
| Heap.MergeBlockSpec | src/kernel/memory_management/kheap.c:306-323 | refuses exactly non-adjacent blocks; otherwise one block fewer, same span, well-formed, every other block untouched at its offset |
| Heap.SplicePointer | src/kernel/memory_management/kheap.c:306-323 | after a merge or split, a pointer to a block outside the replaced run still designates that block |
| KHeap.RoundEven | src/kernel/memory_management/kheap.c:95 | the 64-bit even ceiling: even, at most one above the request, and 0 for the largest value |
| KHeap.FirstFitFrom | src/kernel/memory_management/kheap.c:85-90 | the first block from `k` on that is free and strictly larger than the request, and none before it is |
| KHeap.FirstFitIs | src/kernel/memory_management/kheap.c:85-90 | a fitting block with none fitting before it is the first fit |
| KHeap.FitsRounded | src/kernel/memory_management/kheap.c:85-95 | a fitting block is large enough for the rounded request |
| KHeap.ZeroBody | src/kernel/memory_management/kheap.c:97 | the first `n` body bytes are cleared and the rest of the block is unchanged |
| KHeap.AllocSpec | src/kernel/memory_management/kheap.c:78-103 | NULL exactly when no block fits, and then nothing changes; otherwise the pointer designates the first fit, now allocated, at least the rounded size long and zero over it, with the blocks in front untouched and the arena well-formed and coalesced |
| KHeap.AllocTail | src/kernel/memory_management/kheap.c:96 | behind the handed-out block: it was taken whole, or the remainder is a free block in front of the untouched rest |
| KHeap.KAlloc | src/kernel/memory_management/kheap.c:78-103 | the header walk computes the same arena and pointer as `AllocSpec` describes, and the pointer designates the first fit |
| KHeap.KAllocAt | src/kernel/memory_management/kheap.c:95-99 | split, clear and return `header + 4` for the block the walk stopped at |
| KHeap.KAllocMissed | src/kernel/memory_management/kheap.c:85-102 | a walk that reaches the arena end has found nothing, and the result is NULL with nothing changed |
| KHeap.KAllocFound | src/kernel/memory_management/kheap.c:85-96 | where the walk stops inside the arena it has found the first fit, which can be split for the rounded size |
| KHeap.AllocKeeps | src/kernel/memory_management/kheap.c:78-103 | `kalloc` moves no allocated block: each keeps its bytes and its pointer |
| KHeap.Cleared | src/kernel/memory_management/kheap.c:161-164 | header and footer lose the allocated bit and keep the size; the body is unchanged |
| KHeap.FreeSpec | src/kernel/memory_management/kheap.c:158-181 | the block and its free neighbours become one free block covering exactly their bytes; every other block is unchanged; the arena stays well-formed |
| KHeap.FreeCoalesced | src/kernel/memory_management/kheap.c:158-181 | `kfree` keeps an arena with no two neighbouring free blocks in that state |
| KHeap.FreeKeeps | src/kernel/memory_management/kheap.c:158-181 | `kfree` moves no other allocated block |
| KHeap.FreeRangeFree | src/kernel/memory_management/kheap.c:169-180 | the blocks `kfree` merges are the block itself and free blocks only |
| KHeap.AllocThenFree | src/kernel/memory_management/kheap.c:78-181 | in a coalesced arena, freeing what `kalloc` returned restores the layout of sizes and allocated bits |
| KHeap.FreeAfterAlloc | src/kernel/memory_management/kheap.c:78-181 | freeing the block `kalloc` took gives back one free block of the original size in its place |
| KHeap.MergeForwardSpec | src/kernel/memory_management/kheap.c:325-336 | growing into the free successor keeps the pointer and the data that fits, and gives an allocated block of at least the request |
| KHeap.MergeBackwardSpec | src/kernel/memory_management/kheap.c:338-349 | corrected backward merge: the predecessor's pointer designates an allocated block of at least the request that starts with the moved data |
| KHeap.MergeThreewaySpec | src/kernel/memory_management/kheap.c:351-369 | corrected three-way merge: the front block's pointer designates an allocated block of at least the request that starts with the middle block's data |
| KHeap.DoubleMergeSpec | src/kernel/memory_management/kheap.c:244-257 | the three blocks become one well-formed block of `s1 + s2 + s3 + 16` bytes at the front block's offset |
| KHeap.ReallocMoveSpec | src/kernel/memory_management/kheap.c:145-155 | corrected fallback: NULL exactly when no block fits, and then nothing changes; otherwise the new pointer holds the data that fits, the old block is freed, and coalescing is kept |
| KHeap.ReallocSpec | src/kernel/memory_management/kheap.c:105-156 | NULL only when no merge applies and no block fits, and then nothing changes; otherwise the pointer designates an allocated block of at least the rounded size holding as much old data as fits; growing forward keeps the pointer |
| KHeap.ReallocCoalesced | src/kernel/memory_management/kheap.c:105-156 | on an arena with no two free neighbours, `krealloc` of an allocated block leaves none exactly when it does not take the backward merge into a block whose successor is free with a split remainder (`KHeap.LeavesFreePair`) |
| KHeap.ForwardCoalesced | src/kernel/memory_management/kheap.c:127-131 | the forward merge and its split leave no two free neighbours |
| KHeap.BackwardCoalesced | src/kernel/memory_management/kheap.c:133-137 | the backward merge and its split leave no two free neighbours exactly unless the successor is free and the split leaves a remainder |
| KHeap.ThreewayCoalesced | src/kernel/memory_management/kheap.c:139-144 | the three-way merge and its split leave no two free neighbours |
| KHeap.SplitSpliceCoalesced | src/kernel/memory_management/kheap.c:265-304 | splitting a block that replaced a run of a coalesced arena keeps it coalesced exactly when no free remainder lands in front of a free block |
| KHeap.ReallocFreePairExample | src/kernel/memory_management/kheap.c:133-137 | growing the allocated block between a free 20-byte block and a free empty block to 12 bytes leaves two free blocks side by side |
| Acpi.ValidateSdtChecksum | src/kernel/acpi/acpi.c:98-109 | true exactly when the first `len` bytes sum to 0 modulo 256 |
| Acpi.ValidateRsdpChecksum | src/kernel/acpi/acpi.c:75-96 | true exactly when the RSDP is valid for its revision |
| Acpi.RsdpV1IgnoresExtension | src/kernel/acpi/acpi.c:80-88 | a revision-0 RSDP is judged on its first 20 bytes alone |
| Acpi.RsdpV2Rule | src/kernel/acpi/acpi.c:90-95 | for later revisions both the 20-byte sum and the 16 extension bytes must be 0 modulo 256 |
| Acpi.SumBytesUpdate | src/kernel/acpi/acpi.c:98-109 | writing one byte moves the checksum by the change when it is inside the range, else not at all |
| Acpi.ChecksumByteValidates | src/kernel/acpi/acpi.c:98-109 | a table whose checksum byte holds the complement of the other bytes validates |
| Acpi.RsdpChecksumsValidate | src/kernel/acpi/acpi.c:75-96 | filling both RSDP checksum bytes makes it valid for every revision |
| Acpi.HugeLengthPasses | src/kernel/acpi/acpi.c:98-109 | a length of 2^31 or more is negative as an `int`, so the table passes without a byte being read |
| Acpi.InitSdt | src/kernel/acpi/acpi.c:52-73 | the XSDT exactly when the revision is at least 2, else the RSDT; the result is that table's checksum over its own length |
| Acpi.InitAcpi | src/kernel/acpi/acpi.c:10-50 | -1 exactly when the RSDP checksum fails, otherwise 0 with the root table set up |
| Acpi.EntrySize | src/kernel/acpi/acpi.c:22 | 8-byte entries for the XSDT, 4-byte for the RSDT |
| Acpi.NumEntriesValue | src/kernel/acpi/acpi.c:22-24 | corrected count: `(length - 36) / entry size` entries, and a negative count when the table is shorter than its 36-byte header |
| Acpi.EntriesInsideTable | src/kernel/acpi/acpi.c:22-29 | corrected count: every entry the loop reads ends inside the table's `length` bytes |
| Acpi.AsWrittenScansPastTable | src/kernel/acpi/acpi.c:23 | as written, the count subtracts the 32-byte header struct, so an RSDT holding `k` entries is scanned for `k + 1`, the last lying right behind the table |
| Acpi.FindTable | src/kernel/acpi/acpi.c:20-39 | the loop returns the first matching entry, or NULL |
| Acpi.FirstMatchFound | src/kernel/acpi/acpi.c:26-36 | a result is an entry that matches with no matching entry before it |
| Acpi.FirstMatchNone | src/kernel/acpi/acpi.c:26-38 | NULL means no entry matches |
| Acpi.MatchesSignature | src/kernel/acpi/acpi.c:29-33 | an entry matches exactly when its four signature bytes equal the table id and its checksum is valid |
| Madt.RecordAddrsShape | src/kernel/acpi/madt.c:21-26 | records start 0x2C into the table, lie inside it, and each starts where its predecessor's length ends |
| Madt.WalkIsInterpret | src/kernel/acpi/madt.c:23-39 | the loop applies exactly the records `RecordAddrs` lists, in order, and runs forever exactly at a zero-length record |
| Madt.InterpretIoApics | src/kernel/acpi/madt.c:29-31 | I/O APIC records are appended in encounter order, one per record |
| Madt.LastOverrideWins | src/kernel/acpi/madt.c:33-36 | after an address-override record the local APIC address is that record's, and other records leave it alone |
| Madt.ParseMadt | src/kernel/acpi/madt.c:6-41 | no table exactly when the "APIC" lookup fails; otherwise the I/O APIC list and local APIC address are those of the walked records, or the walk diverges |
| Ustar.Oct2Bin | src/kernel/vfs/ustar.c:6-17 | the fold stays in `int` range (32-bit wrap-around) |
| Ustar.Oct2BinRoundTrip | src/kernel/vfs/ustar.c:6-17 | an archiver's octal digits for a value that fits an `int` read back as that value |
| Ustar.SizeFieldHolds | src/kernel/vfs/ustar.c:24 | every length below 2^31 fits the 11-digit size field |
| Ustar.Blocks | src/kernel/vfs/ustar.c:33-35 | the data length rounded up to whole 512-byte blocks |
| Ustar.AdvanceAsWritten | src/kernel/vfs/ustar.c:33-35 | as an unbounded number, the advance is at least one block; the 64-bit pointer the source moves can wrap (see `Ustar.AdvanceWrapsToSameHeader`) |
| Ustar.AdvanceWrapsToSameHeader | src/kernel/vfs/ustar.c:24-35 | the size field "37777777777" reads through `oct2bin` (lines 6-17) as -1, which is `2^64 - 1` as `size_t`, and the as-written advance for it is exactly 2^64 bytes |
| Ustar.Advance | src/kernel/vfs/ustar.c:33-35 | corrected advance: the header block plus the data blocks |
| Ustar.NameComparisons | src/kernel/vfs/ustar.c:25-52 | both name comparisons are string equality with the argument, terminator included |
| Ustar.ResultSlots | src/kernel/vfs/ustar.c:56-62 | corrected store: each collected header goes to the current count, growing the array first when full |
| Ustar.ResultSlotsInBounds | src/kernel/vfs/ustar.c:56-62 | stored as intended, the k-th header lands at slot `num + k`, inside the array |
| Ustar.BuiltLen | src/kernel/vfs/ustar.c:24 | a built header's size field reads back as the member's length |
| Ustar.BuiltName | src/kernel/vfs/ustar.c:25 | a built header's name reads back as the member's name |
| Ustar.BuiltNext | src/kernel/vfs/ustar.c:33-35 | advancing past a built member reaches the next one |
| Ustar.ReadBuilt | src/kernel/vfs/ustar.c:19-38 | round trip: reading a name from a built archive gives the data of the first member of that name, and NULL when there is none |
| Ustar.ReadDirWalkBuilt | src/kernel/vfs/ustar.c:41-72 | the walk finds the directory exactly when the archive has one of that name, and collects exactly the matching file headers |
| Ustar.ReadDirBuilt | src/kernel/vfs/ustar.c:41-78 | round trip for directories: the matching file headers when a directory of that name exists, NULL otherwise |
| IoApic.DecodeEncode | src/kernel/hal/io_apic.c:246-265 | every redirection entry is recovered from its 64-bit image |
| IoApic.EncodeDecode | src/kernel/hal/io_apic.c:246-265 | every 64-bit image is the image of an entry |
| IoApic.SplitJoin | src/kernel/hal/io_apic.c:251-253 | joining two dwords and splitting again gives the two dwords back |
| IoApic.PinRegsDiffer | src/kernel/hal/io_apic.c:251-253 | a pin's low and high registers are different registers |
| IoApic.RegValues | src/kernel/hal/io_apic.c:251-253 | pin `p` uses registers `0x10 + 2p` and `0x11 + 2p` truncated to `uint8_t` |
| IoApic.RegsApart | src/kernel/hal/io_apic.c:251-253 | distinct pins below 128 use four distinct registers |
| IoApic.WriteEntrySpec | src/kernel/hal/io_apic.c:246-265 | an entry written to a pin reads back as written, and no other register changes |
| IoApic.WriteBackRead | src/kernel/hal/io_apic.c:246-265 | writing back an entry just read leaves every register as it was |
| IoApic.WriteTwice | src/kernel/hal/io_apic.c:246-255 | a second write to the same pin hides the first |
| IoApic.PolarityAgainstMadt | src/kernel/hal/io_apic.c:267-273 | the decoder gives active high exactly for flags with bit 1 set, the opposite of every polarity the MADT states |
| IoApic.TriggerAgainstMadt | src/kernel/hal/io_apic.c:275-281 | the decoder gives level exactly for flags with bit 3 set, agreeing with every trigger mode the MADT states |
| IoApic.ServesRange | src/kernel/hal/io_apic.c:283-297 | a present I/O APIC serves exactly the GSIs from `min_gsi` to `min_gsi + num_pins - 1` |
| IoApic.FromGsi | src/kernel/hal/io_apic.c:283-297 | a slot found lies in the table, at or after the start (`IoApic.FromGsiSpec` states which slot) |
| IoApic.FromGsiSpec | src/kernel/hal/io_apic.c:283-297 | the lowest-indexed I/O APIC serving the GSI, and NULL exactly when none does |
| IoApic.Modify | src/kernel/hal/io_apic.c:140-145 | the setters' update: no write when the entry already holds the value, else exactly that entry is written |
| IoApic.SetGsiMask | src/kernel/hal/io_apic.c:133-147 | fails with nothing changed exactly when no I/O APIC serves the GSI; otherwise only the mask field changes, and only when it differs |
| IoApic.SetGsiVector | src/kernel/hal/io_apic.c:149-166 | refuses vectors 0-15 and unserved GSIs; otherwise only the vector changes, and the GSI is recorded for the vector only when the entry is rewritten |
| IoApic.SetGsiTriggerMode | src/kernel/hal/io_apic.c:168-193 | GSI 0 accepts only level and NMI or SMI entries only edge; otherwise only the trigger field changes |
| IoApic.SetGsiPolarity | src/kernel/hal/io_apic.c:195-214 | an SMI entry accepts only active high; otherwise only the polarity field changes |
| IoApic.RerouteGsi | src/kernel/hal/io_apic.c:216-230 | only the destination changes, and only when it differs |
| IoApic.RouteIrq | src/kernel/hal/io_apic.c:59-86 | the entry becomes a fixed, edge-triggered, active-high interrupt with the given vector, destination and mask, written unconditionally |
| IoApic.SetSmiGsi | src/kernel/hal/io_apic.c:88-112 | the served GSI's entry becomes the SMI entry |
| IoApic.SetVectorThenRead | src/kernel/hal/io_apic.c:114-166 | a vector set on a GSI reads back from it |
| IoApic.SetVectorThenLookup | src/kernel/hal/io_apic.c:121-166 | after a vector is set on a GSI, looking the vector up finds that GSI's entry |
| IoApic.SetMaskIdempotent | src/kernel/hal/io_apic.c:133-147 | setting the mask twice is setting it once |
| IoApic.MaskUnmaskRestores | src/kernel/hal/io_apic.c:133-147 | masking an unmasked GSI and unmasking it again leaves every register as it was |
| IoApic.InitEntryRules | src/kernel/hal/io_apic.c:322-368 | each GSI's set-up entry is routed to the BSP: ISA GSIs edge, active high, masked, vector `gsi + 0x20`; overridden GSIs take the source IRQ's vector; NMI sources NMI delivery, unmasked; others level, masked |
| IoApic.InitWrites | src/kernel/hal/io_apic.c:307-371 | with at most 128 pins every served GSI except 0 ends up holding its set-up entry |
| IoApic.InitSkipsZero | src/kernel/hal/io_apic.c:318-320 | GSI 0 keeps its entry |
| IoApic.InitKeepsOthers | src/kernel/hal/io_apic.c:307-371 | the set-up writes only registers of its own I/O APIC |
| IoApic.InitInts | src/kernel/hal/io_apic.c:307-371 | the set-up keeps the I/O APIC table and the state valid |
| IoApic.Identify | src/kernel/hal/io_apic.c:38-49 | the id decoded from bits 24-27 indexes the table |
| IoApic.RegisterIoApic | src/kernel/hal/io_apic.c:30-51 | the I/O APIC is stored in the slot of its id, every other slot is unchanged, and the state stays valid |
| IoApic.RegisterReadsBack | src/kernel/hal/io_apic.c:38-50 | a chip with id `id` and maximum redirection entry `maxRed` is stored in slot `id` with `maxRed + 1` pins (in `uint8_t`) and EOI support exactly from version 0x20 |
| IoApic.RegisterProgramsPins | src/kernel/hal/io_apic.c:30-51 | after registration every served GSI except 0 holds its set-up entry |
| Idt.Gate | src/kernel/interrupts/idt.c:23-33 | the three offset fields put back together give the ISR address; segment 0x28, no IST, reserved 0, attributes as given |
| Idt.GateInjective | src/kernel/interrupts/idt.c:26-32 | two gates are equal exactly when their address and attributes are |
| Idt.SetIdtEntry | src/kernel/interrupts/idt.c:23-33 | the vector's entry is that gate and every other entry is unchanged |
| Idt.InitializeIdt | src/kernel/interrupts/idt.c:7-21 | installs `isr1` at vector 1 as an interrupt gate, changes nothing else, and describes the table at its base |
| Idt.IdtBoundsCoverTable | src/kernel/interrupts/idt.c:16-19 | the IDTR limit is the offset of the last byte of the 256 packed 16-byte gates |
| Gdt.AccessBytesDecode | src/kernel/gdt/gdt.h:4-18 | each of the four access bytes is the only byte that decodes to its description |
| Gdt.SetTssEntry | src/kernel/gdt/gdt.c:9-19 | the descriptor's base fields give the TSS address back; length 104, reserved 0, access and flags as given; the segments are untouched |
| Gdt.SetTssEntryInjective | src/kernel/gdt/gdt.c:12-17 | two descriptors are equal exactly when their bases are |
| Gdt.InitTss | src/kernel/gdt/gdt.c:21-28 | the descriptor points at the TSS with access 0x89 and flags 0x20, and RSP0 holds the stack |
| Gdt.InitTssBytes | src/kernel/gdt/gdt.c:21-28 | the TSS bytes are all zero except RSP0, which holds the stack pointer |
| Gdt.SegmentsFitLabels | src/kernel/gdt/gdt.c:44-113 | corrected table: every slot's access byte fits its label, the null descriptor is zero, every base is 0, and slots 5-8 are kernel code, kernel data, user code, user data |
| Gdt.InitializeGdt | src/kernel/gdt/gdt.c:35-123 | corrected table (slot 2 gets the data access byte, see Findings): nine segments fitting their labels, the TSS descriptor for the TSS, RSP0 set to the stack, the GDTR at the table |
| Gdt.GdtLayout | src/kernel/gdt/gdt.c:116-122 | the GDTR limit is the offset of the table's last byte, and selector 0x48 is the offset of the TSS descriptor's bytes |
| Common.LeBytesRoundTrip | src/kernel/memory_management/kheap.c:58-61 | a value below `256 ^ n` reads back from its `n` little-endian bytes, as tag words are stored |
| Common.LeAtRoundTrip | src/kernel/acpi/acpi.c:56-62 | a field written as the little-endian bytes of `w` reads back as `w` |
| Pmm.BitmapBytesAsWritten | src/kernel/memory_management/physical_memory_manager.c:27-31 | the bitmap size as written: a frame multiple below 2^32 |
| Pmm.BitmapTooSmall | src/kernel/memory_management/physical_memory_manager.c:27-31 | with 7 frames the size as written is 0 bytes, so the bitmap covers fewer frames than are scanned |
| Vmm.GetPageTableAsWritten | src/kernel/memory_management/virtual_memory_manager.h:131-136 | as written, NULL only for the zero word; any other entry word comes back as the table address |
| Vmm.AbsentTableFollowed | src/kernel/memory_management/virtual_memory_manager.h:131-136 | a non-present, non-zero entry is followed as written and refused by the corrected helper |
| Vmm.GetOrCreateAsWritten | src/kernel/memory_management/virtual_memory_manager.h:116-128 | as written, a non-present entry returns the entry's own address, and a present one is overwritten by a new frame |
| Vmm.PresentLinkOverwritten | src/kernel/memory_management/virtual_memory_manager.h:116-128 | a present link to 0x5000 is replaced by 0x7003, where the corrected helper reuses the table |
| Heap.WholeBlockAsWritten | src/kernel/memory_management/kheap.c:278-297 | as written, the whole-block branch marks the header allocated and keeps the body length |
| Heap.WholeBlockTagsDisagree | src/kernel/memory_management/kheap.c:278-297 | splitting a free 12-byte block for 6 bytes leaves the header allocated and the footer free |
| KHeap.BackwardBytesAsWritten | src/kernel/memory_management/kheap.c:338-349 | as written, the clear after the merge zeroes everything from the old second header on |
| KHeap.BackwardSizeClobbered | src/kernel/memory_management/kheap.c:343-346 | on a concrete pair the move overwrites the second header, so the merge reads size 0xFFFE instead of 8 |
| KHeap.ThreewayBytesAsWritten | src/kernel/memory_management/kheap.c:351-369 | as written, the clear after the reversed move zeroes the merged body past the middle size |
| KHeap.ThreewayDataLost | src/kernel/memory_management/kheap.c:363 | on concrete blocks the merged body does not start with the middle block's data |
| KHeap.FallbackPointerAsWritten | src/kernel/memory_management/kheap.c:147-155 | as written, a pointer comes back exactly when a block fits |
| KHeap.FallbackPointerLost | src/kernel/memory_management/kheap.c:152-155 | that pointer designates no block of the arena `kalloc` left |
| Ustar.AsWrittenStopsInData | src/kernel/vfs/ustar.c:33-35 | as written, a member of 1 to 257 bytes that is not the one asked for hides every member after it |
| Ustar.AsWrittenDirStopsInData | src/kernel/vfs/ustar.c:66-70 | as written, a member of 1 to 257 bytes whose name is not the directory's ends the directory scan, which then finds nothing |
| Ustar.CorrectedPassesMember | src/kernel/vfs/ustar.c:33-35 | the corrected walk passes such a member and finds what follows |
| Ustar.FirstResultOutOfBounds | src/kernel/vfs/ustar.c:56-61 | as written, the first header is stored at index 1 of a 1-entry array and slot 0 is never written |
| IoApic.AsWrittenLosesDestination | src/kernel/hal/io_apic.c:263 | as written, every entry read back has destination 0 |
| IoApic.AsWrittenReadBackFails | src/kernel/hal/io_apic.c:257-265 | hence an entry routed anywhere but LAPIC 0 does not read back as written |
| Gdt.DataSegmentIsCodeAsWritten | src/kernel/gdt/gdt.c:58-67 | as written, the slot labelled "16 bit kernel DS" holds an executable access byte that does not fit its label |

## Left out

- Console output is not modelled: `PrintK` and `print_allocations`. `Convert`, which `PrintK` uses, is modelled.
- Hardware and port I/O are not modelled: the PIC remap, `Isr1Handler`, `lidt`, `lgdt`/`ltr` and `load_tss`, `invlpg` in `UnmapPage`, the I/O APIC `end_of_interrupt`, and the `mask_irq`/`unmask_irq` wrappers over `gsi_from_irq`.
- Spin locks are not modelled. None of the modelled allocators takes one, so everything is single-threaded.
- `InitPageTable` is not modelled: its body is empty.
- The kernel wrappers `MapKernelPage`, `UnmapKernelPage`, `RemapKernelPage` and `KernelVAddrToPAddr` are not modelled. They only pass a fixed root table, which is a parameter here.
- Functions the repository declares but never defines are replaced:
  - `AllocContiguous`: `init_heap` takes the arena's initial contents as a parameter.
  - `MapMultiple` and the mapping in `map_heap`: only the rounding of `map_heap` is modelled.
  - `ADDR_TO_FRAME_IND`: taken to be division by 4096.
  - `RoundToNearestMultiple`: rounds up.
  - `gsi_from_irq`, `gsi_get_iso`, `gsi_get_nmi_source` and `get_bsp_lapic_id`: they become the `Platform` parameter or the GSI argument.
  - `KERNEL_DATA`: the higher-half offset is dropped, and heap pointers are offsets from the arena start.
- The clearing of frame contents by `AllocFirstFrame` appears only as the fact that a new page table is empty.
- Pmm.AllocFirstFrame: frame 0 is returned as address 0, the same value as failure, as in the source.
- Pmm.FreeEntry: frees only frames that have a bit in the bitmap and skips the rest. The source's `SetPageFree` at physical_memory_manager.c:49-50 writes past the bitmap's end for them. That happens when the map is not in address order, which line 18 allows: the bitmap is sized from the last usable entry in map order (line 96), not the highest. `Pmm.FrameBeyondBitmap` gives such a map.
- Pmm.InitPmm: is stated with the corrected bitmap size (see Findings), and its validity ensures needs memory below 16 TiB.
- Misc.Itoa: excludes `INT_MIN`, whose negation overflows.
- Bits.SetNthBit and Bits.GetNthBit: require `n < 31`, where the `int` shift of the source is defined.
- Printf.Convert: requires a numeral of at most 31 digits and `2 <= base <= 16`. Only bases 2 to 4 can have a 64-bit value with more than 31 digits, so only they can write in front of the static buffer. The signature also accepts other bases: 0 divides by zero, 1 never ends, and above 16 the digit lookup reads past `hex_digits`. `PrintK` passes only 8, 10 and 16.
- KHeap.ReallocMove: copies `min(old size, new size)` bytes. The source copies the whole old size, which writes past a smaller new block.
- KHeap.ReallocSpec: requires the pointer to designate an allocated block of a well-formed arena. A wild pointer is undefined behaviour in the source.
- KHeap.ReallocSpec: does not promise that free blocks stay coalesced, because the source does not keep that. The backward merge at kheap.c:133-137 splits the merged block at line 348 and leaves its free remainder in front of the next block without checking whether that block is free. `KHeap.ReallocCoalesced` states exactly when coalescing survives, and `KHeap.ReallocFreePairExample` shows an arena where it does not. A heap left that way still works but is fragmented, so the model follows the code.
- Vmm.MapAt: follows the intent at virtual_memory_manager.c:18. The source declares a second `child_table` inside the loop, so its final store at line 25 goes through an uninitialised pointer.
- Vmm.GetPageTable: follows a link to its lower table. The source returns the whole entry word `entry[index]` at virtual_memory_manager.h:134, flag bits included, so the next level is read at an address offset by those bits. The model treats a link as naming its table, which `Vmm.MapThenTranslate`, `Vmm.UnmapPageSpec` and `Vmm.RemapSpec` rely on.
- Vmm.GetOrCreate: returns the table it links, as `Vmm.GetPageTable` does. In the source, the branch that creates a table returns the bare frame (virtual_memory_manager.h:124). The other branch returns `&entry[index]` (h:127), the address of the parent's own slot, not the lower table.
- Vmm.VAddrToPAddr: is `None` where the source dereferences a missing table.
- Vmm.RemapPage: is `None` for the same reason.
- IoApic.ReadEntry: splits an entry into a low and a high dword, instead of the bit-field union of apic.h.
- IoApic.PolarityAgainstMadt: models the decoder as written, so it is inverted against the MADT encoding.
- IoApic.InitWrites: needs at most 128 pins, where the `uint8_t` register offsets do not alias.
- IoApic.InitSkipsZero: needs at most 128 pins for the same reason.
- IoApic.SetVectorThenRead: `vector_from_gsi` is modelled only for a GSI that an I/O APIC serves, because the source dereferences NULL otherwise.
- The null out-pointer check of `int_attrs_from_vector` is not modelled.
- Fields of a set-up entry the source leaves uninitialised read as 0.
- Madt.ParseMadt: a missing MADT becomes `NoMadt`; the source dereferences NULL. An unset local APIC address is `None`.
- Madt.ParseMadt: starts from an empty list. The source leaves `apic_list` uninitialised at madt.c:9, so `num_apics` and `lapic_addr` start indeterminate.
- Madt.ParseMadt: keeps the I/O APIC records in an unbounded sequence. The source stores them in the one frame `AllocFirstFrame` returns at madt.c:10, with no check that the allocation succeeded and no bound on the count.
- Acpi.InitSdt: the root table's entries are read from memory right after its 36-byte header, where sections 5.2.7 and 5.2.8 of the ACPI Specification place them. The source declares the entry array as a pointer field `next` of `Rsdt` and `Xsdt` (src/kernel/acpi/acpi.h:44,49) and copies that field at acpi.c:60,65. It then reads the entries through the address stored in the first bytes after the header. `Acpi.EntryAddr` does not model that indirection.
- Ustar.ReadWalk: the walks stop once the advance passes the end of the archive, which is what lets them terminate on `|ar|`. The source moves a 64-bit pointer, modulo 2^64. A size field that reads as -1 ("37777777777", `Ustar.AdvanceWrapsToSameHeader`) moves it by exactly 2^64 bytes, back onto the same header, so the source scans forever. Other negative sizes move it backwards. `Ustar.ReadDirWalk` stops in the same way.
- Heap.InitHeap: requires `8 <= heap_size` and `heap_size - 8 < 2^32`. From `2^32 + 8` on, the source stores `heap_size - 8` truncated to 32 bits in the header and places the footer by that truncated size, short of the arena's end. Below 8, the subtraction wraps and the footer lands outside the arena. Neither case is modelled, and `Heap.InitHeapWellFormed` carries the same requires.
- `ustar_read` returns `kalloc(len) + 1` and `ustar_readdir` hands out header copies. The model returns the data bytes and copies of the matching headers, and does not model the allocation.
- Gdt.InitTss: the source's packed `tss_t` is 102 bytes, missing a reserved word before the I/O map base, while its descriptor says 104. The model keeps the 102-byte layout and the 104 length.
- Common.ToInt32: states only its range.
- The modules `graphics`, `proc`, `vfs.c`, `elf.c`, `keycodes.c`, the LAPIC, the PIT, `sdt.c` and the boot code in `kernel.c` are not part of this model.

## Findings

| source | as written | input that shows it | evidently intended | confidence | as-written member | corrected member |
|---|---|---|---|---|---|---|
| src/kernel/memory_management/physical_memory_manager.c:27 | the bitmap size is `uppermost / 4096 / 8` rounded down before rounding up to a frame | highest usable address 0x7FFF: 7 frames, bitmap of 0 bytes | one bit per frame: bytes rounded up | high, not executed | Pmm.BitmapBytesAsWritten, Pmm.BitmapTooSmall | Pmm.BitmapBytes, Pmm.BitmapCoversFrames |
| src/kernel/memory_management/virtual_memory_manager.h:118 | the PRESENT test is inverted | entry 0x5003 (a present link) with a free frame at 0x7000 | reuse a present table, create one otherwise | high, not executed | Vmm.GetOrCreateAsWritten, Vmm.PresentLinkOverwritten | Vmm.GetOrCreateReuses, Vmm.GetOrCreateLinks |
| src/kernel/memory_management/virtual_memory_manager.h:133 | `GetPageFlag(parent[index]), PRESENT` is a comma expression, always true | any non-zero entry without PRESENT | NULL unless the entry is present | high, not executed | Vmm.GetPageTableAsWritten, Vmm.AbsentTableFollowed | Vmm.GetPageTable |
| src/kernel/memory_management/kheap.c:281,295 | the whole-block branch writes the footer tag at `header + 4 + alloc_size` | a free 12-byte block split for 6 bytes | header and real footer both `size` with the allocated bit | high, not executed | Heap.WholeBlockAsWritten, Heap.WholeBlockTagsDisagree | Heap.WholeBlock, Heap.SplitBlockSpec |
| src/kernel/memory_management/kheap.c:363 | `memmove(middle, front, middle_size)` copies the wrong way and from the header | free 2-byte blocks around a block holding 7, 7, 7, 7 | move the middle body to the front body | high, not executed | KHeap.ThreewayBytesAsWritten, KHeap.ThreewayDataLost | KHeap.MergeThreewaySpec |
| src/kernel/memory_management/kheap.c:343-346 | the `memmove` at line 343 moves the second body over the second header when that body is more than 4 bytes longer than the first, and `merge_block` at line 345 then reads the size from the moved data; the `memset` at line 346 afterwards zeroes the moved bytes that lie in the old second block | a 2-byte free block followed by an 8-byte block of 0xFF bytes | read the sizes before moving | high, not executed | KHeap.BackwardBytesAsWritten, KHeap.BackwardSizeClobbered | KHeap.MergeBackwardSpec |
| src/kernel/memory_management/kheap.c:152,155 | the fallback adds `HEADER_SIZE` to pointers that already point at bodies | any reallocation that falls back to `kalloc` | return `kalloc`'s pointer | high, not executed | KHeap.FallbackPointerAsWritten, KHeap.FallbackPointerLost | KHeap.ReallocMoveSpec |
| src/kernel/acpi/acpi.c:23 | the count subtracts `sizeof(SDT_HEAD.header)`, 32 bytes because the struct at acpi.h:31-40 has no OEM revision field, where the table header is 36 bytes | an RSDT of length 40 holding one entry: two entries are scanned, the second being the 4 bytes behind the table | `(length - 36) / entry size`; the comment at acpi.c:18 already records that `FindTable` fails | high, not executed | Acpi.AsWrittenScansPastTable | Acpi.NumEntriesValue, Acpi.EntriesInsideTable |
| src/kernel/vfs/ustar.c:33-35,68-70 | the pointer advances by the data blocks counted from the header, skipping no header block | a 1-byte member followed by the one asked for | skip the header block and the data blocks | high, not executed | Ustar.AsWrittenStopsInData, Ustar.AsWrittenDirStopsInData | Ustar.CorrectedPassesMember, Ustar.ReadBuilt, Ustar.ReadDirBuilt |
| src/kernel/vfs/ustar.c:56-61 | the result count is post-incremented before the store | the first matching header | store at the current count | high, not executed | Ustar.FirstResultOutOfBounds | Ustar.ResultSlotsInBounds |
| src/kernel/hal/io_apic.c:263 | the high dword is shifted by 31 | an entry routed to LAPIC 1 | shift by 32 | high, not executed | IoApic.AsWrittenLosesDestination, IoApic.AsWrittenReadBackFails | IoApic.WriteEntrySpec |
| src/kernel/gdt/gdt.c:63 | the slot labelled "16 bit kernel DS" gets access 0x9A (code) | slot 2 of the table | access 0x92 (data) | medium, not executed | Gdt.DataSegmentIsCodeAsWritten | Gdt.SegmentsFitLabels |

=== FILE: acpi.dfy ===
/** ACPI table discovery (acpi.c): checksum validation of the RSDP and of
    system description tables (sections 5.2.5.3 and 5.2.6 of the ACPI
    Specification), selection of the RSDT or XSDT root table (sections 5.2.7
    and 5.2.8), and the lookup of a table by signature through the root
    table's entries. Physical memory is a byte sequence indexed by physical
    address; bytes past it read as 0. */
module Acpi {
  import opened Common
  import CString

  const RsdpV1Size: nat := 20
  const RsdpV2Size: nat := 36
  const AcpiVersion1: nat := 0
  const AcpiVersion2: nat := 2
  const SdtHeaderSize: nat := 36
  /** `sizeof(SdtHeader)` in the source: its packed header struct has no OEM
      revision field, so it is 4 bytes shorter than the header it describes. */
  const SdtHeaderStructSize: nat := 32

  /** Byte offsets of the fields the kernel reads. */
  const RsdpChecksumOffset: nat := 8
  const RsdpRevisionOffset: nat := 15
  const RsdpRsdtOffset: nat := 16
  const RsdpXsdtOffset: nat := 24
  const RsdpExtChecksumOffset: nat := 32
  const SdtLengthOffset: nat := 4
  const SdtChecksumOffset: nat := 9

  /** The sum of the `n` bytes at `addr`. */
  function SumBytes(mem: seq<Byte>, addr: nat, n: nat): (r: nat)
    ensures r <= 0xFF * n
  {
    if n == 0 then 0 else SumBytes(mem, addr, n - 1) + ByteAt(mem, addr + n - 1)
  }

  /** The ACPI checksum rule: the table's `len` bytes sum to 0 modulo 256. A
      non-positive length (the `int` parameter of the source) sums nothing. */
  predicate SdtChecksumValid(mem: seq<Byte>, addr: nat, len: int)
  {
    len <= 0 || SumBytes(mem, addr, len) % 0x100 == 0
  }

  /** The RSDP rule: the first 20 bytes sum to 0 modulo 256, and unless the
      revision is the ACPI 1.0 one, so do all 36. */
  predicate RsdpValid(mem: seq<Byte>, addr: nat)
  {
    SumBytes(mem, addr, RsdpV1Size) % 0x100 == 0 &&
    (ByteAt(mem, addr + RsdpRevisionOffset) == AcpiVersion1 ||
     SumBytes(mem, addr, RsdpV2Size) % 0x100 == 0)
  }

  /** `ValidateSdtChecksum`. The `int` running sum may overflow for tables of
      gigabytes, but a wrap-around by a multiple of 2^32 leaves the low byte
      unchanged, so the unbounded sum gives the same verdict. */
  method ValidateSdtChecksum(mem: seq<Byte>, addr: nat, len: int) returns (ok: bool)
    ensures ok <==> SdtChecksumValid(mem, addr, len)
  {
    var checksum := 0;
    var i := 0;
    while i < len
      invariant 0 <= i <= if len >= 0 then len else 0
      invariant checksum == SumBytes(mem, addr, i)
    {
      checksum := checksum + ByteAt(mem, addr + i);
      i := i + 1;
    }
    ok := checksum % 0x100 == 0;
  }

  /** `ValidateRsdpChecksum`: one running sum over the first 20 bytes, then
      continued over the next 16 unless the revision is 0. */
  method ValidateRsdpChecksum(mem: seq<Byte>, addr: nat) returns (ok: bool)
    ensures ok <==> RsdpValid(mem, addr)
  {
    var checksum := 0;
    var i := 0;
    while i < RsdpV1Size
      invariant i <= RsdpV1Size
      invariant checksum == SumBytes(mem, addr, i)
    {
      checksum := checksum + ByteAt(mem, addr + i);
      i := i + 1;
    }
    var v1Valid := checksum % 0x100 == 0;
    if ByteAt(mem, addr + RsdpRevisionOffset) == AcpiVersion1 {
      return v1Valid;
    }
    while i < RsdpV2Size
      invariant RsdpV1Size <= i <= RsdpV2Size
      invariant checksum == SumBytes(mem, addr, i)
    {
      checksum := checksum + ByteAt(mem, addr + i);
      i := i + 1;
    }
    var v2Valid := checksum % 0x100 == 0;
    ok := v1Valid && v2Valid;
  }

  /** Writing `v` at `p` changes the sum by `v - mem[p]` when `p` lies in the
      summed range, and not at all otherwise. */
  lemma {:induction false} SumBytesUpdate(mem: seq<Byte>, addr: nat, n: nat, p: nat, v: Byte)
    requires p < |mem|
    ensures SumBytes(mem[p := v], addr, n) ==
            SumBytes(mem, addr, n) + (if addr <= p < addr + n then v - mem[p] else 0)
  {
    if n > 0 {
      SumBytesUpdate(mem, addr, n - 1, p, v);
    }
  }

  /** The sum over `m + n` bytes is the sum over the first `m` plus the sum
      over the next `n`. */
  lemma {:induction false} SumBytesSplit(mem: seq<Byte>, addr: nat, m: nat, n: nat)
    ensures SumBytes(mem, addr, m + n) == SumBytes(mem, addr, m) + SumBytes(mem, addr + m, n)
  {
    if n > 0 {
      SumBytesSplit(mem, addr, m, n - 1);
    }
  }

  /** The sum depends only on the summed bytes. */
  lemma {:induction false} SumBytesWindow(mem: seq<Byte>, mem': seq<Byte>, addr: nat, n: nat)
    requires BytesAt(mem, addr, n) == BytesAt(mem', addr, n)
    ensures SumBytes(mem, addr, n) == SumBytes(mem', addr, n)
  {
    if n > 0 {
      assert BytesAt(mem, addr, n - 1) == BytesAt(mem', addr, n - 1) by {
        assert BytesAt(mem, addr, n - 1) == BytesAt(mem, addr, n)[..n - 1];
        assert BytesAt(mem', addr, n - 1) == BytesAt(mem', addr, n)[..n - 1];
      }
      assert BytesAt(mem, addr, n)[n - 1] == BytesAt(mem', addr, n)[n - 1];
      SumBytesWindow(mem, mem', addr, n - 1);
    }
  }

  /** The value that, stored at `p`, brings the sum of the `n` bytes at
      `addr` to 0 modulo 256: what a firmware writes into a checksum field. */
  function ChecksumByte(mem: seq<Byte>, addr: nat, n: nat, p: nat): (v: Byte)
    requires p < |mem|
  {
    (mem[p] - SumBytes(mem, addr, n)) % 0x100
  }

  /** A table whose checksum byte holds `ChecksumByte` validates. */
  lemma ChecksumByteValidates(mem: seq<Byte>, addr: nat, len: nat, p: nat)
    requires addr <= p < addr + len
    requires p < |mem|
    ensures SdtChecksumValid(mem[p := ChecksumByte(mem, addr, len, p)], addr, len)
  {
    SumBytesUpdate(mem, addr, len, p, ChecksumByte(mem, addr, len, p));
  }

  /** Filling the RSDP's checksum (byte 8, over 20 bytes) and then its
      extended checksum (byte 32, over 36 bytes) makes it valid for every
      revision. */
  lemma RsdpChecksumsValidate(mem: seq<Byte>, addr: nat)
    requires addr + RsdpV2Size <= |mem|
    ensures var m1 := mem[addr + RsdpChecksumOffset :=
                          ChecksumByte(mem, addr, RsdpV1Size, addr + RsdpChecksumOffset)];
            var m2 := m1[addr + RsdpExtChecksumOffset :=
                          ChecksumByte(m1, addr, RsdpV2Size, addr + RsdpExtChecksumOffset)];
            RsdpValid(m2, addr)
  {
    var p1, p2 := addr + RsdpChecksumOffset, addr + RsdpExtChecksumOffset;
    var m1 := mem[p1 := ChecksumByte(mem, addr, RsdpV1Size, p1)];
    var m2 := m1[p2 := ChecksumByte(m1, addr, RsdpV2Size, p2)];
    SumBytesUpdate(mem, addr, RsdpV1Size, p1, ChecksumByte(mem, addr, RsdpV1Size, p1));
    SumBytesUpdate(m1, addr, RsdpV1Size, p2, ChecksumByte(m1, addr, RsdpV2Size, p2));
    SumBytesUpdate(m1, addr, RsdpV2Size, p2, ChecksumByte(m1, addr, RsdpV2Size, p2));
  }

  /** An ACPI 1.0 RSDP is judged on its first 20 bytes alone: the extension
      fields do not matter. */
  lemma RsdpV1IgnoresExtension(mem: seq<Byte>, mem': seq<Byte>, addr: nat)
    requires BytesAt(mem, addr, RsdpV1Size) == BytesAt(mem', addr, RsdpV1Size)
    requires ByteAt(mem, addr + RsdpRevisionOffset) == AcpiVersion1
    ensures RsdpValid(mem, addr) <==> RsdpValid(mem', addr)
  {
    SumBytesWindow(mem, mem', addr, RsdpV1Size);
    assert ByteAt(mem', addr + RsdpRevisionOffset) == AcpiVersion1 by {
      assert BytesAt(mem, addr, RsdpV1Size)[RsdpRevisionOffset] ==
             BytesAt(mem', addr, RsdpV1Size)[RsdpRevisionOffset];
    }
  }

  /** For a later revision, validity means both the first 20 bytes and the
      16 extension bytes sum to 0 modulo 256. */
  lemma RsdpV2Rule(mem: seq<Byte>, addr: nat)
    requires ByteAt(mem, addr + RsdpRevisionOffset) != AcpiVersion1
    ensures RsdpValid(mem, addr) <==>
            SumBytes(mem, addr, RsdpV1Size) % 0x100 == 0 &&
            SumBytes(mem, addr + RsdpV1Size, RsdpV2Size - RsdpV1Size) % 0x100 == 0
  {
    SumBytesSplit(mem, addr, RsdpV1Size, RsdpV2Size - RsdpV1Size);
  }

  /** The root table the kernel keeps: whether it is the XSDT, its physical
      address and the length from its header. */
  datatype SdtHead = SdtHead(usesXsdt: bool, addr: nat, length: Word32)

  /** `InitSdt`: the XSDT when the RSDP revision is at least 2, else the RSDT;
      `ok` is that table's checksum verdict over its own length. */
  method InitSdt(mem: seq<Byte>, rsdp: nat) returns (head: SdtHead, ok: bool)
    ensures head.usesXsdt <==> ByteAt(mem, rsdp + RsdpRevisionOffset) >= AcpiVersion2
    ensures head.usesXsdt ==> head.addr == LeAt(mem, rsdp + RsdpXsdtOffset, 8)
    ensures !head.usesXsdt ==> head.addr == LeAt(mem, rsdp + RsdpRsdtOffset, 4)
    ensures head.length == LeAt(mem, head.addr + SdtLengthOffset, 4)
    ensures ok <==> SdtChecksumValid(mem, head.addr, ToInt32(head.length))
  {
    var usesXsdt := ByteAt(mem, rsdp + RsdpRevisionOffset) >= AcpiVersion2;
    var addr := if usesXsdt then LeAt(mem, rsdp + RsdpXsdtOffset, 8)
                else LeAt(mem, rsdp + RsdpRsdtOffset, 4);
    var length := LeAt(mem, addr + SdtLengthOffset, 4);
    ok := ValidateSdtChecksum(mem, addr, ToInt32(length));
    head := SdtHead(usesXsdt, addr, length);
  }

  /** `InitAcpi`: -1 when the RSDP fails its checksum, else the root table is
      set up and 0 is returned whatever the root table's own checksum says. */
  method InitAcpi(mem: seq<Byte>, rsdp: nat) returns (status: int, head: Option<SdtHead>)
    ensures status == -1 <==> !RsdpValid(mem, rsdp)
    ensures status == 0 <==> RsdpValid(mem, rsdp)
    ensures head.Some? <==> status == 0
    ensures head.Some? ==>
              (head.value.usesXsdt <==> ByteAt(mem, rsdp + RsdpRevisionOffset) >= AcpiVersion2)
  {
    var valid := ValidateRsdpChecksum(mem, rsdp);
    if !valid {
      return -1, None;
    }
    var h, _ := InitSdt(mem, rsdp);
    return 0, Some(h);
  }

  /** Bytes per root-table entry: 64-bit addresses in the XSDT, 32-bit in
      the RSDT. */
  function EntrySize(head: SdtHead): (r: nat)
    ensures r == 4 || r == 8
  {
    if head.usesXsdt then 8 else 4
  }

  /** The entry count `FindTable` means to compute: `length - 36` in
      `size_t` (wrapping below 0), divided by the entry size, truncated to
      `int`. The source subtracts the size of its header struct instead (see
      `NumEntriesAsWritten`). */
  function NumEntries(head: SdtHead): int
  {
    ToInt32(ToU64(head.length - SdtHeaderSize) / EntrySize(head))
  }

  /** A root table at least as long as its header has `(length - 36) / size`
      entries; a shorter one wraps around to a negative count, so the lookup
      loop does not run. */
  lemma NumEntriesValue(head: SdtHead)
    ensures head.length >= SdtHeaderSize ==>
              NumEntries(head) == (head.length - SdtHeaderSize) / EntrySize(head)
    ensures head.length < SdtHeaderSize ==> NumEntries(head) < 0
  {
    if head.length < SdtHeaderSize {
      var d := SdtHeaderSize - head.length;
      assert ToU64(head.length - SdtHeaderSize) == Two64 - d;
      WrappedCountNegative(d, EntrySize(head));
    }
  }

  /** Every entry the corrected count takes lies inside the table. */
  lemma EntriesInsideTable(head: SdtHead, i: nat)
    requires i < NumEntries(head)
    ensures head.addr + SdtHeaderSize + (i + 1) * EntrySize(head) <= head.addr + head.length
  {
    NumEntriesValue(head);
    var s := EntrySize(head);
    var n := (head.length - SdtHeaderSize) / s;
    assert (i + 1) * s <= n * s;
    assert n * s <= head.length - SdtHeaderSize;
  }

  /** The entry count as written at acpi.c:23: the length less
      `sizeof(SdtHeader)`, 32 bytes, divided by the entry size. */
  function NumEntriesAsWritten(head: SdtHead): int
  {
    ToInt32(ToU64(head.length - SdtHeaderStructSize) / EntrySize(head))
  }

  /** As written, an RSDT holding `k` entries is scanned for `k + 1`: the
      last one read is entry `k`, the four bytes right behind the table. */
  lemma AsWrittenScansPastTable(head: SdtHead, k: nat)
    requires !head.usesXsdt && head.length == SdtHeaderSize + 4 * k
    ensures NumEntries(head) == k
    ensures NumEntriesAsWritten(head) == k + 1
    ensures head.addr + SdtHeaderSize + k * EntrySize(head) == head.addr + head.length
  {
    NumEntriesValue(head);
    assert (head.length - SdtHeaderStructSize) / 4 == k + 1;
    assert ToU64(head.length - SdtHeaderStructSize) == head.length - SdtHeaderStructSize;
  }

  /** `(2^64 - d) / s` keeps its top 32 bits set for a small `d`, so as an
      `int` it is negative. */
  lemma WrappedCountNegative(d: nat, s: nat)
    requires 1 <= d <= SdtHeaderSize
    requires s == 4 || s == 8
    ensures ToInt32((Two64 - d) / s) < 0
  {
    var c := (d + s - 1) / s;
    var k := if s == 4 then 0x4000_0000 else 0x2000_0000;
    assert (Two64 - d) / s == k * Two32 - c by {
      assert Two64 == s * k * Two32;
      assert s * c >= d && s * c - s < d;
    }
    TopBitsWrap(k, c);
  }

  /** Just below a multiple of 2^32, the low 32 bits are `2^32 - c`. */
  lemma TopBitsWrap(k: nat, c: nat)
    requires k >= 1 && 1 <= c <= 9
    ensures ToInt32(k * Two32 - c) < 0
  {
    assert (k * Two32 - c) % Two32 == Two32 - c by {
      assert k * Two32 - c == (k - 1) * Two32 + (Two32 - c);
    }
  }

  /** The `i`-th root-table entry, a table address. The entries follow the
      36-byte header in place, as the ACPI Specification lays them out. */
  function EntryAddr(mem: seq<Byte>, head: SdtHead, i: nat): nat
  {
    LeAt(mem, head.addr + SdtHeaderSize + i * EntrySize(head), EntrySize(head))
  }

  /** The test of one candidate in `FindTable`: the 4-byte signature compares
      equal with `strncmp`, and the table passes its checksum over the length
      in its header, read as `int`. */
  predicate Matches(mem: seq<Byte>, head: SdtHead, id: seq<Byte>, i: nat)
  {
    var t := EntryAddr(mem, head, i);
    CString.StrNEq(mem, t, id, 0, 4) &&
    SdtChecksumValid(mem, t, ToInt32(LeAt(mem, t + SdtLengthOffset, 4)))
  }

  /** The address of the first matching entry from index `i` on. */
  function FirstMatch(mem: seq<Byte>, head: SdtHead, id: seq<Byte>, i: nat): Option<nat>
    decreases NumEntries(head) - i
  {
    if i >= NumEntries(head) then None
    else if Matches(mem, head, id, i) then Some(EntryAddr(mem, head, i))
    else FirstMatch(mem, head, id, i + 1)
  }

  /** `FindTable`: the first entry that matches, or `None` (NULL). */
  method FindTable(mem: seq<Byte>, head: SdtHead, id: seq<Byte>) returns (r: Option<nat>)
    ensures r == FirstMatch(mem, head, id, 0)
  {
    var n := NumEntries(head);
    var i := 0;
    while i < n
      invariant 0 <= i && (n >= 0 ==> i <= n)
      invariant FirstMatch(mem, head, id, 0) == FirstMatch(mem, head, id, i)
    {
      var t := EntryAddr(mem, head, i);
      var signaturesMatch := CString.StrNEq(mem, t, id, 0, 4);
      var validChecksum := ValidateSdtChecksum(mem, t, ToInt32(LeAt(mem, t + SdtLengthOffset, 4)));
      if signaturesMatch && validChecksum {
        return Some(t);
      }
      i := i + 1;
    }
    return None;
  }

  /** A `FirstMatch` result is the address of an entry from `i` on that
      matches, with no match between `i` and it. */
  lemma {:induction false} FirstMatchFound(mem: seq<Byte>, head: SdtHead, id: seq<Byte>, i: nat)
    requires FirstMatch(mem, head, id, i).Some?
    ensures exists k: nat :: i <= k < NumEntries(head) &&
                             FirstMatch(mem, head, id, i).value == EntryAddr(mem, head, k) &&
                             Matches(mem, head, id, k) &&
                             forall j: nat :: i <= j < k ==> !Matches(mem, head, id, j)
    decreases NumEntries(head) - i
  {
    if Matches(mem, head, id, i) {
      assert forall j: nat :: i <= j < i ==> !Matches(mem, head, id, j);
    } else {
      FirstMatchFound(mem, head, id, i + 1);
      var k: nat :| i + 1 <= k < NumEntries(head) &&
                    FirstMatch(mem, head, id, i + 1).value == EntryAddr(mem, head, k) &&
                    Matches(mem, head, id, k) &&
                    forall j: nat :: i + 1 <= j < k ==> !Matches(mem, head, id, j);
      assert forall j: nat :: i <= j < k ==> !Matches(mem, head, id, j);
    }
  }

  /** No result means no entry from `i` on matches. */
  lemma {:induction false} FirstMatchNone(mem: seq<Byte>, head: SdtHead, id: seq<Byte>, i: nat)
    requires FirstMatch(mem, head, id, i).None?
    ensures forall k :: i <= k < NumEntries(head) ==> !Matches(mem, head, id, k)
    decreases NumEntries(head) - i
  {
    if i < NumEntries(head) {
      FirstMatchNone(mem, head, id, i + 1);
    }
  }

  /** For a signature without NUL bytes such as "APIC", an entry matches iff
      its first four bytes are the signature and its checksum is valid. */
  lemma MatchesSignature(mem: seq<Byte>, head: SdtHead, id: seq<Byte>, i: nat)
    requires 0 !in BytesAt(id, 0, 4)
    ensures Matches(mem, head, id, i) <==>
              BytesAt(mem, EntryAddr(mem, head, i), 4) == BytesAt(id, 0, 4) &&
              SdtChecksumValid(mem, EntryAddr(mem, head, i),
                               ToInt32(LeAt(mem, EntryAddr(mem, head, i) + SdtLengthOffset, 4)))
  {
    CString.StrNEqNoNul(mem, EntryAddr(mem, head, i), id, 0, 4);
  }

  /** A table length of 2^31 or more is negative as an `int`, so such a table
      passes the checksum without any byte being read. */
  lemma HugeLengthPasses(mem: seq<Byte>, addr: nat, length: Word32)
    requires length >= 0x8000_0000
    ensures SdtChecksumValid(mem, addr, ToInt32(length))
  {
  }
}

=== FILE: common.dfy ===
/** Shared vocabulary of the kernel model: machine integer ranges, an Option
    for the source's NULL returns, and little-endian word encoding of bytes. */
module Common {

  /** An unsigned 8-bit value, as `uint8_t`. */
  type Byte = x: int | 0 <= x < 0x100

  /** An unsigned 32-bit value, as `uint32_t`. */
  type Word32 = x: int | 0 <= x < 0x1_0000_0000

  const Two32: nat := 0x1_0000_0000
  const Two64: nat := 0x1_0000_0000_0000_0000

  /** The conventional optional value; `None` stands for a NULL pointer or a
      "not found" result of the source. */
  datatype Option<+T> = None | Some(value: T)

  /** The C conversion of a (possibly negative) integer to `uint8_t`. */
  function ToByte(v: int): (b: Byte)
    ensures (b - v) % 0x100 == 0
  {
    v % 0x100
  }

  /** The C conversion of a (possibly negative) integer to `uint64_t`. */
  function ToU64(v: int): (r: nat)
    ensures r < Two64
    ensures (r - v) % Two64 == 0
  {
    v % Two64
  }

  /** The C conversion of an integer to `int32_t`: two's-complement
      wrap-around, as the compilers the kernel targets implement it. */
  function ToInt32(v: int): (r: int)
    ensures -0x8000_0000 <= r < 0x8000_0000
  {
    var w := v % Two32;
    if w >= 0x8000_0000 then w - Two32 else w
  }

  /** Values already in range are unchanged by the conversions. */
  lemma ConversionsFix(v: int)
    ensures 0 <= v < Two64 ==> ToU64(v) == v
    ensures -0x8000_0000 <= v < 0x8000_0000 ==> ToInt32(v) == v
  {
  }

  /** Little-endian value of a byte string. */
  function LeValue(bs: seq<Byte>): (r: nat)
    decreases |bs|
  {
    if |bs| == 0 then 0 else bs[0] + 0x100 * LeValue(bs[1..])
  }

  /** The `n` low-order bytes of `w`, least significant first. */
  function LeBytes(w: nat, n: nat): (bs: seq<Byte>)
    ensures |bs| == n
  {
    if n == 0 then [] else [w % 0x100] + LeBytes(w / 0x100, n - 1)
  }

  /** A run of `n` zero bytes. */
  function Zeros(n: nat): (z: seq<Byte>)
    ensures |z| == n && forall i :: 0 <= i < n ==> z[i] == 0
  {
    seq(n, _ => 0)
  }

  /** Zero encodes as zero bytes at every width. */
  lemma {:induction false} LeBytesZero(n: nat)
    ensures LeBytes(0, n) == Zeros(n)
  {
    if n > 0 {
      LeBytesZero(n - 1);
      assert LeBytes(0, n) == [0] + Zeros(n - 1);
    }
  }

  /** `0x100 ^ n`. */
  function ByteRange(n: nat): (p: nat)
    ensures p >= 1
  {
    if n == 0 then 1 else 0x100 * ByteRange(n - 1)
  }

  /** The 4 little-endian bytes of a 32-bit word, as the kernel stores tags. */
  function LeBytes32(w: Word32): (bs: seq<Byte>)
    ensures |bs| == 4
  {
    LeBytes(w, 4)
  }

  /** A value below `0x100 ^ n` reads back from its `n` bytes. */
  lemma {:induction false} LeBytesRoundTrip(w: nat, n: nat)
    requires w < ByteRange(n)
    ensures LeValue(LeBytes(w, n)) == w
  {
    if n > 0 {
      var bs := LeBytes(w, n);
      assert w / 0x100 < ByteRange(n - 1) by {
        DivBelow(w, ByteRange(n - 1));
      }
      LeBytesRoundTrip(w / 0x100, n - 1);
      assert bs[1..] == LeBytes(w / 0x100, n - 1);
    }
  }

  lemma DivBelow(w: nat, p: nat)
    requires w < 0x100 * p
    ensures w / 0x100 < p
  {
  }

  lemma LeBytes32RoundTrip(w: Word32)
    ensures LeValue(LeBytes32(w)) == w
  {
    assert ByteRange(4) == Two32 by {
      assert ByteRange(1) == 0x100;
      assert ByteRange(2) == 0x1_0000;
      assert ByteRange(3) == 0x100_0000;
    }
    LeBytesRoundTrip(w, 4);
  }

  /** Reads a little-endian field of `n` bytes at offset `off`. */
  function ReadLe(mem: seq<Byte>, off: nat, n: nat): (r: nat)
    requires off + n <= |mem|
  {
    LeValue(mem[off..off + n])
  }

  /** The byte at `i`, or 0 past the supplied bytes. */
  function ByteAt(mem: seq<Byte>, i: int): (b: Byte)
    ensures 0 <= i < |mem| ==> b == mem[i]
  {
    if 0 <= i < |mem| then mem[i] else 0
  }

  /** Little-endian value of the `n` bytes at `addr` of `mem`, reading 0
      past the supplied bytes. */
  function LeAt(mem: seq<Byte>, addr: nat, n: nat): (r: nat)
    ensures r < ByteRange(n)
    decreases n
  {
    if n == 0 then 0 else ByteAt(mem, addr) + 0x100 * LeAt(mem, addr + 1, n - 1)
  }

  /** A field written as the little-endian bytes of `w` reads back as `w`. */
  lemma {:induction false} LeAtRoundTrip(mem: seq<Byte>, addr: nat, w: nat, n: nat)
    requires w < ByteRange(n)
    requires addr + n <= |mem|
    requires mem[addr..addr + n] == LeBytes(w, n)
    ensures LeAt(mem, addr, n) == w
    decreases n
  {
    if n > 0 {
      assert mem[addr] == w % 0x100 by {
        assert mem[addr..addr + n][0] == mem[addr];
      }
      assert mem[addr + 1..addr + n] == LeBytes(w / 0x100, n - 1) by {
        assert mem[addr + 1..addr + n] == mem[addr..addr + n][1..];
      }
      DivBelow(w, ByteRange(n - 1));
      LeAtRoundTrip(mem, addr + 1, w / 0x100, n - 1);
    }
  }

  /** The `n` bytes at `addr` of `mem`, reading 0 past the supplied bytes. */
  function BytesAt(mem: seq<Byte>, addr: nat, n: nat): (r: seq<Byte>)
    ensures |r| == n
    ensures forall k :: 0 <= k < n ==> r[k] == ByteAt(mem, addr + k)
  {
    seq<Byte>(n, k => ByteAt(mem, addr + k))
  }

  /** A window is its first byte followed by the window one byte on. */
  lemma BytesAtCons(mem: seq<Byte>, addr: nat, n: nat)
    requires n > 0
    ensures BytesAt(mem, addr, n) == [ByteAt(mem, addr)] + BytesAt(mem, addr + 1, n - 1)
  {
    var r := BytesAt(mem, addr, n);
    var t := BytesAt(mem, addr + 1, n - 1);
    forall k | 0 <= k < n
      ensures r[k] == ([ByteAt(mem, addr)] + t)[k]
    {
      if k > 0 {
        assert t[k - 1] == ByteAt(mem, addr + 1 + (k - 1));
      }
    }
  }
}

=== FILE: cstring.dfy ===
/** The two C-library string functions the parsers rely on, `strlen` and
    `strncmp` (sections 7.24.6.3 and 7.24.4.4 of ISO C), over NUL-terminated
    byte strings held at an address of a byte memory. Bytes past the supplied
    memory read as NUL, so every string is terminated. */
module CString {
  import opened Common

  /** `strlen`: the number of bytes before the first NUL at `addr`. */
  function StrLen(mem: seq<Byte>, addr: nat): (r: nat)
    ensures ByteAt(mem, addr + r) == 0
    ensures 0 !in BytesAt(mem, addr, r)
    decreases |mem| - addr
  {
    if addr >= |mem| || mem[addr] == 0 then 0
    else
      var r := 1 + StrLen(mem, addr + 1);
      BytesAtCons(mem, addr, r);
      r
  }

  /** The string at `addr`, without its terminator. */
  function CStr(mem: seq<Byte>, addr: nat): (s: seq<Byte>)
    ensures 0 !in s
    ensures ByteAt(mem, addr + |s|) == 0
    ensures s == BytesAt(mem, addr, |s|)
  {
    BytesAt(mem, addr, StrLen(mem, addr))
  }

  /** `strncmp(a, b, n) == 0`: the first `n` bytes agree, where comparison
      stops after a NUL both strings share. */
  function StrNEq(ma: seq<Byte>, a: nat, mb: seq<Byte>, b: nat, n: nat): (r: bool)
    decreases n
  {
    n == 0 ||
    (ByteAt(ma, a) == ByteAt(mb, b) &&
     (ByteAt(ma, a) == 0 || StrNEq(ma, a + 1, mb, b + 1, n - 1)))
  }

  /** When either string has no NUL among its first `n` bytes,
      `strncmp(a, b, n) == 0` is plain byte equality. */
  lemma {:induction false} StrNEqNoNul(ma: seq<Byte>, a: nat, mb: seq<Byte>, b: nat, n: nat)
    requires 0 !in BytesAt(ma, a, n) || 0 !in BytesAt(mb, b, n)
    ensures StrNEq(ma, a, mb, b, n) <==> BytesAt(ma, a, n) == BytesAt(mb, b, n)
    decreases n
  {
    if n > 0 {
      BytesAtCons(ma, a, n);
      BytesAtCons(mb, b, n);
      var ta, tb := BytesAt(ma, a + 1, n - 1), BytesAt(mb, b + 1, n - 1);
      assert 0 !in ta || 0 !in tb by {
        assert ta == BytesAt(ma, a, n)[1..];
        assert tb == BytesAt(mb, b, n)[1..];
      }
      StrNEqNoNul(ma, a + 1, mb, b + 1, n - 1);
      assert BytesAt(ma, a, n) == BytesAt(mb, b, n) <==>
             ByteAt(ma, a) == ByteAt(mb, b) && ta == tb by {
        assert ta == BytesAt(ma, a, n)[1..];
        assert tb == BytesAt(mb, b, n)[1..];
      }
    }
  }

  /** Comparing over `strlen(a) + 1` bytes, terminator included, is string
      equality. */
  lemma {:induction false} StrNEqWholeString(ma: seq<Byte>, a: nat, mb: seq<Byte>, b: nat)
    ensures StrNEq(ma, a, mb, b, StrLen(ma, a) + 1) <==> CStr(ma, a) == CStr(mb, b)
    decreases |ma| - a
  {
    if ByteAt(ma, a) == 0 {
      assert |CStr(ma, a)| == 0;
      if ByteAt(mb, b) != 0 {
        CStrCons(mb, b);
      }
    } else {
      assert StrLen(ma, a) == 1 + StrLen(ma, a + 1);
      StrNEqWholeString(ma, a + 1, mb, b + 1);
      CStrCons(ma, a);
      CStrCons(mb, b);
      if ByteAt(mb, b) != 0 {
        assert CStr(ma, a) == CStr(mb, b) <==>
               ByteAt(ma, a) == ByteAt(mb, b) && CStr(ma, a + 1) == CStr(mb, b + 1) by {
          assert CStr(ma, a + 1) == CStr(ma, a)[1..];
          assert CStr(mb, b + 1) == CStr(mb, b)[1..];
        }
      }
    }
  }

  /** A non-empty string is its first byte followed by the rest; an empty one
      starts with its terminator. */
  lemma CStrCons(mem: seq<Byte>, addr: nat)
    ensures ByteAt(mem, addr) != 0 ==> CStr(mem, addr) == [ByteAt(mem, addr)] + CStr(mem, addr + 1)
    ensures ByteAt(mem, addr) == 0 ==> CStr(mem, addr) == []
  {
    if ByteAt(mem, addr) != 0 {
      BytesAtCons(mem, addr, StrLen(mem, addr));
    }
  }

  /** `strlen` is `n` when the first `n` bytes are not NUL and the next is. */
  lemma {:induction false} StrLenExact(mem: seq<Byte>, addr: nat, n: nat)
    requires 0 !in BytesAt(mem, addr, n)
    requires ByteAt(mem, addr + n) == 0
    ensures StrLen(mem, addr) == n
    decreases n
  {
    if n > 0 {
      BytesAtCons(mem, addr, n);
      assert BytesAt(mem, addr + 1, n - 1) == BytesAt(mem, addr, n)[1..];
      StrLenExact(mem, addr + 1, n - 1);
    }
  }

  /** `strncmp(a, b, n) == 0` does not depend on the order of its operands. */
  lemma {:induction false} StrNEqSymmetric(ma: seq<Byte>, a: nat, mb: seq<Byte>, b: nat, n: nat)
    ensures StrNEq(ma, a, mb, b, n) <==> StrNEq(mb, b, ma, a, n)
    decreases n
  {
    if n > 0 {
      StrNEqSymmetric(ma, a + 1, mb, b + 1, n - 1);
    }
  }
}

=== FILE: fields.dfy ===
/** Fixed-width fields of packed structures: the little-endian bytes of
    16-, 32- and 64-bit values. Kept apart from `Common` so that only the
    descriptor models see bit-vector types. */
module Fields {
  import opened Common

  /** The little-endian bytes of a 16-, 32- and 64-bit field. */
  function Bytes16(x: bv16): (bs: seq<Byte>)
    ensures |bs| == 2
  {
    LeBytes(x as int, 2)
  }

  function Bytes32(x: bv32): (bs: seq<Byte>)
    ensures |bs| == 4
  {
    LeBytes(x as int, 4)
  }

  function Bytes64(x: bv64): (bs: seq<Byte>)
    ensures |bs| == 8
  {
    LeBytes(x as int, 8)
  }
}

=== FILE: gdt.dfy ===
/** The global descriptor table and the task-state segment (gdt.c, gdt.h):
    nine 8-byte segment descriptors followed by one 16-byte TSS descriptor,
    in the formats of sections 3.4.5 and 7.2.3 of the Intel 64 and IA-32
    Architectures Software Developer's Manual, Volume 3A. */
module Gdt {
  import opened Common
  import opened Fields

  /** The access bytes gdt.h names. */
  const KernelCs: bv8 := 0x9A
  const KernelDs: bv8 := 0x92
  const UserCs: bv8 := 0xFA
  const UserDs: bv8 := 0xF2
  /** The flag nibbles gdt.h names, with limit bits 16-19. */
  const RealModeSeg: bv8 := 0x80
  const ProtModeSeg: bv8 := 0xCF

  const SegmentCount: nat := 9
  const SegmentSize: nat := 8
  const TssEntrySize: nat := 16
  /** `sizeof(tss_t)`: the packed structure has no reserved word before
      its I/O map base field. */
  const TssSize: nat := 102
  /** What `set_tss_entry` writes into the descriptor's limit field. */
  const TssLength: bv16 := 104
  /** `init_tss` describes the TSS with access 0x89 (present, available
      64-bit TSS) and flags 0x20. */
  const TssAccess: bv8 := 0x89
  const TssFlags: bv8 := 0x20
  /** What `initialize_gdt` loads into the task register and the GDTR limit. */
  const TssSelector: bv16 := 0x48
  const GdtLimit: bv16 := 87

  /** `gdt_entry_t`, field by field in memory order. */
  datatype Segment = Segment(limit: bv16, baseLow: bv16, baseMid: bv8, access: bv8,
                             limitAndFlags: bv8, baseHigh: bv8)

  /** `tss_entry_t`, field by field in memory order. */
  datatype TssEntry = TssEntry(length: bv16, baseLow: bv16, baseMid: bv8, flags1: bv8,
                               flags2: bv8, baseHigh: bv8, baseByte2: bv32, reserved: bv32)

  /** `tss_t`, field by field in memory order. */
  datatype Tss = Tss(reserved0: bv32, rsp0: bv64, rsp1: bv64, rsp2: bv64,
                     reserved1: bv32, reserved2: bv32,
                     ist1: bv64, ist2: bv64, ist3: bv64, ist4: bv64, ist5: bv64, ist6: bv64, ist7: bv64,
                     reserved3: bv32, reserved4: bv32, iobp: bv16)

  /** `gdt_t`: the segments and the TSS descriptor. */
  datatype Table = Table(segments: seq<Segment>, tss: TssEntry)

  /** `gdt_descriptor_t`: the GDTR image. */
  datatype Descriptor = Descriptor(limit: bv16, base: bv64)

  // The access byte, as gdt.h lays it out from bit 7 down: present, two
  // privilege bits, code/data (as opposed to system), executable,
  // direction/conforming, read/write, accessed.

  predicate Present(a: bv8) { a & 0x80 != 0 }
  function Privilege(a: bv8): bv8 { (a >> 5) & 3 }
  predicate CodeOrData(a: bv8) { a & 0x10 != 0 }
  predicate Executable(a: bv8) { a & 0x08 != 0 }
  predicate Conforming(a: bv8) { a & 0x04 != 0 }
  predicate ReadWrite(a: bv8) { a & 0x02 != 0 }
  predicate Accessed(a: bv8) { a & 0x01 != 0 }

  /** What a descriptor slot is for, as the comments in `initialize_gdt`
      label it. */
  datatype Kind = Null | KernelCode | KernelData | UserCode | UserData

  const Labels: seq<Kind> := [Null, KernelCode, KernelData, KernelCode, KernelData,
                              KernelCode, KernelData, UserCode, UserData]

  /** The access byte a present, readable/writable, expand-up, not yet
      accessed segment of kind `k` needs. */
  predicate AccessFor(a: bv8, k: Kind)
  {
    match k
    case Null => a == 0
    case _ =>
      Present(a) && CodeOrData(a) && ReadWrite(a) && !Conforming(a) && !Accessed(a)
      && Privilege(a) == (if k.KernelCode? || k.KernelData? then 0 else 3)
      && Executable(a) == (k.KernelCode? || k.UserCode?)
  }

  /** The four access bytes of gdt.h are exactly the bytes that decode to
      their descriptions: each kind has one access byte. */
  lemma AccessBytesDecode(a: bv8)
    ensures AccessFor(a, KernelCode) <==> a == KernelCs
    ensures AccessFor(a, KernelData) <==> a == KernelDs
    ensures AccessFor(a, UserCode) <==> a == UserCs
    ensures AccessFor(a, UserData) <==> a == UserDs
  {
  }

  /** A segment's 32-bit base, put back together from its three fields. */
  function SegmentBase(s: Segment): bv32
  {
    (s.baseLow as bv32) | ((s.baseMid as bv32) << 16) | ((s.baseHigh as bv32) << 24)
  }

  /** A flat segment: base 0 with the given limit, access and flags. */
  function Flat(limit: bv16, access: bv8, flags: bv8): (s: Segment)
    ensures SegmentBase(s) == 0 && s.access == access
  {
    Segment(limit, 0, 0, access, flags, 0)
  }

  /** The segments `initialize_gdt` writes, with the 16-bit data segment's
      access byte as written: the code-segment byte 0x9A. */
  const InitialSegmentsAsWritten: seq<Segment> :=
    [ Segment(0, 0, 0, 0, 0, 0),
      Flat(0xFFFF, KernelCs, RealModeSeg),
      Flat(0xFFFF, KernelCs, RealModeSeg),
      Flat(0xFFFF, KernelCs, ProtModeSeg),
      Flat(0xFFFF, KernelDs, ProtModeSeg),
      Flat(0, KernelCs, 0xA2),
      Flat(0, KernelDs, 0xA0),
      Flat(0, UserCs, 0x20),
      Flat(0, UserDs, 0) ]

  /** The segments with the 16-bit data segment given the data access byte
      its label calls for; every other entry is as written. */
  const InitialSegments: seq<Segment> := InitialSegmentsAsWritten[2 := Flat(0xFFFF, KernelDs, RealModeSeg)]

  /** As written, the slot labelled "16 bit kernel DS" is an executable
      segment, so it does not fit its label. */
  lemma DataSegmentIsCodeAsWritten()
    ensures Labels[2] == KernelData
    ensures Executable(InitialSegmentsAsWritten[2].access)
    ensures !AccessFor(InitialSegmentsAsWritten[2].access, Labels[2])
  {
  }

  /** With that corrected, every slot fits its label, the null descriptor is
      all zero, every base is 0, and the long-mode slots 5-8 are kernel
      code, kernel data, user code and user data. */
  lemma SegmentsFitLabels()
    ensures |InitialSegments| == SegmentCount
    ensures forall i :: 0 <= i < SegmentCount ==> AccessFor(InitialSegments[i].access, Labels[i])
    ensures forall i :: 0 <= i < SegmentCount ==> SegmentBase(InitialSegments[i]) == 0
    ensures InitialSegments[0] == Segment(0, 0, 0, 0, 0, 0)
    ensures Labels[5..] == [KernelCode, KernelData, UserCode, UserData]
  {
    forall i | 0 <= i < SegmentCount
      ensures AccessFor(InitialSegments[i].access, Labels[i])
    {
      AccessBytesDecode(InitialSegments[i].access);
    }
  }

  /** The 64-bit base a TSS descriptor designates: bits 0-15, 16-23, 24-31
      and 32-63 put back together. */
  function TssBase(e: TssEntry): bv64
  {
    (e.baseLow as bv64) | ((e.baseMid as bv64) << 16) | ((e.baseHigh as bv64) << 24)
    | ((e.baseByte2 as bv64) << 32)
  }

  /** `set_tss_entry`: the descriptor for a TSS at `base`; the segments are
      untouched. */
  function SetTssEntry(t: Table, base: bv64, flags: bv8, access: bv8): (r: Table)
    ensures r.segments == t.segments
    ensures TssBase(r.tss) == base
    ensures r.tss.length == TssLength && r.tss.reserved == 0
    ensures r.tss.flags1 == access && r.tss.flags2 == flags
  {
    Table(t.segments,
          TssEntry(TssLength, (base & 0xFFFF) as bv16, ((base >> 16) & 0xFF) as bv8, access, flags,
                   ((base >> 24) & 0xFF) as bv8, (base >> 32) as bv32, 0))
  }

  /** Descriptors with the same base, flags and access are the same
      descriptor: the split loses nothing. */
  lemma SetTssEntryInjective(t: Table, base1: bv64, base2: bv64, flags: bv8, access: bv8)
    ensures SetTssEntry(t, base1, flags, access) == SetTssEntry(t, base2, flags, access) <==> base1 == base2
  {
  }

  /** The packed bytes of a TSS, RSP0 at offset 4. */
  function TssBytes(s: Tss): (bs: seq<Byte>)
    ensures |bs| == TssSize
  {
    Bytes32(s.reserved0) + Bytes64(s.rsp0) + TssTail(s)
  }

  /** The TSS from RSP1 on: the other privilege-level stacks, the
      interrupt stacks and the trailer. */
  function TssTail(s: Tss): (bs: seq<Byte>)
    ensures |bs| == TssSize - 12
  {
    Bytes64(s.rsp1) + Bytes64(s.rsp2) + Bytes32(s.reserved1) + Bytes32(s.reserved2)
    + IstBytes(s) + Bytes32(s.reserved3) + Bytes32(s.reserved4) + Bytes16(s.iobp)
  }

  function IstBytes(s: Tss): (bs: seq<Byte>)
    ensures |bs| == 56
  {
    Bytes64(s.ist1) + Bytes64(s.ist2) + Bytes64(s.ist3) + Bytes64(s.ist4)
    + Bytes64(s.ist5) + Bytes64(s.ist6) + Bytes64(s.ist7)
  }

  /** What the `memset` leaves. */
  const ZeroTss: Tss := Tss(0, 0, 0, 0, 0, 0, 0, 0, 0, 0, 0, 0, 0, 0, 0, 0)

  /** `init_tss`: describe the TSS at `tssAddr` in the table, clear it and
      set RSP0 to `stack` (IST1 is set to the 0 it already holds). */
  function InitTss(t: Table, tssAddr: bv64, stack: bv64): (r: (Table, Tss))
    ensures r.0.segments == t.segments
    ensures TssBase(r.0.tss) == tssAddr
    ensures r.0.tss.flags1 == TssAccess && r.0.tss.flags2 == TssFlags
    ensures r.1.rsp0 == stack
  {
    (SetTssEntry(t, tssAddr, TssFlags, TssAccess), ZeroTss.(rsp0 := stack, ist1 := 0))
  }

  /** Every field but RSP0 of a zeroed TSS reads as zero bytes. */
  lemma ZeroTail()
    ensures TssTail(ZeroTss) == Zeros(TssSize - 12)
  {
    LeBytesZero(2);
    LeBytesZero(4);
    LeBytesZero(8);
    assert IstBytes(ZeroTss) == Zeros(56);
    assert TssTail(ZeroTss) == Zeros(8) + Zeros(8) + Zeros(4) + Zeros(4) + Zeros(56)
      + Zeros(4) + Zeros(4) + Zeros(2);
  }

  /** After `init_tss` the TSS's bytes are all zero except RSP0, which holds
      the stack pointer. */
  lemma InitTssBytes(t: Table, tssAddr: bv64, stack: bv64)
    ensures TssBytes(InitTss(t, tssAddr, stack).1) == Zeros(4) + Bytes64(stack) + Zeros(TssSize - 12)
  {
    LeBytesZero(4);
    ZeroTail();
    assert TssTail(InitTss(t, tssAddr, stack).1) == TssTail(ZeroTss);
  }

  function SegmentBytes(s: Segment): (bs: seq<Byte>)
    ensures |bs| == SegmentSize
  {
    Bytes16(s.limit) + Bytes16(s.baseLow) + [s.baseMid as Byte, s.access as Byte, s.limitAndFlags as Byte, s.baseHigh as Byte]
  }

  function SegmentsBytes(ss: seq<Segment>): (bs: seq<Byte>)
    ensures |bs| == SegmentSize * |ss|
  {
    if |ss| == 0 then [] else SegmentBytes(ss[0]) + SegmentsBytes(ss[1..])
  }

  function TssEntryBytes(e: TssEntry): (bs: seq<Byte>)
    ensures |bs| == TssEntrySize
  {
    Bytes16(e.length) + Bytes16(e.baseLow) + [e.baseMid as Byte, e.flags1 as Byte, e.flags2 as Byte, e.baseHigh as Byte]
    + Bytes32(e.baseByte2) + Bytes32(e.reserved)
  }

  /** The packed bytes of the whole table. */
  function TableBytes(t: Table): (bs: seq<Byte>)
    ensures |bs| == SegmentSize * |t.segments| + TssEntrySize
  {
    SegmentsBytes(t.segments) + TssEntryBytes(t.tss)
  }

  /** What `initialize_gdt` leaves: the table, the TSS, the GDTR image and
      the selector loaded into the task register. */
  datatype Loaded = Loaded(table: Table, tss: Tss, gdtr: Descriptor, taskRegister: bv16)

  /** `initialize_gdt` for a table at `gdtAddr` and a TSS at `tssAddr`. */
  function InitializeGdt(t: Table, stack: bv64, tssAddr: bv64, gdtAddr: bv64): (r: Loaded)
    ensures |r.table.segments| == SegmentCount
    ensures forall i :: 0 <= i < SegmentCount ==> AccessFor(r.table.segments[i].access, Labels[i])
    ensures TssBase(r.table.tss) == tssAddr && r.tss.rsp0 == stack
    ensures r.gdtr.base == gdtAddr
  {
    SegmentsFitLabels();
    var (table, tss) := InitTss(Table(InitialSegments, t.tss), tssAddr, stack);
    Loaded(table, tss, Descriptor(GdtLimit, gdtAddr), TssSelector)
  }

  /** In any table the TSS descriptor's bytes follow the segments'. */
  lemma TssEntryFollowsSegments(t: Table)
    ensures var bs := TableBytes(t); var off := SegmentSize * |t.segments|;
            bs[off..off + TssEntrySize] == TssEntryBytes(t.tss)
  {
  }

  /** The GDTR limit is the offset of the table's last byte, and the task
      register selects the TSS descriptor: its bytes start at offset 0x48,
      right after the nine segments. */
  lemma GdtLayout(t: Table, stack: bv64, tssAddr: bv64, gdtAddr: bv64)
    ensures var r := InitializeGdt(t, stack, tssAddr, gdtAddr);
            var bs := TableBytes(r.table);
            r.gdtr.limit as int == |bs| - 1 &&
            r.taskRegister as int + TssEntrySize <= |bs| &&
            bs[r.taskRegister as int .. r.taskRegister as int + TssEntrySize] == TssEntryBytes(r.table.tss)
  {
    var r := InitializeGdt(t, stack, tssAddr, gdtAddr);
    TssEntryFollowsSegments(r.table);
    assert TssSelector as int == 0x48 && GdtLimit as int == 87;
  }
}

=== FILE: heap.dfy ===
/** The kernel heap: one arena tiled by boundary-tagged blocks laid out as
    `[4-byte header | body | 4-byte footer]`. Each tag word holds the body
    size with the allocated flag in bit 0, and sizes are read through
    `SIZE_MASK = 0xFFFE`.

    The arena is a sequence of blocks; the byte offset of block `k` from
    `HEAP_START` is the sum of the footprints (body + 8) of the blocks before
    it, and pointers handed to callers are such offsets plus the header. The
    tag words that a merge turns into body bytes, and the tag words a split
    writes into a body, appear there as their little-endian bytes. */
module Heap {
  import opened Common

  const HeaderSize: nat := 4
  const FooterSize: nat := 4
  const MdataSize: nat := 8
  const SizeMask: nat := 0xFFFE

  /** The largest arena whose single initial block has a representable
      size: `SIZE_MASK + MDATA_SIZE`. */
  const MaxHeapSize: nat := 0xFFFE + 8

  datatype Block = Block(header: nat, body: seq<Byte>, footer: nat)

  /** `tag & SIZE_MASK`. */
  function Size(tag: nat): (s: nat)
    ensures s % 2 == 0 && s <= SizeMask
    ensures tag < 0x10000 && tag % 2 == 0 ==> s == tag
  {
    tag % 0x10000 - tag % 2
  }

  /** `tag & 1`. */
  predicate Allocated(tag: nat)
  {
    tag % 2 == 1
  }

  /** `size | allocated` for an even size. */
  function Tag(size: nat, used: bool): nat
  {
    size + (if used then 1 else 0)
  }

  lemma TagFields(size: nat, used: bool)
    requires size % 2 == 0 && size <= SizeMask
    ensures Size(Tag(size, used)) == size
    ensures Allocated(Tag(size, used)) == used
    ensures Tag(size, used) < 0x10000
  {
    var t := Tag(size, used);
    assert t % 0x10000 == t;
    assert t % 2 == (if used then 1 else 0);
  }

  /** The header's size field describes the body, and fits the mask. */
  predicate Sized(b: Block)
  {
    b.header < 0x10000 && Size(b.header) == |b.body|
  }

  /** What a sized block's tag says about its body. */
  lemma SizedFacts(b: Block)
    requires Sized(b)
    ensures |b.body| % 2 == 0 && |b.body| <= SizeMask && b.header < Two32
  {
  }

  /** Header and footer hold the same tag word. */
  predicate Agree(b: Block)
  {
    b.footer == b.header
  }

  function Footprint(b: Block): nat
  {
    |b.body| + MdataSize
  }

  /** Byte offset of block `k`'s header from the start of the run `a`: the
      footprints of the blocks in front of it. */
  function Offset(a: seq<Block>, k: nat): nat
    requires k <= |a|
  {
    if k == 0 then 0 else Offset(a, k - 1) + Footprint(a[k - 1])
  }

  /** Total footprint of a run of blocks. */
  function Span(bs: seq<Block>): nat
  {
    Offset(bs, |bs|)
  }

  /** A well-formed arena: every block is sized and agrees, and the arena is
      small enough that every block size stays representable. */
  predicate WellFormed(a: seq<Block>)
  {
    && |a| >= 1
    && BlocksOk(a)
    && Span(a) <= MaxHeapSize
  }

  /** Every block of the run is sized and agrees. */
  predicate BlocksOk(bs: seq<Block>)
  {
    forall k :: 0 <= k < |bs| ==> Sized(bs[k]) && Agree(bs[k])
  }

  /** No two adjacent blocks are free. */
  predicate Coalesced(a: seq<Block>)
  {
    forall k :: 0 <= k < |a| - 1 ==> Allocated(a[k].header) || Allocated(a[k + 1].header)
  }

  // ---------------------------------------------------------------------
  // Offsets

  /** Two runs that hold the same `len` blocks from `p` and from `q` give
      those blocks the same total footprint. */
  lemma {:induction false} OffsetShift(r: seq<Block>, x: seq<Block>, p: nat, q: nat, len: nat)
    requires p + len <= |r| && q + len <= |x|
    requires forall t :: p <= t < p + len ==> r[t] == x[t - p + q]
    ensures Offset(r, p + len) - Offset(r, p) == Offset(x, q + len) - Offset(x, q)
    decreases len
  {
    if len > 0 {
      OffsetShift(r, x, p, q, len - 1);
      var i, j := p + len - 1, q + len - 1;
      assert r[i] == x[j];
      assert Offset(r, i + 1) == Offset(r, i) + Footprint(r[i]);
      assert Offset(x, j + 1) == Offset(x, j) + Footprint(x[j]);
    }
  }

  lemma {:induction false} OffsetMonotone(a: seq<Block>, j: nat, k: nat)
    requires j < k <= |a|
    ensures Offset(a, j) + Footprint(a[j]) <= Offset(a, k)
    decreases k - j
  {
    if j + 1 < k {
      OffsetMonotone(a, j + 1, k);
    }
  }

  lemma OffsetBelowSpan(a: seq<Block>, k: nat)
    requires k <= |a|
    ensures Offset(a, k) <= Span(a)
  {
    if k < |a| {
      OffsetMonotone(a, k, |a|);
    }
  }

  /** Every block after `k` starts before the end of the run. */
  lemma LaterBelowSpan(a: seq<Block>, k: nat)
    requires k < |a|
    ensures k + 1 < |a| ==> Offset(a, k + 1) < Span(a)
  {
    if k + 1 < |a| {
      OffsetMonotone(a, k + 1, |a|);
    }
  }

  /** Offsets depend only on the blocks in front. */
  lemma OffsetPrefix(a: seq<Block>, b: seq<Block>, k: nat)
    requires k <= |a| && k <= |b| && a[..k] == b[..k]
    ensures Offset(a, k) == Offset(b, k)
  {
    assert forall t :: 0 <= t < k ==> a[t] == a[..k][t];
    OffsetShift(a, b, 0, 0, k);
  }

  /** Replacing blocks `[i, j)` of `a` by a run `mid` of the same footprint
      keeps the span, the offsets in front, and the offsets of the blocks
      after them; inside `mid` the offsets are those of `mid` shifted to
      block `i`'s offset. */
  lemma Replace(a: seq<Block>, i: nat, j: nat, mid: seq<Block>)
    requires i <= j <= |a| && Offset(a, i) + Span(mid) == Offset(a, j)
    ensures var r := a[..i] + mid + a[j..];
      && Span(r) == Span(a)
      && (forall m {:trigger Offset(a, m)} :: 0 <= m <= i ==> Offset(r, m) == Offset(a, m))
      && (forall t {:trigger Offset(mid, t)} :: 0 <= t <= |mid| ==> Offset(r, i + t) == Offset(a, i) + Offset(mid, t))
      && (forall m {:trigger Offset(a, m)} :: j <= m <= |a| ==> Offset(r, m - j + i + |mid|) == Offset(a, m))
  {
    ConcatAt(a, i, j, mid);
    ReplaceCore(a, a[..i] + mid + a[j..], i, j, mid);
  }

  /** The blocks of `a[..i] + mid + a[j..]`, one by one. */
  lemma ConcatAt(a: seq<Block>, i: nat, j: nat, mid: seq<Block>)
    requires i <= j <= |a|
    ensures var r := a[..i] + mid + a[j..];
      && |r| == i + |mid| + (|a| - j)
      && (forall t {:trigger r[t]} :: 0 <= t < i ==> r[t] == a[t])
      && (forall t :: i <= t < i + |mid| ==> r[t] == mid[t - i])
      && (forall t :: i + |mid| <= t < |r| ==> r[t] == a[t - i - |mid| + j])
  {
  }

  /** Splicing well-formed blocks over the same bytes into a well-formed
      arena keeps it well-formed, with the offsets `ReplaceCore` gives. */
  lemma SpliceWellFormed(a: seq<Block>, i: nat, j: nat, mid: seq<Block>)
    requires WellFormed(a) && i <= j <= |a| && |mid| >= 1 && BlocksOk(mid)
    requires Offset(a, i) + Span(mid) == Offset(a, j)
    ensures var r := a[..i] + mid + a[j..];
      && WellFormed(r) && Span(r) == Span(a)
      && (forall m {:trigger Offset(a, m)} :: 0 <= m <= i ==> Offset(r, m) == Offset(a, m))
      && (forall m {:trigger Offset(a, m)} :: j <= m <= |a| ==> Offset(r, m - j + i + |mid|) == Offset(a, m))
  {
    var r := a[..i] + mid + a[j..];
    ConcatAt(a, i, j, mid);
    ReplaceCore(a, r, i, j, mid);
    forall t | 0 <= t < |r|
      ensures Sized(r[t]) && Agree(r[t])
    {
      if t < i {
        assert r[t] == a[t];
      } else if t < i + |mid| {
        assert r[t] == mid[t - i];
      } else {
        assert r[t] == a[t - i - |mid| + j];
      }
    }
  }

  /** `Replace` for a run `r` given by its blocks. */
  lemma ReplaceCore(a: seq<Block>, r: seq<Block>, i: nat, j: nat, mid: seq<Block>)
    requires i <= j <= |a| && Offset(a, i) + Span(mid) == Offset(a, j)
    requires |r| == i + |mid| + (|a| - j)
    requires forall t {:trigger r[t]} :: 0 <= t < i ==> r[t] == a[t]
    requires forall t :: i <= t < i + |mid| ==> r[t] == mid[t - i]
    requires forall t :: i + |mid| <= t < |r| ==> r[t] == a[t - i - |mid| + j]
    ensures Span(r) == Span(a)
    ensures forall m {:trigger Offset(a, m)} :: 0 <= m <= i ==> Offset(r, m) == Offset(a, m)
    ensures forall t {:trigger Offset(mid, t)} :: 0 <= t <= |mid| ==> Offset(r, i + t) == Offset(a, i) + Offset(mid, t)
    ensures forall m {:trigger Offset(a, m)} :: j <= m <= |a| ==> Offset(r, m - j + i + |mid|) == Offset(a, m)
  {
    ReplaceFront(r, a, i);
    ReplaceMid(r, mid, i);
    var p := i + |mid|;
    ReplaceBack(r, a, p, j);
    forall m | j <= m <= |a|
      ensures Offset(r, m - j + i + |mid|) == Offset(a, m)
    {
      assert m - j + i + |mid| == m - j + p;
    }
    assert Span(r) == Offset(r, |a| - j + p);
  }

  lemma {:induction false} ReplaceFront(r: seq<Block>, a: seq<Block>, n: nat)
    requires n <= |r| && n <= |a|
    requires forall t {:trigger r[t]} :: 0 <= t < n ==> r[t] == a[t]
    ensures forall m {:trigger Offset(a, m)} :: 0 <= m <= n ==> Offset(r, m) == Offset(a, m)
  {
    if n > 0 {
      ReplaceFront(r, a, n - 1);
      assert r[n - 1] == a[n - 1];
    }
  }

  /** A run that holds `mid` from block `i` on gives those blocks `mid`'s
      offsets, shifted. */
  lemma ReplaceMid(r: seq<Block>, mid: seq<Block>, i: nat)
    requires i + |mid| <= |r|
    requires forall t :: i <= t < i + |mid| ==> r[t] == mid[t - i]
    ensures forall t {:trigger Offset(mid, t)} :: 0 <= t <= |mid| ==> Offset(r, i + t) == Offset(r, i) + Offset(mid, t)
  {
    forall t | 0 <= t <= |mid|
      ensures Offset(r, i + t) == Offset(r, i) + Offset(mid, t)
    {
      OffsetShift(r, mid, i, 0, t);
    }
  }

  /** A run whose blocks from `p` on are those of `a` from `j` on keeps
      their offsets relative to `p` and `j`. */
  lemma ReplaceBack(r: seq<Block>, a: seq<Block>, p: nat, j: nat)
    requires p <= |r| && j <= |a| && |r| - p == |a| - j
    requires forall t :: p <= t < |r| ==> r[t] == a[t - p + j]
    ensures forall m {:trigger Offset(a, m)} :: j <= m <= |a| ==> Offset(r, m - j + p) == Offset(r, p) + Offset(a, m) - Offset(a, j)
  {
    forall m | j <= m <= |a|
      ensures Offset(r, m - j + p) == Offset(r, p) + Offset(a, m) - Offset(a, j)
    {
      OffsetShift(r, a, p, j, m - j);
    }
  }

  /** Replacing one block by one of the same footprint keeps every offset. */
  lemma ReplaceOne(a: seq<Block>, k: nat, b: Block)
    requires k < |a| && Footprint(b) == Footprint(a[k])
    ensures Span(a[k := b]) == Span(a)
    ensures forall m {:trigger Offset(a, m)} :: 0 <= m <= |a| ==> Offset(a[k := b], m) == Offset(a, m)
  {
    var r := a[k := b];
    forall m | 0 <= m <= |a|
      ensures Offset(r, m) == Offset(a, m)
    {
      if m <= k {
        OffsetShift(r, a, 0, 0, m);
      } else {
        OffsetShift(r, a, 0, 0, k);
        OffsetShift(r, a, k + 1, k + 1, m - k - 1);
      }
    }
  }

  // ---------------------------------------------------------------------
  // init_heap and map_heap

  /** `init_heap`: one block spanning the arena, whose header and footer
      both hold `heap_size - 8`. The arena's initial bytes are a parameter;
      `AllocContiguous` and the higher-half offset are not modelled. */
  function InitHeap(heapSize: nat, contents: seq<Byte>): (a: seq<Block>)
    requires 8 <= heapSize && heapSize - 8 < Two32
    requires |contents| == heapSize - 8
    ensures |a| == 1 && Span(a) == heapSize
    ensures a[0].header == heapSize - MdataSize && a[0].footer == a[0].header
  {
    var b := Block(heapSize - MdataSize, contents, heapSize - MdataSize);
    assert Offset([b], 0) == 0;
    [b]
  }

  /** The initial arena is well-formed exactly when the heap size is even
      and at most `SIZE_MASK + 8`: an odd size reads as allocated, a larger
      one does not fit the size field. */
  lemma InitHeapWellFormed(heapSize: nat, contents: seq<Byte>)
    requires 8 <= heapSize && heapSize - 8 < Two32
    requires |contents| == heapSize - 8
    ensures WellFormed(InitHeap(heapSize, contents)) <==> heapSize % 2 == 0 && heapSize <= MaxHeapSize
    ensures Coalesced(InitHeap(heapSize, contents))
  {
    var a := InitHeap(heapSize, contents);
    if heapSize % 2 == 0 && heapSize <= MaxHeapSize {
      assert Sized(a[0]);
    }
    if WellFormed(a) {
      assert Sized(a[0]);
    }
  }

  /** `map_heap`'s rounding of the heap size up to whole 4 KiB pages (the
      mapping itself is not modelled). */
  function MapHeapBytes(heapSize: nat): (r: nat)
    ensures r % 0x1000 == 0
    ensures heapSize <= r < heapSize + 0x1000
  {
    (heapSize + 0x1000 - 1) / 0x1000 * 0x1000
  }

  // ---------------------------------------------------------------------
  // Navigation

  /** The pointer to block `k`'s body: its offset plus the header word. */
  function BodyPtr(a: seq<Block>, k: nat): nat
    requires k <= |a|
  {
    Offset(a, k) + HeaderSize
  }

  /** The block whose body starts at `ptr`, searching from block `k`. */
  function BlockFrom(a: seq<Block>, ptr: nat, k: nat): (r: Option<nat>)
    requires k <= |a|
    ensures r.Some? ==> k <= r.value < |a| && BodyPtr(a, r.value) == ptr
    ensures r.None? ==> forall j :: k <= j < |a| ==> BodyPtr(a, j) != ptr
    decreases |a| - k
  {
    if k == |a| then None
    else if BodyPtr(a, k) == ptr then Some(k)
    else BlockFrom(a, ptr, k + 1)
  }

  /** The block whose body the pointer `ptr` designates, if any. */
  function BlockAt(a: seq<Block>, ptr: nat): (r: Option<nat>)
  {
    BlockFrom(a, ptr, 0)
  }

  /** Body pointers designate their own block: offsets strictly increase. */
  lemma BlockAtOffset(a: seq<Block>, k: nat)
    requires k < |a|
    ensures BlockAt(a, BodyPtr(a, k)) == Some(k)
  {
    var ptr := BodyPtr(a, k);
    forall j | 0 <= j < k
      ensures BodyPtr(a, j) != ptr
    {
      OffsetMonotone(a, j, k);
    }
    BlockFromFinds(a, ptr, 0, k);
  }

  lemma BlockAtIs(a: seq<Block>, k: nat, ptr: nat)
    requires k < |a| && BodyPtr(a, k) == ptr
    ensures BlockAt(a, ptr) == Some(k)
  {
    BlockAtOffset(a, k);
  }

  /** No body pointer lies strictly inside the first bytes of block `k`'s
      body: the next one is a whole footer and header further on. */
  lemma NoBodyPtrInside(a: seq<Block>, k: nat)
    requires k < |a|
    ensures BlockAt(a, BodyPtr(a, k) + HeaderSize).None?
  {
    var ptr := BodyPtr(a, k) + HeaderSize;
    forall j | 0 <= j < |a|
      ensures BodyPtr(a, j) != ptr
    {
      if j < k {
        OffsetMonotone(a, j, k);
      } else if k < j {
        OffsetMonotone(a, k, j);
      }
    }
  }

  lemma {:induction false} BlockFromFinds(a: seq<Block>, ptr: nat, i: nat, k: nat)
    requires i <= k < |a| && BodyPtr(a, k) == ptr
    requires forall j :: i <= j < k ==> BodyPtr(a, j) != ptr
    ensures BlockFrom(a, ptr, i) == Some(k)
    decreases k - i
  {
    if i < k {
      BlockFromFinds(a, ptr, i + 1, k);
    }
  }

  /** `next_header`: the header after block `k`, at header + 4 + size + 4,
      or none when that is the end of the arena. */
  function NextHeader(a: seq<Block>, k: nat): (r: Option<nat>)
    requires WellFormed(a) && k < |a|
    ensures r.None? <==> k == |a| - 1
    ensures r.Some? ==> r.value == Offset(a, k + 1)
  {
    LaterBelowSpan(a, k);
    var n := Offset(a, k) + HeaderSize + Size(a[k].header) + FooterSize;
    if n == Span(a) then None else Some(n)
  }

  /** `prev_footer`, applied to block `k`'s footer: none when block `k`
      starts the arena, else the footer just in front of `k`'s header. */
  function PrevFooter(a: seq<Block>, k: nat): (r: Option<nat>)
    requires WellFormed(a) && k < |a|
    ensures r.None? <==> k == 0
    ensures r.Some? ==> r.value == Offset(a, k - 1) + HeaderSize + |a[k - 1].body|
  {
    var footer := Offset(a, k) + HeaderSize + Size(a[k].header);
    var start := footer - Size(a[k].footer) - HeaderSize;
    if start == 0 then None else Some(start - FooterSize)
  }

  // ---------------------------------------------------------------------
  // split_block

  /** Stores the little-endian bytes of `w` at `p`. */
  function WriteWord(bytes: seq<Byte>, p: nat, w: Word32): (r: seq<Byte>)
    requires p + 4 <= |bytes|
    ensures |r| == |bytes| && r[..p] == bytes[..p] && r[p..p + 4] == LeBytes32(w)
  {
    bytes[..p] + LeBytes32(w) + bytes[p + 4..]
  }

  /** The whole-block branch of `split_block`, corrected: the tag is first
      stored at `header + 4 + alloc_size` (inside the body, or running into
      the footer), then header and the real footer are set to
      `block_size | 1`. */
  function WholeBlock(b: Block, alloc: nat): (r: Block)
    requires Sized(b) && Agree(b) && alloc < |b.body| && alloc % 2 == 0
    ensures Sized(r) && Agree(r) && Allocated(r.header)
    ensures |r.body| == |b.body| && r.body[..alloc] == b.body[..alloc]
  {
    var bs := |b.body|;
    SizedFacts(b);
    var t := WriteWord(b.body + LeBytes32(b.footer), alloc, alloc + 1);
    TagFields(bs, true);
    PrefixOfWrite(b.body, LeBytes32(b.footer), t, alloc);
    Block(bs + 1, t[..bs], bs + 1)
  }

  /** A word written at `alloc` inside `body + tail` leaves `body`'s
      first `alloc` bytes. */
  lemma PrefixOfWrite(body: seq<Byte>, tail: seq<Byte>, t: seq<Byte>, alloc: nat)
    requires alloc <= |body| && |t| == |body| + |tail|
    requires t[..alloc] == (body + tail)[..alloc]
    ensures t[..|body|][..alloc] == body[..alloc]
  {
    assert (body + tail)[..alloc] == body[..alloc];
  }

  /** The whole-block branch as written (lines 281, 294-295): the second tag
      store goes to `header + 4 + alloc_size` again instead of the footer, so
      the real footer keeps its old word (or, when it is 2 bytes further,
      gets the store's upper half). */
  function WholeBlockAsWritten(b: Block, alloc: nat): (r: Block)
    requires Sized(b) && Agree(b) && alloc < |b.body| && alloc % 2 == 0
    ensures Allocated(r.header) && |r.body| == |b.body|
  {
    var bs := |b.body|;
    SizedFacts(b);
    var t := WriteWord(b.body + LeBytes32(b.footer), alloc, alloc + 1);
    var t2 := WriteWord(t, alloc, bs + 1);
    TagFields(bs, true);
    Block(bs + 1, t2[..bs], LeValue(t2[bs..]))
  }

  /** Splitting a free 12-byte block for 6 bytes, as written, leaves its
      header saying allocated and its footer saying free. */
  lemma WholeBlockTagsDisagree()
    ensures var b := Block(12, seq(12, _ => 0), 12);
      var r := WholeBlockAsWritten(b, 6);
      Allocated(r.header) && !Allocated(r.footer) && !Agree(r)
  {
    var b := Block(12, seq(12, _ => 0), 12);
    var t := WriteWord(b.body + LeBytes32(b.footer), 6, 7);
    var t2 := WriteWord(t, 6, 13);
    assert t2[12..] == LeBytes32(12);
    LeBytes32RoundTrip(12);
  }

  /** `split_block` on block `k`, with the whole-block branch corrected:
      none if the block is smaller than the request; a re-tag when it
      fits exactly; the whole block when the rest could not hold a block's
      tags; otherwise an allocated front of exactly `alloc` bytes and a
      free remainder of `block_size - alloc - 8` bytes. */
  function SplitBlock(a: seq<Block>, k: nat, alloc: nat): (r: Option<seq<Block>>)
    requires WellFormed(a) && k < |a| && alloc % 2 == 0
  {
    var b := a[k];
    var bs := |b.body|;
    if bs < alloc then None
    else if alloc == bs then Some(a[k := Block(alloc + 1, b.body, alloc + 1)])
    else if bs < alloc + MdataSize then Some(a[k := WholeBlock(b, alloc)])
    else Some(a[..k] + Halves(b, alloc) + a[k + 1..])
  }

  /** The two blocks `split_block` cuts a block into: an allocated front of
      `alloc` bytes, then a free block of what is left after a new footer
      and header. */
  function Halves(b: Block, alloc: nat): (h: seq<Block>)
    requires alloc + MdataSize <= |b.body|
    ensures |h| == 2
  {
    var rest := |b.body| - alloc - MdataSize;
    [Block(alloc + 1, b.body[..alloc], alloc + 1), Block(rest, b.body[alloc + MdataSize..], rest)]
  }

  /** The halves are well-formed blocks over the bytes of the block they
      come from. */
  lemma HalvesSpec(b: Block, alloc: nat)
    requires Sized(b) && alloc % 2 == 0 && alloc + MdataSize <= |b.body|
    ensures BlocksOk(Halves(b, alloc)) && Span(Halves(b, alloc)) == Footprint(b)
    ensures Allocated(Halves(b, alloc)[0].header) && !Allocated(Halves(b, alloc)[1].header)
  {
    var h := Halves(b, alloc);
    var rest := |b.body| - alloc - MdataSize;
    SizedFacts(b);
    TagFields(alloc, true);
    TagFields(rest, false);
    assert Offset(h, 1) == alloc + MdataSize;
  }

  /** What `split_block` guarantees. */
  lemma SplitBlockSpec(a: seq<Block>, k: nat, alloc: nat)
    requires WellFormed(a) && k < |a| && alloc % 2 == 0
    ensures SplitBlock(a, k, alloc).None? <==> |a[k].body| < alloc
    ensures SplitBlock(a, k, alloc).Some? ==>
      var r := SplitBlock(a, k, alloc).value;
      && WellFormed(r) && Span(r) == Span(a)
      && r[..k] == a[..k] && Offset(r, k) == Offset(a, k)
      && Allocated(r[k].header) && alloc <= |r[k].body|
      && r[k].body[..alloc] == a[k].body[..alloc]
      && (Coalesced(a) && (k + 1 < |a| ==> Allocated(a[k + 1].header)) ==> Coalesced(r))
      && (if |a[k].body| < alloc + MdataSize then
            |r| == |a| && r[k + 1..] == a[k + 1..] && |r[k].body| == |a[k].body|
          else
            && |r| == |a| + 1 && |r[k].body| == alloc
            && !Allocated(r[k + 1].header) && |r[k + 1].body| == |a[k].body| - alloc - MdataSize
            && r[k + 2..] == a[k + 1..])
  {
    var b := a[k];
    var bs := |b.body|;
    if alloc == bs {
      TagFields(alloc, true);
      ReplaceAllocated(a, k, Block(alloc + 1, b.body, alloc + 1));
    } else if alloc < bs < alloc + MdataSize {
      ReplaceAllocated(a, k, WholeBlock(b, alloc));
    } else if alloc + MdataSize <= bs {
      SplitInTwo(a, k, alloc);
    }
  }

  /** The part of `split_block`'s promise every caller relies on: when the
      block is big enough, the split succeeds and block `k` is allocated at
      the same offset, keeping the first `alloc` bytes of its body. */
  lemma SplitKeeps(a: seq<Block>, k: nat, alloc: nat)
    requires WellFormed(a) && k < |a| && alloc % 2 == 0 && alloc <= |a[k].body|
    ensures SplitBlock(a, k, alloc).Some?
    ensures var r := SplitBlock(a, k, alloc).value;
      && WellFormed(r) && Span(r) == Span(a) && k < |r|
      && r[..k] == a[..k] && Offset(r, k) == Offset(a, k)
      && Allocated(r[k].header) && alloc <= |r[k].body|
      && r[k].body[..alloc] == a[k].body[..alloc]
  {
    SplitBlockSpec(a, k, alloc);
  }

  /** Re-tagging block `k` as an allocated block of the same size keeps the
      arena well-formed, its offsets, and its coalescing. */
  lemma ReplaceAllocated(a: seq<Block>, k: nat, b: Block)
    requires WellFormed(a) && k < |a|
    requires Sized(b) && Agree(b) && Allocated(b.header) && |b.body| == |a[k].body|
    ensures WellFormed(a[k := b]) && Span(a[k := b]) == Span(a)
    ensures a[k := b][..k] == a[..k] && a[k := b][k + 1..] == a[k + 1..]
    ensures forall m {:trigger Offset(a, m)} :: 0 <= m <= |a| ==> Offset(a[k := b], m) == Offset(a, m)
    ensures Coalesced(a) ==> Coalesced(a[k := b])
  {
    ReplaceOne(a, k, b);
  }

  /** The two-block branch of `split_block`. */
  lemma SplitInTwo(a: seq<Block>, k: nat, alloc: nat)
    requires WellFormed(a) && k < |a| && alloc % 2 == 0
    requires alloc + MdataSize <= |a[k].body|
    ensures
      var r := SplitBlock(a, k, alloc).value;
      && WellFormed(r) && Span(r) == Span(a)
      && (forall m {:trigger Offset(a, m)} :: 0 <= m <= k ==> Offset(r, m) == Offset(a, m))
      && (forall m {:trigger Offset(a, m)} :: k < m <= |a| ==> Offset(r, m + 1) == Offset(a, m))
      && r[..k] == a[..k] && Offset(r, k) == Offset(a, k)
      && Allocated(r[k].header) && |r[k].body| == alloc
      && r[k].body == a[k].body[..alloc]
      && |r| == |a| + 1 && r[k + 2..] == a[k + 1..]
      && !Allocated(r[k + 1].header) && |r[k + 1].body| == |a[k].body| - alloc - MdataSize
      && (Coalesced(a) && (k + 1 < |a| ==> Allocated(a[k + 1].header)) ==> Coalesced(r))
  {
    SplitInTwoArena(a, k, alloc);
    SplitInTwoHalves(a, k, alloc);
    if Coalesced(a) && (k + 1 < |a| ==> Allocated(a[k + 1].header)) {
      var h := Halves(a[k], alloc);
      assert SplitBlock(a, k, alloc).value == a[..k] + h + a[k + 1..];
      SpliceCoalesced2(a, k, h);
    }
  }

  /** The arena side of the two-block split: one block more, the blocks
      in front at their offsets, the blocks behind one index further. */
  lemma SplitInTwoArena(a: seq<Block>, k: nat, alloc: nat)
    requires WellFormed(a) && k < |a| && alloc % 2 == 0
    requires alloc + MdataSize <= |a[k].body|
    ensures
      var r := SplitBlock(a, k, alloc).value;
      && WellFormed(r) && Span(r) == Span(a)
      && (forall m {:trigger Offset(a, m)} :: 0 <= m <= k ==> Offset(r, m) == Offset(a, m))
      && (forall m {:trigger Offset(a, m)} :: k < m <= |a| ==> Offset(r, m + 1) == Offset(a, m))
      && r[..k] == a[..k] && Offset(r, k) == Offset(a, k)
      && |r| == |a| + 1 && r[k + 2..] == a[k + 1..]
  {
    SplitInTwoFront(a, k, alloc);
    SplitInTwoBack(a, k, alloc);
  }

  lemma SplitInTwoFront(a: seq<Block>, k: nat, alloc: nat)
    requires WellFormed(a) && k < |a| && alloc % 2 == 0
    requires alloc + MdataSize <= |a[k].body|
    ensures
      var r := SplitBlock(a, k, alloc).value;
      && WellFormed(r) && Span(r) == Span(a)
      && (forall m {:trigger Offset(a, m)} :: 0 <= m <= k ==> Offset(r, m) == Offset(a, m))
      && r[..k] == a[..k] && Offset(r, k) == Offset(a, k)
      && |r| == |a| + 1 && r[k + 2..] == a[k + 1..]
  {
    var h := Halves(a[k], alloc);
    var r := a[..k] + h + a[k + 1..];
    assert SplitBlock(a, k, alloc).value == r;
    assert Offset(a, k + 1) == Offset(a, k) + Footprint(a[k]);
    assert Sized(a[k]);
    HalvesSpec(a[k], alloc);
    SpliceWellFormed(a, k, k + 1, h);
    ConcatAt(a, k, k + 1, h);
    assert r[..k] == a[..k];
    assert r[k + 2..] == a[k + 1..];
  }

  lemma SplitInTwoBack(a: seq<Block>, k: nat, alloc: nat)
    requires WellFormed(a) && k < |a| && alloc % 2 == 0
    requires alloc + MdataSize <= |a[k].body|
    ensures
      var r := SplitBlock(a, k, alloc).value;
      && |r| == |a| + 1
      && (forall m {:trigger Offset(a, m)} :: k < m <= |a| ==> Offset(r, m + 1) == Offset(a, m))
  {
    var h := Halves(a[k], alloc);
    var r := a[..k] + h + a[k + 1..];
    assert SplitBlock(a, k, alloc).value == r;
    assert Offset(a, k + 1) == Offset(a, k) + Footprint(a[k]);
    assert Sized(a[k]);
    HalvesSpec(a[k], alloc);
    forall m | k < m <= |a|
      ensures Offset(r, m + 1) == Offset(a, m)
    {
      SpliceOffsetAt(a, k, k + 1, h, m, m + 1);
    }
  }


  /** One instance of the back offsets of `SpliceWellFormed`, with the
      shifted index given as `n`. */
  lemma SpliceOffsetAt(a: seq<Block>, i: nat, j: nat, mid: seq<Block>, m: nat, n: nat)
    requires WellFormed(a) && i <= j <= |a| && |mid| >= 1 && BlocksOk(mid)
    requires Offset(a, i) + Span(mid) == Offset(a, j)
    requires j <= m <= |a| && n == m - j + i + |mid|
    ensures n <= |a[..i] + mid + a[j..]| && Offset(a[..i] + mid + a[j..], n) == Offset(a, m)
  {
    SpliceWellFormed(a, i, j, mid);
  }

  /** The two halves of the two-block split: an allocated block of
      `alloc` bytes holding the body's front, then a free remainder. */
  lemma SplitInTwoHalves(a: seq<Block>, k: nat, alloc: nat)
    requires WellFormed(a) && k < |a| && alloc % 2 == 0
    requires alloc + MdataSize <= |a[k].body|
    ensures
      var r := SplitBlock(a, k, alloc).value;
      && k + 1 < |r|
      && Allocated(r[k].header) && |r[k].body| == alloc
      && r[k].body == a[k].body[..alloc]
      && !Allocated(r[k + 1].header) && |r[k + 1].body| == |a[k].body| - alloc - MdataSize
  {
    var h := Halves(a[k], alloc);
    var r := a[..k] + h + a[k + 1..];
    assert SplitBlock(a, k, alloc).value == r;
    assert Sized(a[k]);
    HalvesSpec(a[k], alloc);
    assert r[k] == h[0] && r[k + 1] == h[1];
  }


  /** Splitting block `k` of a coalesced arena, when the block after it is
      allocated, into an allocated and a free half keeps it coalesced. */
  lemma SpliceCoalesced2(a: seq<Block>, k: nat, h: seq<Block>)
    requires k < |a| && |h| == 2 && Coalesced(a)
    requires Allocated(h[0].header) && (k + 1 < |a| ==> Allocated(a[k + 1].header))
    ensures Coalesced(a[..k] + h + a[k + 1..])
  {
    var r := a[..k] + h + a[k + 1..];
    ConcatAt(a, k, k + 1, h);
    forall m | 0 <= m < |r| - 1
      ensures Allocated(r[m].header) || Allocated(r[m + 1].header)
    {
      if m + 1 < k {
        assert r[m] == a[m] && r[m + 1] == a[m + 1];
      } else if m > k + 1 {
        assert r[m] == a[m - 1] && r[m + 1] == a[m];
      } else if m == k + 1 {
        assert r[m + 1] == a[k + 1];
      }
    }
  }

  // ---------------------------------------------------------------------
  // merge_block

  /** The block that merging `b1` with its successor `b2` yields: size
      `s1 + s2 + 8` (`merge_size`), the first block's allocated flag, and a
      body holding `b1`'s footer and `b2`'s header as bytes. */
  function Merged(b1: Block, b2: Block): (m: Block)
    requires b1.footer < Two32 && b2.header < Two32
    ensures |m.body| == |b1.body| + |b2.body| + MdataSize
    ensures m.body[..|b1.body|] == b1.body
  {
    var tag := Tag(|b1.body| + |b2.body| + MdataSize, Allocated(b1.header));
    var body := b1.body + LeBytes32(b1.footer) + LeBytes32(b2.header) + b2.body;
    assert body[..|b1.body|] == b1.body;
    Block(tag, body, tag)
  }

  /** `merge_block(k, j)`: refuses unless `j` is the block right after `k`. */
  function MergeBlock(a: seq<Block>, k: nat, j: nat): (r: Option<seq<Block>>)
    requires WellFormed(a) && k < |a| && j < |a|
  {
    if j != k + 1 then None
    else Some(a[..k] + [Merged(a[k], a[k + 1])] + a[k + 2..])
  }

  /** What `merge_block` guarantees. */
  lemma MergeBlockSpec(a: seq<Block>, k: nat, j: nat)
    requires WellFormed(a) && k < |a| && j < |a|
    ensures MergeBlock(a, k, j).None? <==> j != k + 1
    ensures MergeBlock(a, k, j).Some? ==>
      var r := MergeBlock(a, k, j).value;
      && WellFormed(r) && Span(r) == Span(a) && |r| == |a| - 1
      && r[..k] == a[..k] && r[k + 1..] == a[k + 2..]
      && (forall m {:trigger Offset(a, m)} :: 0 <= m <= k ==> Offset(r, m) == Offset(a, m))
      && (forall m {:trigger Offset(a, m)} :: k + 2 <= m <= |a| ==> Offset(r, m - 1) == Offset(a, m))
      && Footprint(r[k]) == Footprint(a[k]) + Footprint(a[k + 1])
      && Allocated(r[k].header) == Allocated(a[k].header)
      && r[k].body[..|a[k].body|] == a[k].body
  {
    if j == k + 1 {
      MergeArena(a, k);
      MergeHead(a, k);
    }
  }

  /** The arena side of `merge_block`: a well-formed arena of the same
      span and one block fewer, the other blocks untouched at their
      offsets. */
  lemma MergeArena(a: seq<Block>, k: nat)
    requires WellFormed(a) && k + 1 < |a|
    ensures var r := MergeBlock(a, k, k + 1).value;
      && WellFormed(r) && Span(r) == Span(a) && |r| == |a| - 1
      && r[..k] == a[..k] && r[k + 1..] == a[k + 2..]
      && (forall m {:trigger Offset(a, m)} :: 0 <= m <= k ==> Offset(r, m) == Offset(a, m))
      && (forall m {:trigger Offset(a, m)} :: k + 2 <= m <= |a| ==> Offset(r, m - 1) == Offset(a, m))
  {
    var m := Merged(a[k], a[k + 1]);
    var r := a[..k] + [m] + a[k + 2..];
    ConcatAt(a, k, k + 2, [m]);
    assert Sized(m) && Agree(m) by {
      OffsetMonotone(a, k + 1, |a|);
      MergedOk(a[k], a[k + 1]);
    }
    MergeCore(a, r, k);
    assert r[..k] == a[..k];
    assert r[k + 1..] == a[k + 2..];
  }

  /** The merged block of `merge_block`: the two footprints, the first
      block's state, and the first block's body at its front. */
  lemma MergeHead(a: seq<Block>, k: nat)
    requires WellFormed(a) && k + 1 < |a|
    ensures var r := MergeBlock(a, k, k + 1).value;
      && k < |r|
      && Footprint(r[k]) == Footprint(a[k]) + Footprint(a[k + 1])
      && Allocated(r[k].header) == Allocated(a[k].header)
      && r[k].body[..|a[k].body|] == a[k].body
  {
    var m := Merged(a[k], a[k + 1]);
    assert Allocated(m.header) == Allocated(a[k].header) by {
      OffsetMonotone(a, k + 1, |a|);
      MergedOk(a[k], a[k + 1]);
    }
    var r := a[..k] + [m] + a[k + 2..];
    assert r[k] == m;
  }

  /** Replacing blocks `k` and `k + 1` of a well-formed arena by one sized,
      agreeing block over the same bytes, for a run `r` given by its
      blocks. */
  lemma MergeCore(a: seq<Block>, r: seq<Block>, k: nat)
    requires WellFormed(a) && k + 1 < |a| && |r| == |a| - 1
    requires forall t {:trigger r[t]} :: 0 <= t < k ==> r[t] == a[t]
    requires Sized(r[k]) && Agree(r[k]) && Footprint(r[k]) == Footprint(a[k]) + Footprint(a[k + 1])
    requires forall t :: k < t < |r| ==> r[t] == a[t + 1]
    ensures WellFormed(r) && Span(r) == Span(a)
    ensures forall m {:trigger Offset(a, m)} :: 0 <= m <= k ==> Offset(r, m) == Offset(a, m)
    ensures forall m {:trigger Offset(a, m)} :: k + 2 <= m <= |a| ==> Offset(r, m - 1) == Offset(a, m)
  {
    MergeOffsetsCore(a, r, k);
    MergeBlocksOk(a, r, k);
  }

  /** The blocks of `MergeCore`: the merged block and the untouched ones
      are all sized and agree. */
  lemma MergeBlocksOk(a: seq<Block>, r: seq<Block>, k: nat)
    requires BlocksOk(a) && k + 1 < |a| && |r| == |a| - 1
    requires forall t {:trigger r[t]} :: 0 <= t < k ==> r[t] == a[t]
    requires Sized(r[k]) && Agree(r[k])
    requires forall t :: k < t < |r| ==> r[t] == a[t + 1]
    ensures BlocksOk(r)
  {
    forall t | 0 <= t < |r|
      ensures Sized(r[t]) && Agree(r[t])
    {
      if t < k {
        assert r[t] == a[t];
      } else if t > k {
        assert r[t] == a[t + 1];
      }
    }
  }

  /** The offsets of `MergeCore`: one block standing for two of the same
      total footprint moves nothing. */
  lemma MergeOffsetsCore(a: seq<Block>, r: seq<Block>, k: nat)
    requires k + 1 < |a| && |r| == |a| - 1
    requires forall t {:trigger r[t]} :: 0 <= t < k ==> r[t] == a[t]
    requires Footprint(r[k]) == Footprint(a[k]) + Footprint(a[k + 1])
    requires forall t :: k < t < |r| ==> r[t] == a[t + 1]
    ensures Span(r) == Span(a)
    ensures forall m {:trigger Offset(a, m)} :: 0 <= m <= k ==> Offset(r, m) == Offset(a, m)
    ensures forall m {:trigger Offset(a, m)} :: k + 2 <= m <= |a| ==> Offset(r, m - 1) == Offset(a, m)
  {
    ReplaceFront(r, a, k);
    assert Offset(r, k + 1) == Offset(a, k + 2) by {
      assert Offset(r, k + 1) == Offset(r, k) + Footprint(r[k]);
      assert Offset(a, k + 2) == Offset(a, k) + Footprint(a[k]) + Footprint(a[k + 1]);
    }
    MergeBack(r, a, k);
  }

  /** The blocks behind a merge keep their offsets, one index lower. */
  lemma MergeBack(r: seq<Block>, a: seq<Block>, k: nat)
    requires k + 1 < |a| && |r| == |a| - 1
    requires Offset(r, k + 1) == Offset(a, k + 2)
    requires forall t :: k < t < |r| ==> r[t] == a[t + 1]
    ensures Span(r) == Span(a)
    ensures forall m {:trigger Offset(a, m)} :: k + 2 <= m <= |a| ==> Offset(r, m - 1) == Offset(a, m)
  {
    BackOffsets(r, a, k + 1, 1);
    assert Offset(r, |a| - 1) == Offset(a, |a|);
  }

  /** A run whose blocks from `p` on are those of `a` from `p + d` on, at
      the same offset, keeps their offsets under indices `d` lower. */
  lemma BackOffsets(r: seq<Block>, a: seq<Block>, p: nat, d: nat)
    requires p <= |r| && p + d <= |a| && |r| - p == |a| - (p + d)
    requires Offset(r, p) == Offset(a, p + d)
    requires forall t :: p <= t < |r| ==> r[t] == a[t + d]
    ensures forall m {:trigger Offset(a, m)} :: p + d <= m <= |a| ==> Offset(r, m - d) == Offset(a, m)
  {
    forall m | p + d <= m <= |a|
      ensures Offset(r, m - d) == Offset(a, m)
    {
      var len := m - (p + d);
      forall t | p <= t < p + len
        ensures r[t] == a[t - p + (p + d)]
      {
        assert r[t] == a[t + d];
      }
      OffsetShift(r, a, p, p + d, len);
      assert p + len == m - d && p + d + len == m;
    }
  }

  /** Two sized, agreeing neighbours whose footprints fit the arena merge
      into a sized, agreeing block. */
  lemma MergedOk(b1: Block, b2: Block)
    requires Sized(b1) && Agree(b1) && Sized(b2) && Agree(b2)
    requires Footprint(b1) + Footprint(b2) <= MaxHeapSize
    ensures Sized(Merged(b1, b2)) && Agree(Merged(b1, b2))
    ensures Allocated(Merged(b1, b2).header) == Allocated(b1.header)
  {
    var m := Merged(b1, b2);
    var size := |b1.body| + |b2.body| + MdataSize;
    SizedFacts(b1);
    SizedFacts(b2);
    EvenSum(|b1.body|, |b2.body|);
    TagFields(size, Allocated(b1.header));
    assert m.header == m.footer == Tag(size, Allocated(b1.header));
  }

  lemma EvenSum(x: nat, y: nat)
    requires x % 2 == 0 && y % 2 == 0
    ensures (x + y + MdataSize) % 2 == 0
  {
  }

  /** Replacing blocks `lo..hi` by blocks over the same bytes keeps every
      block outside that range, at its offset, under its shifted index. */
  lemma SpliceIndex(a: seq<Block>, r: seq<Block>, lo: nat, hi: nat, mid: seq<Block>, i: nat, i2: nat)
    requires lo <= hi <= |a| && r == a[..lo] + mid + a[hi..]
    requires Offset(a, lo) + Span(mid) == Offset(a, hi)
    requires i < |a| && (i < lo || hi <= i)
    requires i2 == if i < lo then i else i - hi + lo + |mid|
    ensures i2 < |r| && r[i2] == a[i] && Offset(r, i2) == Offset(a, i)
  {
    if i < lo {
      SpliceFrontIndex(a, r, lo, hi, mid, i);
    } else {
      SpliceBackIndex(a, r, lo, hi, mid, i);
    }
  }

  lemma SpliceFrontIndex(a: seq<Block>, r: seq<Block>, lo: nat, hi: nat, mid: seq<Block>, i: nat)
    requires lo <= hi <= |a| && r == a[..lo] + mid + a[hi..] && i < lo
    ensures i < |r| && r[i] == a[i] && Offset(r, i) == Offset(a, i)
  {
    assert r[..i] == a[..i];
    OffsetPrefix(r, a, i);
  }

  lemma SpliceBackIndex(a: seq<Block>, r: seq<Block>, lo: nat, hi: nat, mid: seq<Block>, i: nat)
    requires lo <= hi <= |a| && r == a[..lo] + mid + a[hi..]
    requires Offset(a, lo) + Span(mid) == Offset(a, hi)
    requires hi <= i < |a|
    ensures i - hi + lo + |mid| < |r| && r[i - hi + lo + |mid|] == a[i]
    ensures Offset(r, i - hi + lo + |mid|) == Offset(a, i)
  {
    assert r[lo + |mid|..] == a[hi..];
    assert r[i - hi + lo + |mid|] == r[lo + |mid|..][i - hi];
    Replace(a, lo, hi, mid);
  }



  /** After such a splice, a pointer to a block outside the replaced run
      still designates that block. */
  lemma SplicePointer(a: seq<Block>, r: seq<Block>, lo: nat, hi: nat, b: Block, i: nat)
    requires lo <= hi <= |a| && r == a[..lo] + [b] + a[hi..]
    requires Offset(a, lo) + Footprint(b) == Offset(a, hi)
    requires i < |a| && (i < lo || hi <= i)
    ensures var q := BlockAt(r, BodyPtr(a, i));
      q.Some? && r[q.value] == a[i]
  {
    var i2 := if i < lo then i else i - hi + lo + 1;
    assert Span([b]) == Footprint(b) by {
      assert Offset([b], 0) == 0;
    }
    SpliceIndex(a, r, lo, hi, [b], i, i2);
    BlockAtIs(r, i2, BodyPtr(a, i));
  }

  /** `split_block` of block `j` moves no other block: it stays at its
      offset, under an index shifted by the split. */
  lemma SplitIndex(a: seq<Block>, j: nat, alloc: nat, k: nat)
    requires WellFormed(a) && j < |a| && alloc % 2 == 0 && alloc <= |a[j].body|
    requires k < |a| && k != j
    ensures var s := SplitBlock(a, j, alloc).value;
      var k2 := if k < j then k else k + |s| - |a|;
      && k2 < |s| && k2 != j && s[k2] == a[k] && Offset(s, k2) == Offset(a, k)
  {
    var b := a[j];
    if |b.body| == alloc {
      ReplaceOne(a, j, Block(alloc + 1, b.body, alloc + 1));
    } else if |b.body| < alloc + MdataSize {
      ReplaceOne(a, j, WholeBlock(b, alloc));
    } else {
      SplitIndexTwo(a, j, alloc, k);
    }
  }

  /** The same for the two-block split: blocks behind move one index up. */
  lemma SplitIndexTwo(a: seq<Block>, j: nat, alloc: nat, k: nat)
    requires WellFormed(a) && j < |a| && alloc % 2 == 0 && alloc + MdataSize <= |a[j].body|
    requires k < |a| && k != j
    ensures var s := SplitBlock(a, j, alloc).value;
      var k2 := if k < j then k else k + 1;
      && |s| == |a| + 1 && k2 < |s| && s[k2] == a[k] && Offset(s, k2) == Offset(a, k)
  {
    var s := SplitBlock(a, j, alloc).value;
    var b := a[j];
    var h := Halves(b, alloc);
    assert s == a[..j] + h + a[j + 1..];
    assert Span(h) == Footprint(b) by {
      assert Sized(b);
      HalvesSpec(b, alloc);
    }
    assert Offset(a, j + 1) == Offset(a, j) + Footprint(b);
    SpliceIndex(a, s, j, j + 1, h, k, if k < j then k else k + 1);
  }

}

=== FILE: idt.dfy ===
/** The interrupt descriptor table (idt.c, idt.h): 256 sixteen-byte gate
    descriptors in the layout of section 6.14.1 of the Intel 64 and IA-32
    Architectures Software Developer's Manual, Volume 3A, and the IDTR image
    that loads them. */
module Idt {
  import opened Common
  import opened Fields

  const IdtEntries: nat := 256
  const IdtEntrySize: nat := 16
  /** `sizeof(IDT) - 1`: the offset of the table's last byte. */
  const IdtBounds: bv16 := 0x0FFF
  /** The kernel code segment selector every gate uses. */
  const KernelCodeSelector: bv16 := 0x28
  const InterruptGate: bv8 := 0x8E
  const TrapGate: bv8 := 0x8F
  const TaskGate: bv8 := 0x85

  /** `IdtEntry`, field by field in memory order. */
  datatype IdtEntry = IdtEntry(handlerLow: bv16, segment: bv16, ist: bv8, attributes: bv8,
                               handlerMid: bv16, handlerHigh: bv32, reserved: bv32)

  /** The handler address a gate designates: offset bits 0-15, 16-31 and
      32-63 put back together. */
  function HandlerAddress(e: IdtEntry): bv64
  {
    (e.handlerLow as bv64) | ((e.handlerMid as bv64) << 16) | ((e.handlerHigh as bv64) << 32)
  }

  /** The gate `SetIdtEntry` builds: the ISR address split by the
      `LOW_ISR_OFFSET`, `MID_ISR_OFFSET` and `HIGH_ISR_OFFSET` macros,
      segment 0x28, no interrupt stack, the given attributes. */
  function Gate(isr: bv64, flags: bv8): (e: IdtEntry)
    ensures HandlerAddress(e) == isr
    ensures e.segment == KernelCodeSelector && e.ist == 0 && e.reserved == 0
    ensures e.attributes == flags
  {
    IdtEntry((isr & 0xFFFF) as bv16, KernelCodeSelector, 0, flags,
             ((isr >> 16) & 0xFFFF) as bv16, ((isr >> 32) & 0xFFFF_FFFF) as bv32, 0)
  }

  /** A gate is determined by its handler address and attributes once its
      constant fields are fixed: splitting is injective. */
  lemma GateInjective(isr1: bv64, isr2: bv64, flags1: bv8, flags2: bv8)
    ensures Gate(isr1, flags1) == Gate(isr2, flags2) <==> isr1 == isr2 && flags1 == flags2
  {
  }

  /** `SetIdtEntry`: the gate for `isr` at `vector`, every other entry as
      it was. A `uint8_t` vector always indexes the table. */
  function SetIdtEntry(idt: seq<IdtEntry>, vector: bv8, isr: bv64, flags: bv8): (r: seq<IdtEntry>)
    requires |idt| == IdtEntries
    ensures |r| == IdtEntries
    ensures HandlerAddress(r[vector as int]) == isr && r[vector as int].attributes == flags
    ensures r[vector as int].segment == KernelCodeSelector && r[vector as int].ist == 0
    ensures r[vector as int].reserved == 0
    ensures forall i :: 0 <= i < IdtEntries && i != vector as int ==> r[i] == idt[i]
  {
    idt[vector as int := Gate(isr, flags)]
  }

  /** The 16 bytes of a gate in memory (the struct is packed). */
  function EntryBytes(e: IdtEntry): (bs: seq<Byte>)
    ensures |bs| == IdtEntrySize
  {
    Bytes16(e.handlerLow) + Bytes16(e.segment) + [e.ist as Byte, e.attributes as Byte]
    + Bytes16(e.handlerMid) + Bytes32(e.handlerHigh) + Bytes32(e.reserved)
  }

  /** The table's bytes, entry after entry. */
  function TableBytes(idt: seq<IdtEntry>): (bs: seq<Byte>)
    ensures |bs| == IdtEntrySize * |idt|
  {
    if |idt| == 0 then [] else EntryBytes(idt[0]) + TableBytes(idt[1..])
  }

  /** `IdtDescriptor`: the IDTR image. */
  datatype IdtDescriptor = IdtDescriptor(bounds: bv16, base: bv64)

  /** `InitializeIdt`: install `isr1` at vector 1 as an interrupt gate and
      describe the table at `idtBase`. */
  function InitializeIdt(idt: seq<IdtEntry>, isr1: bv64, idtBase: bv64): (r: (seq<IdtEntry>, IdtDescriptor))
    requires |idt| == IdtEntries
    ensures |r.0| == IdtEntries
    ensures HandlerAddress(r.0[1]) == isr1 && r.0[1].attributes == InterruptGate
    ensures forall i :: 0 <= i < IdtEntries && i != 1 ==> r.0[i] == idt[i]
    ensures r.1.base == idtBase
  {
    (SetIdtEntry(idt, 1, isr1, InterruptGate), IdtDescriptor(IdtBounds, idtBase))
  }

  /** The IDTR limit is the offset of the table's last byte. */
  lemma IdtBoundsCoverTable(idt: seq<IdtEntry>, isr1: bv64, idtBase: bv64)
    requires |idt| == IdtEntries
    ensures var r := InitializeIdt(idt, isr1, idtBase);
            r.1.bounds as int == |TableBytes(r.0)| - 1
  {
    assert IdtBounds as int == 0x0FFF;
  }
}

=== FILE: io_apic.dfy ===
/** The I/O APIC driver (io_apic.c; the redirection table of section 3.2.4
    of the Intel 82093AA I/O APIC datasheet). Memory-mapped I/O is a map
    from (register-select address, register index) to a 32-bit word: writing
    the index to IOREGSEL and then accessing IOWIN is one access to that
    word. Pin `p` of an I/O APIC has its 64-bit redirection entry in
    registers 0x10 + 2p (low dword) and 0x11 + 2p (high dword). */
module IoApic {
  import opened Common
  import Madt

  const MaxIoApics: nat := 16
  const MaxIsaIrq: nat := 16
  const IdRegister: nat := 0
  const VersionRegister: nat := 1

  /** Field values of a redirection entry (io_apic.h). */
  const ActiveHigh: bv1 := 0
  const ActiveLow: bv1 := 1
  const EdgeSensitive: bv1 := 0
  const LevelSensitive: bv1 := 1
  const IcrFixed: bv3 := 0
  const IcrSmi: bv3 := 2
  const IcrNmi: bv3 := 4
  /** Physical destination mode (datasheet, section 3.2.4, bit 11). */
  const PhysicalMode: bv1 := 0

  /** A redirection entry, field by field, in the order of `ioredtbl_t`:
      bits 0-7, 8-10, 11, 12, 13, 14, 15, 16, 17-55 and 56-63. */
  datatype Entry = Entry(vector: bv8, deliveryMode: bv3, destinationMode: bv1,
                         deliveryStatus: bv1, polarity: bv1, remoteIrr: bv1,
                         triggerMode: bv1, mask: bv1, reserved: bv39, destination: bv8)

  /** The 64-bit image of an entry. */
  function Encode(e: Entry): bv64
  {
    (e.vector as bv64)
    | ((e.deliveryMode as bv64) << 8)
    | ((e.destinationMode as bv64) << 11)
    | ((e.deliveryStatus as bv64) << 12)
    | ((e.polarity as bv64) << 13)
    | ((e.remoteIrr as bv64) << 14)
    | ((e.triggerMode as bv64) << 15)
    | ((e.mask as bv64) << 16)
    | ((e.reserved as bv64) << 17)
    | ((e.destination as bv64) << 56)
  }

  /** The entry a 64-bit image denotes. */
  function Decode(raw: bv64): Entry
  {
    Entry((raw & 0xFF) as bv8, ((raw >> 8) & 0x7) as bv3, ((raw >> 11) & 1) as bv1,
          ((raw >> 12) & 1) as bv1, ((raw >> 13) & 1) as bv1, ((raw >> 14) & 1) as bv1,
          ((raw >> 15) & 1) as bv1, ((raw >> 16) & 1) as bv1,
          ((raw >> 17) & 0x7F_FFFF_FFFF) as bv39, (raw >> 56) as bv8)
  }

  /** Every entry is recovered from its image ... */
  lemma DecodeEncode(e: Entry)
    ensures Decode(Encode(e)) == e
  {
  }

  /** ... and every image is the image of an entry. */
  lemma EncodeDecode(raw: bv64)
    ensures Encode(Decode(raw)) == raw
  {
  }

  /** The low and high dwords of an image (the `lower_dword` and
      `upper_dword` halves of the entry). */
  function Lo(raw: bv64): bv32
  {
    (raw & 0xFFFF_FFFF) as bv32
  }

  function Hi(raw: bv64): bv32
  {
    (raw >> 32) as bv32
  }

  /** Reassembling an image from its two dwords, as intended at line 263:
      the high dword widened to 64 bits and shifted by 32. */
  function Join(lo: bv32, hi: bv32): bv64
  {
    (lo as bv64) | ((hi as bv64) << 32)
  }

  /** Line 263 as written: the 32-bit register value is shifted by 31 in
      32-bit arithmetic before it is widened, so only its bit 0 survives,
      landing on bit 31. */
  function JoinAsWritten(lo: bv32, hi: bv32): bv64
  {
    (lo as bv64) | ((hi << 31) as bv64)
  }

  lemma JoinSplit(raw: bv64)
    ensures Join(Lo(raw), Hi(raw)) == raw
  {
  }

  lemma SplitJoin(lo: bv32, hi: bv32)
    ensures Lo(Join(lo, hi)) == lo && Hi(Join(lo, hi)) == hi
  {
  }

  /** What the as-written reassembly keeps of the high dword: bit 0 only. */
  lemma JoinAsWrittenKeeps(lo: bv32, hi: bv32)
    ensures JoinAsWritten(lo, hi) == Join(lo, 0) | (((hi & 1) as bv64) << 31)
    ensures JoinAsWritten(lo, hi) >> 32 == 0
  {
  }

  // ---------------------------------------------------------------------
  // Registers

  /** Memory-mapped I/O: (register-select address, register index) to word.
      Registers never written read as 0. */
  type Mmio = map<(nat, nat), bv32>

  function Reg(m: Mmio, base: nat, reg: nat): bv32
  {
    if (base, reg) in m then m[(base, reg)] else 0
  }

  /** `ioapic_t`: whether the slot is in use, the IOREGSEL address (IOWIN is
      0x10 above it), the first GSI it serves, its pin count as `uint8_t`,
      whether it has an EOI register, and its APIC id. */
  datatype IoApic = IoApic(present: bool, base: nat, minGsi: Word32, numPins: Byte,
                           hasEoi: bool, apicId: Byte)

  /** The pin of `gsi`, `gsi - min_gsi` as `uint32_t`. */
  function Pin(io: IoApic, gsi: int): nat
  {
    (gsi - io.minGsi) % Two32
  }

  /** The register offsets of a pin, truncated to the `uint8_t` offset
      parameter of `ioapic_write`. */
  function LoReg(pin: nat): nat
  {
    (0x10 + pin * 2) % 0x100
  }

  function HiReg(pin: nat): nat
  {
    (0x11 + pin * 2) % 0x100
  }

  /** `ioapic_read_entry` with line 263 corrected. */
  function ReadEntry(m: Mmio, io: IoApic, gsi: int): Entry
  {
    var p := Pin(io, gsi);
    Decode(Join(Reg(m, io.base, LoReg(p)), Reg(m, io.base, HiReg(p))))
  }

  /** `ioapic_read_entry` as written. */
  function ReadEntryAsWritten(m: Mmio, io: IoApic, gsi: int): Entry
  {
    var p := Pin(io, gsi);
    Decode(JoinAsWritten(Reg(m, io.base, LoReg(p)), Reg(m, io.base, HiReg(p))))
  }

  /** The two dwords of an entry, low first. */
  function Image(e: Entry): (bv32, bv32)
  {
    (Lo(Encode(e)), Hi(Encode(e)))
  }

  /** Two dwords written to a pin's registers, low first. */
  function WriteWords(m: Mmio, io: IoApic, gsi: int, w: (bv32, bv32)): Mmio
  {
    var p := Pin(io, gsi);
    m[(io.base, LoReg(p)) := w.0][(io.base, HiReg(p)) := w.1]
  }

  /** Written dwords read back from the pin's registers. */
  lemma WriteWordsReads(m: Mmio, io: IoApic, gsi: int, w: (bv32, bv32))
    ensures Reg(WriteWords(m, io, gsi, w), io.base, LoReg(Pin(io, gsi))) == w.0
    ensures Reg(WriteWords(m, io, gsi, w), io.base, HiReg(Pin(io, gsi))) == w.1
  {
    PinRegsDiffer(Pin(io, gsi));
  }

  /** `ioapic_write_entry`. */
  function WriteEntry(m: Mmio, io: IoApic, gsi: int, e: Entry): Mmio
  {
    WriteWords(m, io, gsi, Image(e))
  }

  /** A pin whose registers hold the image of `e` reads as `e`. */
  lemma ImageReadsBack(m: Mmio, io: IoApic, gsi: int, e: Entry)
    requires Reg(m, io.base, LoReg(Pin(io, gsi))) == Image(e).0
    requires Reg(m, io.base, HiReg(Pin(io, gsi))) == Image(e).1
    ensures ReadEntry(m, io, gsi) == e
  {
    JoinSplit(Encode(e));
    DecodeEncode(e);
  }

  /** `m2` is `m1` with exactly the entry of `gsi` replaced by `e`: the entry
      reads back as `e` and no other register changed. */
  ghost predicate WroteEntry(m1: Mmio, m2: Mmio, io: IoApic, gsi: int, e: Entry)
  {
    ReadEntry(m2, io, gsi) == e &&
    forall b: nat, reg: nat ::
      !(b == io.base && (reg == LoReg(Pin(io, gsi)) || reg == HiReg(Pin(io, gsi)))) ==>
        Reg(m2, b, reg) == Reg(m1, b, reg)
  }

  /** The two registers of a pin are different ones. */
  lemma PinRegsDiffer(p: nat)
    ensures LoReg(p) != HiReg(p)
  {
    assert (0x11 + p * 2) % 0x100 == ((0x10 + p * 2) % 0x100 + 1) % 0x100;
  }

  /** An entry reads back as written, and nothing else is touched. */
  lemma WriteEntrySpec(m: Mmio, io: IoApic, gsi: int, e: Entry)
    ensures WroteEntry(m, WriteEntry(m, io, gsi, e), io, gsi, e)
  {
    var p := Pin(io, gsi);
    PinRegsDiffer(p);
    var m2 := WriteEntry(m, io, gsi, e);
    WriteWordsReads(m, io, gsi, Image(e));
    ImageReadsBack(m2, io, gsi, e);
  }

  /** Writing back an entry just read restores the pin's registers. */
  lemma WriteBackRead(m: Mmio, io: IoApic, gsi: int)
    ensures var m2 := WriteEntry(m, io, gsi, ReadEntry(m, io, gsi));
            forall b: nat, reg: nat :: Reg(m2, b, reg) == Reg(m, b, reg)
  {
    var p := Pin(io, gsi);
    PinRegsDiffer(p);
    var lo, hi := Reg(m, io.base, LoReg(p)), Reg(m, io.base, HiReg(p));
    EncodeDecode(Join(lo, hi));
    SplitJoin(lo, hi);
  }

  /** The as-written read never sees the destination field: whatever the
      registers hold, the entry read back is routed to LAPIC 0. */
  lemma AsWrittenLosesDestination(m: Mmio, io: IoApic, gsi: int)
    ensures ReadEntryAsWritten(m, io, gsi).destination == 0
  {
    var p := Pin(io, gsi);
    JoinAsWrittenKeeps(Reg(m, io.base, LoReg(p)), Reg(m, io.base, HiReg(p)));
  }

  /** Hence an entry routed anywhere but LAPIC 0 does not read back as
      written. */
  lemma AsWrittenReadBackFails(m: Mmio, io: IoApic, gsi: int, e: Entry)
    requires e.destination != 0
    ensures ReadEntryAsWritten(WriteEntry(m, io, gsi, e), io, gsi) != e
  {
    AsWrittenLosesDestination(WriteEntry(m, io, gsi, e), io, gsi);
  }

  // ---------------------------------------------------------------------
  // Interrupt source override flags

  /** `get_pin_polarity` as written: active high exactly when flags bit 1
      is set. */
  function DecodePolarity(flags: bv16): bv1
  {
    if flags & 2 != 0 then ActiveHigh else ActiveLow
  }

  /** `get_trigger_mode`: level-sensitive exactly when flags bit 3 is set. */
  function DecodeTrigger(flags: bv16): bv1
  {
    if flags & 8 != 0 then LevelSensitive else EdgeSensitive
  }

  /** The MPS INTI flags of section 5.2.12.5 of the ACPI Specification:
      polarity in bits 0-1 (01 active high, 11 active low; 00 "conforms to
      the bus" and 10 reserved carry no polarity), trigger mode in bits 2-3
      (01 edge, 11 level). */
  function MadtPolarity(flags: bv16): Option<bv1>
  {
    var bits := flags & 3;
    if bits == 1 then Some(ActiveHigh) else if bits == 3 then Some(ActiveLow) else None
  }

  function MadtTrigger(flags: bv16): Option<bv1>
  {
    var bits := (flags >> 2) & 3;
    if bits == 1 then Some(EdgeSensitive) else if bits == 3 then Some(LevelSensitive) else None
  }

  /** The polarity decoder inverts every polarity the MADT states, and
      reports active high exactly for flags with bit 1 set. */
  lemma PolarityAgainstMadt(flags: bv16)
    ensures MadtPolarity(flags).Some? ==> DecodePolarity(flags) != MadtPolarity(flags).value
    ensures DecodePolarity(flags) == ActiveHigh <==> (flags >> 1) & 1 == 1
  {
  }

  /** The trigger decoder agrees with every trigger mode the MADT states, and
      reports level-sensitive exactly for flags with bit 3 set. */
  lemma TriggerAgainstMadt(flags: bv16)
    ensures MadtTrigger(flags).Some? ==> DecodeTrigger(flags) == MadtTrigger(flags).value
    ensures DecodeTrigger(flags) == LevelSensitive <==> (flags >> 3) & 1 == 1
  {
  }

  // ---------------------------------------------------------------------
  // Driver state and GSI lookup

  /** An `int_attr_t` of `VECTOR_ATTRS`. */
  datatype IntAttr = IntAttr(attrs: Entry, gsi: Word32, irq: Byte, ioapicInd: Byte)

  /** The driver's globals `IOAPICS` and `VECTOR_ATTRS`, and the registers. */
  datatype State = State(ioapics: seq<IoApic>, vectorAttrs: seq<IntAttr>, mmio: Mmio)

  predicate Valid(s: State)
  {
    |s.ioapics| == MaxIoApics && |s.vectorAttrs| == 0x100
  }

  /** The range test of `ioapic_from_gsi`, with `max_gsi` computed in
      `uint32_t`. */
  predicate Serves(io: IoApic, gsi: Word32)
  {
    io.present && io.minGsi <= gsi && gsi <= (io.minGsi + io.numPins - 1) % Two32
  }

  /** When the pin range does not wrap, an I/O APIC serves exactly the GSIs
      `min_gsi .. min_gsi + num_pins - 1`. */
  lemma ServesRange(io: IoApic, gsi: Word32)
    requires io.numPins > 0 && io.minGsi + io.numPins <= Two32
    ensures Serves(io, gsi) <==> io.present && io.minGsi <= gsi < io.minGsi + io.numPins
  {
  }

  /** `ioapic_from_gsi` from slot `i` on: the index of the first present
      I/O APIC whose range holds `gsi`, `None` for NULL. */
  function FromGsi(t: seq<IoApic>, gsi: Word32, i: nat): (r: Option<nat>)
    ensures r.Some? ==> i <= r.value < |t|
    decreases |t| - i
  {
    if i >= |t| then None
    else if Serves(t[i], gsi) then Some(i)
    else FromGsi(t, gsi, i + 1)
  }

  /** The slot found serves `gsi` and none before it does; `None` exactly
      when no slot serves it. */
  lemma {:induction false} FromGsiSpec(t: seq<IoApic>, gsi: Word32, i: nat)
    ensures var r := FromGsi(t, gsi, i);
            r.Some? ==> Serves(t[r.value], gsi) &&
                        forall j :: i <= j < r.value ==> !Serves(t[j], gsi)
    ensures FromGsi(t, gsi, i).None? <==> forall j :: i <= j < |t| ==> !Serves(t[j], gsi)
    decreases |t| - i
  {
    if i < |t| && !Serves(t[i], gsi) {
      FromGsiSpec(t, gsi, i + 1);
    }
  }

  function Owner(s: State, gsi: Word32): Option<nat>
  {
    FromGsi(s.ioapics, gsi, 0)
  }

  // ---------------------------------------------------------------------
  // Read-modify-write setters

  /** What a setter returns and the state it leaves. */
  datatype Outcome = Outcome(ok: bool, state: State)

  function Bit(b: bool): bv1
  {
    if b then 1 else 0
  }

  /** The update of the setters: skip the write when the entry already
      holds `e`, otherwise write it. */
  function Modify(s: State, io: IoApic, gsi: Word32, e: Entry): (r: State)
    ensures r.ioapics == s.ioapics && r.vectorAttrs == s.vectorAttrs
    ensures e == ReadEntry(s.mmio, io, gsi) ==> r == s
    ensures e != ReadEntry(s.mmio, io, gsi) ==> WroteEntry(s.mmio, r.mmio, io, gsi, e)
  {
    if e == ReadEntry(s.mmio, io, gsi) then s
    else
      WriteEntrySpec(s.mmio, io, gsi, e);
      s.(mmio := WriteEntry(s.mmio, io, gsi, e))
  }

  /** `ioapic_set_gsi_mask`. */
  function SetGsiMask(s: State, gsi: Word32, masked: bool): (r: Outcome)
    requires Valid(s)
    ensures r.ok <==> Owner(s, gsi).Some?
    ensures !r.ok ==> r.state == s
    ensures r.ok ==> var io := s.ioapics[Owner(s, gsi).value];
                     var cur := ReadEntry(s.mmio, io, gsi);
                     r.state.ioapics == s.ioapics && r.state.vectorAttrs == s.vectorAttrs &&
                     (cur.mask == Bit(masked) ==> r.state == s) &&
                     (cur.mask != Bit(masked) ==>
                        WroteEntry(s.mmio, r.state.mmio, io, gsi, cur.(mask := Bit(masked))))
  {
    var o := Owner(s, gsi);
    if o.None? then Outcome(false, s)
    else
      var io := s.ioapics[o.value];
      var cur := ReadEntry(s.mmio, io, gsi);
      Outcome(true, Modify(s, io, gsi, cur.(mask := Bit(masked))))
  }

  /** `ioapic_set_gsi_vector`: vectors 0-15 are refused; the GSI is recorded
      for the vector only when the entry is rewritten. */
  function SetGsiVector(s: State, gsi: Word32, vector: bv8): (r: Outcome)
    requires Valid(s)
    ensures r.ok <==> Owner(s, gsi).Some? && vector > 15
    ensures !r.ok ==> r.state == s
    ensures r.ok ==> var io := s.ioapics[Owner(s, gsi).value];
                     var cur := ReadEntry(s.mmio, io, gsi);
                     r.state.ioapics == s.ioapics &&
                     (cur.vector == vector ==> r.state == s) &&
                     (cur.vector != vector ==>
                        WroteEntry(s.mmio, r.state.mmio, io, gsi, cur.(vector := vector)) &&
                        r.state.vectorAttrs ==
                          s.vectorAttrs[vector as int := s.vectorAttrs[vector as int].(gsi := gsi)])
  {
    var o := Owner(s, gsi);
    if o.None? || vector <= 15 then Outcome(false, s)
    else
      var io := s.ioapics[o.value];
      var cur := ReadEntry(s.mmio, io, gsi);
      if cur.vector == vector then Outcome(true, s)
      else
        var s1 := Modify(s, io, gsi, cur.(vector := vector));
        var v := vector as int;
        Outcome(true, s1.(vectorAttrs := s1.vectorAttrs[v := s1.vectorAttrs[v].(gsi := gsi)]))
  }

  predicate NmiOrSmi(e: Entry)
  {
    e.deliveryMode == IcrNmi || e.deliveryMode == IcrSmi
  }

  /** `ioapic_set_gsi_trigger_mode`: GSI 0 (ExtINT) only accepts level, and
      an NMI or SMI entry only accepts edge. */
  function SetGsiTriggerMode(s: State, gsi: Word32, mode: bv1): (r: Outcome)
    requires Valid(s)
    ensures gsi == 0 && mode != LevelSensitive ==> !r.ok
    ensures Owner(s, gsi).None? ==> !r.ok
    ensures Owner(s, gsi).Some? ==>
              var cur := ReadEntry(s.mmio, s.ioapics[Owner(s, gsi).value], gsi);
              (r.ok <==> !(gsi == 0 && mode != LevelSensitive) &&
                         !(NmiOrSmi(cur) && mode != EdgeSensitive))
    ensures !r.ok ==> r.state == s
    ensures r.ok ==> var io := s.ioapics[Owner(s, gsi).value];
                     var cur := ReadEntry(s.mmio, io, gsi);
                     r.state.ioapics == s.ioapics && r.state.vectorAttrs == s.vectorAttrs &&
                     (cur.triggerMode == mode ==> r.state == s) &&
                     (cur.triggerMode != mode ==>
                        WroteEntry(s.mmio, r.state.mmio, io, gsi, cur.(triggerMode := mode)))
  {
    if gsi == 0 && mode != LevelSensitive then Outcome(false, s)
    else
      var o := Owner(s, gsi);
      if o.None? then Outcome(false, s)
      else
        var io := s.ioapics[o.value];
        var cur := ReadEntry(s.mmio, io, gsi);
        if NmiOrSmi(cur) && mode != EdgeSensitive then Outcome(false, s)
        else Outcome(true, Modify(s, io, gsi, cur.(triggerMode := mode)))
  }

  /** `ioapic_set_gsi_polarity`: an SMI entry only accepts active high. */
  function SetGsiPolarity(s: State, gsi: Word32, polarity: bv1): (r: Outcome)
    requires Valid(s)
    ensures Owner(s, gsi).None? ==> !r.ok
    ensures Owner(s, gsi).Some? ==>
              var cur := ReadEntry(s.mmio, s.ioapics[Owner(s, gsi).value], gsi);
              (r.ok <==> !(cur.deliveryMode == IcrSmi && polarity != ActiveHigh))
    ensures !r.ok ==> r.state == s
    ensures r.ok ==> var io := s.ioapics[Owner(s, gsi).value];
                     var cur := ReadEntry(s.mmio, io, gsi);
                     r.state.ioapics == s.ioapics && r.state.vectorAttrs == s.vectorAttrs &&
                     (cur.polarity == polarity ==> r.state == s) &&
                     (cur.polarity != polarity ==>
                        WroteEntry(s.mmio, r.state.mmio, io, gsi, cur.(polarity := polarity)))
  {
    var o := Owner(s, gsi);
    if o.None? then Outcome(false, s)
    else
      var io := s.ioapics[o.value];
      var cur := ReadEntry(s.mmio, io, gsi);
      if cur.deliveryMode == IcrSmi && polarity != ActiveHigh then Outcome(false, s)
      else Outcome(true, Modify(s, io, gsi, cur.(polarity := polarity)))
  }

  /** `ioapic_reroute_gsi`. */
  function RerouteGsi(s: State, gsi: Word32, lapicId: bv8): (r: Outcome)
    requires Valid(s)
    ensures r.ok <==> Owner(s, gsi).Some?
    ensures !r.ok ==> r.state == s
    ensures r.ok ==> var io := s.ioapics[Owner(s, gsi).value];
                     var cur := ReadEntry(s.mmio, io, gsi);
                     r.state.ioapics == s.ioapics && r.state.vectorAttrs == s.vectorAttrs &&
                     (cur.destination == lapicId ==> r.state == s) &&
                     (cur.destination != lapicId ==>
                        WroteEntry(s.mmio, r.state.mmio, io, gsi, cur.(destination := lapicId)))
  {
    var o := Owner(s, gsi);
    if o.None? then Outcome(false, s)
    else
      var io := s.ioapics[o.value];
      var cur := ReadEntry(s.mmio, io, gsi);
      Outcome(true, Modify(s, io, gsi, cur.(destination := lapicId)))
  }

  /** `ioapic_route_irq` for the GSI `gsi_from_irq` gives: the entry keeps
      its other fields and becomes a fixed, edge-triggered, active-high
      interrupt with the given vector, destination and mask; it is written
      unconditionally. */
  function RouteIrq(s: State, gsi: Word32, lapicId: bv8, vector: bv8, masked: bool): (r: Outcome)
    requires Valid(s)
    ensures r.ok <==> Owner(s, gsi).Some?
    ensures !r.ok ==> r.state == s
    ensures r.ok ==> var io := s.ioapics[Owner(s, gsi).value];
                     var cur := ReadEntry(s.mmio, io, gsi);
                     r.state.ioapics == s.ioapics && r.state.vectorAttrs == s.vectorAttrs &&
                     WroteEntry(s.mmio, r.state.mmio, io, gsi,
                                cur.(vector := vector, polarity := ActiveHigh, deliveryMode := IcrFixed,
                                     triggerMode := EdgeSensitive, destination := lapicId,
                                     mask := Bit(masked)))
  {
    var o := Owner(s, gsi);
    if o.None? then Outcome(false, s)
    else
      var io := s.ioapics[o.value];
      var cur := ReadEntry(s.mmio, io, gsi);
      var e := cur.(vector := vector, polarity := ActiveHigh, deliveryMode := IcrFixed,
                    triggerMode := EdgeSensitive, destination := lapicId, mask := Bit(masked));
      WriteEntrySpec(s.mmio, io, gsi, e);
      Outcome(true, s.(mmio := WriteEntry(s.mmio, io, gsi, e)))
  }

  /** The entry `ioapic_set_smi_gsi` writes: vector 0, SMI delivery, active
      high, edge-triggered, unmasked. The source leaves the remaining fields
      of its local uninitialised; they are 0 here. */
  const SmiEntry: Entry := Entry(0, IcrSmi, 0, 0, ActiveHigh, 0, EdgeSensitive, 0, 0, 0)

  /** `ioapic_set_smi_gsi`. */
  function SetSmiGsi(s: State, gsi: Word32): (r: Outcome)
    requires Valid(s)
    ensures r.ok <==> Owner(s, gsi).Some?
    ensures !r.ok ==> r.state == s
    ensures r.ok ==> var io := s.ioapics[Owner(s, gsi).value];
                     r.state.ioapics == s.ioapics && r.state.vectorAttrs == s.vectorAttrs &&
                     WroteEntry(s.mmio, r.state.mmio, io, gsi, SmiEntry)
  {
    var o := Owner(s, gsi);
    if o.None? then Outcome(false, s)
    else
      var io := s.ioapics[o.value];
      WriteEntrySpec(s.mmio, io, gsi, SmiEntry);
      Outcome(true, s.(mmio := WriteEntry(s.mmio, io, gsi, SmiEntry)))
  }

  /** `vector_from_gsi`; the source dereferences NULL when no I/O APIC
      serves the GSI. */
  function VectorFromGsi(s: State, gsi: Word32): bv8
    requires Valid(s) && Owner(s, gsi).Some?
  {
    ReadEntry(s.mmio, s.ioapics[Owner(s, gsi).value], gsi).vector
  }

  /** `int_attrs_from_vector`: the entry of the GSI recorded for `vector`,
      `None` when no I/O APIC serves that GSI. */
  function AttrsFromVector(s: State, vector: bv8): Option<Entry>
    requires Valid(s)
  {
    var gsi := s.vectorAttrs[vector as int].gsi;
    var o := Owner(s, gsi);
    if o.None? then None else Some(ReadEntry(s.mmio, s.ioapics[o.value], gsi))
  }

  /** A vector set on a GSI reads back from it. */
  lemma SetVectorThenRead(s: State, gsi: Word32, vector: bv8)
    requires Valid(s) && SetGsiVector(s, gsi, vector).ok
    ensures Owner(SetGsiVector(s, gsi, vector).state, gsi).Some?
    ensures VectorFromGsi(SetGsiVector(s, gsi, vector).state, gsi) == vector
  {
  }

  /** After a vector is moved onto a GSI, looking the vector up finds that
      GSI's entry. */
  lemma SetVectorThenLookup(s: State, gsi: Word32, vector: bv8)
    requires Valid(s) && SetGsiVector(s, gsi, vector).ok
    requires ReadEntry(s.mmio, s.ioapics[Owner(s, gsi).value], gsi).vector != vector
    ensures var s2 := SetGsiVector(s, gsi, vector).state;
            AttrsFromVector(s2, vector) == Some(ReadEntry(s2.mmio, s2.ioapics[Owner(s, gsi).value], gsi))
    ensures AttrsFromVector(SetGsiVector(s, gsi, vector).state, vector).value.vector == vector
  {
  }

  /** Setting the mask twice is setting it once. */
  lemma SetMaskIdempotent(s: State, gsi: Word32, masked: bool)
    requires Valid(s)
    ensures var s1 := SetGsiMask(s, gsi, masked).state;
            SetGsiMask(s1, gsi, masked) == Outcome(Owner(s, gsi).Some?, s1)
  {
  }

  /** Masking an unmasked GSI and unmasking it again leaves every register
      as it was. */
  lemma MaskUnmaskRestores(s: State, gsi: Word32)
    requires Valid(s) && Owner(s, gsi).Some?
    requires ReadEntry(s.mmio, s.ioapics[Owner(s, gsi).value], gsi).mask == 0
    ensures var s2 := SetGsiMask(SetGsiMask(s, gsi, true).state, gsi, false).state;
            forall b: nat, reg: nat :: Reg(s2.mmio, b, reg) == Reg(s.mmio, b, reg)
  {
    var io := s.ioapics[Owner(s, gsi).value];
    var cur := ReadEntry(s.mmio, io, gsi);
    var masked := cur.(mask := 1);
    var s1 := SetGsiMask(s, gsi, true).state;
    assert s1.mmio == WriteEntry(s.mmio, io, gsi, masked);
    var s2 := SetGsiMask(s1, gsi, false).state;
    assert ReadEntry(s1.mmio, io, gsi).(mask := 0) == cur;
    assert s2.mmio == WriteEntry(s1.mmio, io, gsi, cur);
    WriteTwice(s.mmio, io, gsi, masked, cur);
    WriteBackRead(s.mmio, io, gsi);
  }

  /** A second write of the same pin hides the first. */
  lemma WriteTwice(m: Mmio, io: IoApic, gsi: int, e1: Entry, e2: Entry)
    ensures var m2 := WriteEntry(WriteEntry(m, io, gsi, e1), io, gsi, e2);
            forall b: nat, reg: nat :: Reg(m2, b, reg) == Reg(WriteEntry(m, io, gsi, e2), b, reg)
  {
  }

  // ---------------------------------------------------------------------
  // Registration and interrupt set-up

  /** An interrupt source override as `gsi_get_iso` reports it. */
  datatype Iso = Iso(irqSource: Byte, flags: bv16)

  /** What the set-up consults outside this driver: the MADT's source
      overrides and NMI sources by GSI (`gsi_get_iso` and
      `gsi_get_nmi_source`, which the source declares nowhere) and the
      BSP's LAPIC id (`get_bsp_lapic_id`). */
  datatype Platform = Platform(isos: map<nat, Iso>, nmiFlags: map<nat, bv16>, bspLapicId: bv8)

  /** A vector as `uint8_t`. */
  function VectorOf(v: int): bv8
  {
    (v % 0x100) as bv8
  }

  /** The entry `initialize_ioapic_ints` builds for a GSI before it sets the
      destination; this is what it records in `VECTOR_ATTRS`. The source's
      local is uninitialised in the fields it never sets (delivery status,
      remote IRR, reserved, and the destination at this point); they are 0
      here. */
  function InitAttrs(gsi: nat, p: Platform): Entry
  {
    if gsi < MaxIsaIrq then
      Entry(VectorOf(gsi + 0x20), IcrFixed, PhysicalMode, 0, ActiveHigh, 0, EdgeSensitive, 1, 0, 0)
    else if gsi in p.isos then
      var iso := p.isos[gsi];
      Entry(VectorOf(iso.irqSource + 0x20), IcrFixed, PhysicalMode, 0,
            DecodePolarity(iso.flags), 0, DecodeTrigger(iso.flags), 1, 0, 0)
    else if gsi in p.nmiFlags then
      var flags := p.nmiFlags[gsi];
      Entry(VectorOf(gsi + 0x20), IcrNmi, PhysicalMode, 0,
            DecodePolarity(flags), 0, DecodeTrigger(flags), 0, 0, 0)
    else
      Entry(VectorOf(gsi + 0x20), IcrFixed, PhysicalMode, 0, ActiveHigh, 0, LevelSensitive, 1, 0, 0)
  }

  /** The entry written for a GSI: routed to the BSP. */
  function InitEntry(gsi: nat, p: Platform): Entry
  {
    InitAttrs(gsi, p).(destination := p.bspLapicId)
  }

  /** The rules the set-up follows, GSI by GSI. */
  lemma InitEntryRules(gsi: nat, p: Platform)
    requires gsi != 0
    ensures var e := InitEntry(gsi, p);
            e.destination == p.bspLapicId && e.destinationMode == PhysicalMode &&
            (gsi < MaxIsaIrq ==>
               e.vector == VectorOf(gsi + 0x20) && e.deliveryMode == IcrFixed &&
               e.triggerMode == EdgeSensitive && e.polarity == ActiveHigh && e.mask == 1) &&
            (gsi >= MaxIsaIrq && gsi in p.isos ==>
               e.vector == VectorOf(p.isos[gsi].irqSource + 0x20) && e.deliveryMode == IcrFixed &&
               e.mask == 1) &&
            (gsi >= MaxIsaIrq && gsi !in p.isos && gsi in p.nmiFlags ==>
               e.deliveryMode == IcrNmi && e.mask == 0) &&
            (gsi >= MaxIsaIrq && gsi !in p.isos && gsi !in p.nmiFlags ==>
               e.vector == VectorOf(gsi + 0x20) && e.deliveryMode == IcrFixed &&
               e.triggerMode == LevelSensitive && e.polarity == ActiveHigh && e.mask == 1)
  {
    if gsi < MaxIsaIrq {
    } else if gsi in p.isos {
    } else if gsi in p.nmiFlags {
    } else {
    }
  }

  /** The loop bound `min_gsi + num_pins`, computed in `uint32_t`. */
  function InitEnd(io: IoApic): nat
  {
    (io.minGsi + io.numPins) % Two32
  }

  /** The registers after the loop of `initialize_ioapic_ints` from GSI
      `gsi` up to `end`: each GSI but 0 (the 8259 PIC's ExtINT, skipped)
      gets the dwords `wordsOf(gsi)`, in order. */
  function WriteRange(m: Mmio, io: IoApic, gsi: nat, end: nat, wordsOf: nat -> (bv32, bv32)): Mmio
    decreases end - gsi
  {
    if gsi >= end then m
    else if gsi == 0 then WriteRange(m, io, gsi + 1, end, wordsOf)
    else WriteRange(WriteWords(m, io, gsi, wordsOf(gsi)), io, gsi + 1, end, wordsOf)
  }

  /** `VECTOR_ATTRS` after the same loop: each GSI but 0 records its
      attributes, its GSI, its IRQ (vector - 0x20) and the I/O APIC's id
      under its vector. */
  function RecordRange(attrs: seq<IntAttr>, io: IoApic, gsi: nat, end: nat, p: Platform): (r: seq<IntAttr>)
    requires |attrs| == 0x100 && end <= Two32
    ensures |r| == 0x100
    decreases end - gsi
  {
    if gsi >= end then attrs
    else if gsi == 0 then RecordRange(attrs, io, gsi + 1, end, p)
    else
      var e := InitAttrs(gsi, p);
      var v := e.vector as int;
      RecordRange(attrs[v := IntAttr(e, gsi, (v - 0x20) % 0x100, io.apicId)], io, gsi + 1, end, p)
  }

  /** `initialize_ioapic_ints`. */
  function InitInts(s: State, io: IoApic, p: Platform): (r: State)
    requires Valid(s)
    ensures Valid(r) && r.ioapics == s.ioapics
  {
    var end := InitEnd(io);
    State(s.ioapics, RecordRange(s.vectorAttrs, io, io.minGsi, end, p),
          WriteRange(s.mmio, io, io.minGsi, end, (g: nat) => Image(InitEntry(g, p))))
  }

  /** Distinct pins below 128 use four distinct registers. */
  lemma RegsApart(p: nat, q: nat)
    requires p < 128 && q < 128 && p != q
    ensures LoReg(p) != LoReg(q) && LoReg(p) != HiReg(q)
    ensures HiReg(p) != LoReg(q) && HiReg(p) != HiReg(q)
  {
    RegValues(p);
    RegValues(q);
  }

  /** The registers of pins below 128, without the truncation. */
  lemma RegValues(p: nat)
    requires p < 128
    ensures LoReg(p) == if p < 120 then 0x10 + p * 2 else p * 2 - 0xF0
    ensures HiReg(p) == LoReg(p) + 1
  {
  }

  /** The loop touches only the registers of the pins it programs. */
  lemma {:induction false} WriteRangeFrame(m: Mmio, io: IoApic, gsi: nat, end: nat,
                                           wordsOf: nat -> (bv32, bv32), b: nat, reg: nat)
    requires b != io.base ||
             forall g :: gsi <= g < end && g != 0 ==>
               reg != LoReg(Pin(io, g)) && reg != HiReg(Pin(io, g))
    ensures Reg(WriteRange(m, io, gsi, end, wordsOf), b, reg) == Reg(m, b, reg)
    decreases end - gsi
  {
    if gsi < end {
      if gsi == 0 {
        WriteRangeFrame(m, io, gsi + 1, end, wordsOf, b, reg);
      } else {
        WriteRangeFrame(WriteWords(m, io, gsi, wordsOf(gsi)), io, gsi + 1, end, wordsOf, b, reg);
      }
    }
  }

  /** A GSI of the range sits on pin `gsi - min_gsi`, below `num_pins`. */
  lemma PinInRange(io: IoApic, g: nat)
    requires io.minGsi <= g < InitEnd(io)
    ensures Pin(io, g) == g - io.minGsi < io.numPins
  {
  }

  /** The pin of `g` is written by no GSI after `gsi` when pins do not
      alias. */
  lemma LaterPinsApart(io: IoApic, gsi: nat, g: nat)
    requires io.numPins <= 128
    requires io.minGsi <= g < gsi
    requires g < InitEnd(io)
    ensures forall later :: gsi <= later < InitEnd(io) && later != 0 ==>
              LoReg(Pin(io, g)) != LoReg(Pin(io, later)) &&
              LoReg(Pin(io, g)) != HiReg(Pin(io, later))
    ensures forall later :: gsi <= later < InitEnd(io) && later != 0 ==>
              HiReg(Pin(io, g)) != LoReg(Pin(io, later)) &&
              HiReg(Pin(io, g)) != HiReg(Pin(io, later))
  {
    PinInRange(io, g);
    forall later | gsi <= later < InitEnd(io) && later != 0
      ensures LoReg(Pin(io, g)) != LoReg(Pin(io, later)) && LoReg(Pin(io, g)) != HiReg(Pin(io, later))
      ensures HiReg(Pin(io, g)) != LoReg(Pin(io, later)) && HiReg(Pin(io, g)) != HiReg(Pin(io, later))
    {
      PinInRange(io, later);
      RegsApart(Pin(io, g), Pin(io, later));
    }
  }

  /** The first GSI of the range keeps its dwords when no later GSI shares
      its registers. */
  lemma WriteRangeFirst(m: Mmio, io: IoApic, end: nat, wordsOf: nat -> (bv32, bv32), g: nat)
    requires 0 < g < end
    requires forall later :: g < later < end && later != 0 ==>
               LoReg(Pin(io, g)) != LoReg(Pin(io, later)) &&
               LoReg(Pin(io, g)) != HiReg(Pin(io, later))
    requires forall later :: g < later < end && later != 0 ==>
               HiReg(Pin(io, g)) != LoReg(Pin(io, later)) &&
               HiReg(Pin(io, g)) != HiReg(Pin(io, later))
    ensures var r := WriteRange(m, io, g, end, wordsOf);
            Reg(r, io.base, LoReg(Pin(io, g))) == wordsOf(g).0 &&
            Reg(r, io.base, HiReg(Pin(io, g))) == wordsOf(g).1
  {
    var m1 := WriteWords(m, io, g, wordsOf(g));
    var r := WriteRange(m1, io, g + 1, end, wordsOf);
    var lo, hi := LoReg(Pin(io, g)), HiReg(Pin(io, g));
    assert WriteRange(m, io, g, end, wordsOf) == r;
    assert Reg(m1, io.base, lo) == wordsOf(g).0 && Reg(m1, io.base, hi) == wordsOf(g).1 by {
      WriteWordsReads(m, io, g, wordsOf(g));
    }
    assert Reg(r, io.base, lo) == Reg(m1, io.base, lo) by {
      WriteRangeFrame(m1, io, g + 1, end, wordsOf, io.base, lo);
    }
    assert Reg(r, io.base, hi) == Reg(m1, io.base, hi) by {
      WriteRangeFrame(m1, io, g + 1, end, wordsOf, io.base, hi);
    }
  }

  /** A GSI of the range whose registers no later GSI shares ends up
      holding the dwords written for it. */
  lemma {:induction false} WriteRangeWrites(m: Mmio, io: IoApic, gsi: nat, end: nat,
                                            wordsOf: nat -> (bv32, bv32), g: nat)
    requires gsi <= g < end && g != 0
    requires forall later :: g < later < end && later != 0 ==>
               LoReg(Pin(io, g)) != LoReg(Pin(io, later)) &&
               LoReg(Pin(io, g)) != HiReg(Pin(io, later))
    requires forall later :: g < later < end && later != 0 ==>
               HiReg(Pin(io, g)) != LoReg(Pin(io, later)) &&
               HiReg(Pin(io, g)) != HiReg(Pin(io, later))
    ensures var r := WriteRange(m, io, gsi, end, wordsOf);
            Reg(r, io.base, LoReg(Pin(io, g))) == wordsOf(g).0 &&
            Reg(r, io.base, HiReg(Pin(io, g))) == wordsOf(g).1
    decreases end - gsi
  {
    if gsi == 0 {
      WriteRangeWrites(m, io, gsi + 1, end, wordsOf, g);
    } else {
      if g == gsi {
        WriteRangeFirst(m, io, end, wordsOf, g);
      } else {
        WriteRangeWrites(WriteWords(m, io, gsi, wordsOf(gsi)), io, gsi + 1, end, wordsOf, g);
      }
    }
  }

  /** With at most 128 pins, every GSI the I/O APIC serves except 0 ends up
      holding its set-up entry, routed to the BSP. */
  lemma InitWrites(s: State, io: IoApic, p: Platform, g: nat)
    requires Valid(s)
    requires io.numPins <= 128
    requires io.minGsi <= g < InitEnd(io) && g != 0
    ensures ReadEntry(InitInts(s, io, p).mmio, io, g) == InitEntry(g, p)
  {
    LaterPinsApart(io, g + 1, g);
    WriteRangeWrites(s.mmio, io, io.minGsi, InitEnd(io), (g: nat) => Image(InitEntry(g, p)), g);
    ImageReadsBack(InitInts(s, io, p).mmio, io, g, InitEntry(g, p));
  }

  /** GSI 0 keeps whatever entry it had. */
  lemma InitSkipsZero(s: State, io: IoApic, p: Platform)
    requires Valid(s)
    requires io.numPins <= 128 && io.minGsi == 0 && io.numPins > 0
    ensures ReadEntry(InitInts(s, io, p).mmio, io, 0) == ReadEntry(s.mmio, io, 0)
  {
    var wordsOf := (g: nat) => Image(InitEntry(g, p));
    LaterPinsApart(io, 1, 0);
    WriteRangeFrame(s.mmio, io, 1, InitEnd(io), wordsOf, io.base, LoReg(Pin(io, 0)));
    WriteRangeFrame(s.mmio, io, 1, InitEnd(io), wordsOf, io.base, HiReg(Pin(io, 0)));
  }

  /** The set-up writes only registers of its own I/O APIC. */
  lemma InitKeepsOthers(s: State, io: IoApic, p: Platform, b: nat, reg: nat)
    requires Valid(s) && b != io.base
    ensures Reg(InitInts(s, io, p).mmio, b, reg) == Reg(s.mmio, b, reg)
  {
    WriteRangeFrame(s.mmio, io, io.minGsi, InitEnd(io), (g: nat) => Image(InitEntry(g, p)), b, reg);
  }

  /** The `ioapic_t` `register_ioapic` builds from a MADT record and the
      chip's identification and version registers: the id from bits 24-27,
      the pin count from the maximum redirection entry (bits 16-23) plus one
      in `uint8_t`, and an EOI register from version 0x20 on. */
  function Identify(m: Mmio, rec: Madt.IoApicRecord): (io: IoApic)
    ensures io.apicId < MaxIoApics
  {
    var idReg := Reg(m, rec.address, IdRegister);
    var verReg := Reg(m, rec.address, VersionRegister);
    var id := (((idReg & 0x0F00_0000) >> 24) as bv4) as int;
    var maxRed := (((verReg & 0xFF_0000) >> 16) as bv8) as int;
    IoApic(true, rec.address, rec.gsiBase, (maxRed + 1) % 0x100, (verReg & 0xFF) >= 0x20, id)
  }

  /** `register_ioapic`: store the I/O APIC in the slot of its id and set up
      its interrupts. */
  function RegisterIoApic(s: State, rec: Madt.IoApicRecord, p: Platform): (r: State)
    requires Valid(s)
    ensures Valid(r)
    ensures var io := Identify(s.mmio, rec);
            r.ioapics == s.ioapics[io.apicId := io]
  {
    var io := Identify(s.mmio, rec);
    InitInts(s.(ioapics := s.ioapics[io.apicId := io]), io, p)
  }

  /** A chip whose identification register holds id `id` and whose version
      register holds maximum redirection entry `maxRed` and version
      `version` is registered in slot `id` with `maxRed + 1` pins. */
  lemma RegisterReadsBack(s: State, rec: Madt.IoApicRecord, p: Platform, id: bv4, maxRed: bv8, version: bv8)
    requires Valid(s)
    requires Reg(s.mmio, rec.address, IdRegister) == (id as bv32) << 24
    requires Reg(s.mmio, rec.address, VersionRegister) == ((maxRed as bv32) << 16) | (version as bv32)
    ensures RegisterIoApic(s, rec, p).ioapics ==
              s.ioapics[id as int := IoApic(true, rec.address, rec.gsiBase, (maxRed as int + 1) % 0x100,
                                            version >= 0x20, id as int)]
  {
  }

  /** After registration, every GSI the chip serves except 0 holds its
      set-up entry (for chips of at most 128 pins). */
  lemma RegisterProgramsPins(s: State, rec: Madt.IoApicRecord, p: Platform, g: nat)
    requires Valid(s)
    requires var io := Identify(s.mmio, rec);
             io.numPins <= 128 && io.minGsi <= g < InitEnd(io) && g != 0
    ensures var io := Identify(s.mmio, rec);
            ReadEntry(RegisterIoApic(s, rec, p).mmio, io, g) == InitEntry(g, p)
  {
    var io := Identify(s.mmio, rec);
    InitWrites(s.(ioapics := s.ioapics[io.apicId := io]), io, p, g);
  }
}

=== FILE: kheap.dfy ===
/** The public heap interface: `kalloc`, `kfree` and `krealloc` over the
    block arena of module `Heap`. Pointers are byte offsets from
    `HEAP_START`; the pointer of a block's body is its header offset + 4. */
module KHeap {
  import opened Common
  import opened Heap
  import StringOps

  /** `((size + 1) >> 1) << 1` on a 64-bit `size_t`: the even ceiling of
      `size`, except that the largest value wraps to 0. */
  function RoundEven(size: nat): (r: nat)
    requires size < Two64
    ensures r % 2 == 0
    ensures size + 1 < Two64 ==> size <= r <= size + 1
    ensures size + 1 == Two64 ==> r == 0
  {
    (size + 1) % Two64 / 2 * 2
  }

  /** The blocks `kalloc`'s walk accepts: free, with a header word above
      the request. */
  predicate Fits(b: Block, size: nat)
  {
    !Allocated(b.header) && b.header > size
  }

  /** The first fitting block from block `k` on. */
  function FirstFitFrom(a: seq<Block>, size: nat, k: nat): (r: Option<nat>)
    requires k <= |a|
    ensures r.Some? ==> k <= r.value < |a| && Fits(a[r.value], size)
    ensures r.Some? ==> forall j :: k <= j < r.value ==> !Fits(a[j], size)
    ensures r.None? ==> forall j :: k <= j < |a| ==> !Fits(a[j], size)
    decreases |a| - k
  {
    if k == |a| then None
    else if Fits(a[k], size) then Some(k)
    else FirstFitFrom(a, size, k + 1)
  }

  /** First fit over the whole arena. */
  function FirstFit(a: seq<Block>, size: nat): Option<nat>
  {
    FirstFitFrom(a, size, 0)
  }

  /** The first fit is the only fitting block with nothing fitting before
      it. */
  lemma {:induction false} FirstFitIs(a: seq<Block>, size: nat, i: nat, k: nat)
    requires i <= k < |a| && Fits(a[k], size)
    requires forall j :: i <= j < k ==> !Fits(a[j], size)
    ensures FirstFitFrom(a, size, i) == Some(k)
    decreases k - i
  {
    if i < k {
      FirstFitIs(a, size, i + 1, k);
    }
  }

  /** A fitting block is large enough for the rounded request. */
  lemma FitsRounded(a: seq<Block>, k: nat, size: nat)
    requires WellFormed(a) && k < |a| && size < Two64 && Fits(a[k], size)
    ensures RoundEven(size) <= |a[k].body|
  {
    assert Sized(a[k]);
  }

  /** The first `n` bytes of a block's body cleared, as `memset` does. */
  function ZeroBody(b: Block, n: nat): (r: Block)
    requires n <= |b.body|
    ensures r.header == b.header && r.footer == b.footer && |r.body| == |b.body|
    ensures forall i :: 0 <= i < n ==> r.body[i] == 0
    ensures r.body[n..] == b.body[n..]
  {
    Block(b.header, StringOps.Fill(b.body, 0, n, 0), b.footer)
  }

  /** `kalloc`: the arena after the call and the pointer returned (none for
      NULL). The first fitting block is split for the rounded size and the
      first `new_size` bytes of its body are cleared. */
  function Alloc(a: seq<Block>, size: nat): (res: (seq<Block>, Option<nat>))
    requires WellFormed(a) && size < Two64
  {
    match FirstFit(a, size)
    case None => (a, None)
    case Some(k) =>
      FitsRounded(a, k, size);
      (Carve(a, k, RoundEven(size)), Some(BodyPtr(a, k)))
  }

  /** What `kalloc` does to the block it found: `split_block` for `n`
      bytes, then the `memset` of the first `n` bytes of its body. */
  function Carve(a: seq<Block>, k: nat, n: nat): (r: seq<Block>)
    requires WellFormed(a) && k < |a| && n % 2 == 0 && n <= |a[k].body|
  {
    SplitKeeps(a, k, n);
    var s := SplitBlock(a, k, n).value;
    s[k := ZeroBody(s[k], n)]
  }

  /** The carved block is allocated, at the same offset and pointer, at
      least `n` bytes long and cleared over them; the blocks in front are
      untouched and the arena stays well-formed over the same span. */
  lemma CarveSpec(a: seq<Block>, k: nat, n: nat)
    requires WellFormed(a) && k < |a| && n % 2 == 0 && n <= |a[k].body|
    ensures var r := Carve(a, k, n);
      && WellFormed(r) && Span(r) == Span(a) && k < |r|
      && r[..k] == a[..k] && Offset(r, k) == Offset(a, k)
      && BlockAt(r, BodyPtr(a, k)) == Some(k)
      && Allocated(r[k].header) && n <= |r[k].body|
      && (forall i :: 0 <= i < n ==> r[k].body[i] == 0)
  {
    SplitKeeps(a, k, n);
    var s := SplitBlock(a, k, n).value;
    var r := Carve(a, k, n);
    assert Sized(s[k]) && Agree(s[k]);
    ReplaceAllocated(s, k, ZeroBody(s[k], n));
    assert Offset(r, k) == Offset(s, k);
    BlockAtIs(r, k, BodyPtr(a, k));
  }

  /** Behind the carved block: either it was taken whole, or the
      remainder split off is a free block in front of the untouched
      rest. */
  lemma CarveTail(a: seq<Block>, k: nat, n: nat)
    requires WellFormed(a) && k < |a| && n % 2 == 0 && n <= |a[k].body|
    ensures var r := Carve(a, k, n);
      && k < |r|
      && if |a[k].body| < n + MdataSize then
           |r| == |a| && r[k + 1..] == a[k + 1..] && |r[k].body| == |a[k].body|
         else
           && |r| == |a| + 1 && |r[k].body| == n
           && !Allocated(r[k + 1].header) && |r[k + 1].body| == |a[k].body| - n - MdataSize
           && r[k + 2..] == a[k + 1..]
  {
    SplitBlockSpec(a, k, n);
  }

  /** Carving a free block keeps a coalesced arena coalesced. */
  lemma CarveCoalesced(a: seq<Block>, k: nat, n: nat)
    requires WellFormed(a) && k < |a| && n % 2 == 0 && n <= |a[k].body|
    requires Coalesced(a) && !Allocated(a[k].header)
    ensures Coalesced(Carve(a, k, n))
  {
    SplitBlockSpec(a, k, n);
    var s := SplitBlock(a, k, n).value;
    assert Sized(s[k]) && Agree(s[k]);
    ReplaceAllocated(s, k, ZeroBody(s[k], n));
    if k + 1 < |a| {
      assert Allocated(a[k + 1].header);
    }
  }

  /** Carving block `j` moves no other block: block `k` keeps its bytes
      and its pointer. */
  lemma CarveKeeps(a: seq<Block>, j: nat, n: nat, k: nat)
    requires WellFormed(a) && j < |a| && n % 2 == 0 && n <= |a[j].body|
    requires k < |a| && k != j
    ensures var r := Carve(a, j, n);
      var q := BlockAt(r, BodyPtr(a, k));
      && q.Some? && r[q.value] == a[k] && q.value != j
  {
    var s := SplitBlock(a, j, n).value;
    var k2 := if k < j then k else k + |s| - |a|;
    assert k2 < |s| && k2 != j && s[k2] == a[k] && Offset(s, k2) == Offset(a, k) by {
      SplitIndex(a, j, n, k);
    }
    SplitKeeps(a, j, n);
    var r := Carve(a, j, n);
    assert r[k2] == a[k] && Offset(r, k2) == Offset(a, k) by {
      ReplaceOne(s, j, ZeroBody(s[j], n));
    }
    BlockAtIs(r, k2, BodyPtr(a, k));
  }

  /** What `kalloc` guarantees: NULL exactly when no block fits, and then
      nothing changes; otherwise the pointer designates the first fitting
      block, now allocated, at least the rounded size long and cleared over
      that size, with the blocks in front untouched and coalescing kept. */
  lemma AllocSpec(a: seq<Block>, size: nat)
    requires WellFormed(a) && size < Two64
    ensures Alloc(a, size).1.None? <==> FirstFit(a, size).None?
    ensures Alloc(a, size).1.None? ==> Alloc(a, size).0 == a
    ensures Alloc(a, size).1.Some? ==>
      var r := Alloc(a, size).0;
      var k := FirstFit(a, size).value;
      var n := RoundEven(size);
      && Alloc(a, size).1.value == BodyPtr(a, k)
      && WellFormed(r) && Span(r) == Span(a)
      && BlockAt(r, Alloc(a, size).1.value) == Some(k)
      && r[..k] == a[..k]
      && Allocated(r[k].header) && n <= |r[k].body|
      && (forall i :: 0 <= i < n ==> r[k].body[i] == 0)
      && (Coalesced(a) ==> Coalesced(r))
      && (if |a[k].body| < n + MdataSize then
            |r| == |a| && r[k + 1..] == a[k + 1..] && |r[k].body| == |a[k].body|
          else
            && |r| == |a| + 1 && |r[k].body| == n
            && !Allocated(r[k + 1].header) && |r[k + 1].body| == |a[k].body| - n - MdataSize
            && r[k + 2..] == a[k + 1..])
  {
    if FirstFit(a, size).Some? {
      var k := FirstFit(a, size).value;
      FitsRounded(a, k, size);
      CarveSpec(a, k, RoundEven(size));
      CarveTail(a, k, RoundEven(size));
      if Coalesced(a) {
        CarveCoalesced(a, k, RoundEven(size));
      }
    }
  }

  /** `kalloc` carves the first fit. */
  lemma AllocIs(a: seq<Block>, size: nat, k: nat)
    requires WellFormed(a) && size < Two64 && FirstFit(a, size) == Some(k)
    ensures k < |a| && RoundEven(size) <= |a[k].body|
    ensures Alloc(a, size) == (Carve(a, k, RoundEven(size)), Some(BodyPtr(a, k)))
  {
    FitsRounded(a, k, size);
  }

  /** The part of `kalloc`'s promise about the block it hands out. */
  lemma AllocCore(a: seq<Block>, size: nat)
    requires WellFormed(a) && size < Two64 && Alloc(a, size).1.Some?
    ensures var r := Alloc(a, size).0;
      var p := Alloc(a, size).1.value;
      var k := FirstFit(a, size).value;
      && FirstFit(a, size).Some? && k < |a| && k < |r|
      && WellFormed(r) && Span(r) == Span(a)
      && p == BodyPtr(a, k) && Offset(r, k) == Offset(a, k)
      && BlockAt(r, p) == Some(k) && r[..k] == a[..k]
      && Allocated(r[k].header) && RoundEven(size) <= |r[k].body|
  {
    var k := FirstFit(a, size).value;
    FitsRounded(a, k, size);
    CarveSpec(a, k, RoundEven(size));
  }

  /** The part of `kalloc`'s promise about the blocks behind the one it
      hands out: either the block was taken whole, or its split-off
      remainder is a free block in front of the untouched rest. */
  lemma AllocTail(a: seq<Block>, size: nat)
    requires WellFormed(a) && size < Two64 && Alloc(a, size).1.Some?
    ensures var r := Alloc(a, size).0;
      var k := FirstFit(a, size).value;
      var n := RoundEven(size);
      && FirstFit(a, size).Some? && k < |a| && k < |r|
      && if |a[k].body| < n + MdataSize then
           |r| == |a| && r[k + 1..] == a[k + 1..] && |r[k].body| == |a[k].body|
         else
           && |r| == |a| + 1 && |r[k].body| == n
           && !Allocated(r[k + 1].header) && |r[k + 1].body| == |a[k].body| - n - MdataSize
           && r[k + 2..] == a[k + 1..]
  {
    var k := FirstFit(a, size).value;
    FitsRounded(a, k, size);
    CarveTail(a, k, RoundEven(size));
  }

  /** `kalloc`'s walk: from the arena's start, step over blocks that are
      allocated or whose header word is at most `size`, by header + size +
      footer, while the position is inside the arena. */
  method KAlloc(a: seq<Block>, size: nat) returns (r: seq<Block>, ptr: Option<nat>)
    requires WellFormed(a) && size < Two64
    ensures (r, ptr) == Alloc(a, size)
    ensures ptr.Some? ==> BlockAt(r, ptr.value) == FirstFit(a, size)
  {
    var heapPtr := 0;
    var k := 0;
    while heapPtr < Span(a) && (Allocated(a[k].header) || a[k].header <= size)
      invariant k <= |a| && heapPtr == Offset(a, k)
      invariant forall j :: 0 <= j < k ==> !Fits(a[j], size)
    {
      heapPtr := heapPtr + Size(a[k].header) + HeaderSize + FooterSize;
      k := k + 1;
    }
    if heapPtr < Span(a) {
      assert k < |a| && Fits(a[k], size);
      r, ptr := KAllocAt(a, size, k, heapPtr);
    } else {
      KAllocMissed(a, size, k);
      r, ptr := a, None;
    }
  }

  /** The part of `kalloc` after the walk has stopped at the fitting block
      `k` whose header sits at `heapPtr`: split it, clear the requested
      bytes and hand out the address just past the header. */
  method KAllocAt(a: seq<Block>, size: nat, k: nat, heapPtr: nat) returns (r: seq<Block>, ptr: Option<nat>)
    requires WellFormed(a) && size < Two64 && k < |a| && Fits(a[k], size)
    requires forall j :: 0 <= j < k ==> !Fits(a[j], size)
    requires heapPtr == Offset(a, k)
    ensures (r, ptr) == Alloc(a, size)
    ensures FirstFit(a, size) == Some(k)
    ensures ptr.Some? && BlockAt(r, ptr.value) == Some(k)
  {
    KAllocFound(a, size, k);
    var n := RoundEven(size);
    var s := SplitBlock(a, k, n).value;
    var body, _ := StringOps.MemSet(s[k].body, 0, 0, n);
    r := s[k := Block(s[k].header, body, s[k].footer)];
    ptr := Some(heapPtr + HeaderSize);
    KAllocResult(a, size, k, body);
  }

  /** A walk that runs off the end of the arena has seen every block, so
      nothing fits and `kalloc` returns NULL. */
  lemma KAllocMissed(a: seq<Block>, size: nat, k: nat)
    requires WellFormed(a) && size < Two64 && k <= |a| && Span(a) <= Offset(a, k)
    requires forall j :: 0 <= j < k ==> !Fits(a[j], size)
    ensures Alloc(a, size) == (a, None)
  {
    if k < |a| {
      OffsetBelowSpan(a, k + 1);
    }
    assert k == |a|;
    if FirstFit(a, size).Some? {
      assert false;
    }
  }

  /** Where `kalloc`'s walk stops inside the arena, it has found the first
      fit, and the block is big enough to split for the rounded size. */
  lemma KAllocFound(a: seq<Block>, size: nat, k: nat)
    requires WellFormed(a) && size < Two64 && k < |a| && Fits(a[k], size)
    requires forall j :: 0 <= j < k ==> !Fits(a[j], size)
    ensures FirstFit(a, size) == Some(k) && RoundEven(size) <= |a[k].body|
    ensures var s := SplitBlock(a, k, RoundEven(size));
      s.Some? && k < |s.value| && RoundEven(size) <= |s.value[k].body|
  {
    FirstFitIs(a, size, 0, k);
    FitsRounded(a, k, size);
    SplitKeeps(a, k, RoundEven(size));
  }

  /** Clearing the first bytes of the split block with `memset` is what
      `kalloc` returns. */
  lemma KAllocResult(a: seq<Block>, size: nat, k: nat, body: seq<Byte>)
    requires WellFormed(a) && size < Two64 && FirstFit(a, size) == Some(k)
    requires k < |a| && RoundEven(size) <= |a[k].body|
    requires var s := SplitBlock(a, k, RoundEven(size));
      && s.Some? && k < |s.value| && RoundEven(size) <= |s.value[k].body|
      && body == StringOps.Fill(s.value[k].body, 0, RoundEven(size), ToByte(0))
    ensures var s := SplitBlock(a, k, RoundEven(size)).value;
      var r := s[k := Block(s[k].header, body, s[k].footer)];
      && Alloc(a, size) == (r, Some(BodyPtr(a, k)))
      && BlockAt(r, BodyPtr(a, k)) == Some(k)
  {
    var n := RoundEven(size);
    var s := SplitBlock(a, k, n).value;
    assert ToByte(0) == 0;
    assert Block(s[k].header, body, s[k].footer) == ZeroBody(s[k], n);
    AllocIs(a, size, k);
    CarveSpec(a, k, n);
  }

  // ---------------------------------------------------------------------
  // kfree

  /** Block `k` with its allocated bit cleared in header and footer
      (`&= SIZE_MASK`). */
  function Cleared(b: Block): (r: Block)
    requires Sized(b) && Agree(b)
    ensures Sized(r) && Agree(r) && !Allocated(r.header) && r.body == b.body
  {
    Block(Size(b.header), b.body, Size(b.footer))
  }

  /** Whether block `k`'s neighbour behind it is free. */
  predicate NextFree(a: seq<Block>, k: nat)
  {
    k + 1 < |a| && !Allocated(a[k + 1].header)
  }

  /** Whether block `k`'s neighbour in front, read through its footer, is
      free. */
  predicate PrevFree(a: seq<Block>, k: nat)
    requires k < |a|
  {
    k > 0 && !Allocated(a[k - 1].footer)
  }

  /** The first half of `kfree` of block `k`: clear its bits and merge it
      with a free successor. */
  function FreeForward(a: seq<Block>, k: nat): (r: seq<Block>)
    requires WellFormed(a) && k < |a|
  {
    var a1 := a[k := Cleared(a[k])];
    ReplaceOne(a, k, Cleared(a[k]));
    if NextFree(a, k) then (MergeBlockSpec(a1, k, k + 1); MergeBlock(a1, k, k + 1).value) else a1
  }

  /** `kfree` of block `k`: clear its bits, merge it with a free successor,
      then merge a free predecessor with it. */
  function FreeBlock(a: seq<Block>, k: nat): (r: seq<Block>)
    requires WellFormed(a) && k < |a|
  {
    var a2 := FreeForward(a, k);
    FreeForwardSpec(a, k);
    if PrevFree(a, k) then (MergeBlockSpec(a2, k - 1, k); MergeBlock(a2, k - 1, k).value) else a2
  }

  /** `kfree(ptr)` for a pointer that designates a block's body. */
  function Free(a: seq<Block>, ptr: nat): (r: seq<Block>)
    requires WellFormed(a) && BlockAt(a, ptr).Some?
  {
    FreeBlock(a, BlockAt(a, ptr).value)
  }

  /** The index of the first block `kfree` of block `k` merges into, and
      the index after the last. */
  function FreeLo(a: seq<Block>, k: nat): nat
    requires k < |a|
  {
    if PrevFree(a, k) then k - 1 else k
  }

  function FreeHi(a: seq<Block>, k: nat): nat
    requires k < |a|
  {
    if NextFree(a, k) then k + 2 else k + 1
  }

  /** The forward half of `kfree`: block `k` and a free successor become
      one free block over the same bytes. */
  lemma FreeForwardSpec(a: seq<Block>, k: nat)
    requires WellFormed(a) && k < |a|
    ensures var r := FreeForward(a, k);
      var hi := FreeHi(a, k);
      && WellFormed(r) && Span(r) == Span(a)
      && r == a[..k] + [r[k]] + a[hi..]
      && !Allocated(r[k].header)
      && Offset(r, k) == Offset(a, k)
      && Footprint(r[k]) == Offset(a, hi) - Offset(a, k)
  {
    var c := Cleared(a[k]);
    var a1 := a[k := c];
    ReplaceOne(a, k, c);
    assert a1 == a[..k] + [c] + a[k + 1..];
    if NextFree(a, k) {
      MergeBlockSpec(a1, k, k + 1);
      var r := MergeBlock(a1, k, k + 1).value;
      assert a1[k + 2..] == a[k + 2..];
      assert r == a[..k] + [r[k]] + a[k + 2..];
    }
  }

  /** What `kfree` guarantees: blocks `lo..hi` (block `k` and its free
      neighbours) become one free block covering exactly their bytes, and
      every other block stays as it was; the arena stays well-formed. */
  lemma FreeSpec(a: seq<Block>, k: nat)
    requires WellFormed(a) && k < |a|
    ensures var r := FreeBlock(a, k);
      var lo := FreeLo(a, k);
      var hi := FreeHi(a, k);
      && WellFormed(r) && Span(r) == Span(a)
      && r == a[..lo] + [r[lo]] + a[hi..]
      && !Allocated(r[lo].header)
      && Offset(r, lo) == Offset(a, lo)
      && Footprint(r[lo]) == Offset(a, hi) - Offset(a, lo)
  {
    FreeForwardSpec(a, k);
    if PrevFree(a, k) {
      FreeBackward(a, k);
    }
  }

  /** The backward half of `kfree`: a free predecessor absorbs the block
      the forward half left. */
  lemma FreeBackward(a: seq<Block>, k: nat)
    requires WellFormed(a) && k < |a| && PrevFree(a, k)
    ensures var r := FreeBlock(a, k);
      var hi := FreeHi(a, k);
      && WellFormed(r) && Span(r) == Span(a)
      && r == a[..k - 1] + [r[k - 1]] + a[hi..]
      && !Allocated(r[k - 1].header)
      && Offset(r, k - 1) == Offset(a, k - 1)
      && Footprint(r[k - 1]) == Offset(a, hi) - Offset(a, k - 1)
  {
    FreeBackwardShape(a, k);
    FreeBackwardBlock(a, k);
  }

  lemma FreeBackwardShape(a: seq<Block>, k: nat)
    requires WellFormed(a) && k < |a| && PrevFree(a, k)
    ensures var r := FreeBlock(a, k);
      && WellFormed(r) && Span(r) == Span(a)
      && r == a[..k - 1] + [r[k - 1]] + a[FreeHi(a, k)..]
  {
    FreeForwardSpec(a, k);
    BackwardAbsorb(a, FreeForward(a, k), k, FreeHi(a, k));
  }

  /** Merging block `k` of a spliced arena into the block in front keeps
      the splice's shape one block further forward. */
  lemma BackwardAbsorb(a: seq<Block>, a2: seq<Block>, k: nat, hi: nat)
    requires WellFormed(a) && 0 < k < hi <= |a|
    requires WellFormed(a2) && Span(a2) == Span(a) && k < |a2|
    requires a2 == a[..k] + [a2[k]] + a[hi..]
    ensures var r := MergeBlock(a2, k - 1, k).value;
      && WellFormed(r) && Span(r) == Span(a)
      && r == a[..k - 1] + [r[k - 1]] + a[hi..]
  {
    MergeArena(a2, k - 1);
    var r := MergeBlock(a2, k - 1, k).value;
    assert a2[..k - 1] == a[..k - 1];
    assert a2[k + 1..] == a[hi..];
    assert r == r[..k - 1] + [r[k - 1]] + r[k..];
  }

  lemma FreeBackwardBlock(a: seq<Block>, k: nat)
    requires WellFormed(a) && k < |a| && PrevFree(a, k)
    ensures var r := FreeBlock(a, k);
      && k - 1 < |r|
      && !Allocated(r[k - 1].header)
      && Offset(r, k - 1) == Offset(a, k - 1)
      && Footprint(r[k - 1]) == Offset(a, FreeHi(a, k)) - Offset(a, k - 1)
  {
    var a2 := FreeForward(a, k);
    FreeForwardSpec(a, k);
    MergeBlockSpec(a2, k - 1, k);
    assert a2[k - 1] == a[k - 1];
    assert Agree(a[k - 1]);
  }

  /** `kfree` keeps a coalesced arena coalesced: a free neighbour of a
      coalesced arena has allocated neighbours of its own. */
  lemma FreeCoalesced(a: seq<Block>, k: nat)
    requires WellFormed(a) && k < |a| && Coalesced(a)
    ensures Coalesced(FreeBlock(a, k))
  {
    FreeSpec(a, k);
    var r := FreeBlock(a, k);
    var lo := FreeLo(a, k);
    var hi := FreeHi(a, k);
    if lo > 0 {
      assert Agree(a[k - 1]);
    }
    SpliceCoalesced(a, lo, hi, r[lo]);
  }

  /** Replacing blocks `lo..hi` of a coalesced arena by one free block
      whose neighbours are allocated keeps it coalesced. */
  lemma SpliceCoalesced(a: seq<Block>, lo: nat, hi: nat, f: Block)
    requires lo < hi <= |a| && Coalesced(a)
    requires lo > 0 ==> Allocated(a[lo - 1].header)
    requires hi < |a| ==> Allocated(a[hi].header)
    ensures Coalesced(a[..lo] + [f] + a[hi..])
  {
    var r := a[..lo] + [f] + a[hi..];
    forall i | 0 <= i < |r| - 1
      ensures Allocated(r[i].header) || Allocated(r[i + 1].header)
    {
      if i + 1 < lo {
        assert r[i] == a[i] && r[i + 1] == a[i + 1];
      } else if i > lo {
        assert r[i] == a[i - lo - 1 + hi] && r[i + 1] == a[i - lo + hi];
      } else if i + 1 == lo {
        assert r[i] == a[lo - 1];
      } else {
        assert r[i + 1] == a[hi];
      }
    }
  }

  // ---------------------------------------------------------------------
  // kalloc then kfree

  /** The sizes and allocated bits of the blocks, in arena order. */
  function Layout(a: seq<Block>): (l: seq<(nat, bool)>)
    ensures |l| == |a|
  {
    seq(|a|, i requires 0 <= i < |a| => (|a[i].body|, Allocated(a[i].header)))
  }

  /** In a coalesced arena, freeing what `kalloc` just returned restores
      the arena's layout: the split-off remainder is merged back, and the
      block's neighbours, being allocated, are left alone. */
  lemma AllocThenFree(a: seq<Block>, size: nat)
    requires WellFormed(a) && Coalesced(a) && size < Two64
    requires Alloc(a, size).1.Some?
    ensures var (r, p) := Alloc(a, size);
      WellFormed(r) && BlockAt(r, p.value).Some? && Layout(Free(r, p.value)) == Layout(a)
  {
    AllocSpec(a, size);
    var (r, p) := Alloc(a, size);
    var k := FirstFit(a, size).value;
    FreeAfterAlloc(a, size);
    LayoutSplice(a, FreeBlock(r, k), k);
  }

  /** Freeing the block `kalloc` just took gives back one free block of the
      original size in its place. */
  lemma FreeAfterAlloc(a: seq<Block>, size: nat)
    requires WellFormed(a) && Coalesced(a) && size < Two64
    requires Alloc(a, size).1.Some?
    ensures var r := Alloc(a, size).0;
      var k := FirstFit(a, size).value;
      && WellFormed(r) && k < |r|
      && var f := FreeBlock(r, k);
      && k < |a| && k < |f|
      && f == a[..k] + [f[k]] + a[k + 1..]
      && !Allocated(f[k].header) && |f[k].body| == |a[k].body|
  {
    AllocCore(a, size);
    var r := Alloc(a, size).0;
    var k := FirstFit(a, size).value;
    AllocFreeBounds(a, size);
    var f := FreeBlock(r, k);
    var hi := FreeHi(r, k);
    assert f == r[..k] + [f[k]] + r[hi..] && !Allocated(f[k].header)
      && Footprint(f[k]) == Offset(r, hi) - Offset(r, k) by {
      FreeSpec(r, k);
    }
  }

  /** Around the block `kalloc` just took from a coalesced arena, `kfree`
      finds an allocated block in front and, behind, either an allocated
      block or the split-off remainder, which together with the block
      covers the original block's bytes. */
  lemma AllocFreeBounds(a: seq<Block>, size: nat)
    requires WellFormed(a) && Coalesced(a) && size < Two64
    requires Alloc(a, size).1.Some?
    ensures var r := Alloc(a, size).0;
      var k := FirstFit(a, size).value;
      && k < |a| && k < |r|
      && FreeLo(r, k) == k && FreeHi(r, k) <= |r| && r[FreeHi(r, k)..] == a[k + 1..]
      && Offset(r, FreeHi(r, k)) == Offset(r, k) + Footprint(a[k])
  {
    var k := FirstFit(a, size).value;
    FitsRounded(a, k, size);
    CarveFreeLo(a, k, RoundEven(size));
    CarveFreeHi(a, k, RoundEven(size));
  }

  /** In front of a block carved from a coalesced arena lies an allocated
      block, if any. */
  lemma CarveFreeLo(a: seq<Block>, k: nat, n: nat)
    requires WellFormed(a) && k < |a| && n % 2 == 0 && n <= |a[k].body|
    requires Coalesced(a) && !Allocated(a[k].header)
    ensures k < |Carve(a, k, n)| && FreeLo(Carve(a, k, n), k) == k
  {
    CarveSpec(a, k, n);
    var r := Carve(a, k, n);
    if k > 0 {
      assert r[k - 1] == a[..k][k - 1];
      assert Agree(a[k - 1]);
    }
  }

  /** Behind a block carved from a coalesced arena, `kfree` stops after
      the split-off remainder, or right after the block when it was taken
      whole: either way at the original block's end. */
  lemma CarveFreeHi(a: seq<Block>, k: nat, n: nat)
    requires WellFormed(a) && k < |a| && n % 2 == 0 && n <= |a[k].body|
    requires Coalesced(a) && !Allocated(a[k].header)
    ensures var r := Carve(a, k, n);
      && k < |r| && FreeHi(r, k) <= |r| && r[FreeHi(r, k)..] == a[k + 1..]
      && Offset(r, FreeHi(r, k)) == Offset(r, k) + Footprint(a[k])
  {
    CarveTail(a, k, n);
    var r := Carve(a, k, n);
    if |a[k].body| >= n + MdataSize {
      FreeHiRemainder(a, r, k);
    } else {
      assert k + 1 < |a| ==> Allocated(a[k + 1].header);
      FreeHiWhole(a, r, k);
    }
  }

  /** Behind a block followed by a free remainder of its original bytes. */
  lemma FreeHiRemainder(a: seq<Block>, r: seq<Block>, k: nat)
    requires k < |a| && |r| == |a| + 1 && k + 1 < |r|
    requires !Allocated(r[k + 1].header) && r[k + 2..] == a[k + 1..]
    requires Footprint(r[k]) + Footprint(r[k + 1]) == Footprint(a[k])
    ensures FreeHi(r, k) <= |r| && r[FreeHi(r, k)..] == a[k + 1..]
    ensures Offset(r, FreeHi(r, k)) == Offset(r, k) + Footprint(a[k])
  {
    assert FreeHi(r, k) == k + 2;
  }

  /** Behind a block of unchanged size followed by an allocated block. */
  lemma FreeHiWhole(a: seq<Block>, r: seq<Block>, k: nat)
    requires k < |a| && |r| == |a| && r[k + 1..] == a[k + 1..]
    requires Footprint(r[k]) == Footprint(a[k])
    requires k + 1 < |a| ==> Allocated(a[k + 1].header)
    ensures FreeHi(r, k) <= |r| && r[FreeHi(r, k)..] == a[k + 1..]
    ensures Offset(r, FreeHi(r, k)) == Offset(r, k) + Footprint(a[k])
  {
    if k + 1 < |a| {
      assert r[k + 1] == a[k + 1];
    }
    assert FreeHi(r, k) == k + 1;
  }

  /** Two arenas that differ in one block of the same size and state have
      the same layout. */
  lemma LayoutSplice(a: seq<Block>, f: seq<Block>, k: nat)
    requires k < |a| && k < |f| && f == a[..k] + [f[k]] + a[k + 1..]
    requires |f[k].body| == |a[k].body| && Allocated(f[k].header) == Allocated(a[k].header)
    ensures Layout(f) == Layout(a)
  {
    forall i | 0 <= i < |a|
      ensures Layout(f)[i] == Layout(a)[i]
    {
      if i != k {
        assert f[i] == a[i];
      }
    }
  }

  // ---------------------------------------------------------------------
  // krealloc

  function Min(x: nat, y: nat): nat
  {
    if x <= y then x else y
  }

  /** What a successful `krealloc` path leaves: a well-formed arena of the
      same span in which `ptr` designates an allocated block of at least
      `n` bytes starting with the first `len` bytes of `data`. */
  predicate Reallocated(a: seq<Block>, r: seq<Block>, ptr: nat, n: nat, data: seq<Byte>, len: nat)
  {
    && WellFormed(r) && Span(r) == Span(a)
    && BlockAt(r, ptr).Some?
    && var j := BlockAt(r, ptr).value;
    && Allocated(r[j].header) && n <= |r[j].body|
    && len <= |data| && len <= |r[j].body|
    && r[j].body[..len] == data[..len]
  }

  /** The merge and clear of `merge_forward`: block `k` absorbs its free
      successor, whose header and body are then cleared (block `k`'s old
      footer stays in the body). */
  function ForwardMerged(a: seq<Block>, k: nat): (r: seq<Block>)
    requires WellFormed(a) && k + 1 < |a|
  {
    MergeBlockSpec(a, k, k + 1);
    var a1 := MergeBlock(a, k, k + 1).value;
    var m := a1[k];
    a1[k := Block(m.header, StringOps.Fill(m.body, |a[k].body| + FooterSize, |a[k + 1].body| + HeaderSize, 0), m.footer)]
  }

  lemma ForwardMergedSpec(a: seq<Block>, k: nat)
    requires WellFormed(a) && k + 1 < |a|
    ensures var r := ForwardMerged(a, k);
      && WellFormed(r) && Span(r) == Span(a) && k < |r|
      && r[..k] == a[..k] && Offset(r, k) == Offset(a, k)
      && |r[k].body| == |a[k].body| + |a[k + 1].body| + MdataSize
      && r[k].body[..|a[k].body|] == a[k].body
  {
    MergeBlockSpec(a, k, k + 1);
    var a1 := MergeBlock(a, k, k + 1).value;
    var m := a1[k];
    var cleared := Block(m.header, StringOps.Fill(m.body, |a[k].body| + FooterSize, |a[k + 1].body| + HeaderSize, 0), m.footer);
    ReplaceOne(a1, k, cleared);
    assert Sized(cleared) && Agree(cleared);
    assert cleared.body[..|a[k].body|] == a[k].body by {
      assert forall i :: 0 <= i < |a[k].body| ==> cleared.body[i] == m.body[i];
      assert forall i :: 0 <= i < |a[k].body| ==> m.body[i] == m.body[..|a[k].body|][i];
    }
  }

  /** `merge_forward`: the merge and clear, then a split for `n` bytes. */
  function MergeForward(a: seq<Block>, k: nat, n: nat): (r: seq<Block>)
    requires WellFormed(a) && k + 1 < |a| && n % 2 == 0
    requires n <= |a[k].body| + |a[k + 1].body| + MdataSize
  {
    ForwardMergedSpec(a, k);
    SplitBlockSpec(ForwardMerged(a, k), k, n);
    SplitBlock(ForwardMerged(a, k), k, n).value
  }

  lemma MergeForwardSpec(a: seq<Block>, k: nat, n: nat)
    requires WellFormed(a) && k + 1 < |a| && n % 2 == 0
    requires n <= |a[k].body| + |a[k + 1].body| + MdataSize
    ensures var r := MergeForward(a, k, n);
      && Reallocated(a, r, BodyPtr(a, k), n, a[k].body, Min(|a[k].body|, n))
      && BlockAt(r, BodyPtr(a, k)) == Some(k)
  {
    ForwardMergedSpec(a, k);
    SplitRealloc(a, ForwardMerged(a, k), k, n, a[k].body);
  }

  /** The merge of `merge_backward`, corrected: the free block in front
      absorbs block `k`, and block `k`'s data is moved to the front of the
      merged body, the rest of which is cleared. The tags are taken from
      the block sizes read before the move. */
  function BackwardMerged(a: seq<Block>, k: nat): (r: seq<Block>)
    requires WellFormed(a) && 0 < k < |a|
  {
    MergeBlockSpec(a, k - 1, k);
    var a1 := MergeBlock(a, k - 1, k).value;
    var m := a1[k - 1];
    a1[k - 1 := Block(m.header, a[k].body + Zeros(|a[k - 1].body| + MdataSize), m.footer)]
  }

  lemma BackwardMergedSpec(a: seq<Block>, k: nat)
    requires WellFormed(a) && 0 < k < |a|
    ensures var r := BackwardMerged(a, k);
      && WellFormed(r) && Span(r) == Span(a) && k - 1 < |r|
      && r[..k - 1] == a[..k - 1] && Offset(r, k - 1) == Offset(a, k - 1)
      && |r[k - 1].body| == |a[k - 1].body| + |a[k].body| + MdataSize
      && r[k - 1].body[..|a[k].body|] == a[k].body
  {
    MergeBlockSpec(a, k - 1, k);
    var a1 := MergeBlock(a, k - 1, k).value;
    var m := a1[k - 1];
    var moved := Block(m.header, a[k].body + Zeros(|a[k - 1].body| + MdataSize), m.footer);
    ReplaceOne(a1, k - 1, moved);
    assert Sized(moved) && Agree(moved);
    assert moved.body[..|a[k].body|] == a[k].body;
  }

  /** `merge_backward`, corrected: the merge and move, then a split for
      `n` bytes; the data now starts at the front block's body. */
  function MergeBackward(a: seq<Block>, k: nat, n: nat): (r: seq<Block>)
    requires WellFormed(a) && 0 < k < |a| && n % 2 == 0
    requires n <= |a[k - 1].body| + |a[k].body| + MdataSize
  {
    BackwardMergedSpec(a, k);
    SplitBlockSpec(BackwardMerged(a, k), k - 1, n);
    SplitBlock(BackwardMerged(a, k), k - 1, n).value
  }

  lemma MergeBackwardSpec(a: seq<Block>, k: nat, n: nat)
    requires WellFormed(a) && 0 < k < |a| && n % 2 == 0
    requires n <= |a[k - 1].body| + |a[k].body| + MdataSize
    ensures var r := MergeBackward(a, k, n);
      && Reallocated(a, r, BodyPtr(a, k - 1), n, a[k].body, Min(|a[k].body|, n))
      && BlockAt(r, BodyPtr(a, k - 1)) == Some(k - 1)
  {
    BackwardMergedSpec(a, k);
    SplitRealloc(a, BackwardMerged(a, k), k - 1, n, a[k].body);
  }

  /** `threeway_merge`'s size: the three bodies and two tag pairs. */
  function ThreewaySize(a: seq<Block>, k: nat): nat
    requires 0 < k && k + 1 < |a|
  {
    |a[k - 1].body| + |a[k].body| + |a[k + 1].body| + 2 * MdataSize
  }

  /** The two `merge_block` steps of a three-way merge: the block in front
      absorbs block `k`, then what was block `k + 1`. */
  function DoubleMerge(a: seq<Block>, k: nat): (r: seq<Block>)
    requires WellFormed(a) && 0 < k && k + 1 < |a|
  {
    MergeBlockSpec(a, k - 1, k);
    var a1 := MergeBlock(a, k - 1, k).value;
    MergeBlockSpec(a1, k - 1, k);
    MergeBlock(a1, k - 1, k).value
  }

  lemma DoubleMergeSpec(a: seq<Block>, k: nat)
    requires WellFormed(a) && 0 < k && k + 1 < |a|
    ensures var r := DoubleMerge(a, k);
      && WellFormed(r) && Span(r) == Span(a) && k - 1 < |r|
      && r[..k - 1] == a[..k - 1] && Offset(r, k - 1) == Offset(a, k - 1)
      && |r[k - 1].body| == |a[k - 1].body| + |a[k].body| + |a[k + 1].body| + 2 * MdataSize
  {
    MergeBlockSpec(a, k - 1, k);
    var a1 := MergeBlock(a, k - 1, k).value;
    MergeBlockSpec(a1, k - 1, k);
    assert a1[k] == a[k + 1];
  }

  /** The merge of `threeway_merge`, corrected: the free blocks on both
      sides absorb block `k` into one allocated block whose body starts
      with block `k`'s data and is cleared after it. */
  function ThreewayMerged(a: seq<Block>, k: nat): (r: seq<Block>)
    requires WellFormed(a) && 0 < k && k + 1 < |a|
  {
    DoubleMergeSpec(a, k);
    Retag(DoubleMerge(a, k), k - 1, a[k].body, ThreewaySize(a, k))
  }

  /** Block `j` of `a2` re-tagged as an allocated block of `total` bytes
      holding `data` followed by zeros. */
  function Retag(a2: seq<Block>, j: nat, data: seq<Byte>, total: nat): (r: seq<Block>)
    requires j < |a2| && |data| <= total
    ensures |r| == |a2| && |r[j].body| == total && r[j].body[..|data|] == data
  {
    a2[j := Block(total + 1, data + Zeros(total - |data|), total + 1)]
  }

  lemma ThreewayMergedSpec(a: seq<Block>, k: nat)
    requires WellFormed(a) && 0 < k && k + 1 < |a|
    ensures var r := ThreewayMerged(a, k);
      && WellFormed(r) && Span(r) == Span(a) && k - 1 < |r|
      && r[..k - 1] == a[..k - 1] && Offset(r, k - 1) == Offset(a, k - 1)
      && |r[k - 1].body| == |a[k - 1].body| + |a[k].body| + |a[k + 1].body| + 2 * MdataSize
      && r[k - 1].body[..|a[k].body|] == a[k].body
  {
    DoubleMergeSpec(a, k);
    var total := ThreewaySize(a, k);
    ThreewayRetag(a, DoubleMerge(a, k), k, total);
  }

  /** Re-tagging the doubly merged block as allocated, with block `k`'s
      data at the front and zeros after it. */
  lemma ThreewayRetag(a: seq<Block>, a2: seq<Block>, k: nat, total: nat)
    requires WellFormed(a) && 0 < k && k + 1 < |a|
    requires WellFormed(a2) && Span(a2) == Span(a) && k - 1 < |a2|
    requires a2[..k - 1] == a[..k - 1] && Offset(a2, k - 1) == Offset(a, k - 1)
    requires |a2[k - 1].body| == total && |a[k].body| <= total
    ensures var r := Retag(a2, k - 1, a[k].body, total);
      && WellFormed(r) && Span(r) == Span(a) && k - 1 < |r|
      && r[..k - 1] == a[..k - 1] && Offset(r, k - 1) == Offset(a, k - 1)
      && |r[k - 1].body| == total
      && r[k - 1].body[..|a[k].body|] == a[k].body
  {
    var merged := Block(total + 1, a[k].body + Zeros(total - |a[k].body|), total + 1);
    assert Sized(a2[k - 1]);
    SizedFacts(a2[k - 1]);
    TagFields(total, true);
    assert merged.header == Tag(total, true);
    ReplaceAllocated(a2, k - 1, merged);
  }

  /** `threeway_merge`, corrected: the merge, then a split for `n` bytes. */
  function MergeThreeway(a: seq<Block>, k: nat, n: nat): (r: seq<Block>)
    requires WellFormed(a) && 0 < k && k + 1 < |a| && n % 2 == 0
    requires n <= |a[k - 1].body| + |a[k].body| + |a[k + 1].body| + 2 * MdataSize
  {
    ThreewayMergedSpec(a, k);
    SplitBlockSpec(ThreewayMerged(a, k), k - 1, n);
    SplitBlock(ThreewayMerged(a, k), k - 1, n).value
  }

  lemma MergeThreewaySpec(a: seq<Block>, k: nat, n: nat)
    requires WellFormed(a) && 0 < k && k + 1 < |a| && n % 2 == 0
    requires n <= |a[k - 1].body| + |a[k].body| + |a[k + 1].body| + 2 * MdataSize
    ensures var r := MergeThreeway(a, k, n);
      && Reallocated(a, r, BodyPtr(a, k - 1), n, a[k].body, Min(|a[k].body|, n))
      && BlockAt(r, BodyPtr(a, k - 1)) == Some(k - 1)
  {
    ThreewayMergedSpec(a, k);
    SplitRealloc(a, ThreewayMerged(a, k), k - 1, n, a[k].body);
  }

  /** Splitting a merged block that starts with `data` for `n` bytes leaves
      a reallocated block at the merged block's pointer. */
  lemma SplitRealloc(a: seq<Block>, a2: seq<Block>, j: nat, n: nat, data: seq<Byte>)
    requires WellFormed(a2) && Span(a2) == Span(a) && j < |a2| && n % 2 == 0
    requires n <= |a2[j].body| && |data| <= |a2[j].body| && a2[j].body[..|data|] == data
    ensures var r := SplitBlock(a2, j, n).value;
      && Reallocated(a, r, BodyPtr(a2, j), n, data, Min(|data|, n))
      && BlockAt(r, BodyPtr(a2, j)) == Some(j)
  {
    SplitKeeps(a2, j, n);
    var r := SplitBlock(a2, j, n).value;
    BlockAtOffset(r, j);
    PrefixThrough(r[j].body, a2[j].body, a2[j].body, data, n, |data|);
  }

  /** A prefix carried through three stages: `r` agrees with `c` on the
      first `n` bytes, `c` with `m` on the first `keep`, and `m` starts
      with `d`. */
  lemma PrefixThrough(r: seq<Byte>, c: seq<Byte>, m: seq<Byte>, d: seq<Byte>, n: nat, keep: nat)
    requires n <= |r| && n <= |c| && r[..n] == c[..n]
    requires |d| <= keep <= |c| && keep <= |m| && forall i :: 0 <= i < keep ==> c[i] == m[i]
    requires |d| <= |m| && m[..|d|] == d
    ensures Min(|d|, n) <= |r| && r[..Min(|d|, n)] == d[..Min(|d|, n)]
  {
    var len := Min(|d|, n);
    forall i | 0 <= i < len
      ensures r[i] == d[i]
    {
      assert r[..n][i] == c[..n][i];
      assert m[..|d|][i] == d[i];
    }
  }

  // ---------------------------------------------------------------------
  // krealloc's fallback: allocate, copy, free

  /** Block `b` with the first `len` bytes of `data` copied over the front
      of its body. */
  function CopyInto(b: Block, data: seq<Byte>, len: nat): (r: Block)
    requires len <= |data| && len <= |b.body|
    ensures r.header == b.header && r.footer == b.footer && |r.body| == |b.body|
    ensures r.body[..len] == data[..len]
  {
    Block(b.header, data[..len] + b.body[len..], b.footer)
  }

  /** `kalloc` moves no allocated block: it keeps its bytes and its
      pointer, and is not the block handed out. */
  lemma AllocKeeps(a: seq<Block>, size: nat, k: nat)
    requires WellFormed(a) && size < Two64 && k < |a| && Allocated(a[k].header)
    requires Alloc(a, size).1.Some?
    ensures var r := Alloc(a, size).0;
      var q := BlockAt(r, BodyPtr(a, k));
      && q.Some? && r[q.value] == a[k]
      && q.value != FirstFit(a, size).value
  {
    var j := FirstFit(a, size).value;
    FitsRounded(a, j, size);
    CarveKeeps(a, j, RoundEven(size), k);
  }

  /** `kfree` of block `k` moves no other allocated block: it keeps its
      bytes and its pointer. */
  lemma FreeKeeps(a: seq<Block>, k: nat, i: nat)
    requires WellFormed(a) && k < |a| && i < |a| && i != k && Allocated(a[i].header)
    ensures var r := FreeBlock(a, k);
      var q := BlockAt(r, BodyPtr(a, i));
      && q.Some? && r[q.value] == a[i]
  {
    var r := FreeBlock(a, k);
    var lo := FreeLo(a, k);
    var hi := FreeHi(a, k);
    FreeRangeFree(a, k, i);
    assert lo < |r| && r == a[..lo] + [r[lo]] + a[hi..] && Offset(a, lo) + Footprint(r[lo]) == Offset(a, hi) by {
      FreeSpec(a, k);
    }
    SplicePointer(a, r, lo, hi, r[lo], i);
  }

  /** The blocks `kfree` of block `k` merges are block `k` and free
      blocks: an allocated block other than `k` lies outside them. */
  lemma FreeRangeFree(a: seq<Block>, k: nat, i: nat)
    requires WellFormed(a) && k < |a| && i < |a| && i != k && Allocated(a[i].header)
    ensures i < FreeLo(a, k) || FreeHi(a, k) <= i
  {
    if PrevFree(a, k) {
      assert Agree(a[k - 1]);
    }
  }

  /** The allocate-and-copy part of the fallback, corrected: the first fit
      for `n` bytes receives the first `Min(block_size, n)` bytes of block
      `k`'s body at the front of its body. */
  function MoveCopy(a: seq<Block>, k: nat, n: nat): (r: seq<Block>)
    requires WellFormed(a) && k < |a| && Allocated(a[k].header) && n % 2 == 0 && n < Two64
    requires Alloc(a, n).1.Some?
  {
    AllocSpec(a, n);
    var r1 := Alloc(a, n).0;
    var j := FirstFit(a, n).value;
    r1[j := CopyInto(r1[j], a[k].body, Min(|a[k].body|, n))]
  }

  lemma MoveCopySpec(a: seq<Block>, k: nat, n: nat)
    requires WellFormed(a) && k < |a| && Allocated(a[k].header) && n % 2 == 0 && n < Two64
    requires Alloc(a, n).1.Some?
    ensures var r := MoveCopy(a, k, n);
      var p := Alloc(a, n).1.value;
      var q := BlockAt(r, BodyPtr(a, k));
      && WellFormed(r) && Span(r) == Span(a)
      && (Coalesced(a) ==> Coalesced(r))
      && q.Some? && r[q.value] == a[k]
      && BlockAt(r, p).Some? && BlockAt(r, p).value != q.value
      && Reallocated(a, r, p, n, a[k].body, Min(|a[k].body|, n))
  {
    MoveCopyArena(a, k, n);
    MoveCopyOld(a, k, n);
    MoveCopyNew(a, k, n);
  }

  /** The copy re-tags nothing: the arena stays well-formed and coalesced
      as `kalloc` left it. */
  lemma MoveCopyArena(a: seq<Block>, k: nat, n: nat)
    requires WellFormed(a) && k < |a| && Allocated(a[k].header) && n % 2 == 0 && n < Two64
    requires Alloc(a, n).1.Some?
    ensures var r := MoveCopy(a, k, n);
      && WellFormed(r) && Span(r) == Span(a)
      && (Coalesced(a) ==> Coalesced(r))
      && |r| == |Alloc(a, n).0|
      && forall m {:trigger Offset(Alloc(a, n).0, m)} :: 0 <= m <= |r| ==> Offset(r, m) == Offset(Alloc(a, n).0, m)
  {
    var r1 := Alloc(a, n).0;
    var j := FirstFit(a, n).value;
    assert j < |r1| && n <= |r1[j].body| && Allocated(r1[j].header)
      && WellFormed(r1) && Span(r1) == Span(a) && (Coalesced(a) ==> Coalesced(r1)) by {
      AllocSpec(a, n);
    }
    var b := CopyInto(r1[j], a[k].body, Min(|a[k].body|, n));
    assert MoveCopy(a, k, n) == r1[j := b];
    assert Sized(r1[j]) && Agree(r1[j]);
    ReplaceAllocated(r1, j, b);
  }

  /** The old block survives the copy in place. */
  lemma MoveCopyOld(a: seq<Block>, k: nat, n: nat)
    requires WellFormed(a) && k < |a| && Allocated(a[k].header) && n % 2 == 0 && n < Two64
    requires Alloc(a, n).1.Some?
    ensures var r := MoveCopy(a, k, n);
      var q := BlockAt(r, BodyPtr(a, k));
      && q.Some? && r[q.value] == a[k] && q.value != FirstFit(a, n).value
  {
    var r1 := Alloc(a, n).0;
    var j := FirstFit(a, n).value;
    var r := MoveCopy(a, k, n);
    MoveCopyArena(a, k, n);
    assert BlockAt(r1, BodyPtr(a, k)).Some? by {
      AllocKeeps(a, n, k);
    }
    var q := BlockAt(r1, BodyPtr(a, k)).value;
    assert q < |r1| && q != j && r1[q] == a[k] && Offset(r1, q) == Offset(a, k) by {
      AllocKeeps(a, n, k);
    }
    assert r[q] == a[k] && Offset(r, q) == Offset(a, k);
    BlockAtIs(r, q, BodyPtr(a, k));
  }

  /** The new block holds the copied data at `kalloc`'s pointer. */
  lemma MoveCopyNew(a: seq<Block>, k: nat, n: nat)
    requires WellFormed(a) && k < |a| && Allocated(a[k].header) && n % 2 == 0 && n < Two64
    requires Alloc(a, n).1.Some?
    ensures var r := MoveCopy(a, k, n);
      var p := Alloc(a, n).1.value;
      && BlockAt(r, p) == Some(FirstFit(a, n).value)
      && Reallocated(a, r, p, n, a[k].body, Min(|a[k].body|, n))
  {
    var r1 := Alloc(a, n).0;
    var j := FirstFit(a, n).value;
    var p := Alloc(a, n).1.value;
    var r := MoveCopy(a, k, n);
    assert j < |r1| && n <= |r1[j].body| && Allocated(r1[j].header)
      && p == BodyPtr(a, j) && Offset(r1, j) == Offset(a, j) by {
      AllocSpec(a, n);
      OffsetPrefix(a, r1, j);
    }
    MoveCopyArena(a, k, n);
    assert Offset(r, j) == Offset(r1, j);
    BlockAtIs(r, j, p);
  }

  /** `krealloc`'s fallback, corrected: `kalloc` a block for `n` bytes,
      copy the data that fits into it, `kfree` the old block and return the
      new body pointer; NULL, with nothing changed, when `kalloc` fails. */
  function ReallocMove(a: seq<Block>, k: nat, n: nat): (res: (seq<Block>, Option<nat>))
    requires WellFormed(a) && k < |a| && Allocated(a[k].header) && n % 2 == 0 && n < Two64
  {
    if Alloc(a, n).1.None? then (a, None)
    else
      MoveCopySpec(a, k, n);
      (Free(MoveCopy(a, k, n), BodyPtr(a, k)), Alloc(a, n).1)
  }

  /** What the fallback guarantees: NULL exactly when no block fits, and
      then nothing changes; otherwise the new pointer designates an
      allocated block of at least `n` bytes holding the old data that
      fits, and a coalesced arena stays coalesced. */
  lemma ReallocMoveSpec(a: seq<Block>, k: nat, n: nat)
    requires WellFormed(a) && k < |a| && Allocated(a[k].header) && n % 2 == 0 && n < Two64
    ensures ReallocMove(a, k, n).1.None? <==> FirstFit(a, n).None?
    ensures ReallocMove(a, k, n).1.None? ==> ReallocMove(a, k, n).0 == a
    ensures var (r, p) := ReallocMove(a, k, n);
      p.Some? ==> Reallocated(a, r, p.value, n, a[k].body, Min(|a[k].body|, n))
    ensures Coalesced(a) ==> Coalesced(ReallocMove(a, k, n).0)
  {
    assert FirstFit(a, n).None? <==> Alloc(a, n).1.None? by {
      AllocSpec(a, n);
    }
    if Alloc(a, n).1.Some? {
      MoveCopySpec(a, k, n);
      var r2 := MoveCopy(a, k, n);
      var p := Alloc(a, n).1.value;
      var q := BlockAt(r2, BodyPtr(a, k)).value;
      var j := BlockAt(r2, p).value;
      var r := FreeBlock(r2, q);
      assert r == ReallocMove(a, k, n).0;
      assert BlockAt(r, p).Some? && r[BlockAt(r, p).value] == r2[j] by {
        assert BodyPtr(r2, j) == p;
        FreeKeeps(r2, q, j);
      }
      assert WellFormed(r) && Span(r) == Span(r2) by {
        FreeSpec(r2, q);
      }
      if Coalesced(a) {
        FreeCoalesced(r2, q);
      }
    }
  }

  // ---------------------------------------------------------------------
  // krealloc

  /** `merge_forward` applies: the next block is free and the two bodies
      with one tag pair between them hold `n` bytes. */
  predicate ForwardFits(a: seq<Block>, k: nat, n: nat)
    requires k < |a|
  {
    NextFree(a, k) && n <= |a[k].body| + |a[k + 1].body| + MdataSize
  }

  /** `merge_backward` applies: the block in front, read through its
      footer, is free and the two bodies with one tag pair hold `n`. */
  predicate BackwardFits(a: seq<Block>, k: nat, n: nat)
    requires k < |a|
  {
    PrevFree(a, k) && n <= |a[k - 1].body| + |a[k].body| + MdataSize
  }

  /** `threeway_merge` applies: both neighbours are free and the three
      bodies with two tag pairs hold `n`. */
  predicate ThreewayFits(a: seq<Block>, k: nat, n: nat)
    requires k < |a|
  {
    PrevFree(a, k) && NextFree(a, k)
    && n <= |a[k - 1].body| + |a[k].body| + |a[k + 1].body| + 2 * MdataSize
  }

  /** `krealloc(ptr, size)` of an allocated block: the request is rounded
      to even; then the first applicable of a forward merge (same pointer),
      a backward merge, a three-way merge (both at the front block), and
      otherwise the allocate-copy-free fallback. */
  function Realloc(a: seq<Block>, ptr: nat, size: nat): (res: (seq<Block>, Option<nat>))
    requires WellFormed(a) && size < Two64
    requires BlockAt(a, ptr).Some? && Allocated(a[BlockAt(a, ptr).value].header)
  {
    var k := BlockAt(a, ptr).value;
    var n := RoundEven(size);
    if ForwardFits(a, k, n) then (MergeForward(a, k, n), Some(ptr))
    else if BackwardFits(a, k, n) then (MergeBackward(a, k, n), Some(BodyPtr(a, k - 1)))
    else if ThreewayFits(a, k, n) then (MergeThreeway(a, k, n), Some(BodyPtr(a, k - 1)))
    else ReallocMove(a, k, n)
  }

  /** What `krealloc` guarantees: NULL only when no merge applies and no
      block fits, and then nothing changes; otherwise the returned pointer
      designates an allocated block of at least the rounded size that
      starts with as much of the old data as it can hold, in a well-formed
      arena of the same span. Growing into a free successor keeps the
      pointer. */
  lemma ReallocSpec(a: seq<Block>, ptr: nat, size: nat)
    requires WellFormed(a) && size < Two64
    requires BlockAt(a, ptr).Some? && Allocated(a[BlockAt(a, ptr).value].header)
    ensures var k := BlockAt(a, ptr).value;
      var n := RoundEven(size);
      var (r, p) := Realloc(a, ptr, size);
      && (p.None? <==> !ForwardFits(a, k, n) && !BackwardFits(a, k, n) && !ThreewayFits(a, k, n) && FirstFit(a, n).None?)
      && (p.None? ==> r == a)
      && (p.Some? ==> Reallocated(a, r, p.value, n, a[k].body, Min(|a[k].body|, n)))
      && (ForwardFits(a, k, n) ==> p == Some(ptr))
  {
    var k := BlockAt(a, ptr).value;
    var n := RoundEven(size);
    if ForwardFits(a, k, n) {
      MergeForwardSpec(a, k, n);
    } else if BackwardFits(a, k, n) {
      MergeBackwardSpec(a, k, n);
    } else if ThreewayFits(a, k, n) {
      MergeThreewaySpec(a, k, n);
    } else {
      ReallocMoveSpec(a, k, n);
    }
  }

  // ---------------------------------------------------------------------
  // krealloc and coalescing

  /** The one case in which `krealloc` leaves two free blocks side by side:
      the backward merge is the path taken, its split leaves a free
      remainder, and the block behind block `k` is free. */
  predicate LeavesFreePair(a: seq<Block>, k: nat, n: nat)
    requires k < |a|
  {
    && !ForwardFits(a, k, n) && BackwardFits(a, k, n) && NextFree(a, k)
    && n <= |a[k - 1].body| + |a[k].body|
  }

  /** What `krealloc` does to the coalescing invariant: a coalesced arena
      stays coalesced on every path except the backward merge into a block
      whose successor is free, where the split remainder and that
      successor end up side by side. */
  lemma ReallocCoalesced(a: seq<Block>, ptr: nat, size: nat)
    requires WellFormed(a) && size < Two64 && Coalesced(a)
    requires BlockAt(a, ptr).Some? && Allocated(a[BlockAt(a, ptr).value].header)
    ensures var k := BlockAt(a, ptr).value;
      Coalesced(Realloc(a, ptr, size).0) <==> !LeavesFreePair(a, k, RoundEven(size))
  {
    var k := BlockAt(a, ptr).value;
    var n := RoundEven(size);
    if ForwardFits(a, k, n) {
      ForwardCoalesced(a, k, n);
    } else if BackwardFits(a, k, n) {
      BackwardCoalesced(a, k, n);
    } else if ThreewayFits(a, k, n) {
      ThreewayCoalesced(a, k, n);
    } else {
      ReallocMoveSpec(a, k, n);
    }
  }

  /** `merge_forward` keeps a coalesced arena coalesced: the block behind
      the free successor is allocated. */
  lemma ForwardCoalesced(a: seq<Block>, k: nat, n: nat)
    requires WellFormed(a) && Coalesced(a) && k < |a| && n % 2 == 0 && ForwardFits(a, k, n)
    ensures Coalesced(MergeForward(a, k, n))
  {
    ForwardMergedSpec(a, k);
    ForwardMergedShape(a, k);
    if k + 2 < |a| {
      assert Allocated(a[k + 2].header);
    }
    SplitSpliceCoalesced(a, ForwardMerged(a, k), k, k + 2, n);
  }

  /** `merge_backward` keeps a coalesced arena coalesced unless the split
      leaves a remainder in front of a free successor. */
  lemma BackwardCoalesced(a: seq<Block>, k: nat, n: nat)
    requires WellFormed(a) && Coalesced(a) && k < |a| && n % 2 == 0 && BackwardFits(a, k, n)
    ensures Coalesced(MergeBackward(a, k, n)) <==>
      !(NextFree(a, k) && n <= |a[k - 1].body| + |a[k].body|)
  {
    BackwardMergedSpec(a, k);
    BackwardMergedShape(a, k);
    SplitSpliceCoalesced(a, BackwardMerged(a, k), k - 1, k + 1, n);
  }

  /** `threeway_merge` keeps a coalesced arena coalesced: the blocks on
      either side of the two free neighbours are allocated. */
  lemma ThreewayCoalesced(a: seq<Block>, k: nat, n: nat)
    requires WellFormed(a) && Coalesced(a) && k < |a| && n % 2 == 0 && ThreewayFits(a, k, n)
    ensures Coalesced(MergeThreeway(a, k, n))
  {
    var a2 := ThreewayMerged(a, k);
    assert WellFormed(a2) && k - 1 < |a2| && n <= |a2[k - 1].body| by {
      ThreewayMergedSpec(a, k);
    }
    assert a2 == a[..k - 1] + [a2[k - 1]] + a[k + 2..] by {
      ThreewayMergedShape(a, k);
    }
    assert k + 2 < |a| ==> Allocated(a[k + 2].header) by {
      assert !Allocated(a[k + 1].header);
    }
    SplitSpliceCoalesced(a, a2, k - 1, k + 2, n);
  }

  /** The forward merge replaces blocks `k` and `k + 1` by one block. */
  lemma ForwardMergedShape(a: seq<Block>, k: nat)
    requires WellFormed(a) && k + 1 < |a|
    ensures var r := ForwardMerged(a, k);
      k < |r| && r == a[..k] + [r[k]] + a[k + 2..]
  {
    MergeBlockSpec(a, k, k + 1);
    var a1 := MergeBlock(a, k, k + 1).value;
    var r := ForwardMerged(a, k);
    assert r[..k] == a1[..k] && r[k + 1..] == a1[k + 1..];
    assert r == r[..k] + [r[k]] + r[k + 1..];
  }

  /** The backward merge replaces blocks `k - 1` and `k` by one block. */
  lemma BackwardMergedShape(a: seq<Block>, k: nat)
    requires WellFormed(a) && 0 < k < |a|
    ensures var r := BackwardMerged(a, k);
      k - 1 < |r| && r == a[..k - 1] + [r[k - 1]] + a[k + 1..]
  {
    var a1 := MergeBlock(a, k - 1, k).value;
    assert a1 == a[..k - 1] + [a1[k - 1]] + a[k + 1..];
    var r := BackwardMerged(a, k);
    assert r[..k - 1] == a1[..k - 1] && r[k..] == a1[k..];
    assert r == r[..k - 1] + [r[k - 1]] + r[k..];
  }

  /** The three-way merge replaces blocks `k - 1` to `k + 1` by one
      block. */
  lemma ThreewayMergedShape(a: seq<Block>, k: nat)
    requires WellFormed(a) && 0 < k && k + 1 < |a|
    ensures var r := ThreewayMerged(a, k);
      k - 1 < |r| && r == a[..k - 1] + [r[k - 1]] + a[k + 2..]
  {
    DoubleMergeShape(a, k);
    var a2 := DoubleMerge(a, k);
    var r := ThreewayMerged(a, k);
    assert r[..k - 1] == a2[..k - 1] && r[k..] == a2[k..];
    assert r == r[..k - 1] + [r[k - 1]] + r[k..];
  }

  /** The two merges under the three-way merge replace blocks `k - 1` to
      `k + 1` by one block. */
  lemma DoubleMergeShape(a: seq<Block>, k: nat)
    requires WellFormed(a) && 0 < k && k + 1 < |a|
    ensures var a2 := DoubleMerge(a, k);
      |a2| == |a| - 2 && a2 == a[..k - 1] + [a2[k - 1]] + a[k + 2..]
  {
    var a1 := MergeBlock(a, k - 1, k).value;
    assert a1 == a[..k - 1] + [a1[k - 1]] + a[k + 1..];
    assert WellFormed(a1) by {
      MergeArena(a, k - 1);
    }
    var a2 := MergeBlock(a1, k - 1, k).value;
    assert a2 == a1[..k - 1] + [a2[k - 1]] + a1[k + 1..];
    assert a1[..k - 1] == a[..k - 1] && a1[k + 1..] == a[k + 2..];
  }

  /** Splitting the block that replaced blocks `lo..hi` of a coalesced
      arena: the front half is allocated, so the result is coalesced
      exactly when the split leaves no free remainder in front of a free
      block. */
  lemma SplitSpliceCoalesced(a: seq<Block>, a2: seq<Block>, lo: nat, hi: nat, n: nat)
    requires Coalesced(a) && lo < hi <= |a|
    requires WellFormed(a2) && lo < |a2| && a2 == a[..lo] + [a2[lo]] + a[hi..]
    requires n % 2 == 0 && n <= |a2[lo].body|
    ensures Coalesced(SplitBlock(a2, lo, n).value) <==>
      |a2[lo].body| < n + MdataSize || hi == |a| || Allocated(a[hi].header)
  {
    var r := SplitBlock(a2, lo, n).value;
    if |a2[lo].body| < n + MdataSize {
      SplitWholeSpliced(a, a2, lo, hi, n);
      SpliceRunCoalesced(a, lo, hi, [r[lo]]);
    } else {
      SplitTwoSpliced(a, a2, lo, hi, n);
      if hi == |a| || Allocated(a[hi].header) {
        SpliceRunCoalesced(a, lo, hi, [r[lo], r[lo + 1]]);
      } else {
        assert r[lo + 2] == a[hi];
      }
    }
  }

  /** When the rest could not hold a block, the split re-tags the block
      that replaced `lo..hi` as allocated in place. */
  lemma SplitWholeSpliced(a: seq<Block>, a2: seq<Block>, lo: nat, hi: nat, n: nat)
    requires lo < hi <= |a|
    requires WellFormed(a2) && lo < |a2| && a2 == a[..lo] + [a2[lo]] + a[hi..]
    requires n % 2 == 0 && n <= |a2[lo].body| < n + MdataSize
    ensures var r := SplitBlock(a2, lo, n).value;
      lo < |r| && r == a[..lo] + [r[lo]] + a[hi..] && Allocated(r[lo].header)
  {
    var b := a2[lo];
    assert Sized(b) && Agree(b);
    var nb := if |b.body| == n then Block(n + 1, b.body, n + 1) else WholeBlock(b, n);
    assert Allocated(nb.header);
    var r := SplitBlock(a2, lo, n).value;
    assert r == a2[lo := nb];
    assert a2[..lo] == a[..lo] && a2[lo + 1..] == a[hi..];
    assert r == a2[..lo] + [nb] + a2[lo + 1..];
  }

  /** Otherwise the split cuts the block that replaced `lo..hi` into an
      allocated front and a free remainder. */
  lemma SplitTwoSpliced(a: seq<Block>, a2: seq<Block>, lo: nat, hi: nat, n: nat)
    requires lo < hi <= |a|
    requires WellFormed(a2) && lo < |a2| && a2 == a[..lo] + [a2[lo]] + a[hi..]
    requires n % 2 == 0 && n + MdataSize <= |a2[lo].body|
    ensures var r := SplitBlock(a2, lo, n).value;
      && lo + 1 < |r| && r == a[..lo] + [r[lo], r[lo + 1]] + a[hi..]
      && Allocated(r[lo].header) && !Allocated(r[lo + 1].header)
  {
    var h := Halves(a2[lo], n);
    assert Sized(a2[lo]);
    HalvesSpec(a2[lo], n);
    assert a2[..lo] == a[..lo] && a2[lo + 1..] == a[hi..];
    var r := SplitBlock(a2, lo, n).value;
    assert r == a[..lo] + h + a[hi..];
    assert h == [r[lo], r[lo + 1]];
  }

  /** Replacing blocks `lo..hi` of a coalesced arena by a coalesced run
      keeps it coalesced when each seam has an allocated block on one
      side. */
  lemma SpliceRunCoalesced(a: seq<Block>, lo: nat, hi: nat, mid: seq<Block>)
    requires lo <= hi <= |a| && 1 <= |mid| && Coalesced(a) && Coalesced(mid)
    requires lo > 0 ==> Allocated(a[lo - 1].header) || Allocated(mid[0].header)
    requires hi < |a| ==> Allocated(a[hi].header) || Allocated(mid[|mid| - 1].header)
    ensures Coalesced(a[..lo] + mid + a[hi..])
  {
    var r := a[..lo] + mid + a[hi..];
    forall i | 0 <= i < |r| - 1
      ensures Allocated(r[i].header) || Allocated(r[i + 1].header)
    {
      if i + 1 < lo {
        assert r[i] == a[i] && r[i + 1] == a[i + 1];
      } else if i + 1 == lo {
        assert r[i] == a[lo - 1] && r[i + 1] == mid[0];
      } else if i + 1 < lo + |mid| {
        assert r[i] == mid[i - lo] && r[i + 1] == mid[i - lo + 1];
      } else if i + 1 == lo + |mid| {
        assert r[i] == mid[|mid| - 1] && r[i + 1] == a[hi];
      } else {
        assert r[i] == a[i - lo - |mid| + hi] && r[i + 1] == a[i - lo - |mid| + hi + 1];
      }
    }
  }

  /** A free 20-byte block, an allocated 2-byte block and a free empty
      block. */
  const FreePairArena: seq<Block> := [Block(20, Zeros(20), 20), Block(3, Zeros(2), 3), Block(0, [], 0)]

  /** The arena is well-formed and coalesced. */
  lemma FreePairArenaOk()
    ensures WellFormed(FreePairArena) && Coalesced(FreePairArena)
  {
    var a := FreePairArena;
    assert Size(20) == 20 && Size(3) == 2 && Size(0) == 0;
    assert Span(a) == 46;
  }

  /** 32 points at the middle block's body, which is allocated. */
  lemma FreePairArenaPtr()
    ensures BlockAt(FreePairArena, 32) == Some(1) && Allocated(FreePairArena[1].header)
  {
    assert Offset(FreePairArena, 1) == 28;
    BlockAtOffset(FreePairArena, 1);
  }

  /** Growing the middle block to 12 bytes is the case `LeavesFreePair`
      names: the successor is too small, the merge with the front block
      leaves a 10-byte remainder, and the successor is free. */
  lemma FreePairArenaCase()
    ensures RoundEven(12) == 12 && LeavesFreePair(FreePairArena, 1, 12)
  {
    assert (12 + 1) % Two64 == 13;
    assert Size(20) == 20 && Size(3) == 2 && Size(0) == 0;
  }

  /** Growing the middle block of `FreePairArena` to 12 bytes takes the
      backward merge and leaves the free remainder in front of the free
      last block: the arena is no longer coalesced. */
  lemma ReallocFreePairExample()
    ensures WellFormed(FreePairArena) && Coalesced(FreePairArena)
    ensures !Coalesced(Realloc(FreePairArena, 32, 12).0)
  {
    FreePairArenaOk();
    FreePairArenaPtr();
    FreePairArenaCase();
    ReallocCoalesced(FreePairArena, 32, 12);
  }

  // ---------------------------------------------------------------------
  // The merge helpers and the fallback as written

  /** The bytes of a block as it lies in memory: header word, body, footer
      word. */
  function BlockBytes(b: Block): (r: seq<Byte>)
    ensures |r| == Footprint(b)
    ensures r[HeaderSize..HeaderSize + |b.body|] == b.body
  {
    LeBytes(b.header, 4) + b.body + LeBytes(b.footer, 4)
  }

  /** `merge_backward` as written (lines 338-349) on the bytes of the free
      block `b1` and the block `b2` behind it: the body of `b2` is moved to
      the front of `b1`'s body first; `merge_block` then reads `b2`'s header
      from where the move may have overwritten it, and the `memset` of
      `b2`'s header and old body clears whatever of the moved data lies
      there. Yields the size `merge_block` stores in the header and the
      bytes after the header store and the clear (the footer store, which
      goes wherever the size read says, is not modelled). Whenever the data
      is longer than the front body and its footer, its bytes from there on
      are lost, where the corrected merge keeps the whole body
      (`BackwardMergedSpec`). */
  function BackwardBytesAsWritten(b1: Block, b2: Block): (r: (nat, seq<Byte>))
    requires Sized(b1) && Sized(b2)
    ensures |r.1| == Footprint(b1) + Footprint(b2)
    ensures forall i :: HeaderSize + |b1.body| + FooterSize <= i < HeaderSize + |b2.body| ==> r.1[i] == 0
  {
    var s1, s2 := |b1.body|, |b2.body|;
    var mem := BlockBytes(b1) + BlockBytes(b2);
    var moved := StringOps.Move(mem, HeaderSize, s1 + MdataSize + HeaderSize, s2);
    var size := s1 + Size(ReadLe(moved, s1 + MdataSize, 4)) + MdataSize;
    var stored := LeBytes(Tag(size, Allocated(b1.header)), 4) + moved[HeaderSize..];
    (size, StringOps.Fill(stored, s1 + MdataSize, s2 + HeaderSize, 0))
  }

  /** A free 2-byte block in front of an allocated 8-byte block of `0xFF`
      bytes. */
  const ClobberFront: Block := Block(2, [0, 0], 2)
  const ClobberBack: Block := Block(9, [0xFF, 0xFF, 0xFF, 0xFF, 0xFF, 0xFF, 0xFF, 0xFF], 9)

  /** Both blocks carry the sizes of their bodies. */
  lemma ClobberSized()
    ensures Sized(ClobberFront) && Sized(ClobberBack)
  {
    assert Size(2) == 2 && Size(9) == 8;
  }

  /** On those blocks the move overwrites the back block's header with its
      own data: the size field then reads `0xFFFF`. */
  lemma ClobberedTag()
    ensures var mem := BlockBytes(ClobberFront) + BlockBytes(ClobberBack);
            |mem| == 26 &&
            ReadLe(StringOps.Move(mem, HeaderSize, 2 + MdataSize + HeaderSize, 8), 2 + MdataSize, 4) == 0xFFFF
  {
    var back := BlockBytes(ClobberBack);
    assert back[10] == 0xFF && back[11] == 0xFF by {
      assert back[HeaderSize..HeaderSize + 8] == ClobberBack.body;
    }
    assert back[2] == 0 && back[3] == 0 by {
      LeBytesZero(3);
      assert LeBytes(9, 4) == [9] + Zeros(3);
      assert back[..4] == LeBytes(9, 4);
    }
    var mem := BlockBytes(ClobberFront) + back;
    var moved := StringOps.Move(mem, HeaderSize, 2 + MdataSize + HeaderSize, 8);
    assert moved[10] == mem[20] && moved[11] == mem[21];
    assert moved[12] == mem[12] && moved[13] == mem[13];
    assert moved[10..14] == [0xFF, 0xFF, 0, 0];
    assert LeValue([0xFF, 0xFF, 0, 0]) == 0xFFFF;
  }

  /** So `merge_block` reads a size of `0xFFFE` instead of 8. */
  lemma BackwardSizeClobbered()
    ensures Sized(ClobberFront) && Sized(ClobberBack)
    ensures BackwardBytesAsWritten(ClobberFront, ClobberBack).0 == 2 + 0xFFFE + MdataSize
  {
    ClobberSized();
    ClobberedTag();
    var mem := BlockBytes(ClobberFront) + BlockBytes(ClobberBack);
    var tag := ReadLe(StringOps.Move(mem, HeaderSize, 2 + MdataSize + HeaderSize, 8), 2 + MdataSize, 4);
    assert Size(tag) == 0xFFFE;
  }

  /** `threeway_merge` as written (lines 351-369) on the bytes of the free
      block `b1`, the block `b2` and the free block `b3`: the header and the
      back footer get the merged size, then `memmove(middle, front,
      middle_size)` copies from the front header onto the middle block
      instead of the other way round, and the clear starts `middle_size`
      bytes after the front header rather than after the moved data. Every
      merged body byte from `middle_size - 4` on ends up zero, the last byte
      where the middle block's data belongs included: whatever the data
      was, it is not at the front of the merged body, where the corrected
      merge puts it (`ThreewayMergedSpec`). */
  function ThreewayBytesAsWritten(b1: Block, b2: Block, b3: Block): (r: seq<Byte>)
    requires Sized(b1) && Sized(b2) && Sized(b3)
    ensures |r| == Footprint(b1) + Footprint(b2) + Footprint(b3)
    ensures forall i :: |b2.body| <= i < HeaderSize + |b1.body| + |b2.body| + |b3.body| + 2 * MdataSize ==> r[i] == 0
  {
    var s1, s2, s3 := |b1.body|, |b2.body|, |b3.body|;
    SizedFacts(b1);
    SizedFacts(b2);
    SizedFacts(b3);
    var mem := BlockBytes(b1) + BlockBytes(b2) + BlockBytes(b3);
    var total := s1 + s2 + s3 + 2 * MdataSize;
    var backFooter := total + HeaderSize;
    var t1 := WriteWord(mem, 0, total + 1);
    var t2 := WriteWord(t1, backFooter, total + 1);
    var t3 := StringOps.Move(t2, s1 + MdataSize, 0, s2);
    StringOps.Fill(t3, s2, backFooter - s2, 0)
  }

  /** Free 2-byte blocks around an allocated block holding `7, 7, 7, 7`:
      as written, the merged body does not start with that data. */
  lemma ThreewayDataLost()
    ensures var b1 := Block(2, [0, 0], 2);
      var b2 := Block(5, [7, 7, 7, 7], 5);
      var r := ThreewayBytesAsWritten(b1, b2, b1);
      r[HeaderSize..HeaderSize + |b2.body|] != b2.body
  {
    var b1 := Block(2, [0, 0], 2);
    var b2 := Block(5, [7, 7, 7, 7], 5);
    var r := ThreewayBytesAsWritten(b1, b2, b1);
    assert r[HeaderSize] == 0;
    assert r[HeaderSize..HeaderSize + |b2.body|][0] != b2.body[0];
  }

  /** `krealloc`'s fallback as written (lines 148-155) returns the
      pointer `kalloc` gave plus another `HEADER_SIZE`. */
  function FallbackPointerAsWritten(a: seq<Block>, n: nat): (p: Option<nat>)
    requires WellFormed(a) && n < Two64
    ensures p.Some? <==> FirstFit(a, n).Some?
  {
    AllocSpec(a, n);
    match Alloc(a, n).1
    case None => None
    case Some(q) => Some(q + HeaderSize)
  }

  /** That pointer designates no block of the arena `kalloc` leaves: it is 4
      bytes into the new body, short of the next block's body, so a later
      `kfree` or `krealloc` of it reads a header that is not one. The
      corrected fallback returns `kalloc`'s pointer (`ReallocMoveSpec`). */
  lemma FallbackPointerLost(a: seq<Block>, n: nat)
    requires WellFormed(a) && n < Two64 && FirstFit(a, n).Some?
    ensures BlockAt(Alloc(a, n).0, FallbackPointerAsWritten(a, n).value).None?
  {
    var r := Alloc(a, n).0;
    var j := FirstFit(a, n).value;
    AllocSpec(a, n);
    AllocCore(a, n);
    NoBodyPtrInside(r, j);
  }
}

=== FILE: madt.dfy ===
/** The MADT record walk (madt.c; section 5.2.12 of the ACPI Specification).
    After the 36-byte table header, the 4-byte local APIC address and the
    4-byte flags, the table holds variable-length records from offset 0x2C,
    each starting with its type (byte 0) and its length (byte 1). The kernel
    collects the I/O APIC records (type 1) and takes the local APIC address
    from the last address-override record (type 5). */
module Madt {
  import opened Common
  import Acpi

  const MadtRecordsOffset: nat := 0x2C
  const IoApicType: Byte := 1
  const LApicAddrOverrideType: Byte := 5

  /** The signature `FindTable` is asked for: "APIC". */
  const ApicSignature: seq<Byte> := [0x41, 0x50, 0x49, 0x43]

  /** An I/O APIC record: its APIC id (byte 2), the physical address of its
      registers (bytes 4-7) and the first global system interrupt it serves
      (bytes 8-11). */
  datatype IoApicRecord = IoApicRecord(id: Byte, address: Word32, gsiBase: Word32)

  /** What `ParseMadt` returns: the I/O APICs in table order and the local
      APIC address from an override record, `None` when there was none (the
      source leaves the field uninitialised then). */
  datatype IoApicList = IoApicList(ioApics: seq<IoApicRecord>, lapicAddr: Option<nat>)

  /** The outcome of `ParseMadt`: no MADT (the source then dereferences NULL),
      a walk that never ends (a zero-length record), or the parsed list. */
  datatype MadtResult = NoMadt | Diverges | Parsed(list: IoApicList)

  function ReadIoApicRecord(mem: seq<Byte>, rec: nat): IoApicRecord
  {
    IoApicRecord(ByteAt(mem, rec + 2), LeAt(mem, rec + 4, 4), LeAt(mem, rec + 8, 4))
  }

  /** The 64-bit local APIC address of an override record (bytes 4-11). */
  function ReadLApicOverride(mem: seq<Byte>, rec: nat): nat
  {
    LeAt(mem, rec + 4, 8)
  }

  /** The effect of the record at `rec` on the list being built: an I/O APIC
      is appended, an override replaces the local APIC address, and every
      other record type is skipped. */
  function Step(mem: seq<Byte>, rec: nat, acc: IoApicList): IoApicList
  {
    var recordType := ByteAt(mem, rec);
    if recordType == IoApicType then
      acc.(ioApics := acc.ioApics + [ReadIoApicRecord(mem, rec)])
    else if recordType == LApicAddrOverrideType then
      acc.(lapicAddr := Some(ReadLApicOverride(mem, rec)))
    else acc
  }

  /** The loop of `ParseMadt` from record offset `i`, for a table at `madt`
      whose header length, read as `int`, is `len`. `None` when a zero-length
      record is reached: `i` then never advances. */
  function Walk(mem: seq<Byte>, madt: nat, len: int, i: nat, acc: IoApicList): (r: Option<IoApicList>)
    decreases len - i
  {
    if MadtRecordsOffset + i >= len then Some(acc)
    else
      var rec := madt + MadtRecordsOffset + i;
      var recordLen := ByteAt(mem, rec + 1);
      if recordLen == 0 then None
      else Walk(mem, madt, len, i + recordLen, Step(mem, rec, acc))
  }

  /** The addresses of the records the walk visits, independent of what is
      done with them: each lies inside the table, and each next one is its
      predecessor plus its length. */
  function RecordAddrs(mem: seq<Byte>, madt: nat, len: int, i: nat): Option<seq<nat>>
    decreases len - i
  {
    if MadtRecordsOffset + i >= len then Some([])
    else
      var rec := madt + MadtRecordsOffset + i;
      var recordLen := ByteAt(mem, rec + 1);
      if recordLen == 0 then None
      else
        var rest := RecordAddrs(mem, madt, len, i + recordLen);
        if rest.None? then None else Some([rec] + rest.value)
  }

  /** The visited records lie inside the table, the first at offset 0x2C + i,
      each next one at its predecessor plus its length; there are none
      exactly when the walk starts at or past the table's end. */
  lemma {:induction false} RecordAddrsShape(mem: seq<Byte>, madt: nat, len: int, i: nat)
    ensures var r := RecordAddrs(mem, madt, len, i);
            r.Some? ==> forall k :: 0 <= k < |r.value| ==>
              madt + MadtRecordsOffset + i <= r.value[k] < madt + len
    ensures var r := RecordAddrs(mem, madt, len, i);
            r.Some? ==> forall k :: 0 <= k < |r.value| - 1 ==>
              r.value[k + 1] == r.value[k] + ByteAt(mem, r.value[k] + 1)
    ensures var r := RecordAddrs(mem, madt, len, i);
            r.Some? && |r.value| > 0 ==> r.value[0] == madt + MadtRecordsOffset + i
    ensures RecordAddrs(mem, madt, len, i) == Some([]) <==> MadtRecordsOffset + i >= len
    decreases len - i
  {
    if MadtRecordsOffset + i < len {
      var rec := madt + MadtRecordsOffset + i;
      var recordLen := ByteAt(mem, rec + 1);
      if recordLen != 0 {
        RecordAddrsShape(mem, madt, len, i + recordLen);
        var rest := RecordAddrs(mem, madt, len, i + recordLen);
        if rest.Some? {
          var r := [rec] + rest.value;
          assert forall k :: 1 <= k < |r| ==> r[k] == rest.value[k - 1];
        }
      }
    }
  }

  /** Applying the records at `recs` in order. */
  function Interpret(mem: seq<Byte>, recs: seq<nat>, acc: IoApicList): IoApicList
    decreases |recs|
  {
    if |recs| == 0 then acc else Interpret(mem, recs[1..], Step(mem, recs[0], acc))
  }

  /** The I/O APIC records among `recs`, in order. */
  function IoApicsOf(mem: seq<Byte>, recs: seq<nat>): (r: seq<IoApicRecord>)
    ensures |r| <= |recs|
  {
    if |recs| == 0 then []
    else (if ByteAt(mem, recs[0]) == IoApicType then [ReadIoApicRecord(mem, recs[0])] else [])
         + IoApicsOf(mem, recs[1..])
  }

  /** The walk visits exactly the records `RecordAddrs` lists and applies
      them in order; it diverges exactly when `RecordAddrs` finds a
      zero-length record. */
  lemma {:induction false} WalkIsInterpret(mem: seq<Byte>, madt: nat, len: int, i: nat, acc: IoApicList)
    ensures Walk(mem, madt, len, i, acc).None? <==> RecordAddrs(mem, madt, len, i).None?
    ensures RecordAddrs(mem, madt, len, i).Some? ==>
              Walk(mem, madt, len, i, acc) == Some(Interpret(mem, RecordAddrs(mem, madt, len, i).value, acc))
    decreases len - i
  {
    if MadtRecordsOffset + i < len {
      var rec := madt + MadtRecordsOffset + i;
      var recordLen := ByteAt(mem, rec + 1);
      if recordLen != 0 {
        var acc' := Step(mem, rec, acc);
        assert Walk(mem, madt, len, i, acc) == Walk(mem, madt, len, i + recordLen, acc');
        WalkIsInterpret(mem, madt, len, i + recordLen, acc');
        var rest := RecordAddrs(mem, madt, len, i + recordLen);
        if rest.Some? {
          assert RecordAddrs(mem, madt, len, i) == Some([rec] + rest.value);
          assert ([rec] + rest.value)[1..] == rest.value;
          assert Interpret(mem, [rec] + rest.value, acc) == Interpret(mem, rest.value, acc');
        }
      }
    }
  }

  /** I/O APIC records are appended in encounter order, one per record. */
  lemma {:induction false} InterpretIoApics(mem: seq<Byte>, recs: seq<nat>, acc: IoApicList)
    ensures Interpret(mem, recs, acc).ioApics == acc.ioApics + IoApicsOf(mem, recs)
    decreases |recs|
  {
    if |recs| > 0 {
      InterpretIoApics(mem, recs[1..], Step(mem, recs[0], acc));
    }
  }

  /** Processing one more record is one more `Step`. */
  lemma {:induction false} InterpretSnoc(mem: seq<Byte>, recs: seq<nat>, rec: nat, acc: IoApicList)
    ensures Interpret(mem, recs + [rec], acc) == Step(mem, rec, Interpret(mem, recs, acc))
    decreases |recs|
  {
    if |recs| > 0 {
      assert (recs + [rec])[1..] == recs[1..] + [rec];
      InterpretSnoc(mem, recs[1..], rec, Step(mem, recs[0], acc));
    }
  }

  /** The last override wins: after an override record the local APIC address
      is that record's, and later records of other types leave it alone. */
  lemma LastOverrideWins(mem: seq<Byte>, recs: seq<nat>, rec: nat, acc: IoApicList)
    ensures ByteAt(mem, rec) == LApicAddrOverrideType ==>
              Interpret(mem, recs + [rec], acc).lapicAddr == Some(ReadLApicOverride(mem, rec))
    ensures ByteAt(mem, rec) != LApicAddrOverrideType ==>
              Interpret(mem, recs + [rec], acc).lapicAddr == Interpret(mem, recs, acc).lapicAddr
  {
    InterpretSnoc(mem, recs, rec, acc);
  }

  /** The table length `ParseMadt` walks to: the header's length as `int`. */
  function MadtLen(mem: seq<Byte>, t: nat): int
  {
    ToInt32(LeAt(mem, t + Acpi.SdtLengthOffset, 4))
  }

  /** `ParseMadt`: find the "APIC" table, read its length as `int` and walk
      its records from an empty list. */
  method ParseMadt(mem: seq<Byte>, head: Acpi.SdtHead) returns (r: MadtResult)
    ensures r.NoMadt? <==> Acpi.FirstMatch(mem, head, ApicSignature, 0).None?
    ensures r.Diverges? ==>
              var t := Acpi.FirstMatch(mem, head, ApicSignature, 0).value;
              RecordAddrs(mem, t, MadtLen(mem, t), 0).None?
    ensures r.Parsed? ==>
              var t := Acpi.FirstMatch(mem, head, ApicSignature, 0).value;
              var recs := RecordAddrs(mem, t, MadtLen(mem, t), 0);
              recs.Some? && r.list.ioApics == IoApicsOf(mem, recs.value) &&
              r.list == Interpret(mem, recs.value, IoApicList([], None))
  {
    var table := Acpi.FindTable(mem, head, ApicSignature);
    if table.None? {
      return NoMadt;
    }
    var t := table.value;
    var len := MadtLen(mem, t);
    var empty := IoApicList([], None);
    WalkIsInterpret(mem, t, len, 0, empty);
    var w := Walk(mem, t, len, 0, empty);
    if w.None? {
      return Diverges;
    }
    InterpretIoApics(mem, RecordAddrs(mem, t, len, 0).value, empty);
    return Parsed(w.value);
  }
}

=== FILE: misc.dfy ===
/** Bit helpers of the kernel's miscellany: `SetNthBit`, `ClearNthBit` and
    `GetNthBit` on a 64-bit word. */
module Bits {

  /** The one-bit mask `1 << n` of a 64-bit word. */
  function Bit(n: bv64): bv64
    requires n < 64
  {
    1 << n
  }

  /** Whether bit `n` of `x` is set. */
  predicate BitSet(x: bv64, n: bv64)
    requires n < 64
  {
    x & Bit(n) != 0
  }

  /** `x` and `y` agree on every bit except possibly bit `n`. */
  predicate SameOtherBits(x: bv64, y: bv64, n: bv64)
    requires n < 64
  {
    x & !Bit(n) == y & !Bit(n)
  }

  /** `SetNthBit`: `*num |= (1 << n)`. The mask is an `int` shift, so the
      source is defined only for n < 31. */
  function SetNthBit(num: bv64, n: bv64): (r: bv64)
    requires n < 31
    ensures BitSet(r, n)
    ensures SameOtherBits(r, num, n)
  {
    num | Bit(n)
  }

  /** `ClearNthBit`: `*num &= ~(1UL << n)`, an unsigned 64-bit mask. */
  function ClearNthBit(num: bv64, n: bv64): (r: bv64)
    requires n < 64
    ensures !BitSet(r, n)
  {
    num & !Bit(n)
  }

  /** Clearing a bit leaves every other bit as it was. */
  lemma ClearNthBitKeepsOthers(num: bv64, n: bv64)
    requires n < 64
    ensures SameOtherBits(ClearNthBit(num, n), num, n)
  {
    ClearLaw(num, Bit(n));
  }

  /** `GetNthBit`: `num & (1 << n)` returned as an `int`; non-zero exactly
      when bit `n` is set (for the defined range n < 31). */
  function GetNthBit(num: bv64, n: bv64): (r: nat)
    requires n < 31
    ensures r != 0 <==> BitSet(num, n)
    ensures r < 0x8000_0000
  {
    (num & Bit(n)) as nat
  }

  /** Clearing after setting is clearing: the set is undone. */
  lemma SetThenClear(x: bv64, n: bv64)
    requires n < 31
    ensures ClearNthBit(SetNthBit(x, n), n) == ClearNthBit(x, n)
  {
    SetClearLaw(x, Bit(n));
  }

  lemma ClearLaw(x: bv64, m: bv64)
    ensures (x & !m) & !m == x & !m
  {
  }

  lemma SetClearLaw(x: bv64, m: bv64)
    ensures (x | m) & !m == x & !m
  {
  }
}

/** Number formatting of the kernel's miscellany: `Reverse` and `Itoa`. */
module Misc {

  /** Reference reversal of a sequence. */
  function Rev<T>(s: seq<T>): (r: seq<T>)
    ensures |r| == |s|
    ensures forall i :: 0 <= i < |s| ==> r[i] == s[|s| - 1 - i]
  {
    if |s| == 0 then [] else Rev(s[1..]) + [s[0]]
  }

  /** `Reverse`: reverses `str[0..length)` in place by swapping from both
      ends; a non-positive `length` leaves the string as it is. */
  method Reverse(str: seq<char>, length: int) returns (r: seq<char>)
    requires length <= |str|
    ensures |r| == |str|
    ensures length >= 0 ==> r[..length] == Rev(str[..length])
    ensures forall i :: 0 <= i < |str| && !(0 <= i < length) ==> r[i] == str[i]
  {
    r := str;
    var start := 0;
    var end := length - 1;
    while start < end
      invariant 0 <= start && end == length - 1 - start
      invariant start == 0 || start <= end + 1
      invariant |r| == |str|
      invariant forall i :: 0 <= i < start ==> r[i] == str[length - 1 - i] && r[length - 1 - i] == str[i]
      invariant forall i :: start <= i <= end ==> r[i] == str[i]
      invariant forall i :: 0 <= i < |str| && !(0 <= i < length) ==> r[i] == str[i]
    {
      var temp := r[start];
      r := r[start := r[end]];
      r := r[end := temp];
      start := start + 1;
      end := end - 1;
    }
    if length >= 0 {
      forall i | 0 <= i < length
        ensures r[i] == str[length - 1 - i]
      {
        if i >= start {
          assert length - 1 - i < start || i <= end;
        }
      }
      ReversedPrefix(r, str, length);
    }
  }

  /** A prefix whose every byte mirrors the original's is its reversal. */
  lemma ReversedPrefix<T>(r: seq<T>, str: seq<T>, length: nat)
    requires length <= |r| && length <= |str|
    requires forall i :: 0 <= i < length ==> r[i] == str[length - 1 - i]
    ensures r[..length] == Rev(str[..length])
  {
  }

  /** The digit character `Itoa` emits for a remainder. */
  function DigitChar(rem: int): char
    requires 0 <= rem < 36
  {
    if rem > 9 then (rem - 10 + 'a' as int) as char else (rem + '0' as int) as char
  }

  /** Decimal digits of `m`, most significant first; empty for 0. */
  function Digits(m: nat): (s: seq<char>)
    ensures forall i :: 0 <= i < |s| ==> '0' <= s[i] <= '9'
    ensures m > 0 ==> |s| > 0 && s[0] != '0'
  {
    if m == 0 then [] else Digits(m / 10) + [DigitChar(m % 10)]
  }

  /** Value of a string of decimal digits. */
  function ParseNat(s: seq<char>): int
  {
    if |s| == 0 then 0 else 10 * ParseNat(s[..|s| - 1]) + (s[|s| - 1] as int - '0' as int)
  }

  /** Value of an optionally signed decimal numeral. */
  function ParseInt(s: seq<char>): int
  {
    if |s| > 0 && s[0] == '-' then -ParseNat(s[1..]) else ParseNat(s)
  }

  lemma {:induction false} ParseDigits(m: nat)
    ensures ParseNat(Digits(m)) == m
  {
    if m != 0 {
      var s := Digits(m);
      assert s[..|s| - 1] == Digits(m / 10);
      ParseDigits(m / 10);
    }
  }

  /** The decimal text `Itoa` is meant to produce, without its terminator. */
  function DecimalText(n: int): seq<char>
  {
    if n == 0 then "0" else if n < 0 then "-" + Digits(-n) else Digits(n)
  }

  lemma DecimalTextRoundTrip(n: int)
    ensures ParseInt(DecimalText(n)) == n
  {
    if n < 0 {
      NegativeRoundTrip(n);
    } else if n > 0 {
      PositiveRoundTrip(n);
    } else {
      ZeroRoundTrip();
    }
  }

  lemma NegativeRoundTrip(n: int)
    requires n < 0
    ensures ParseInt(DecimalText(n)) == n
  {
    var s := DecimalText(n);
    assert s == "-" + Digits(-n);
    assert s[0] == '-' && s[1..] == Digits(-n);
    ParseDigits(-n);
  }

  lemma PositiveRoundTrip(n: int)
    requires n > 0
    ensures ParseInt(DecimalText(n)) == n
  {
    var s := DecimalText(n);
    assert s == Digits(n);
    ParseDigits(n);
    assert s[0] != '-';
  }

  lemma ZeroRoundTrip()
    ensures ParseInt(DecimalText(0)) == 0
  {
    var s := DecimalText(0);
    assert s == "0" && s[..0] == [];
  }

  const IntMin: int := -0x8000_0000
  const IntMax: int := 0x7FFF_FFFF

  /** The digit loop of `Itoa`: remainders of `m` by 10, least significant
      digit first. */
  method CollectDigits(m0: nat) returns (buff: seq<char>)
    ensures Rev(buff) == Digits(m0)
  {
    var m := m0;
    buff := [];
    while m != 0
      invariant 0 <= m
      invariant Digits(m0) == Digits(m) + Rev(buff)
    {
      var rem := m % 10;
      assert Digits(m) == Digits(m / 10) + [DigitChar(rem)];
      RevAppend(buff, DigitChar(rem));
      buff := buff + [DigitChar(rem)];
      m := m / 10;
    }
  }

  /** `Itoa`: writes the decimal form of `n` followed by a NUL. Digits are
      produced least significant first, a '-' is appended for negative
      input, and the text before the NUL is then reversed. `INT_MIN` is
      excluded because `n = -n` overflows for it. */
  method Itoa(n: int) returns (buff: seq<char>)
    requires IntMin < n <= IntMax
    ensures buff == DecimalText(n) + ['\0']
    ensures n < 0 <==> buff[0] == '-'
    ensures ParseInt(buff[..|buff| - 1]) == n
  {
    if n == 0 {
      buff := ['0', '\0'];
      DecimalTextRoundTrip(n);
      assert buff[..1] == DecimalText(n);
      return;
    }
    var isNegative := false;
    var m := n;
    if m < 0 {
      isNegative := true;
      m := -m;
    }
    buff := CollectDigits(m);
    ghost var digitsRev := buff;
    if isNegative {
      buff := buff + ['-'];
    }
    var i := |buff|;
    var pre := buff + ['\0'];
    assert pre[..i] == buff;
    SignedReversal(digitsRev, n);
    ghost var text := DecimalText(n);
    assert Rev(pre[..i]) == text && |text| == i;
    buff := Reverse(pre, i);
    assert buff[..i] == text && buff[i] == '\0';
    TextThenNul(buff, text);
    DecimalTextRoundTrip(n);
    DecimalTextSign(n);
  }

  /** A buffer holding `t` and then one more byte, a NUL. */
  lemma TextThenNul(b: seq<char>, t: seq<char>)
    requires |b| == |t| + 1 && b[..|t|] == t && b[|t|] == '\0'
    ensures b == t + ['\0'] && b[..|b| - 1] == t
  {
  }

  /** The digits collected for `|n|`, with the sign appended for negative
      `n`, reverse to the decimal text of `n`. */
  lemma SignedReversal(digitsRev: seq<char>, n: int)
    requires n != 0 && Rev(digitsRev) == Digits(if n < 0 then -n else n)
    ensures Rev(if n < 0 then digitsRev + ['-'] else digitsRev) == DecimalText(n)
  {
    if n < 0 {
      RevAppend(digitsRev, '-');
    }
  }

  lemma DecimalTextSign(n: int)
    ensures n < 0 <==> DecimalText(n)[0] == '-'
  {
    if n > 0 {
      assert DecimalText(n) == Digits(n);
    }
  }

  lemma RevAppend<T>(s: seq<T>, x: T)
    ensures Rev(s + [x]) == [x] + Rev(s)
  {
  }
}

=== FILE: pmm.dfy ===
/** The physical memory manager: one bit per 4 KiB frame, built from the
    boot loader's memory map and allocated first-fit from frame 0.

    The bitmap is modelled as `seq<bool>` (true = used); the byte and bit
    addressing of the source is related to it by `BitmapRefinement`. */
module Pmm {
  import opened Common

  const FrameSize: nat := 4096
  const UsablePage: nat := 1

  /** One entry of the boot memory map: `base` and `length` are 64-bit. */
  datatype MemEntry = MemEntry(base: nat, length: nat, kind: nat)

  predicate Usable(e: MemEntry)
  {
    e.kind == UsablePage
  }

  predicate WellFormedMap(mmap: seq<MemEntry>)
  {
    forall i :: 0 <= i < |mmap| ==> mmap[i].base < Two64 && mmap[i].length < Two64
  }

  /** The state of the manager: `bitmap` holds one flag per frame covered
      by the `bitmapSize` bytes of the bitmap. */
  datatype Pmm = Pmm(numEntries: nat, bitmapSize: nat, uppermost: nat, bitmap: seq<bool>)

  /** Every frame the allocator scans has a bit. */
  predicate Valid(p: Pmm)
  {
    p.numEntries <= |p.bitmap|
  }

  // ---------------------------------------------------------------------
  // Scanning the memory map

  /** The usable entry met first when scanning from the end of the map. */
  function LastUsable(mmap: seq<MemEntry>): (r: Option<nat>)
    ensures r.Some? ==> r.value < |mmap| && Usable(mmap[r.value])
    ensures r.Some? ==> forall j :: r.value < j < |mmap| ==> !Usable(mmap[j])
    ensures r.None? ==> forall j :: 0 <= j < |mmap| ==> !Usable(mmap[j])
  {
    if |mmap| == 0 then None
    else if Usable(mmap[|mmap| - 1]) then Some(|mmap| - 1)
    else LastUsable(mmap[..|mmap| - 1])
  }

  /** The highest usable address: `base + length - 1` (in 64-bit arithmetic)
      of the last usable entry, or 0 if no entry is usable. */
  function Uppermost(mmap: seq<MemEntry>): (r: nat)
    ensures r < Two64
  {
    match LastUsable(mmap)
    case None => 0
    case Some(j) => ToU64(mmap[j].base + mmap[j].length - 1)
  }

  /** `UppermostUsableAddr`: scans from the last entry backwards and stops at
      the first usable one. */
  method UppermostUsableAddr(mmap: seq<MemEntry>) returns (addr: nat)
    ensures addr == Uppermost(mmap)
    ensures (forall j :: 0 <= j < |mmap| ==> !Usable(mmap[j])) ==> addr == 0
  {
    addr := 0;
    var i := |mmap| - 1;
    while i >= 0
      invariant -1 <= i < |mmap|
      invariant forall j :: i < j < |mmap| ==> !Usable(mmap[j])
      invariant LastUsable(mmap) == LastUsable(mmap[..i + 1])
    {
      assert mmap[..i + 1][..i] == mmap[..i];
      if Usable(mmap[i]) {
        addr := ToU64(mmap[i].base + mmap[i].length - 1);
        return;
      }
      i := i - 1;
    }
    assert mmap[..0] == [];
  }

  /** The lowest usable entry of at least `minBytes` bytes. */
  function FirstLargeEnough(mmap: seq<MemEntry>, minBytes: nat): (r: Option<nat>)
    ensures r.Some? ==> r.value < |mmap| && Usable(mmap[r.value]) && mmap[r.value].length >= minBytes
    ensures r.Some? ==> forall j :: 0 <= j < r.value ==> !(Usable(mmap[j]) && mmap[j].length >= minBytes)
    ensures r.None? ==> forall j :: 0 <= j < |mmap| ==> !(Usable(mmap[j]) && mmap[j].length >= minBytes)
  {
    if |mmap| == 0 then None
    else if Usable(mmap[0]) && mmap[0].length >= minBytes then Some(0)
    else match FirstLargeEnough(mmap[1..], minBytes)
      case None => None
      case Some(j) => Some(j + 1)
  }

  /** `FindMemEntryBySize`: the index of the lowest usable entry holding at
      least `minBytes` bytes, or -1. */
  method FindMemEntryBySize(mmap: seq<MemEntry>, minBytes: Word32) returns (r: int)
    ensures r == -1 <==> FirstLargeEnough(mmap, minBytes).None?
    ensures r != -1 ==> FirstLargeEnough(mmap, minBytes) == Some(r)
  {
    var i := 0;
    while i < |mmap|
      invariant 0 <= i <= |mmap|
      invariant forall j :: 0 <= j < i ==> !(Usable(mmap[j]) && mmap[j].length >= minBytes)
    {
      if mmap[i].length >= minBytes && Usable(mmap[i]) {
        FirstLargeEnoughUnique(mmap, minBytes, i);
        return i;
      }
      i := i + 1;
    }
    FirstLargeEnoughUnique(mmap, minBytes, -1);
    return -1;
  }

  /** The characterisation of `FirstLargeEnough` pins down its value. */
  lemma FirstLargeEnoughUnique(mmap: seq<MemEntry>, minBytes: nat, k: int)
    requires -1 <= k < |mmap|
    requires k >= 0 ==> Usable(mmap[k]) && mmap[k].length >= minBytes
    requires forall j :: 0 <= j < (if k >= 0 then k else |mmap|) ==> !(Usable(mmap[j]) && mmap[j].length >= minBytes)
    ensures k >= 0 ==> FirstLargeEnough(mmap, minBytes) == Some(k)
    ensures k == -1 ==> FirstLargeEnough(mmap, minBytes) == None
  {
  }

  // ---------------------------------------------------------------------
  // Bitmap size

  /** `RoundToNearestMultiple(num, FRAME_SIZE)`. The helper is declared but
      not defined in the source; the model rounds up to a multiple of the
      frame size, as the comment at its call describes. */
  function RoundUpToFrame(num: nat): (r: nat)
    ensures r % FrameSize == 0
    ensures num <= r < num + FrameSize
  {
    if num % FrameSize == 0 then num else num + (FrameSize - num % FrameSize)
  }

  /** The bitmap size in bytes as written: the frame count divided by 8
      rounding down, then rounded up to a frame and stored in a `uint32_t`. */
  function BitmapBytesAsWritten(uppermost: nat): (r: nat)
    ensures r < Two32 && r % FrameSize == 0
  {
    RoundUpToFrame((uppermost / FrameSize / 8) % Two32) % Two32
  }

  /** With 7 frames the rounded-down byte count is 0, so no frame has a bit
      although `AllocFirstFrame` scans all 7. */
  lemma BitmapTooSmall()
    ensures 0x7FFF / FrameSize == 7
    ensures BitmapBytesAsWritten(0x7FFF) == 0
    ensures 8 * BitmapBytesAsWritten(0x7FFF) < 0x7FFF / FrameSize
  {
  }

  /** The intended bitmap size: one bit for each of the `uppermost / 4096`
      frames, i.e. the byte count rounded up. */
  function BitmapBytes(uppermost: nat): (r: nat)
    ensures r < Two32 && r % FrameSize == 0
  {
    RoundUpToFrame((uppermost / FrameSize + 7) / 8) % Two32
  }

  /** The corrected size gives every scanned frame a bit (for any machine
      below 16 TiB, where the `uint32_t` byte count cannot overflow). */
  lemma BitmapCoversFrames(uppermost: nat)
    requires uppermost < 0x1000_0000_0000
    ensures uppermost / FrameSize <= 8 * BitmapBytes(uppermost)
  {
    var bytes := (uppermost / FrameSize + 7) / 8;
    assert bytes < 0x1_0000_0000 - FrameSize;
    assert RoundUpToFrame(bytes) < Two32;
  }

  // ---------------------------------------------------------------------
  // InitPmm

  /** Frame `k` lies in the pages an entry covers: `base / 4096` up to
      `base / 4096 + length / 4096`. */
  predicate InEntry(e: MemEntry, k: nat)
  {
    e.base / FrameSize <= k < e.base / FrameSize + e.length / FrameSize
  }

  /** Frame `k` is released by one of the first `n` entries other than the
      one hosting the bitmap. */
  predicate FreedBy(mmap: seq<MemEntry>, bmp: nat, n: nat, k: nat)
    requires n <= |mmap|
  {
    exists j :: 0 <= j < n && j != bmp && Usable(mmap[j]) && InEntry(mmap[j], k)
  }

  /** `InitPmm`: sizes the bitmap from the highest usable address, places it
      at the first usable entry large enough to hold it (returning false if
      there is none), marks every frame used and then frees the frames of
      every usable entry except the bitmap's own. Frames beyond the bitmap
      are not recorded (see `FreeEntry`). */
  method InitPmm(mmap: seq<MemEntry>) returns (r: Option<Pmm>)
    requires WellFormedMap(mmap)
    ensures r.None? <==> FirstLargeEnough(mmap, BitmapBytes(Uppermost(mmap))).None?
    ensures r.Some? ==> r.value.uppermost == Uppermost(mmap)
    ensures r.Some? ==> r.value.numEntries == Uppermost(mmap) / FrameSize
    ensures r.Some? ==> r.value.bitmapSize == BitmapBytes(Uppermost(mmap))
    ensures r.Some? ==> |r.value.bitmap| == 8 * r.value.bitmapSize
    ensures r.Some? ==> forall k :: 0 <= k < |r.value.bitmap| ==>
      (!r.value.bitmap[k] <==> FreedBy(mmap, FirstLargeEnough(mmap, BitmapBytes(Uppermost(mmap))).value, |mmap|, k))
    ensures r.Some? && Uppermost(mmap) < 0x1000_0000_0000 ==> Valid(r.value)
  {
    var upper := UppermostUsableAddr(mmap);
    var bitmapSize := BitmapBytes(upper);
    var numEntries := upper / FrameSize;
    var bmpInd := FindMemEntryBySize(mmap, bitmapSize);
    if bmpInd == -1 {
      return None;
    }
    var bitmap := seq(8 * bitmapSize, _ => true);
    var i := 0;
    while i < |mmap|
      invariant 0 <= i <= |mmap|
      invariant |bitmap| == 8 * bitmapSize
      invariant forall k :: 0 <= k < |bitmap| ==> (!bitmap[k] <==> FreedBy(mmap, bmpInd, i, k))
    {
      if Usable(mmap[i]) && i != bmpInd {
        bitmap := FreeEntry(bitmap, mmap, bmpInd, i);
      } else {
        forall k | 0 <= k < |bitmap|
          ensures FreedBy(mmap, bmpInd, i + 1, k) == FreedBy(mmap, bmpInd, i, k)
        {
          if FreedBy(mmap, bmpInd, i + 1, k) {
            var j :| 0 <= j < i + 1 && j != bmpInd && Usable(mmap[j]) && InEntry(mmap[j], k);
            assert j < i;
          }
        }
      }
      i := i + 1;
    }
    if upper < 0x1000_0000_0000 {
      BitmapCoversFrames(upper);
    }
    r := Some(Pmm(numEntries, bitmapSize, upper, bitmap));
  }

  /** The inner loop of `InitPmm`: `SetPageFree` on every page of entry `i`.
      A page at or past the end of the bitmap is skipped, where the source
      writes past the bitmap (`FrameBeyondBitmap`). */
  method FreeEntry(bitmap: seq<bool>, mmap: seq<MemEntry>, bmp: nat, i: nat) returns (b: seq<bool>)
    requires i < |mmap| && Usable(mmap[i]) && i != bmp
    requires forall k :: 0 <= k < |bitmap| ==> (!bitmap[k] <==> FreedBy(mmap, bmp, i, k))
    ensures |b| == |bitmap|
    ensures forall k :: 0 <= k < |b| ==> (!b[k] <==> FreedBy(mmap, bmp, i + 1, k))
  {
    var start := mmap[i].base / FrameSize;
    var end := start + mmap[i].length / FrameSize;
    b := bitmap;
    var p := start;
    while p < end
      invariant start <= p <= end
      invariant |b| == |bitmap|
      invariant forall k :: 0 <= k < |b| ==> (!b[k] <==> FreedBy(mmap, bmp, i, k) || start <= k < p)
    {
      if p < |b| {
        b := b[p := false];
      }
      p := p + 1;
    }
    forall k | 0 <= k < |b|
      ensures !b[k] <==> FreedBy(mmap, bmp, i + 1, k)
    {
      if FreedBy(mmap, bmp, i + 1, k) && !FreedBy(mmap, bmp, i, k) {
        var j :| 0 <= j < i + 1 && j != bmp && Usable(mmap[j]) && InEntry(mmap[j], k);
        assert j == i;
      }
      if start <= k < end {
        assert InEntry(mmap[i], k);
      }
    }
  }

  /** A usable entry high in memory listed before a low one: the bitmap
      goes in the first entry, and the last usable entry, at 0, sets the
      bitmap's size. */
  const UnorderedMap: seq<MemEntry> :=
    [MemEntry(0x10_0000, 0x10_0000, UsablePage), MemEntry(0x1000_0000, 0x1000_0000, UsablePage),
     MemEntry(0, 0x10_0000, UsablePage)]

  /** Sizing the bitmap from the last usable entry, as `UppermostUsableAddr`
      does, leaves frames of other usable entries past it when the map is
      not in address order: in `UnorderedMap` the bitmap is one frame of
      bytes (32768 frames), and entry 1, which `InitPmm` frees, covers frame
      0x10000. The source's `SetPageFree(0x10000)` writes byte 0x2000 of a
      4096-byte bitmap; `FreeEntry` skips such frames. */
  lemma FrameBeyondBitmap()
    ensures WellFormedMap(UnorderedMap)
    ensures Uppermost(UnorderedMap) == 0xF_FFFF && BitmapBytes(0xF_FFFF) == FrameSize
    ensures FirstLargeEnough(UnorderedMap, FrameSize) == Some(0)
    ensures Usable(UnorderedMap[1]) && InEntry(UnorderedMap[1], 0x1_0000)
    ensures 0x1_0000 >= 8 * BitmapBytes(Uppermost(UnorderedMap))
  {
    assert LastUsable(UnorderedMap) == Some(2);
    assert RoundUpToFrame(32) == FrameSize;
  }

  // ---------------------------------------------------------------------
  // Allocation

  /** The lowest free frame below `n`. */
  function FirstFree(bits: seq<bool>, n: nat): (r: Option<nat>)
    requires n <= |bits|
    ensures r.Some? ==> r.value < n && !bits[r.value] && forall j :: 0 <= j < r.value ==> bits[j]
    ensures r.None? ==> forall j :: 0 <= j < n ==> bits[j]
  {
    if n == 0 then None
    else match FirstFree(bits, n - 1)
      case Some(j) => Some(j)
      case None => if !bits[n - 1] then Some(n - 1) else None
  }

  /** `AllocFirstFrame`: marks the lowest free frame used and returns its
      address `index * 4096`; returns 0 (NULL) and changes nothing when every
      frame is used. Frame 0 is returned as address 0 as well, so a caller
      cannot tell it from failure. Zeroing the frame's contents is not
      modelled. */
  method AllocFirstFrame(p: Pmm) returns (q: Pmm, addr: nat)
    requires Valid(p)
    ensures Valid(q)
    ensures q.numEntries == p.numEntries && q.bitmapSize == p.bitmapSize && q.uppermost == p.uppermost
    ensures FirstFree(p.bitmap, p.numEntries).None? ==> q == p && addr == 0
    ensures FirstFree(p.bitmap, p.numEntries).Some? ==>
      var i := FirstFree(p.bitmap, p.numEntries).value;
      addr == i * FrameSize && q.bitmap == p.bitmap[i := true]
  {
    var i := 0;
    while i < p.numEntries
      invariant 0 <= i <= p.numEntries
      invariant forall j :: 0 <= j < i ==> p.bitmap[j]
    {
      if !p.bitmap[i] {
        FirstFreeUnique(p.bitmap, p.numEntries, i);
        q := p.(bitmap := p.bitmap[i := true]);
        addr := i * FrameSize;
        return;
      }
      i := i + 1;
    }
    q := p;
    addr := 0;
  }

  lemma FirstFreeUnique(bits: seq<bool>, n: nat, i: nat)
    requires i < n <= |bits| && !bits[i]
    requires forall j :: 0 <= j < i ==> bits[j]
    ensures FirstFree(bits, n) == Some(i)
  {
  }

  /** `FreeFrame`: clears the bit of the frame at `frame`. The source's
      `ADDR_TO_FRAME_IND` is not part of this model; it is taken to be the
      division by the frame size. */
  function FreeFrame(p: Pmm, frame: nat): (q: Pmm)
    requires frame / FrameSize < |p.bitmap|
    ensures |q.bitmap| == |p.bitmap|
    ensures Valid(p) ==> Valid(q)
    ensures !q.bitmap[frame / FrameSize]
    ensures forall k :: 0 <= k < |p.bitmap| && k != frame / FrameSize ==> q.bitmap[k] == p.bitmap[k]
  {
    p.(bitmap := p.bitmap[frame / FrameSize := false])
  }

  /** The number of free frames below `n`. */
  function CountFree(bits: seq<bool>, n: nat): (c: nat)
    requires n <= |bits|
    ensures c <= n
  {
    if n == 0 then 0 else CountFree(bits, n - 1) + (if bits[n - 1] then 0 else 1)
  }

  /** `NumFreeFrames`: counts the clear bits among the scanned frames. */
  method NumFreeFrames(p: Pmm) returns (count: nat)
    requires Valid(p)
    ensures count == CountFree(p.bitmap, p.numEntries)
    ensures count == 0 <==> FirstFree(p.bitmap, p.numEntries).None?
  {
    count := 0;
    var i := 0;
    while i < p.numEntries
      invariant 0 <= i <= p.numEntries
      invariant count == CountFree(p.bitmap, i)
    {
      count := count + (if p.bitmap[i] then 0 else 1);
      i := i + 1;
    }
    CountFreeZero(p.bitmap, p.numEntries);
  }

  lemma {:induction false} CountFreeZero(bits: seq<bool>, n: nat)
    requires n <= |bits|
    ensures CountFree(bits, n) == 0 <==> FirstFree(bits, n).None?
  {
    if n > 0 {
      CountFreeZero(bits, n - 1);
    }
  }

  /** Setting one bit changes the count of free frames below `n` by one if
      the frame was free and scanned, and not at all otherwise. */
  lemma {:induction false} CountFreeSet(bits: seq<bool>, n: nat, i: nat, v: bool)
    requires n <= |bits| && i < |bits|
    ensures CountFree(bits[i := v], n) ==
      CountFree(bits, n) + (if i < n && bits[i] && !v then 1 else 0) - (if i < n && !bits[i] && v then 1 else 0)
  {
    if n > 0 {
      CountFreeSet(bits, n - 1, i, v);
    }
  }

  /** A successful allocation lowers the free count by exactly one; a failed
      one leaves it unchanged. */
  lemma AllocLowersCount(p: Pmm)
    requires Valid(p)
    ensures FirstFree(p.bitmap, p.numEntries).Some? ==>
      CountFree(p.bitmap[FirstFree(p.bitmap, p.numEntries).value := true], p.numEntries)
        == CountFree(p.bitmap, p.numEntries) - 1
  {
    if FirstFree(p.bitmap, p.numEntries).Some? {
      CountFreeSet(p.bitmap, p.numEntries, FirstFree(p.bitmap, p.numEntries).value, true);
    }
  }

  /** Freeing a used, scanned frame raises the free count by exactly one. */
  lemma FreeRaisesCount(p: Pmm, frame: nat)
    requires Valid(p)
    requires frame / FrameSize < p.numEntries && p.bitmap[frame / FrameSize]
    ensures CountFree(FreeFrame(p, frame).bitmap, p.numEntries) == CountFree(p.bitmap, p.numEntries) + 1
  {
    CountFreeSet(p.bitmap, p.numEntries, frame / FrameSize, false);
  }

  // ---------------------------------------------------------------------
  // The byte-level bitmap

  /** The mask of bit `k` of a byte, `1 << k`. */
  function Mask(k: nat): bv8
    requires k < 8
  {
    match k
    case 0 => 1
    case 1 => 2
    case 2 => 4
    case 3 => 8
    case 4 => 16
    case 5 => 32
    case 6 => 64
    case _ => 128
  }

  /** Frame `i`'s bit in the byte bitmap: bit `i % 8` of byte `i / 8`. */
  predicate ByteBit(bytes: seq<bv8>, i: nat)
    requires i / 8 < |bytes|
  {
    Bit(bytes[i / 8], i % 8)
  }

  /** Bit `c` of byte `b`. */
  predicate Bit(b: bv8, c: nat)
    requires c < 8
  {
    b & Mask(c) != 0
  }

  /** The byte bitmap `bytes` stores the per-frame flags `bits`. */
  predicate Represents(bytes: seq<bv8>, bits: seq<bool>)
  {
    |bits| == 8 * |bytes| && forall i :: 0 <= i < |bits| ==> bits[i] == ByteBit(bytes, i)
  }

  /** `SetPageUsed`: sets bit `index % 8` of byte `index / 8`. The source
      hands the byte's address to a helper declared on `uint64_t *`; on a
      little-endian machine, with `index % 8 < 8`, only that byte changes. */
  function SetPageUsed(bytes: seq<bv8>, index: nat): (r: seq<bv8>)
    requires index / 8 < |bytes|
    ensures |r| == |bytes|
    ensures forall j :: 0 <= j < |bytes| && j != index / 8 ==> r[j] == bytes[j]
    ensures ByteBit(r, index)
  {
    bytes[index / 8 := bytes[index / 8] | Mask(index % 8)]
  }

  /** `SetPageFree`: clears bit `index % 8` of byte `index / 8`. */
  function SetPageFree(bytes: seq<bv8>, index: nat): (r: seq<bv8>)
    requires index / 8 < |bytes|
    ensures |r| == |bytes|
    ensures forall j :: 0 <= j < |bytes| && j != index / 8 ==> r[j] == bytes[j]
    ensures !ByteBit(r, index)
  {
    bytes[index / 8 := bytes[index / 8] & !Mask(index % 8)]
  }

  /** `PageIsUsed`: reads bit `index % 8` of byte `index / 8`. */
  function PageIsUsed(bytes: seq<bv8>, index: nat): (r: bool)
    requires index / 8 < |bytes|
    ensures r <==> ByteBit(bytes, index)
  {
    bytes[index / 8] & Mask(index % 8) != 0
  }

  lemma MaskDisjoint(a: nat, b: nat)
    requires a < 8 && b < 8 && a != b
    ensures Mask(a) & Mask(b) == 0
  {
  }

  /** Two frames sharing a byte sit at different bits of it. */
  lemma SameByteOtherBit(i: nat, j: nat)
    requires i != j && i / 8 == j / 8
    ensures i % 8 != j % 8
  {
  }

  /** The byte operations refine the per-frame model: `SetPageUsed` and
      `SetPageFree` change exactly frame `index`'s flag, and `PageIsUsed`
      reads it. */
  lemma BitmapRefinement(bytes: seq<bv8>, bits: seq<bool>, index: nat)
    requires Represents(bytes, bits) && index < |bits|
    ensures PageIsUsed(bytes, index) == bits[index]
    ensures Represents(SetPageUsed(bytes, index), bits[index := true])
    ensures Represents(SetPageFree(bytes, index), bits[index := false])
  {
    forall j | 0 <= j < |bits| && j != index
      ensures ByteBit(SetPageUsed(bytes, index), j) == bits[j]
      ensures ByteBit(SetPageFree(bytes, index), j) == bits[j]
    {
      OtherFrameKept(bytes, index, j);
    }
  }

  /** Setting or clearing frame `index`'s bit leaves frame `j`'s bit alone. */
  lemma OtherFrameKept(bytes: seq<bv8>, index: nat, j: nat)
    requires index / 8 < |bytes| && j / 8 < |bytes| && j != index
    ensures ByteBit(SetPageUsed(bytes, index), j) == ByteBit(bytes, j)
    ensures ByteBit(SetPageFree(bytes, index), j) == ByteBit(bytes, j)
  {
    if j / 8 == index / 8 {
      SameByteKept(bytes, index, j);
    } else {
      OtherByteKept(bytes, index, j);
    }
  }

  lemma SameByteKept(bytes: seq<bv8>, index: nat, j: nat)
    requires index / 8 < |bytes| && j / 8 == index / 8 && j != index
    ensures ByteBit(SetPageUsed(bytes, index), j) == ByteBit(bytes, j)
    ensures ByteBit(SetPageFree(bytes, index), j) == ByteBit(bytes, j)
  {
    SameByteOtherBit(j, index);
    SameByteKeptUsed(bytes, index, j);
    SameByteKeptFree(bytes, index, j);
  }

  lemma SameByteKeptUsed(bytes: seq<bv8>, index: nat, j: nat)
    requires index / 8 < |bytes| && j / 8 == index / 8 && index % 8 != j % 8
    ensures ByteBit(SetPageUsed(bytes, index), j) == ByteBit(bytes, j)
  {
    var k, a, c := j / 8, index % 8, j % 8;
    UpdatedByte(bytes, index);
    SetKeepsBit(bytes[k], SetPageUsed(bytes, index)[k], a, c);
  }

  lemma SameByteKeptFree(bytes: seq<bv8>, index: nat, j: nat)
    requires index / 8 < |bytes| && j / 8 == index / 8 && index % 8 != j % 8
    ensures ByteBit(SetPageFree(bytes, index), j) == ByteBit(bytes, j)
  {
    var k, a, c := j / 8, index % 8, j % 8;
    UpdatedByte(bytes, index);
    ClearKeepsBit(bytes[k], SetPageFree(bytes, index)[k], a, c);
  }

  /** The byte `SetPageUsed` and `SetPageFree` rewrite. */
  lemma UpdatedByte(bytes: seq<bv8>, index: nat)
    requires index / 8 < |bytes|
    ensures SetPageUsed(bytes, index)[index / 8] == bytes[index / 8] | Mask(index % 8)
    ensures SetPageFree(bytes, index)[index / 8] == bytes[index / 8] & !Mask(index % 8)
  {
  }

  /** Setting bit `a` of a byte leaves bit `c` as it was. */
  lemma SetKeepsBit(b: bv8, setByte: bv8, a: nat, c: nat)
    requires a < 8 && c < 8 && a != c && setByte == b | Mask(a)
    ensures Bit(setByte, c) == Bit(b, c)
  {
    MaskDisjoint(a, c);
    OrKeeps(b, Mask(a), Mask(c));
  }

  /** Clearing bit `a` of a byte leaves bit `c` as it was. */
  lemma ClearKeepsBit(b: bv8, cleared: bv8, a: nat, c: nat)
    requires a < 8 && c < 8 && a != c && cleared == b & !Mask(a)
    ensures Bit(cleared, c) == Bit(b, c)
  {
    MaskDisjoint(a, c);
    AndNotKeeps(b, Mask(a), Mask(c));
  }

  lemma OtherByteKept(bytes: seq<bv8>, index: nat, j: nat)
    requires index / 8 < |bytes| && j / 8 < |bytes| && j / 8 != index / 8
    ensures ByteBit(SetPageUsed(bytes, index), j) == ByteBit(bytes, j)
    ensures ByteBit(SetPageFree(bytes, index), j) == ByteBit(bytes, j)
  {
    assert SetPageUsed(bytes, index)[j / 8] == bytes[j / 8];
    assert SetPageFree(bytes, index)[j / 8] == bytes[j / 8];
  }

  lemma OrKeeps(b: bv8, m: bv8, n: bv8)
    requires m & n == 0
    ensures (b | m) & n == b & n
  {
  }

  lemma AndNotKeeps(b: bv8, m: bv8, n: bv8)
    requires m & n == 0
    ensures (b & !m) & n == b & n
  {
  }
}

=== FILE: printf.dfy ===
/** `Convert` from the kernel's printf: the text of an unsigned 64-bit value
    in a given base, built right to left in a 32-character static buffer. */
module Printf {
  import opened Common

  /** The digit table of `Convert`. */
  const HexDigits: string := "0123456789ABCDEF"

  /** The character `Convert` writes for digit `d`: `Digit(d)`, which
      is '0' + d below ten and 'A' + (d - 10) above. */
  function Digit(d: nat): (c: char)
    requires d < 16
    ensures c as int == if d < 10 then '0' as int + d else 'A' as int + d - 10
  {
    HexDigits[d]
  }

  /** The value of a digit character of `HexDigits`, or 16 for any other. */
  function DigitValue(c: char): (d: nat)
    ensures d <= 16
    ensures d < 16 ==> Digit(d) == c
  {
    if '0' <= c <= '9' then c as int - '0' as int
    else if 'A' <= c <= 'F' then c as int - 'A' as int + 10
    else 16
  }

  /** The numeral of `num` in `base`, most significant digit first. Zero is
      written as a single "0", as the do-while loop of `Convert` emits one
      digit before testing. */
  function Numeral(num: nat, base: nat): (s: string)
    requires 2 <= base <= 16
    ensures |s| >= 1
    decreases num
  {
    DivStep(num, base);
    if num < base then [Digit(num)]
    else Numeral(Quot(num, base), base) + [Digit(Rem(num, base))]
  }

  function Quot(num: nat, base: nat): (q: nat)
    requires base >= 2
    ensures num >= base ==> q < num
  {
    DivStep(num, base);
    num / base
  }

  function Rem(num: nat, base: nat): (r: nat)
    requires base >= 2
    ensures r < base
  {
    num % base
  }

  /** Euclidean division by a base of at least 2. */
  lemma DivStep(num: nat, base: nat)
    requires base >= 2
    ensures num == base * (num / base) + num % base
    ensures 0 <= num % base < base
    ensures num < base <==> num / base == 0
    ensures num < base ==> num % base == num
    ensures num > 0 ==> num / base < num
  {
  }

  /** Reading a digit string as a base-`base` numeral. */
  function ParseRadix(s: string, base: nat): int
  {
    if |s| == 0 then 0
    else base * ParseRadix(s[..|s| - 1], base) + DigitValue(s[|s| - 1])
  }

  /** `base ^ k`. */
  function Pow(base: nat, k: nat): nat
  {
    if k == 0 then 1 else base * Pow(base, k - 1)
  }

  lemma DigitValueOfDigit(d: nat)
    requires d < 16
    ensures DigitValue(Digit(d)) == d
  {
  }

  /** The numeral reads back as the number it was built from. */
  lemma {:induction false} NumeralRoundTrip(num: nat, base: nat)
    requires 2 <= base <= 16
    ensures ParseRadix(Numeral(num, base), base) == num
    decreases num
  {
    DivStep(num, base);
    if num < base {
      DigitValueOfDigit(num);
      ParseSnoc([], base, Digit(num));
      assert Numeral(num, base) == [] + [Digit(num)];
    } else {
      var q, d := Quot(num, base), Rem(num, base);
      assert num == base * q + d;
      assert Numeral(num, base) == Numeral(q, base) + [Digit(d)];
      ParseSnoc(Numeral(q, base), base, Digit(d));
      DigitValueOfDigit(d);
      NumeralRoundTrip(q, base);
    }
  }

  /** One more digit multiplies the value read so far by the base. */
  lemma ParseSnoc(s: string, base: nat, c: char)
    ensures ParseRadix(s + [c], base) == base * ParseRadix(s, base) + DigitValue(c)
  {
    assert (s + [c])[..|s|] == s;
  }

  /** Every character of a numeral is a digit below the base. */
  lemma {:induction false} NumeralDigits(num: nat, base: nat)
    requires 2 <= base <= 16
    ensures forall i :: 0 <= i < |Numeral(num, base)| ==> DigitValue(Numeral(num, base)[i]) < base
    decreases num
  {
    if num < base {
      DigitValueOfDigit(num);
    } else {
      var q, d := Quot(num, base), Rem(num, base);
      NumeralDigits(q, base);
      DigitValueOfDigit(d);
      var s := Numeral(num, base);
      assert s == Numeral(q, base) + [Digit(d)];
      assert forall i :: 0 <= i < |s| - 1 ==> s[i] == Numeral(q, base)[i];
    }
  }

  /** A numeral has a leading zero only when it is "0" itself. */
  lemma {:induction false} NumeralNoLeadingZero(num: nat, base: nat)
    requires 2 <= base <= 16
    ensures Numeral(num, base)[0] == '0' <==> num == 0
    decreases num
  {
    DivStep(num, base);
    if num >= base {
      NumeralNoLeadingZero(num / base, base);
      assert Numeral(num, base)[0] == Numeral(num / base, base)[0];
    }
  }

  /** A value below `base ^ k` needs at most `k` digits. */
  lemma {:induction false} NumeralLength(num: nat, base: nat, k: nat)
    requires 2 <= base <= 16 && k >= 1
    requires num < Pow(base, k)
    ensures |Numeral(num, base)| <= k
    decreases num
  {
    DivStep(num, base);
    if num >= base {
      assert k >= 2;
      assert num / base < Pow(base, k - 1) by {
        DivBelowPow(num, base, k);
      }
      NumeralLength(num / base, base, k - 1);
    }
  }

  lemma DivBelowPow(num: nat, base: nat, k: nat)
    requires base >= 2 && k >= 1
    requires num < Pow(base, k)
    ensures num / base < Pow(base, k - 1)
  {
    DivStep(num, base);
    assert base * (num / base) < base * Pow(base, k - 1);
    MulCancel(num / base, Pow(base, k - 1), base);
  }

  lemma MulCancel(a: nat, b: nat, c: nat)
    requires c * a < c * b
    ensures a < b
  {
  }

  /** The bases `PrintK` passes (8 for `%o`, 10 for `%d`, 16 for `%h`) never
      need more than the 31 characters in front of the terminator. */
  lemma PrintKBasesFit(num: nat, base: nat)
    requires num < Two64
    requires base == 8 || base == 10 || base == 16
    ensures |Numeral(num, base)| <= 31
  {
    EightToThe22();
    PowMonotone(8, base, 22);
    NumeralLength(num, base, 22);
  }

  lemma EightToThe22()
    ensures Pow(8, 22) == 0x4_0000_0000_0000_0000
  {
    assert Pow(8, 1) == 8;
    assert Pow(8, 2) == 0x40 by { PowAdd(8, 1, 1); }
    assert Pow(8, 4) == 0x1000 by { PowAdd(8, 2, 2); }
    assert Pow(8, 8) == 0x100_0000 by { PowAdd(8, 4, 4); }
    assert Pow(8, 16) == 0x1_0000_0000_0000 by { PowAdd(8, 8, 8); }
    assert Pow(8, 20) == 0x1000_0000_0000_0000 by { PowAdd(8, 16, 4); }
    PowAdd(8, 20, 2);
  }

  lemma {:induction false} PowMonotone(b1: nat, b2: nat, k: nat)
    requires b1 <= b2
    ensures Pow(b1, k) <= Pow(b2, k)
  {
    if k > 0 {
      PowMonotone(b1, b2, k - 1);
      assert b1 * Pow(b1, k - 1) <= b2 * Pow(b1, k - 1) <= b2 * Pow(b2, k - 1) by {
        MulMonotone(b1, b2, Pow(b1, k - 1));
        MulMonotone(Pow(b1, k - 1), Pow(b2, k - 1), b2);
      }
    }
  }

  lemma {:induction false} PowAdd(b: nat, i: nat, j: nat)
    ensures Pow(b, i + j) == Pow(b, i) * Pow(b, j)
  {
    if i > 0 {
      PowAdd(b, i - 1, j);
      assert Pow(b, i + j) == b * (Pow(b, i - 1) * Pow(b, j));
      MulAssoc(b, Pow(b, i - 1), Pow(b, j));
    }
  }

  lemma MulAssoc(a: nat, b: nat, c: nat)
    ensures a * (b * c) == (a * b) * c
  {
  }

  lemma MulMonotone(a: nat, b: nat, c: nat)
    requires a <= b
    ensures a * c <= b * c
  {
  }

  /** `Convert`: writes the terminator at `buffer[31]`, then, at least once,
      the digit `num % base` one place further left, dividing `num` by
      `base`, until `num` is zero. Returns the static buffer and the index
      of the first digit; the bytes in front of it are left as they were.
      The caller must pick a base whose numeral fits the 31 free places,
      since the source writes in front of the buffer otherwise. */
  method Convert(buffer: string, num: nat, base: nat) returns (buf: string, ptr: nat)
    requires |buffer| == 32
    requires num < Two64
    requires 2 <= base <= 16
    requires |Numeral(num, base)| <= 31
    ensures |buf| == 32 && ptr < 31
    ensures buf[31] == '\0'
    ensures buf[ptr..31] == Numeral(num, base)
    ensures buf[..ptr] == buffer[..ptr]
    ensures ParseRadix(buf[ptr..31], base) == num
    ensures num == 0 <==> buf[ptr..31] == "0"
  {
    buf, ptr := WriteDigits(buffer, num, base);
    NumeralRoundTrip(num, base);
    NumeralNoLeadingZero(num, base);
  }

  /** The loop of `Convert`: the terminator, then the digits of `num`
      right to left in front of it. */
  method WriteDigits(buffer: string, num: nat, base: nat) returns (buf: string, ptr: nat)
    requires |buffer| == 32
    requires 2 <= base <= 16
    requires |Numeral(num, base)| <= 31
    ensures ptr == 31 - |Numeral(num, base)|
    ensures buf == Placed(buffer, Numeral(num, base))
  {
    buf := buffer[31 := '\0'];
    ptr := 31;
    var n := num;
    ghost var suffix: string := [];
    assert buf == Placed(buffer, suffix);
    while true
      invariant ptr == 31 - |suffix|
      invariant buf == Placed(buffer, suffix)
      invariant Numeral(num, base) == Numeral(n, base) + suffix
      decreases n
    {
      var q, d := NextDigit(n, base);
      ptr := ptr - 1;
      PlaceDigit(buffer, suffix, Digit(d));
      buf := buf[ptr := Digit(d)];
      suffix := [Digit(d)] + suffix;
      n := q;
      if n == 0 {
        break;
      }
    }
  }

  /** The buffer with `digits` in front of the terminator at index 31 and
      the original bytes before them. */
  function Placed(buffer: string, digits: string): (b: string)
    requires |buffer| == 32 && |digits| <= 31
    ensures |b| == 32 && b[31] == '\0'
    ensures b[31 - |digits|..31] == digits && b[..31 - |digits|] == buffer[..31 - |digits|]
  {
    buffer[..31 - |digits|] + digits + ['\0']
  }

  /** Writing one more digit in front of the placed ones places it too. */
  lemma PlaceDigit(buffer: string, digits: string, c: char)
    requires |buffer| == 32 && |digits| < 31
    ensures Placed(buffer, digits)[30 - |digits| := c] == Placed(buffer, [c] + digits)
  {
    var b := Placed(buffer, digits)[30 - |digits| := c];
    assert b == buffer[..30 - |digits|] + [c] + digits + ['\0'];
  }

  /** One step of the digit loop: the quotient and the last digit of `n`. */
  method NextDigit(n: nat, base: nat) returns (q: nat, d: nat)
    requires 2 <= base <= 16
    ensures d < base && n == base * q + d
    ensures q == 0 ==> Numeral(n, base) == [Digit(d)]
    ensures q > 0 ==> Numeral(n, base) == Numeral(q, base) + [Digit(d)] && q < n
  {
    DivStep(n, base);
    q := n / base;
    d := n % base;
    if q == 0 {
      assert n < base && d == n;
      assert Numeral(n, base) == [Digit(n)];
    } else {
      assert n >= base;
      assert Numeral(n, base) == Numeral(n / base, base) + [Digit(n % base)];
    }
  }
}

=== FILE: string_ops.dfy ===
/** The byte routines of the kernel's string library: `memset` and an
    overlap-safe `memmove`. Memory is a byte sequence and pointers are
    indices into it. */
module StringOps {
  import opened Common

  /** Reference meaning of `memset`: `len` copies of `b` from `dest` on. */
  function Fill(mem: seq<Byte>, dest: nat, len: nat, b: Byte): (r: seq<Byte>)
    requires dest + len <= |mem|
    ensures |r| == |mem|
    ensures forall i :: dest <= i < dest + len ==> r[i] == b
    ensures forall i :: 0 <= i < |mem| && !(dest <= i < dest + len) ==> r[i] == mem[i]
  {
    mem[..dest] + seq(len, _ => b) + mem[dest + len..]
  }

  /** Reference meaning of `memmove`: the `size` bytes that were at `src`
      now stand at `dst`, and nothing else changes. */
  function Move(mem: seq<Byte>, dst: nat, src: nat, size: nat): (r: seq<Byte>)
    requires dst + size <= |mem| && src + size <= |mem|
    ensures |r| == |mem|
    ensures forall i :: dst <= i < dst + size ==> r[i] == mem[src + (i - dst)]
    ensures forall i :: 0 <= i < |mem| && !(dst <= i < dst + size) ==> r[i] == mem[i]
  {
    mem[..dst] + mem[src..src + size] + mem[dst + size..]
  }

  /** `memset`: stores `(uint8_t) val` into each of the `len` bytes from
      `dest` and returns `dest`. */
  method MemSet(mem: seq<Byte>, dest: nat, val: int, len: nat) returns (r: seq<Byte>, ret: nat)
    requires dest + len <= |mem|
    ensures ret == dest
    ensures |r| == |mem|
    ensures forall i :: dest <= i < dest + len ==> r[i] == ToByte(val)
    ensures forall i :: 0 <= i < |mem| && !(dest <= i < dest + len) ==> r[i] == mem[i]
    ensures r == Fill(mem, dest, len, ToByte(val))
  {
    r := mem;
    var k := 0;
    while k < len
      invariant 0 <= k <= len
      invariant |r| == |mem|
      invariant forall i :: dest <= i < dest + k ==> r[i] == ToByte(val)
      invariant forall i :: 0 <= i < |mem| && !(dest <= i < dest + k) ==> r[i] == mem[i]
    {
      r := r[dest + k := ToByte(val)];
      k := k + 1;
    }
    ret := dest;
  }

  /** `memmove`: copies ascending when `dst < src` and descending otherwise,
      so that no source byte is overwritten before it has been read; the
      destination ends up holding the original source bytes even when the
      two ranges overlap. */
  method MemMove(mem: seq<Byte>, dst: nat, src: nat, size: nat) returns (r: seq<Byte>, ret: nat)
    requires dst + size <= |mem| && src + size <= |mem|
    ensures ret == dst
    ensures |r| == |mem|
    ensures forall i :: dst <= i < dst + size ==> r[i] == mem[src + (i - dst)]
    ensures forall i :: 0 <= i < |mem| && !(dst <= i < dst + size) ==> r[i] == mem[i]
    ensures r == Move(mem, dst, src, size)
  {
    r := mem;
    if dst < src {
      var k := 0;
      while k < size
        invariant 0 <= k <= size
        invariant |r| == |mem|
        invariant forall i :: dst <= i < dst + k ==> r[i] == mem[src + (i - dst)]
        invariant forall i :: 0 <= i < |mem| && !(dst <= i < dst + k) ==> r[i] == mem[i]
      {
        r := r[dst + k := r[src + k]];
        k := k + 1;
      }
    } else {
      var k := size;
      while k != 0
        invariant 0 <= k <= size
        invariant |r| == |mem|
        invariant forall i :: dst + k <= i < dst + size ==> r[i] == mem[src + (i - dst)]
        invariant forall i :: 0 <= i < |mem| && !(dst + k <= i < dst + size) ==> r[i] == mem[i]
      {
        r := r[dst + k - 1 := r[src + k - 1]];
        k := k - 1;
      }
    }
    ret := dst;
  }
}

=== FILE: ustar.dfy ===
/** Lookup in a ustar archive (ustar.c; the "ustar Interchange Format" of
    the pax utility, IEEE Std 1003.1). An archive is a sequence of 512-byte
    header blocks, each followed by the entry's data padded to whole blocks.
    The archive is given as the bytes from its start on; bytes past them read
    as 0, so a walk that leaves the archive meets no "ustar" signature and
    stops. */
module Ustar {
  import opened Common
  import CString

  const BlockSize: nat := 512
  const SizeOffset: nat := 124
  const SizeDigits: nat := 11
  const FileTypeOffset: nat := 156
  const SignatureOffset: nat := 257
  const NameFieldSize: nat := 100

  /** The file type of a directory entry, `'5'`. */
  const UstarDir: Byte := 0x35
  const Digit0: Byte := 0x30

  /** "ustar", compared over 5 bytes. */
  const Magic: seq<Byte> := [0x75, 0x73, 0x74, 0x61, 0x72]

  /** A `char` of the kernel's target is signed: bytes from 0x80 on are
      negative. */
  function CharValue(b: Byte): (v: int)
    ensures -0x80 <= v < 0x80
    ensures (v - b) % 0x100 == 0
  {
    if b < 0x80 then b else b - 0x100
  }

  /** `oct2bin`: folds `n * 8 + (c - '0')` over the digits with no
      validation, in 32-bit `int` arithmetic. */
  function Oct2Bin(digits: seq<Byte>): (n: int)
    ensures -0x8000_0000 <= n < 0x8000_0000
    decreases |digits|
  {
    if |digits| == 0 then 0
    else
      var last := digits[|digits| - 1];
      ToInt32(Oct2Bin(digits[..|digits| - 1]) * 8 + (CharValue(last) - Digit0))
  }

  function Pow8(n: nat): (p: nat)
    ensures p >= 1
  {
    if n == 0 then 1 else 8 * Pow8(n - 1)
  }

  /** The `n` ASCII octal digits of `v`, most significant first, as an
      archiver writes a size field. */
  function OctalDigits(v: nat, n: nat): (ds: seq<Byte>)
    ensures |ds| == n
  {
    if n == 0 then [] else OctalDigits(v / 8, n - 1) + [Digit0 + v % 8]
  }

  /** A value that fits both the field and an `int` reads back from its
      digits. */
  lemma {:induction false} Oct2BinRoundTrip(v: nat, n: nat)
    requires v < Pow8(n)
    requires v < 0x8000_0000
    ensures Oct2Bin(OctalDigits(v, n)) == v
  {
    if n > 0 {
      var q, r := v / 8, v % 8;
      var d: Byte := Digit0 + r;
      var prefix := OctalDigits(q, n - 1);
      assert OctalDigits(v, n) == prefix + [d];
      Oct2BinRoundTrip(q, n - 1);
      OctalStep(prefix, d, v);
    }
  }

  /** Appending the last octal digit of `v` to the digits of `v / 8` gives
      `v`. */
  lemma OctalStep(prefix: seq<Byte>, d: Byte, v: nat)
    requires Oct2Bin(prefix) == v / 8
    requires d == Digit0 + v % 8
    requires v < 0x8000_0000
    ensures Oct2Bin(prefix + [d]) == v
  {
    Oct2BinSnoc(prefix, d);
    assert (v / 8) * 8 + (CharValue(d) - Digit0) == v;
    ConversionsFix(v);
  }

  /** One more digit multiplies by 8 and adds the digit's value. */
  lemma Oct2BinSnoc(ds: seq<Byte>, d: Byte)
    ensures Oct2Bin(ds + [d]) == ToInt32(Oct2Bin(ds) * 8 + (CharValue(d) - Digit0))
  {
    assert (ds + [d])[..|ds|] == ds;
  }

  /** Every length below 2^31 fits the 11-digit size field. */
  lemma SizeFieldHolds(v: nat)
    requires v < 0x8000_0000
    ensures v < Pow8(SizeDigits)
  {
    assert Pow8(SizeDigits) == 0x2_0000_0000 by {
      assert Pow8(1) == 8;
      assert Pow8(3) == 0x200;
      assert Pow8(6) == 0x4_0000;
      assert Pow8(9) == 0x800_0000;
    }
  }

  /** The bytes from `n` on, or nothing when `n` is past the end. */
  function Drop(ar: seq<Byte>, n: nat): (r: seq<Byte>)
    ensures n <= |ar| ==> r == ar[n..]
    ensures n > |ar| ==> r == []
  {
    if n <= |ar| then ar[n..] else []
  }

  /** The loop condition: the header's signature starts with "ustar". */
  predicate HasMagic(ar: seq<Byte>)
  {
    CString.StrNEq(ar, SignatureOffset, Magic, 0, 5)
  }

  /** A header with the signature lies inside the archive. */
  lemma MagicInside(ar: seq<Byte>)
    requires HasMagic(ar)
    ensures SignatureOffset < |ar|
  {
    assert ByteAt(Magic, 0) == 0x75;
  }

  /** The entry length: the 11-digit size field through `oct2bin`, converted
      to `size_t`. */
  function EntryLen(ar: seq<Byte>): (len: nat)
    ensures len < Two64
  {
    ToU64(Oct2Bin(BytesAt(ar, SizeOffset, SizeDigits)))
  }

  /** The blocks `len` data bytes occupy, `len / 512` rounded up. */
  function Blocks(len: nat): (b: nat)
    ensures BlockSize * b >= len
    ensures BlockSize * b < len + BlockSize
  {
    if len % BlockSize == 0 then len / BlockSize else len / BlockSize + 1
  }

  /** How far the source moves its header pointer past a non-matching entry:
      the data blocks, at least one, counted from the header itself. */
  function AdvanceAsWritten(len: nat): (bytes: nat)
    ensures bytes >= BlockSize
  {
    BlockSize * (if Blocks(len) > 0 then Blocks(len) else 1)
  }

  /** The size field "37777777777", the largest an archiver writes in 11
      octal digits. */
  const AllSevensField: seq<Byte> := [0x33, 0x37, 0x37, 0x37, 0x37, 0x37, 0x37, 0x37, 0x37, 0x37, 0x37]

  /** That field wraps `oct2bin` to -1, which is `2^64 - 1` as `size_t`. The
      as-written advance for it is then exactly 2^64 bytes, so a 64-bit
      header pointer comes back to the same header. The walks here stop
      once the advance passes the end of the archive instead. */
  lemma AdvanceWrapsToSameHeader()
    ensures Oct2Bin(AllSevensField) == -1
    ensures ToU64(Oct2Bin(AllSevensField)) == Two64 - 1
    ensures AdvanceAsWritten(Two64 - 1) == Two64
  {
    var f := AllSevensField;
    assert Oct2Bin(f[..1]) == 3;
    assert f[..2][..1] == f[..1];
    assert Oct2Bin(f[..2]) == 0x1F;
    assert f[..3][..2] == f[..2];
    assert Oct2Bin(f[..3]) == 0xFF;
    assert f[..4][..3] == f[..3];
    assert Oct2Bin(f[..4]) == 0x7FF;
    assert f[..5][..4] == f[..4];
    assert Oct2Bin(f[..5]) == 0x3FFF;
    assert f[..6][..5] == f[..5];
    assert Oct2Bin(f[..6]) == 0x1_FFFF;
    assert f[..7][..6] == f[..6];
    assert Oct2Bin(f[..7]) == 0xF_FFFF;
    assert f[..8][..7] == f[..7];
    assert Oct2Bin(f[..8]) == 0x7F_FFFF;
    assert f[..9][..8] == f[..8];
    assert Oct2Bin(f[..9]) == 0x3FF_FFFF;
    assert f[..10][..9] == f[..9];
    assert Oct2Bin(f[..10]) == 0x1FFF_FFFF;
    assert f[..10] == f[..|f| - 1];
    assert Blocks(Two64 - 1) == Two64 / BlockSize;
  }

  /** Where the next header really starts: after the header block and the
      data blocks. */
  function Advance(len: nat): (bytes: nat)
    ensures bytes >= BlockSize
    ensures bytes == BlockSize + BlockSize * Blocks(len)
  {
    BlockSize * (1 + Blocks(len))
  }

  /** The header names `filename`, compared as `ustar_read` does over the
      header name's length plus its terminator. */
  predicate NameMatches(ar: seq<Byte>, filename: seq<Byte>)
  {
    CString.StrNEq(ar, 0, filename, 0, CString.StrLen(ar, 0) + 1)
  }

  /** The header names `dirname`, compared as `ustar_readdir` does over the
      length of `dirname` plus its terminator. */
  predicate DirNameMatches(ar: seq<Byte>, dirname: seq<Byte>)
  {
    CString.StrNEq(ar, 0, dirname, 0, CString.StrLen(dirname, 0) + 1)
  }

  /** Both comparisons are string equality of the name with the argument. */
  lemma NameComparisons(ar: seq<Byte>, s: seq<Byte>)
    ensures NameMatches(ar, s) <==> CString.CStr(ar, 0) == CString.CStr(s, 0)
    ensures DirNameMatches(ar, s) <==> CString.CStr(ar, 0) == CString.CStr(s, 0)
  {
    CString.StrNEqWholeString(ar, 0, s, 0);
    CString.StrNEqWholeString(s, 0, ar, 0);
    CString.StrNEqSymmetric(ar, 0, s, 0, CString.StrLen(s, 0) + 1);
  }

  /** The result of a lookup: the copy of the file's bytes, or NULL. */
  datatype ReadResult = Found(data: seq<Byte>) | NotFound

  /** The `ustar_read` walk from the header at the start of `ar`, advancing
      by `AdvanceAsWritten` when `asWritten` holds and by `Advance`
      otherwise. */
  function ReadWalk(ar: seq<Byte>, filename: seq<Byte>, asWritten: bool): ReadResult
    decreases |ar|
  {
    if !HasMagic(ar) then NotFound
    else
      var len := EntryLen(ar);
      if NameMatches(ar, filename) then Found(BytesAt(ar, BlockSize, len))
      else
        MagicInside(ar);
        ReadWalk(Drop(ar, if asWritten then AdvanceAsWritten(len) else Advance(len)),
                 filename, asWritten)
  }

  /** `ustar_read` as written. */
  function UstarReadAsWritten(ar: seq<Byte>, filename: seq<Byte>): ReadResult
  {
    ReadWalk(ar, filename, true)
  }

  /** `ustar_read` with the header advance corrected. */
  function UstarRead(ar: seq<Byte>, filename: seq<Byte>): ReadResult
  {
    ReadWalk(ar, filename, false)
  }

  /** The walk of `ustar_readdir`: whether a directory entry named `dirname`
      was met, and copies of the headers of the other entries with that
      name, in archive order. The advance is chosen as in `ReadWalk`. */
  function ReadDirWalk(ar: seq<Byte>, dirname: seq<Byte>, asWritten: bool): (r: (bool, seq<seq<Byte>>))
    decreases |ar|
  {
    if !HasMagic(ar) then (false, [])
    else
      var len := EntryLen(ar);
      MagicInside(ar);
      var rest := ReadDirWalk(Drop(ar, if asWritten then AdvanceAsWritten(len) else Advance(len)),
                              dirname, asWritten);
      if !DirNameMatches(ar, dirname) then rest
      else if ByteAt(ar, FileTypeOffset) == UstarDir then (true, rest.1)
      else (rest.0, [BytesAt(ar, 0, BlockSize)] + rest.1)
  }

  /** `ustar_readdir` as written: the copies when the directory itself was
      found, else NULL. */
  function UstarReadDirAsWritten(ar: seq<Byte>, dirname: seq<Byte>): Option<seq<seq<Byte>>>
  {
    var w := ReadDirWalk(ar, dirname, true);
    if w.0 then Some(w.1) else None
  }

  /** `ustar_readdir` with the header advance corrected and the copies kept
      in archive order from slot 0 on (see `ResultSlots`). */
  function UstarReadDir(ar: seq<Byte>, dirname: seq<Byte>): Option<seq<seq<Byte>>>
  {
    var w := ReadDirWalk(ar, dirname, false);
    if w.0 then Some(w.1) else None
  }

  /** The results array of `ustar_readdir` as written: for each collected
      header, the index it is stored at and the array's capacity at that
      moment. The count is post-incremented in the growth test, which
      compares the old count, and the store uses the new count. */
  function ResultSlotsAsWritten(count: nat, num: nat, cap: nat): (r: seq<(nat, nat)>)
    ensures |r| == count
    decreases count
  {
    if count == 0 then []
    else
      var cap' := if num > cap then cap * 2 else cap;
      [(num + 1, cap')] + ResultSlotsAsWritten(count - 1, num + 1, cap')
  }

  /** The first header collected is stored at index 1 of a 1-entry array,
      and slot 0 is never written. */
  lemma FirstResultOutOfBounds(count: nat)
    requires count >= 1
    ensures ResultSlotsAsWritten(count, 0, 1)[0] == (1, 1)
    ensures forall k :: 0 <= k < count ==> ResultSlotsAsWritten(count, 0, 1)[k].0 >= 1
  {
    SlotsAbove(count, 0, 1);
  }

  lemma {:induction false} SlotsAbove(count: nat, num: nat, cap: nat)
    ensures forall k :: 0 <= k < count ==> ResultSlotsAsWritten(count, num, cap)[k].0 > num
    decreases count
  {
    if count > 0 {
      var cap' := if num > cap then cap * 2 else cap;
      SlotsAbove(count - 1, num + 1, cap');
    }
  }

  /** The results array as intended: store at the current count, growing
      the array first when it is full. */
  function ResultSlots(count: nat, num: nat, cap: nat): (r: seq<(nat, nat)>)
    ensures |r| == count
    decreases count
  {
    if count == 0 then []
    else
      var cap' := if num >= cap then cap * 2 else cap;
      [(num, cap')] + ResultSlots(count - 1, num + 1, cap')
  }

  /** Stored as intended, the k-th header goes to slot `num + k`, inside the
      array. */
  lemma {:induction false} ResultSlotsInBounds(count: nat, num: nat, cap: nat)
    requires 1 <= cap && num <= cap
    ensures forall k :: 0 <= k < count ==>
              ResultSlots(count, num, cap)[k].0 == num + k &&
              ResultSlots(count, num, cap)[k].0 < ResultSlots(count, num, cap)[k].1
    decreases count
  {
    if count > 0 {
      var cap' := if num >= cap then cap * 2 else cap;
      ResultSlotsInBounds(count - 1, num + 1, cap');
    }
  }

  // An archive builder, the inverse of the lookups.

  /** An archive member: its name, its file type and its contents. */
  datatype Member = Member(name: seq<Byte>, fileType: Byte, data: seq<Byte>)

  /** A member an archiver can write and the kernel can read: the name fits
      the field with its terminator, and the length fits an `int`. */
  predicate WellFormed(m: Member)
  {
    |m.name| < NameFieldSize && 0 !in m.name && |m.data| < 0x8000_0000
  }

  /** Byte `k` of the member's header block: the name, the octal size, the
      file type and the signature; every other field is zero. */
  function HeaderByte(m: Member, k: int): Byte
  {
    if k < 0 then 0
    else if k < |m.name| then m.name[k]
    else if SizeOffset <= k < SizeOffset + SizeDigits then OctalDigits(|m.data|, SizeDigits)[k - SizeOffset]
    else if k == FileTypeOffset then m.fileType
    else if SignatureOffset <= k < SignatureOffset + 5 then Magic[k - SignatureOffset]
    else 0
  }

  function Header(m: Member): (h: seq<Byte>)
    ensures |h| == BlockSize
  {
    seq(BlockSize, k => HeaderByte(m, k))
  }

  /** The member's header followed by its data padded to whole blocks. */
  function MemberBytes(m: Member): (bs: seq<Byte>)
    ensures |bs| == Advance(|m.data|)
  {
    Header(m) + m.data + Zeros(BlockSize * Blocks(|m.data|) - |m.data|)
  }

  /** The archive of `ms`, closed by two zero blocks. */
  function Build(ms: seq<Member>): seq<Byte>
  {
    if |ms| == 0 then Zeros(2 * BlockSize) else MemberBytes(ms[0]) + Build(ms[1..])
  }

  /** The contents of the first member called `filename`. */
  function Lookup(ms: seq<Member>, filename: seq<Byte>): Option<seq<Byte>>
  {
    if |ms| == 0 then None
    else if ms[0].name == CString.CStr(filename, 0) then Some(ms[0].data)
    else Lookup(ms[1..], filename)
  }

  /** The header bytes of a built member are its `HeaderByte`s. */
  lemma HeaderAt(m: Member, rest: seq<Byte>, k: nat)
    requires k < BlockSize
    ensures ByteAt(MemberBytes(m) + rest, k) == HeaderByte(m, k)
  {
    assert (MemberBytes(m) + rest)[k] == Header(m)[k];
  }

  /** A built header carries the signature. */
  lemma BuiltMagic(m: Member, rest: seq<Byte>)
    requires WellFormed(m)
    ensures HasMagic(MemberBytes(m) + rest)
  {
    var ar := MemberBytes(m) + rest;
    forall k | 0 <= k < 5
      ensures BytesAt(ar, SignatureOffset, 5)[k] == Magic[k]
    {
      HeaderAt(m, rest, SignatureOffset + k);
    }
    assert BytesAt(Magic, 0, 5) == Magic;
    CString.StrNEqNoNul(ar, SignatureOffset, Magic, 0, 5);
  }

  /** A built header's size field holds the octal digits of the length. */
  lemma BuiltSizeField(m: Member, rest: seq<Byte>)
    requires WellFormed(m)
    ensures BytesAt(MemberBytes(m) + rest, SizeOffset, SizeDigits) == OctalDigits(|m.data|, SizeDigits)
  {
    var ar := MemberBytes(m) + rest;
    forall k | 0 <= k < SizeDigits
      ensures BytesAt(ar, SizeOffset, SizeDigits)[k] == OctalDigits(|m.data|, SizeDigits)[k]
    {
      HeaderAt(m, rest, SizeOffset + k);
    }
  }

  /** A built header's size field reads back as the data length. */
  lemma BuiltLen(m: Member, rest: seq<Byte>)
    requires WellFormed(m)
    ensures EntryLen(MemberBytes(m) + rest) == |m.data|
  {
    BuiltSizeField(m, rest);
    OctalLen(|m.data|);
  }

  /** The size field written for a length below 2^31 reads back as it. */
  lemma OctalLen(v: nat)
    requires v < 0x8000_0000
    ensures ToU64(Oct2Bin(OctalDigits(v, SizeDigits))) == v
  {
    SizeFieldHolds(v);
    Oct2BinRoundTrip(v, SizeDigits);
    ConversionsFix(v);
  }

  /** A built header's name reads back as the member's name. */
  lemma BuiltName(m: Member, rest: seq<Byte>)
    requires WellFormed(m)
    ensures CString.CStr(MemberBytes(m) + rest, 0) == m.name
  {
    var ar := MemberBytes(m) + rest;
    forall k | 0 <= k < |m.name|
      ensures BytesAt(ar, 0, |m.name|)[k] == m.name[k]
    {
      HeaderAt(m, rest, k);
    }
    HeaderAt(m, rest, |m.name|);
    CString.StrLenExact(ar, 0, |m.name|);
  }

  /** The data block of a built member holds its contents. */
  lemma BuiltData(m: Member, rest: seq<Byte>)
    ensures BytesAt(MemberBytes(m) + rest, BlockSize, |m.data|) == m.data
  {
    var ar := MemberBytes(m) + rest;
    forall k | 0 <= k < |m.data|
      ensures BytesAt(ar, BlockSize, |m.data|)[k] == m.data[k]
    {
      assert ar[BlockSize + k] == (Header(m) + m.data)[BlockSize + k];
    }
  }

  /** Advancing past a built member reaches the next one. */
  lemma BuiltNext(m: Member, rest: seq<Byte>)
    ensures Drop(MemberBytes(m) + rest, Advance(|m.data|)) == rest
  {
  }

  /** The closing zero blocks carry no signature. */
  lemma EndHasNoMagic()
    ensures !HasMagic(Build([]))
  {
    assert ByteAt(Build([]), SignatureOffset) == 0;
  }

  /** Round trip: reading a name from a built archive gives the contents of
      the first member of that name, and NULL when there is none. */
  lemma {:induction false} ReadBuilt(ms: seq<Member>, filename: seq<Byte>)
    requires forall m :: m in ms ==> WellFormed(m)
    ensures UstarRead(Build(ms), filename) ==
            if Lookup(ms, filename).Some? then Found(Lookup(ms, filename).value) else NotFound
    decreases |ms|
  {
    if |ms| == 0 {
      EndHasNoMagic();
    } else {
      var m, rest := ms[0], Build(ms[1..]);
      assert Build(ms) == MemberBytes(m) + rest;
      BuiltMagic(m, rest);
      BuiltLen(m, rest);
      BuiltName(m, rest);
      NameComparisons(Build(ms), filename);
      if m.name == CString.CStr(filename, 0) {
        BuiltData(m, rest);
      } else {
        BuiltNext(m, rest);
        ReadBuilt(ms[1..], filename);
      }
    }
  }

  /** The header block of a built member is its `Header`. */
  lemma BuiltHeader(m: Member, rest: seq<Byte>)
    ensures BytesAt(MemberBytes(m) + rest, 0, BlockSize) == Header(m)
  {
    var ar := MemberBytes(m) + rest;
    forall k | 0 <= k < BlockSize
      ensures BytesAt(ar, 0, BlockSize)[k] == Header(m)[k]
    {
      HeaderAt(m, rest, k);
    }
  }

  /** A built header's file type is the member's. */
  lemma BuiltFileType(m: Member, rest: seq<Byte>)
    requires WellFormed(m)
    ensures ByteAt(MemberBytes(m) + rest, FileTypeOffset) == m.fileType
  {
    HeaderAt(m, rest, FileTypeOffset);
  }

  /** Some member called `dirname` is a directory. */
  predicate DirFound(ms: seq<Member>, dirname: seq<Byte>)
  {
    exists m :: m in ms && m.name == CString.CStr(dirname, 0) && m.fileType == UstarDir
  }

  /** The headers of the non-directory members called `dirname`, in order. */
  function DirFiles(ms: seq<Member>, dirname: seq<Byte>): seq<seq<Byte>>
  {
    if |ms| == 0 then []
    else if ms[0].name == CString.CStr(dirname, 0) && ms[0].fileType != UstarDir
    then [Header(ms[0])] + DirFiles(ms[1..], dirname)
    else DirFiles(ms[1..], dirname)
  }

  /** The walk over a built archive finds the directory iff the archive has
      one of that name, and copies exactly the headers `DirFiles` lists. */
  lemma {:induction false} ReadDirWalkBuilt(ms: seq<Member>, dirname: seq<Byte>)
    requires forall m :: m in ms ==> WellFormed(m)
    ensures ReadDirWalk(Build(ms), dirname, false) == (DirFound(ms, dirname), DirFiles(ms, dirname))
    decreases |ms|
  {
    if |ms| == 0 {
      EndHasNoMagic();
    } else {
      var m, rest := ms[0], Build(ms[1..]);
      assert Build(ms) == MemberBytes(m) + rest;
      BuiltMagic(m, rest);
      BuiltLen(m, rest);
      BuiltName(m, rest);
      BuiltFileType(m, rest);
      BuiltHeader(m, rest);
      NameComparisons(Build(ms), dirname);
      BuiltNext(m, rest);
      ReadDirWalkBuilt(ms[1..], dirname);
      assert DirFound(ms, dirname) <==>
             (m.name == CString.CStr(dirname, 0) && m.fileType == UstarDir) || DirFound(ms[1..], dirname) by {
        assert ms == [m] + ms[1..];
      }
    }
  }

  /** Round trip for directories: a built archive lists the headers of the
      non-directory members named `dirname` when it has a directory of that
      name, and gives NULL otherwise. */
  lemma ReadDirBuilt(ms: seq<Member>, dirname: seq<Byte>)
    requires forall m :: m in ms ==> WellFormed(m)
    ensures UstarReadDir(Build(ms), dirname) ==
            if DirFound(ms, dirname) then Some(DirFiles(ms, dirname)) else None
  {
    ReadDirWalkBuilt(ms, dirname);
  }

  /** The data block of a short member has no signature at offset 257. */
  lemma DataBlockHasNoMagic(m: Member, rest: seq<Byte>)
    requires 1 <= |m.data| <= SignatureOffset
    ensures !HasMagic(Drop(MemberBytes(m) + rest, BlockSize))
  {
    var d := Drop(MemberBytes(m) + rest, BlockSize);
    assert d == m.data + Zeros(BlockSize - |m.data|) + rest;
    assert ByteAt(d, SignatureOffset) == 0;
  }

  /** As written, a member of 1 to 257 bytes that is not the one asked for
      hides every member after it: the walk steps onto its data block, finds
      no signature there and gives NULL. */
  lemma AsWrittenStopsInData(m: Member, ms: seq<Member>, filename: seq<Byte>)
    requires WellFormed(m)
    requires 1 <= |m.data| <= SignatureOffset
    requires m.name != CString.CStr(filename, 0)
    ensures UstarReadAsWritten(Build([m] + ms), filename) == NotFound
  {
    assert ([m] + ms)[1..] == ms;
    assert Build([m] + ms) == MemberBytes(m) + Build(ms);
    AsWrittenStopsAt(m, Build(ms), filename);
  }

  lemma AsWrittenStopsAt(m: Member, rest: seq<Byte>, filename: seq<Byte>)
    requires WellFormed(m)
    requires 1 <= |m.data| <= SignatureOffset
    requires m.name != CString.CStr(filename, 0)
    ensures ReadWalk(MemberBytes(m) + rest, filename, true) == NotFound
  {
    var ar := MemberBytes(m) + rest;
    BuiltMagic(m, rest);
    BuiltLen(m, rest);
    BuiltName(m, rest);
    NameComparisons(ar, filename);
    assert AdvanceAsWritten(|m.data|) == BlockSize;
    DataBlockHasNoMagic(m, rest);
  }

  /** `ustar_readdir` as written is stopped by the same member: it meets
      no directory entry, so the result is NULL whatever follows. */
  lemma AsWrittenDirStopsInData(m: Member, ms: seq<Member>, dirname: seq<Byte>)
    requires WellFormed(m)
    requires 1 <= |m.data| <= SignatureOffset
    requires m.name != CString.CStr(dirname, 0)
    ensures UstarReadDirAsWritten(Build([m] + ms), dirname).None?
  {
    assert ([m] + ms)[1..] == ms;
    assert Build([m] + ms) == MemberBytes(m) + Build(ms);
    AsWrittenDirStopsAt(m, Build(ms), dirname);
  }

  lemma AsWrittenDirStopsAt(m: Member, rest: seq<Byte>, dirname: seq<Byte>)
    requires WellFormed(m)
    requires 1 <= |m.data| <= SignatureOffset
    requires m.name != CString.CStr(dirname, 0)
    ensures ReadDirWalk(MemberBytes(m) + rest, dirname, true) == (false, [])
  {
    var ar := MemberBytes(m) + rest;
    BuiltMagic(m, rest);
    BuiltLen(m, rest);
    BuiltName(m, rest);
    NameComparisons(ar, dirname);
    assert AdvanceAsWritten(|m.data|) == BlockSize;
    DataBlockHasNoMagic(m, rest);
    assert ReadDirWalk(Drop(ar, BlockSize), dirname, true) == (false, []);
    assert !DirNameMatches(ar, dirname);
  }

  /** The corrected walk passes such a member and finds what follows. */
  lemma CorrectedPassesMember(m: Member, ms: seq<Member>, filename: seq<Byte>)
    requires WellFormed(m) && forall m' :: m' in ms ==> WellFormed(m')
    requires m.name != CString.CStr(filename, 0)
    ensures UstarRead(Build([m] + ms), filename) ==
            if Lookup(ms, filename).Some? then Found(Lookup(ms, filename).value) else NotFound
  {
    assert ([m] + ms)[1..] == ms;
    ReadBuilt([m] + ms, filename);
  }
}

=== FILE: vmm.dfy ===
/** The virtual memory manager: x86-64 four-level paging (section 4.5 of
    the Intel 64 and IA-32 Architectures Software Developer's Manual,
    Volume 3A). Each table holds 512 entries; a virtual address selects
    one entry per level with 9 bits above its 12-bit page offset.

    Tables form a tree: an entry is absent (the zero word), a link to a
    lower table together with the word stored for it, or, in a level-1
    table, a leaf word. New tables come from the frame allocator of module
    `Pmm`, which clears the frames it hands out, so a new table is empty.
    Words are 64-bit vectors. */
module Vmm {
  import opened Common
  import Pmm

  type Word = bv64

  const Present: Word := 0x1
  const ReadWritable: Word := 0x2
  const UserAccessible: Word := 0x4
  const WriteThrough: Word := 0x8
  const CacheDisabled: Word := 0x10
  const Accessed: Word := 0x20
  const Dirty: Word := 0x40
  const PageAttributeTable: Word := 0x80
  const Global: Word := 0xF00

  /** `MAX_PAGE_IND`, also the flag bits translation strips. */
  const MaxPageInd: Word := 0x1FF

  /** `V_ADDR_INDEX(vaddr, level)`: `(vaddr >> (12 + 9 * (level - 1))) &
      0x1FF`, written out for the four levels. */
  function VAddrIndex(vaddr: Word, level: nat): (r: nat)
    requires 1 <= level <= 4
    ensures r < 512
  {
    var shifted := if level == 1 then vaddr >> 12 else if level == 2 then vaddr >> 21
      else if level == 3 then vaddr >> 30 else vaddr >> 39;
    (shifted & MaxPageInd) as nat
  }

  /** Addresses that differ only in their page offset select the same
      entry at every level. */
  lemma IndexIgnoresOffset(v: Word, w: Word, level: nat)
    requires 1 <= level <= 4 && v >> 12 == w >> 12
    ensures VAddrIndex(v, level) == VAddrIndex(w, level)
  {
    if level == 2 {
      assert v >> 21 == (v >> 12) >> 9 && w >> 21 == (w >> 12) >> 9;
    } else if level == 3 {
      assert v >> 30 == (v >> 12) >> 18 && w >> 30 == (w >> 12) >> 18;
    } else if level == 4 {
      assert v >> 39 == (v >> 12) >> 27 && w >> 39 == (w >> 12) >> 27;
    }
  }

  /** `GetPageFlag(page, flag)`. */
  predicate GetPageFlag(page: Word, flag: Word)
  {
    page & flag != 0
  }

  /** An entry word with the low 9 bits cleared (`& ~(0x1FF)`), as
      translation returns it: those bits are clear in the result, and
      putting the entry's own low bits back gives the entry. */
  function PageBase(w: Word): (r: Word)
    ensures r & MaxPageInd == 0
    ensures r | (w & MaxPageInd) == w
  {
    w & !MaxPageInd
  }

  /** A flag stored into a word reads back set, and a flag cleared from it
      reads back clear. */
  lemma PageFlagLaws(page: Word, flag: Word)
    requires flag != 0
    ensures GetPageFlag(page | flag, flag)
    ensures !GetPageFlag(page & !flag, flag)
  {
  }

  /** PRESENT, READ_WRITABLE and USER_ACCESSIBLE are bits 0 to 2, inside the
      9 bits translation strips; GLOBAL (`0xF00`, bits 8 to 11) is not: only
      its bit 8 is stripped, and bits 9 to 11 survive translation. */
  lemma FlagBits(w: Word)
    ensures PageBase(Present | ReadWritable | UserAccessible) == 0
    ensures PageBase(w) & Global == w & 0xE00
  {
  }


  /** The entry `vaddr` selects at each level: element `l - 1` is the
      index at level `l`. */
  function Path(vaddr: Word): (r: seq<nat>)
    ensures |r| == 4
    ensures forall k :: 0 <= k < 4 ==> r[k] < 512
  {
    [VAddrIndex(vaddr, 1), VAddrIndex(vaddr, 2), VAddrIndex(vaddr, 3), VAddrIndex(vaddr, 4)]
  }

  /** Addresses in the same 4 KiB page follow the same path. */
  lemma PathIgnoresOffset(v: Word, w: Word)
    requires v >> 12 == w >> 12
    ensures Path(v) == Path(w)
  {
    IndexIgnoresOffset(v, w, 1);
    IndexIgnoresOffset(v, w, 2);
    IndexIgnoresOffset(v, w, 3);
    IndexIgnoresOffset(v, w, 4);
  }

  // ---------------------------------------------------------------------
  // The table tree

  datatype Entry = Absent | Table(word: Word, child: Node) | Leaf(word: Word)

  /** A table: the entries at the indices that were written. */
  datatype Node = Node(slots: map<nat, Entry>)

  const Empty: Node := Node(map[])

  function Slot(n: Node, i: nat): Entry
  {
    if i in n.slots then n.slots[i] else Absent
  }

  function SetSlot(n: Node, i: nat, e: Entry): (r: Node)
    ensures Slot(r, i) == e
    ensures forall j :: j != i ==> Slot(r, j) == Slot(n, j)
  {
    Node(n.slots[i := e])
  }

  /** The word an entry stores. */
  function EntryWord(e: Entry): Word
  {
    match e
    case Absent => 0
    case Table(w, _) => w
    case Leaf(w) => w
  }

  /** Links sit above level 1 and leaf words at level 1 only. */
  predicate Shaped(n: Node, level: nat)
    decreases level
  {
    forall i :: i in n.slots ==>
      if level <= 1 then !n.slots[i].Table?
      else !n.slots[i].Leaf? && (n.slots[i].Table? ==> Shaped(n.slots[i].child, level - 1))
  }

  /** Entry `i`'s link replaced by one to `c`, keeping its word. */
  function WithChild(n: Node, i: nat, c: Node): (r: Node)
    ensures forall j :: j != i ==> Slot(r, j) == Slot(n, j)
    ensures Slot(n, i).Table? ==> Slot(r, i) == Table(Slot(n, i).word, c)
    ensures !Slot(n, i).Table? ==> r == n
  {
    match Slot(n, i)
    case Table(w, _) => SetSlot(n, i, Table(w, c))
    case _ => n
  }

  // ---------------------------------------------------------------------
  // The two table helpers, corrected

  /** `GetPageTable(parent, index)`, corrected: the lower table when the
      entry is present, else NULL. The written helper tests the wrong
      expression (see `GetPageTableAsWritten`). */
  function GetPageTable(n: Node, i: nat): (r: Option<Node>)
    ensures r.Some? <==> Slot(n, i).Table? && GetPageFlag(Slot(n, i).word, Present)
    ensures r.Some? ==> r.value == Slot(n, i).child
  {
    match Slot(n, i)
    case Table(w, c) => if GetPageFlag(w, Present) then Some(c) else None
    case _ => None
  }

  /** The address of frame `f`: `(size_t) f * FRAME_SIZE`. */
  function FrameAddr(f: nat): Word
  {
    ToU64(f * Pmm.FrameSize) as Word
  }

  /** `GetOrCreatePageTable(parent, index, flags)`, corrected: a present
      entry's table is reused; otherwise the first free frame becomes a new,
      empty table stored as `frame | flags`. NULL when no frame is free, and
      also when the free frame is frame 0, whose address is NULL; the frame
      stays marked used then. */
  function GetOrCreate(n: Node, i: nat, flags: bv16, p: Pmm.Pmm): (r: (Option<Node>, Node, Pmm.Pmm))
    requires Pmm.Valid(p)
    ensures Pmm.Valid(r.2) && r.2.numEntries == p.numEntries
  {
    match GetPageTable(n, i)
    case Some(c) => (Some(c), n, p)
    case None =>
      match Pmm.FirstFree(p.bitmap, p.numEntries)
      case None => (None, n, p)
      case Some(f) =>
        var q := p.(bitmap := p.bitmap[f := true]);
        if f == 0 then (None, n, q)
        else (Some(Empty), SetSlot(n, i, Table(FrameAddr(f) | flags as Word, Empty)), q)
  }

  /** A present entry's table is reused and nothing changes. */
  lemma GetOrCreateReuses(n: Node, i: nat, flags: bv16, p: Pmm.Pmm)
    requires Pmm.Valid(p) && GetPageTable(n, i).Some?
    ensures GetOrCreate(n, i, flags, p) == (GetPageTable(n, i), n, p)
  {
  }

  /** With no present table and no free frame the result is NULL and
      nothing changes. */
  lemma GetOrCreateFull(n: Node, i: nat, flags: bv16, p: Pmm.Pmm)
    requires Pmm.Valid(p) && GetPageTable(n, i).None? && Pmm.FirstFree(p.bitmap, p.numEntries).None?
    ensures GetOrCreate(n, i, flags, p) == (None, n, p)
  {
  }

  /** Otherwise the lowest free frame `f` is marked used, and frame 0
      gives NULL with the table unchanged. */
  lemma GetOrCreateTakes(n: Node, i: nat, flags: bv16, p: Pmm.Pmm, f: nat)
    requires Pmm.Valid(p) && GetPageTable(n, i).None? && Pmm.FirstFree(p.bitmap, p.numEntries) == Some(f)
    ensures !p.bitmap[f] && GetOrCreate(n, i, flags, p).2.bitmap == p.bitmap[f := true]
    ensures f == 0 ==> GetOrCreate(n, i, flags, p).0.None? && GetOrCreate(n, i, flags, p).1 == n
  {
  }

  /** Any other free frame becomes an empty table stored in entry `i` as
      `frame | flags`. */
  lemma GetOrCreateLinks(n: Node, i: nat, flags: bv16, p: Pmm.Pmm, f: nat)
    requires Pmm.Valid(p) && GetPageTable(n, i).None? && Pmm.FirstFree(p.bitmap, p.numEntries) == Some(f)
    requires f != 0
    ensures GetOrCreate(n, i, flags, p).0 == Some(Empty)
    ensures GetOrCreate(n, i, flags, p).1 == SetSlot(n, i, Table(FrameAddr(f) | flags as Word, Empty))
  {
  }

  /** Only entry `i` can change. */
  lemma GetOrCreateKeepsOthers(n: Node, i: nat, flags: bv16, p: Pmm.Pmm)
    requires Pmm.Valid(p)
    ensures forall j :: j != i ==> Slot(GetOrCreate(n, i, flags, p).1, j) == Slot(n, j)
  {
  }

  /** A table created with flags that include PRESENT, or a reused present
      table, can be walked again. */
  lemma CreatedPresent(n: Node, i: nat, flags: bv16, p: Pmm.Pmm)
    requires Pmm.Valid(p) && GetPageFlag(flags as Word, Present)
    requires GetOrCreate(n, i, flags, p).0.Some?
    ensures GetPageTable(GetOrCreate(n, i, flags, p).1, i) == GetOrCreate(n, i, flags, p).0
  {
    if GetPageTable(n, i).None? {
      var f := Pmm.FirstFree(p.bitmap, p.numEntries).value;
      PageFlagLaws(FrameAddr(f), Present);
      assert GetPageFlag(FrameAddr(f) | flags as Word, Present);
    }
  }

  // ---------------------------------------------------------------------
  // Walking the tree along a path of indices

  /** `MapPage` from a table of level `level` down along `path`: at each
      level above 1, obtain the lower table, creating it with the caller's
      flags when missing, and fail as soon as one cannot be obtained; at
      level 1, store `leaf`, whatever was there. Tables created before a
      failure stay in place. The source declares a second `child_table`
      inside the loop, so its final store goes through the uninitialised
      outer one; the model stores into the table the walk reached, as
      intended. */
  function MapAt(n: Node, level: nat, path: seq<nat>, leaf: Word, flags: bv16, p: Pmm.Pmm): (r: (bool, Node, Pmm.Pmm))
    requires 1 <= level <= |path| && Pmm.Valid(p)
    ensures Pmm.Valid(r.2) && r.2.numEntries == p.numEntries
    decreases level
  {
    if level == 1 then (true, SetSlot(n, path[0], Leaf(leaf)), p)
    else
      var i := path[level - 1];
      var g := GetOrCreate(n, i, flags, p);
      match g.0
      case None => (false, g.1, g.2)
      case Some(child) =>
        var m := MapAt(child, level - 1, path, leaf, flags, g.2);
        (m.0, WithChild(g.1, i, m.1), m.2)
  }

  /** `UnmapPage` from a table of level `level` down: fail, changing
      nothing, if a lower table is missing; otherwise store 0 in the leaf. */
  function UnmapAt(n: Node, level: nat, path: seq<nat>): (r: (bool, Node))
    requires 1 <= level <= |path|
    decreases level
  {
    if level == 1 then (true, SetSlot(n, path[0], Leaf(0)))
    else
      var i := path[level - 1];
      match GetPageTable(n, i)
      case None => (false, n)
      case Some(child) =>
        var u := UnmapAt(child, level - 1, path);
        (u.0, WithChild(n, i, u.1))
  }

  /** The leaf word `path` reaches from a table of level `level`. The
      source checks no table for NULL, so a missing table makes it
      dereference a null pointer; that outcome is `None` here. */
  function LeafAt(n: Node, level: nat, path: seq<nat>): (r: Option<Word>)
    requires 1 <= level <= |path|
    decreases level
  {
    if level == 1 then Some(EntryWord(Slot(n, path[0])))
    else
      match GetPageTable(n, path[level - 1])
      case None => None
      case Some(child) => LeafAt(child, level - 1, path)
  }

  // ---------------------------------------------------------------------
  // The operations

  /** `MapPage(root, vaddr, paddr, flags)`: the walk from the level-4
      table, storing `paddr | flags`. */
  function MapPage(root: Node, vaddr: Word, paddr: Word, flags: bv16, p: Pmm.Pmm): (r: (bool, Node, Pmm.Pmm))
    requires Pmm.Valid(p)
    ensures Pmm.Valid(r.2) && r.2.numEntries == p.numEntries
  {
    MapAt(root, 4, Path(vaddr), paddr | flags as Word, flags, p)
  }

  /** `UnmapPage(root, vaddr)`; the TLB invalidation is not modelled. */
  function UnmapPage(root: Node, vaddr: Word): (r: (bool, Node))
  {
    UnmapAt(root, 4, Path(vaddr))
  }

  /** `VAddrToPAddr(table, vaddr)`: the leaf word with its low 9 bits
      cleared; `None` where the source dereferences NULL. */
  function VAddrToPAddr(root: Node, vaddr: Word): (r: Option<Word>)
    ensures r.Some? <==> LeafAt(root, 4, Path(vaddr)).Some?
    ensures r.Some? ==> r.value & MaxPageInd == 0
  {
    match LeafAt(root, 4, Path(vaddr))
    case None => None
    case Some(w) => Some(PageBase(w))
  }

  /** `RemapPage(root, former_vaddr, new_vaddr, flags)`: translate
      `former_vaddr`, unmap it, and map it again to the same frame with the
      new flags; `new_vaddr` is not used. True only if both the unmap and
      the map succeed. `None` where the translation dereferences NULL. */
  function RemapPage(root: Node, formerVaddr: Word, newVaddr: Word, flags: bv16, p: Pmm.Pmm): (r: Option<(bool, Node, Pmm.Pmm)>)
    requires Pmm.Valid(p)
    ensures r.Some? <==> VAddrToPAddr(root, formerVaddr).Some?
  {
    match VAddrToPAddr(root, formerVaddr)
    case None => None
    case Some(paddr) =>
      var u := UnmapPage(root, formerVaddr);
      var m := MapPage(u.1, formerVaddr, paddr, flags, p);
      Some((u.0 && m.0, m.1, m.2))
  }

  // ---------------------------------------------------------------------
  // Walk properties

  /** Relinking entry `i` keeps a present table present and changes no
      other entry's table. */
  lemma KeepsLink(n: Node, i: nat, c: Node)
    ensures GetPageTable(n, i).Some? ==> GetPageTable(WithChild(n, i, c), i) == Some(c)
    ensures forall j :: j != i ==> GetPageTable(WithChild(n, i, c), j) == GetPageTable(n, j)
  {
  }

  /** `path` and `other` differ at some level up to `level`. */
  predicate Diverge(path: seq<nat>, other: seq<nat>, level: nat)
    requires level <= |path| && level <= |other|
  {
    path[..level] != other[..level]
  }

  /** Paths that diverge below a level where they agree already diverge
      one level down. */
  lemma DivergeBelow(path: seq<nat>, other: seq<nat>, level: nat)
    requires 1 <= level <= |path| && level <= |other|
    requires Diverge(path, other, level) && path[level - 1] == other[level - 1]
    ensures Diverge(path, other, level - 1)
  {
    assert path[..level] == path[..level - 1] + [path[level - 1]];
    assert other[..level] == other[..level - 1] + [other[level - 1]];
  }

  /** After a successful walk with PRESENT among the flags, the path
      reaches the stored word. */
  lemma {:induction false} MapLeafAt(n: Node, level: nat, path: seq<nat>, leaf: Word, flags: bv16, p: Pmm.Pmm)
    requires 1 <= level <= |path| && Pmm.Valid(p) && GetPageFlag(flags as Word, Present)
    requires MapAt(n, level, path, leaf, flags, p).0
    ensures LeafAt(MapAt(n, level, path, leaf, flags, p).1, level, path) == Some(leaf)
    decreases level
  {
    if level > 1 {
      var i := path[level - 1];
      var g := GetOrCreate(n, i, flags, p);
      CreatedPresent(n, i, flags, p);
      MapLeafAt(g.0.value, level - 1, path, leaf, flags, g.2);
      KeepsLink(g.1, i, MapAt(g.0.value, level - 1, path, leaf, flags, g.2).1);
    }
  }

  /** A walk that reaches a leaf finds every table present: mapping over
      it creates nothing, always succeeds, and leaves the new word. */
  lemma {:induction false} MapOverPath(n: Node, level: nat, path: seq<nat>, leaf: Word, flags: bv16, p: Pmm.Pmm)
    requires 1 <= level <= |path| && Pmm.Valid(p) && LeafAt(n, level, path).Some?
    ensures MapAt(n, level, path, leaf, flags, p).0
    ensures MapAt(n, level, path, leaf, flags, p).2 == p
    ensures LeafAt(MapAt(n, level, path, leaf, flags, p).1, level, path) == Some(leaf)
    decreases level
  {
    if level > 1 {
      var i := path[level - 1];
      var child := GetPageTable(n, i).value;
      MapOverPath(child, level - 1, path, leaf, flags, p);
      KeepsLink(n, i, MapAt(child, level - 1, path, leaf, flags, p).1);
    }
  }

  /** Mapping changes no other path's leaf: a path that diverges from the
      mapped one and reached a leaf before reaches the same leaf after,
      whether or not the map succeeded. */
  lemma {:induction false} MapKeepsOthers(n: Node, level: nat, path: seq<nat>, other: seq<nat>, leaf: Word, flags: bv16, p: Pmm.Pmm)
    requires 1 <= level <= |path| && level <= |other| && Pmm.Valid(p)
    requires Diverge(path, other, level) && LeafAt(n, level, other).Some?
    ensures LeafAt(MapAt(n, level, path, leaf, flags, p).1, level, other) == LeafAt(n, level, other)
    decreases level
  {
    if level > 1 {
      var i := path[level - 1];
      var g := GetOrCreate(n, i, flags, p);
      if i == other[level - 1] {
        DivergeBelow(path, other, level);
        var child := GetPageTable(n, i).value;
        MapKeepsOthers(child, level - 1, path, other, leaf, flags, p);
        KeepsLink(n, i, MapAt(child, level - 1, path, leaf, flags, p).1);
      } else if g.0.Some? {
        KeepsLink(g.1, i, MapAt(g.0.value, level - 1, path, leaf, flags, g.2).1);
      }
    }
  }

  /** Unmapping succeeds exactly when the path reaches a leaf; the leaf is
      then 0, and otherwise nothing changes. */
  lemma {:induction false} UnmapLeafAt(n: Node, level: nat, path: seq<nat>)
    requires 1 <= level <= |path|
    ensures UnmapAt(n, level, path).0 <==> LeafAt(n, level, path).Some?
    ensures UnmapAt(n, level, path).0 ==> LeafAt(UnmapAt(n, level, path).1, level, path) == Some(0)
    ensures !UnmapAt(n, level, path).0 ==> UnmapAt(n, level, path).1 == n
    decreases level
  {
    if level > 1 {
      var i := path[level - 1];
      if GetPageTable(n, i).Some? {
        var child := GetPageTable(n, i).value;
        UnmapLeafAt(child, level - 1, path);
        KeepsLink(n, i, UnmapAt(child, level - 1, path).1);
        if !UnmapAt(child, level - 1, path).0 {
          assert n.slots[i := n.slots[i]] == n.slots;
        }
      }
    }
  }

  /** Unmapping changes no other path's leaf. */
  lemma {:induction false} UnmapKeepsOthers(n: Node, level: nat, path: seq<nat>, other: seq<nat>)
    requires 1 <= level <= |path| && level <= |other| && Diverge(path, other, level)
    ensures LeafAt(UnmapAt(n, level, path).1, level, other) == LeafAt(n, level, other)
    decreases level
  {
    if level > 1 {
      var i := path[level - 1];
      if GetPageTable(n, i).Some? {
        var child := GetPageTable(n, i).value;
        KeepsLink(n, i, UnmapAt(child, level - 1, path).1);
        if i == other[level - 1] {
          DivergeBelow(path, other, level);
          UnmapKeepsOthers(child, level - 1, path, other);
        }
      }
    }
  }

  /** Mapping and unmapping keep links above level 1 and leaf words at
      level 1. */
  lemma {:induction false} MapShaped(n: Node, level: nat, path: seq<nat>, leaf: Word, flags: bv16, p: Pmm.Pmm)
    requires 1 <= level <= |path| && Pmm.Valid(p) && Shaped(n, level)
    ensures Shaped(MapAt(n, level, path, leaf, flags, p).1, level)
    decreases level, 1
  {
    if level == 1 {
      ShapedLeaf(n, path, leaf, flags, p);
    } else {
      MapShapedStep(n, level, path, leaf, flags, p);
    }
  }

  /** The step of `MapShaped`: a walk that obtains a lower table relinks
      the entry to the table the rest of the walk produced, which is shaped
      one level down. */
  lemma {:induction false} MapShapedStep(n: Node, level: nat, path: seq<nat>, leaf: Word, flags: bv16, p: Pmm.Pmm)
    requires 2 <= level <= |path| && Pmm.Valid(p) && Shaped(n, level)
    ensures Shaped(MapAt(n, level, path, leaf, flags, p).1, level)
    decreases level, 0
  {
    var i := path[level - 1];
    var g := GetOrCreate(n, i, flags, p);
    CreateShaped(n, level, i, flags, p);
    if g.0.Some? {
      var c := g.0.value;
      MapShaped(c, level - 1, path, leaf, flags, g.2);
      RelinkShaped(g.1, level, i, MapAt(c, level - 1, path, leaf, flags, g.2).1);
    }
  }

  /** Storing a leaf word keeps a level-1 table shaped. */
  lemma ShapedLeaf(n: Node, path: seq<nat>, leaf: Word, flags: bv16, p: Pmm.Pmm)
    requires 1 <= |path| && Pmm.Valid(p) && Shaped(n, 1)
    ensures Shaped(MapAt(n, 1, path, leaf, flags, p).1, 1)
  {
    assert MapAt(n, 1, path, leaf, flags, p).1 == SetSlot(n, path[0], Leaf(leaf));
  }

  /** Obtaining a lower table keeps a table shaped, and what it obtains is
      shaped one level down. */
  lemma CreateShaped(n: Node, level: nat, i: nat, flags: bv16, p: Pmm.Pmm)
    requires 2 <= level && Pmm.Valid(p) && Shaped(n, level)
    ensures Shaped(GetOrCreate(n, i, flags, p).1, level)
    ensures GetOrCreate(n, i, flags, p).0.Some? ==> Shaped(GetOrCreate(n, i, flags, p).0.value, level - 1)
  {
    if GetPageTable(n, i).Some? {
      assert i in n.slots;
    }
  }

  /** Relinking an entry to a table shaped one level down keeps a table
      shaped. */
  lemma RelinkShaped(n: Node, level: nat, i: nat, c: Node)
    requires 2 <= level && Shaped(n, level) && Shaped(c, level - 1)
    ensures Shaped(WithChild(n, i, c), level)
  {
  }

  lemma {:induction false} UnmapShaped(n: Node, level: nat, path: seq<nat>)
    requires 1 <= level <= |path| && Shaped(n, level)
    ensures Shaped(UnmapAt(n, level, path).1, level)
    decreases level
  {
    if level > 1 {
      var i := path[level - 1];
      if GetPageTable(n, i).Some? {
        UnmapShaped(GetPageTable(n, i).value, level - 1, path);
      }
    }
  }

  // ---------------------------------------------------------------------
  // The operations' properties

  /** Clearing the low 9 bits of `paddr | flags` gives back a 512-byte
      aligned `paddr` when the flags sit below bit 9. */
  lemma StripFlags(paddr: Word, flags: bv16)
    requires paddr & MaxPageInd == 0 && flags < 0x200
    ensures PageBase(paddr | flags as Word) == paddr
  {
  }

  /** Map-then-translate: with PRESENT among the flags a successful
      `MapPage` makes `VAddrToPAddr` give back `paddr | flags` with the low
      9 bits cleared. */
  lemma MapThenTranslate(root: Node, vaddr: Word, paddr: Word, flags: bv16, p: Pmm.Pmm)
    requires Pmm.Valid(p) && GetPageFlag(flags as Word, Present)
    requires MapPage(root, vaddr, paddr, flags, p).0
    ensures VAddrToPAddr(MapPage(root, vaddr, paddr, flags, p).1, vaddr) == Some(PageBase(paddr | flags as Word))
  {
    MapPageLeaf(root, vaddr, paddr, flags, p);
    LeafTranslates(MapPage(root, vaddr, paddr, flags, p).1, vaddr, paddr | flags as Word);
  }

  /** For a 512-byte aligned `paddr` and flags below `0x200`, the address
      translates back to `paddr` itself. */
  lemma MapThenTranslateAligned(root: Node, vaddr: Word, paddr: Word, flags: bv16, p: Pmm.Pmm)
    requires Pmm.Valid(p) && GetPageFlag(flags as Word, Present)
    requires MapPage(root, vaddr, paddr, flags, p).0
    requires paddr & MaxPageInd == 0 && flags < 0x200
    ensures VAddrToPAddr(MapPage(root, vaddr, paddr, flags, p).1, vaddr) == Some(paddr)
  {
    MapThenTranslate(root, vaddr, paddr, flags, p);
    StripFlags(paddr, flags);
  }

  /** A successful `MapPage` leaves `paddr | flags` at the end of the
      address's walk. */
  lemma MapPageLeaf(root: Node, vaddr: Word, paddr: Word, flags: bv16, p: Pmm.Pmm)
    requires Pmm.Valid(p) && GetPageFlag(flags as Word, Present)
    requires MapPage(root, vaddr, paddr, flags, p).0
    ensures LeafAt(MapPage(root, vaddr, paddr, flags, p).1, 4, Path(vaddr)) == Some(paddr | flags as Word)
  {
    MapLeafAt(root, 4, Path(vaddr), paddr | flags as Word, flags, p);
  }

  /** A leaf word the walk reaches is what the address translates to. */
  lemma LeafTranslates(root: Node, vaddr: Word, leaf: Word)
    requires LeafAt(root, 4, Path(vaddr)) == Some(leaf)
    ensures VAddrToPAddr(root, vaddr) == Some(PageBase(leaf))
  {
  }

  /** `MapPage` leaves the walk of an address on another path where it
      was. */
  lemma MapPageLeafOther(root: Node, vaddr: Word, w: Word, paddr: Word, flags: bv16, p: Pmm.Pmm)
    requires Pmm.Valid(p) && Path(vaddr) != Path(w) && LeafAt(root, 4, Path(w)).Some?
    ensures LeafAt(MapPage(root, vaddr, paddr, flags, p).1, 4, Path(w)) == LeafAt(root, 4, Path(w))
  {
    assert Path(vaddr)[..4] == Path(vaddr) && Path(w)[..4] == Path(w);
    MapKeepsOthers(root, 4, Path(vaddr), Path(w), paddr | flags as Word, flags, p);
  }

  /** `MapPage` changes no other page's translation. */
  lemma MapPageKeepsOthers(root: Node, vaddr: Word, w: Word, paddr: Word, flags: bv16, p: Pmm.Pmm)
    requires Pmm.Valid(p) && Path(vaddr) != Path(w) && VAddrToPAddr(root, w).Some?
    ensures VAddrToPAddr(MapPage(root, vaddr, paddr, flags, p).1, w) == VAddrToPAddr(root, w)
  {
    var leaf := LeafAt(root, 4, Path(w)).value;
    MapPageLeafOther(root, vaddr, w, paddr, flags, p);
    LeafTranslates(root, w, leaf);
    LeafTranslates(MapPage(root, vaddr, paddr, flags, p).1, w, leaf);
  }

  /** `UnmapPage` succeeds exactly when the address translates, and then
      it translates to 0; otherwise nothing changes. No other page's
      translation changes. */
  lemma UnmapPageSpec(root: Node, vaddr: Word, w: Word)
    requires Path(vaddr) != Path(w)
    ensures UnmapPage(root, vaddr).0 <==> VAddrToPAddr(root, vaddr).Some?
    ensures UnmapPage(root, vaddr).0 ==> VAddrToPAddr(UnmapPage(root, vaddr).1, vaddr) == Some(0)
    ensures !UnmapPage(root, vaddr).0 ==> UnmapPage(root, vaddr).1 == root
    ensures VAddrToPAddr(UnmapPage(root, vaddr).1, w) == VAddrToPAddr(root, w)
  {
    UnmapLeafAt(root, 4, Path(vaddr));
    assert Path(vaddr)[..4] == Path(vaddr) && Path(w)[..4] == Path(w);
    UnmapKeepsOthers(root, 4, Path(vaddr), Path(w));
  }

  /** `RemapPage` of an address that translates always succeeds, allocates
      no frame, and keeps the address on its frame: it now translates to the
      old translation or'ed with the new flags, low 9 bits cleared. */
  lemma RemapSpec(root: Node, formerVaddr: Word, newVaddr: Word, flags: bv16, p: Pmm.Pmm)
    requires Pmm.Valid(p) && VAddrToPAddr(root, formerVaddr).Some?
    ensures var pa := VAddrToPAddr(root, formerVaddr).value;
      var r := RemapPage(root, formerVaddr, newVaddr, flags, p);
      && r.Some? && r.value.0 && r.value.2 == p
      && VAddrToPAddr(r.value.1, formerVaddr) == Some(PageBase(pa | flags as Word))
  {
    var pa := VAddrToPAddr(root, formerVaddr).value;
    UnmapPageReaches(root, formerVaddr);
    var u := UnmapPage(root, formerVaddr);
    MapPageOver(u.1, formerVaddr, pa, flags, p);
    LeafTranslates(MapPage(u.1, formerVaddr, pa, flags, p).1, formerVaddr, pa | flags as Word);
  }

  /** Unmapping an address that translates succeeds and leaves its walk
      intact. */
  lemma UnmapPageReaches(root: Node, vaddr: Word)
    requires VAddrToPAddr(root, vaddr).Some?
    ensures UnmapPage(root, vaddr).0 && LeafAt(UnmapPage(root, vaddr).1, 4, Path(vaddr)).Some?
  {
    UnmapLeafAt(root, 4, Path(vaddr));
  }

  /** `MapPage` over a walk that reaches a leaf succeeds without taking a
      frame and leaves `paddr | flags` there. */
  lemma MapPageOver(root: Node, vaddr: Word, paddr: Word, flags: bv16, p: Pmm.Pmm)
    requires Pmm.Valid(p) && LeafAt(root, 4, Path(vaddr)).Some?
    ensures MapPage(root, vaddr, paddr, flags, p).0 && MapPage(root, vaddr, paddr, flags, p).2 == p
    ensures LeafAt(MapPage(root, vaddr, paddr, flags, p).1, 4, Path(vaddr)) == Some(paddr | flags as Word)
  {
    MapOverPath(root, 4, Path(vaddr), paddr | flags as Word, flags, p);
  }

  /** With flags below `0x200`, a remapped address keeps its translation. */
  lemma RemapKeepsFrame(root: Node, formerVaddr: Word, newVaddr: Word, flags: bv16, p: Pmm.Pmm)
    requires Pmm.Valid(p) && VAddrToPAddr(root, formerVaddr).Some? && flags < 0x200
    ensures var r := RemapPage(root, formerVaddr, newVaddr, flags, p);
      r.Some? && VAddrToPAddr(r.value.1, formerVaddr) == VAddrToPAddr(root, formerVaddr)
  {
    RemapSpec(root, formerVaddr, newVaddr, flags, p);
    var r := RemapPage(root, formerVaddr, newVaddr, flags, p);
    FlagsDropped(root, formerVaddr, VAddrToPAddr(r.value.1, formerVaddr), flags);
  }

  /** A translation that yields the frame of `vaddr` with `flags` or'ed in
      names that same frame. */
  lemma FlagsDropped(root: Node, vaddr: Word, t: Option<Word>, flags: bv16)
    requires VAddrToPAddr(root, vaddr).Some? && flags < 0x200
    requires t == Some(PageBase(VAddrToPAddr(root, vaddr).value | flags as Word))
    ensures t == VAddrToPAddr(root, vaddr)
  {
    StripFlags(VAddrToPAddr(root, vaddr).value, flags);
  }

  /** Mapping and unmapping keep a well-shaped tree well shaped. */
  lemma PagesShaped(root: Node, vaddr: Word, paddr: Word, flags: bv16, p: Pmm.Pmm)
    requires Pmm.Valid(p) && Shaped(root, 4)
    ensures Shaped(MapPage(root, vaddr, paddr, flags, p).1, 4)
    ensures Shaped(UnmapPage(root, vaddr).1, 4)
  {
    MapShaped(root, 4, Path(vaddr), paddr | flags as Word, flags, p);
    UnmapShaped(root, 4, Path(vaddr));
  }

  // ---------------------------------------------------------------------
  // The two table helpers as written

  /** `GetPageTable` as written: its test `GetPageFlag(parent[index]),
      PRESENT` is a comma expression whose value is PRESENT, never 0, so the
      entry word itself comes back as the lower table's address, flags and
      all, and only the zero word gives NULL. */
  function GetPageTableAsWritten(entry: Word): (r: Option<Word>)
    ensures r.Some? <==> entry != 0
    ensures r.Some? ==> r.value == entry
  {
    if Present != 0 then (if entry == 0 then None else Some(entry)) else None
  }

  /** An entry that is not present but not zero either is followed by the
      written helper, and refused by the corrected one. */
  lemma AbsentTableFollowed(entry: Word, c: Node)
    requires entry != 0 && !GetPageFlag(entry, Present)
    ensures GetPageTableAsWritten(entry) == Some(entry)
    ensures GetPageTable(SetSlot(Empty, 0, Table(entry, c)), 0).None?
  {
  }

  /** What `GetOrCreatePageTable` as written hands back. */
  datatype TableRef = NullRef | FrameRef(addr: Word) | EntryRef

  /** `GetOrCreatePageTable` as written, on entry word `entry`, with
      `freeFrame` the address the frame allocator returns (0 for NULL): the
      test is inverted, so a present entry gets a new frame stored over its
      link as `frame | flags`, and an entry that is not present comes back
      as the address of the entry itself (`EntryRef`) with nothing
      allocated. The result is the table reference and the entry's new
      word. */
  function GetOrCreateAsWritten(entry: Word, freeFrame: Word, flags: bv16): (r: (TableRef, Word))
    ensures !GetPageFlag(entry, Present) ==> r == (EntryRef, entry)
    ensures GetPageFlag(entry, Present) && freeFrame == 0 ==> r == (NullRef, entry)
    ensures GetPageFlag(entry, Present) && freeFrame != 0 ==> r == (FrameRef(freeFrame), freeFrame | flags as Word)
  {
    if GetPageFlag(entry, Present) then
      if freeFrame == 0 then (NullRef, entry) else (FrameRef(freeFrame), freeFrame | flags as Word)
    else (EntryRef, entry)
  }

  /** A present link to the table at `0x5000` is overwritten by one to the
      new frame at `0x7000`, losing the old table, where the corrected
      helper reuses it and changes nothing. */
  lemma PresentLinkOverwritten(c: Node, p: Pmm.Pmm)
    requires Pmm.Valid(p)
    ensures GetOrCreateAsWritten(0x5003, 0x7000, 3) == (FrameRef(0x7000), 0x7003)
    ensures var n := SetSlot(Empty, 0, Table(0x5003, c));
      GetOrCreate(n, 0, 3, p) == (Some(c), n, p)
  {
    var n := SetSlot(Empty, 0, Table(0x5003, c));
    GetOrCreateReuses(n, 0, 3, p);
  }
}
